=== FILE: README.md ===
# Algorithm exercises in Dafny

This project is a verified Dafny model of a collection of small algorithm exercises, half in
C and half in Java:

- a connect-four player: legal moves, a run-counting board heuristic, and alpha-beta minimax
  with a cache of leaf scores;
- a binary search tree with subtree sizes, in-order ranks and a minimum key distance `k`;
- a binary min-heap, Huffman trees and Huffman code tables built on that heap;
- a 26-way trie with word counts and co-occurrence subtries;
- a linked-list string editor;
- a growable array list of strings;
- a linked FIFO queue;
- bubble, selection, insertion, merge and LSD radix sort;
- an unbounded-knapsack candy purchase and minimum-coin change;
- the LCS length table;
- lattice paths that avoid blocked vertices;
- counting topological orders as none, one or several;
- a Caesar cipher;
- decimal big integers with addition and Fibonacci;
- base conversion.

Every operation is a pure function or a method over immutable values:

- C pointers and Java references that may be null become `Option`.
- Mutable arrays become sequences threaded through the call.
- Java `int` arithmetic is written out where it wraps (`Common.WrapInt32`, `Common.AddInt32`).

Each operation comes with an independent description of what it should compute, and a
theorem relating the two. Examples:

- plain minimax (`Connect4Proofs.Value`) for the alpha-beta search;
- the set of keys and the in-order sequence for the tree;
- the multiset of stored elements for the heap and the sorts;
- "a purchase within budget with the most calories" for the knapsack;
- the longest common subsequence for the LCS table;
- the number of monotone unblocked paths for the path counter;
- the existence of zero, one or two distinct topological orders for the arrangement counter;
- the decimal value for the big integers.

The connect-four `Board` class is not part of this model. Its win test, cats-game test and
diagonal table are parameters of the search (`BoardRules`). Placing a piece is modelled as
setting one cell of a 6×7 grid value, and the cache is a map keyed by that grid value.

## Model

| member | source | states |
|---|---|---|
| Connect4Search.LegalMovesSpec | Java/Connect4/Minimax.java:49-75 | the legal moves are exactly the empty cells in the bottom row or above an occupied cell, listed in row-major order with no repeats |
| Connect4Search.FlipFlip | Java/Connect4/Minimax.java:146 | `nPiece ^ 1` always changes the piece, and applying it twice gives the piece back |
| Connect4Search.PlacePiece | Java/Connect4/Minimax.java:143 | the board after a move is still a 6×7 grid |
| Connect4Proofs.CountPlace | Java/Connect4/Minimax.java:143 | placing a piece on a legal empty cell raises the number of occupied cells by exactly one |
| Connect4Proofs.SearchSound | Java/Connect4/Minimax.java:84-201 | for any window alpha < beta, the search result is a fail-soft bound on the plain minimax value: at or below alpha it is an upper bound, at or above beta a lower bound, strictly inside it is exact; a sound cache stays sound |
| Connect4Proofs.MaxLoopSound | Java/Connect4/Minimax.java:133-166 | the maximising loop raises value and alpha and stops at beta <= alpha; its result bounds the maximum of the children's minimax values |
| Connect4Proofs.MinLoopSound | Java/Connect4/Minimax.java:170-199 | the minimising loop lowers value and beta and stops at beta <= alpha; its result bounds the minimum of the children's minimax values |
| Connect4Proofs.ChildSound | Java/Connect4/Minimax.java:140-147 | a child is searched one ply deeper with the other piece, and its result bounds that child's minimax value |
| Connect4Proofs.GetMoveExact | Java/Connect4/Minimax.java:204-216 | for a cache that is empty or sound at the call (every cached board 1..maxPly plies below the position sits at the horizon with its minimax value), the root search with the full int window returns exactly the minimax value of the position, and the cache stays sound |
| Connect4Proofs.GetMoveChoosesFirstBest | Java/Connect4/Minimax.java:125-151 | for a cache that is empty or sound at the call, the move left in pos is the first legal move, in row-major order, whose minimax value equals the returned value; every earlier move is worth strictly less |
| Connect4Proofs.SearchExtends | Java/Connect4/Minimax.java:94-122 | the search never removes or changes a cache entry, except the root's at depth 0; every entry it adds is the heuristic score of its board |
| Connect4Proofs.MaxLoopExtends | Java/Connect4/Minimax.java:133-166 | the maximising loop only adds heuristic scores to the cache |
| Connect4Proofs.MinLoopExtends | Java/Connect4/Minimax.java:170-199 | the minimising loop only adds heuristic scores to the cache |
| Connect4Proofs.ValueInRange | Java/Connect4/Minimax.java:100-122 | every minimax value lies in the Java int range, between (int)−∞ and (int)+∞ |
| Connect4Score.ScanLineCountsMaximalRuns | Java/Connect4/Minimax.java:228-266 | the scan of one line counts exactly the maximal runs of the piece of length 2, 3 and 4; longer runs count nothing |
| Connect4Score.RowLine | Java/Connect4/Minimax.java:228-266 | the row line has 7 cells and is true exactly where the row holds the piece |
| Connect4Score.ColLine | Java/Connect4/Minimax.java:268-306 | the column line has 6 cells and is true exactly where the column holds the piece |
| Connect4Score.DiagLine | Java/Connect4/Minimax.java:308-370 | a diagonal line has the length the diagonal table gives for it |
| Connect4Score.ScoreItCountsRuns | Java/Connect4/Minimax.java:228-414 | the unwrapped score is the column weights (2 for columns 2 and 3, 1 for columns 1 and 4) plus twos + 2·threes + 4·fours over rows, columns and diagonals |
| Connect4Score.ScoreItNonNegative | Java/Connect4/Minimax.java:372-414 | when the unwrapped score fits in an int, ScoreIt is non-negative |
| Connect4Score.ScoreItWithoutPiece | Java/Connect4/Minimax.java:222-414 | a board without the piece scores 0 |
| Connect4Score.ScoreIt | Java/Connect4/Minimax.java:222-415 | the score is a Java int |
| BinarySearchTrees.NewNode | Java/BinarySearchTree/BSTNode.java:24-28 | a new node holds the key, has no children, rank 0 and tree size 1 |
| BinarySearchTrees.SetTreeSize | Java/BinarySearchTree/BSTNode.java:92-101 | the size becomes 1 plus the children's sizes, with null counting 0; if the children's sizes are right, the node's size equals its node count |
| BinarySearchTrees.SetLeftNode | Java/BinarySearchTree/BSTNode.java:35-43 | the left child is replaced, the key, rank and right child are kept, and the size is recomputed |
| BinarySearchTrees.SetRightNode | Java/BinarySearchTree/BSTNode.java:55-63 | the right child is replaced, the key, rank and left child are kept, and the size is recomputed |
| BinarySearchTrees.SetRank | Java/BinarySearchTree/BSTNode.java:112-124 | GetRank returns the rank just set, and nothing else changes |
| BinarySearchTrees.KeyFixed | Java/BinarySearchTree/BSTNode.java:24-124 | no setter changes a node's key, and GetRank returns the last rank set |
| BinarySearchTrees.InsertOrdered | Java/BinarySearchTree/BST.java:80-91 | insertion keeps the search-tree order |
| BinarySearchTrees.InsertKeys | Java/BinarySearchTree/BST.java:66-95 | insertion either leaves the key set unchanged or adds exactly the new key |
| BinarySearchTrees.InsertPresent | Java/BinarySearchTree/BST.java:74-93 | inserting a key that is already present returns the tree unchanged |
| BinarySearchTrees.InsertSizes | Java/BinarySearchTree/BST.java:93 | after an insertion every node's size is its node count |
| BinarySearchTrees.InsertedIsFar | Java/BinarySearchTree/BST.java:59-78 | a key that insertion adds is at distance at least k from every key already in the tree |
| BinarySearchTrees.ExactInsertAddsFar | Java/BinarySearchTree/BST.java:66-95 | with exact arithmetic, a new key at distance at least k from every key is added |
| BinarySearchTrees.InsertSeparated | Java/BinarySearchTree/BST.java:59-61 | if all keys are pairwise at least k apart, they still are after an insertion |
| BinarySearchTrees.AsWrittenRejectsFarKey | Java/BinarySearchTree/BST.java:75-76 | with int arithmetic, the distance test rejects IntMin + 5 next to IntMax for k = 10, although the true distance is huge |
| BinarySearchTrees.CloseWrapped | Java/BinarySearchTree/BST.java:75-76 | for k <= IntMax, every key that is truly too close is also rejected by the int test |
| BinarySearchTrees.DeleteKeys | Java/BinarySearchTree/BST.java:115-175 | deletion removes exactly the given key from the key set |
| BinarySearchTrees.DeleteOrdered | Java/BinarySearchTree/BST.java:115-175 | deletion keeps the search-tree order |
| BinarySearchTrees.DeleteSizes | Java/BinarySearchTree/BST.java:126-169 | after a deletion every node's size is its node count |
| BinarySearchTrees.DeleteAbsent | Java/BinarySearchTree/BST.java:115-175 | deleting an absent key returns the tree unchanged |
| BinarySearchTrees.DeleteTwoChildren | Java/BinarySearchTree/BST.java:157-171 | a node with two children is replaced by the maximum key of its left subtree, which is deleted from that subtree |
| BinarySearchTrees.SearchFinds | Java/BinarySearchTree/BST.java:183-226 | search finds a node iff the key is in the tree, and the node found is a node of the tree holding that key |
| BinarySearchTrees.Search | Java/BinarySearchTree/BST.java:199-226 | a node returned by search holds the query key |
| BinarySearchTrees.MaxNodeIsMax | Java/BinarySearchTree/BST.java:270-286 | the node GetMaxNode returns holds the largest key |
| BinarySearchTrees.MaxNode | Java/BinarySearchTree/BST.java:270-286 | GetMaxNode is null exactly for the empty tree, and otherwise returns a node of the tree with no right child |
| BinarySearchTrees.MinNodeIsMin | Java/BinarySearchTree/BST.java:292-308 | the node GetMinNode returns holds the smallest key |
| BinarySearchTrees.MinNode | Java/BinarySearchTree/BST.java:292-308 | GetMinNode is null exactly for the empty tree, and otherwise returns a node of the tree with no left child |
| BinarySearchTrees.InOrderSorted | Java/BinarySearchTree/BST.java:253-262 | an in-order walk of an ordered tree visits its keys in strictly increasing order |
| BinarySearchTrees.InOrderKeys | Java/BinarySearchTree/BST.java:253-262 | the in-order walk visits exactly the keys of the tree |
| BinarySearchTrees.RerankInOrder | Java/BinarySearchTree/BST.java:253-262 | Rank numbers the nodes in in-order position, starting from the base it is given |
| BinarySearchTrees.AdjustRanksRanked | Java/BinarySearchTree/BST.java:236-262 | after adjustRanks each node's rank is its in-order index, starting at 0 |
| BinarySearchTrees.RerankKeeps | Java/BinarySearchTree/BST.java:236-262 | re-ranking keeps keys, node count, sizes and order |
| BinarySearchTrees.NewBst | Java/BinarySearchTree/BST.java:24-28 | a new tree is empty and has k = 0 |
| BinarySearchTrees.NewBstWithK | Java/BinarySearchTree/BST.java:36-40 | a new tree is empty and has the given k |
| BinarySearchTrees.SetK | Java/BinarySearchTree/BST.java:392-395 | SetK changes k and nothing else |
| BinarySearchTrees.InsertKeyValid | Java/BinarySearchTree/BST.java:49-95 | corrected (as-written partner: BinarySearchTrees.InsertKeyAsWrittenValid): with the closeness test computed exactly, insert keeps order, sizes, ranks and k-separation, and adds the key exactly when it is new and at least k from every key |
| BinarySearchTrees.InsertKeyAsWrittenValid | Java/BinarySearchTree/BST.java:49-95 | the public insert as written, with the int-wrapping closeness test and an int k, keeps order, sizes, ranks and k-separation, and either keeps the keys or adds the key, which was new and at least k from every key |
| BinarySearchTrees.DeleteKeyValid | Java/BinarySearchTree/BST.java:102-175 | the public delete keeps order, sizes and ranks and removes exactly the key |
| BinaryHeaps.NewHeap | Java/HuffmanCoding/BinaryHeap.java:28-32 | a new heap is empty, with capacity DEFAULT_CAPACITY = 256 |
| BinaryHeaps.Add | Java/HuffmanCoding/BinaryHeap.java:40-50 | add stores the value, raising the size by one; it doubles the capacity when size >= length − 1; it keeps the min-heap order |
| BinaryHeaps.Remove | Java/HuffmanCoding/BinaryHeap.java:59-77 | on an empty heap, remove returns null and changes nothing; otherwise it returns the top, removes exactly one copy of it, keeps the order, and the top is no larger than any element |
| BinaryHeaps.PercUp | Java/HuffmanCoding/BinaryHeap.java:81-90 | percolating the last element up permutes the array and restores the heap order when only that element was out of place |
| BinaryHeaps.PercDown | Java/HuffmanCoding/BinaryHeap.java:92-119 | percolating the root down permutes the array and restores the heap order when only the root was out of place |
| BinaryHeaps.MoveLastUpSpec | Java/HuffmanCoding/BinaryHeap.java:69-72 | moving the last element to the top removes exactly the old top, and leaves only the new top out of place |
| BinaryHeaps.Swap | Java/HuffmanCoding/BinaryHeap.java:121-126 | swap exchanges two entries and leaves the others and the multiset unchanged |
| BinaryHeaps.IndexHelpers | Java/HuffmanCoding/BinaryHeap.java:133-166 | parent(i) = (i−1)/2 with Java division, a parent precedes its child, and p is the parent of i exactly when i is p's left or right child |
| BinaryHeaps.TopIsMin | Java/HuffmanCoding/BinaryHeap.java:59-77 | in an ordered heap the top is no larger than any element |
| HuffmanTrees.NewTree | Java/HuffmanCoding/HuffmanTree.java:33-37 | a new tree holds the symbol and frequency it was given and has no children |
| HuffmanTrees.CompareTo | Java/HuffmanCoding/HuffmanTree.java:47-55 | compareTo returns −1, 0 or 1 exactly as the frequencies compare |
| HuffmanTrees.CompareToOrder | Java/HuffmanCoding/HuffmanTree.java:47-55 | compareTo is antisymmetric, transitive and reflexive |
| HuffmanTrees.SetLeft | Java/HuffmanCoding/HuffmanTree.java:69-72 | after setLeft the left child is the given node and nothing else changes |
| HuffmanTrees.SetRight | Java/HuffmanCoding/HuffmanTree.java:74-77 | after setRight the right child is the given node and nothing else changes |
| Huffman.LoadLeaves | Java/HuffmanCoding/Huffman.java:84-94 | the heap holds one leaf for every symbol with non-zero frequency, and their weights sum to the total frequency |
| Huffman.MergeStep | Java/HuffmanCoding/Huffman.java:97-110 | one merge replaces the two smallest trees by their parent, so there is one tree fewer; the symbols are kept, and the total weight is kept up to int wrap-around |
| Huffman.MergeAll | Java/HuffmanCoding/Huffman.java:97-110 | merging ends with at most one tree, none only when there were none; the symbols are kept, and the total weight is kept up to int wrap-around |
| Huffman.BuildTree | Java/HuffmanCoding/Huffman.java:69-113 | there is no tree iff every frequency is 0; otherwise the tree's leaves are exactly the symbols with non-zero frequency, and the root weight is the int-wrapped total frequency |
| Huffman.MakeHuffmanCodesAsWritten | Java/HuffmanCoding/Huffman.java:69-123 | a null array gives null, an all-zero array raises NullPointerException, and anything else gives a 256-entry table |
| Huffman.MakeHuffmanCodes | Java/HuffmanCoding/Huffman.java:69-123 | corrected (as-written partner: Huffman.MakeHuffmanCodesAsWritten): a null array gives null; otherwise the table has 256 entries, a symbol has a code iff its frequency is non-zero, that code leads from the root to its leaf, no code is a prefix of another, and a lone symbol gets the empty code |
| HuffmanCodes.WriteCodeSpec | Java/HuffmanCoding/Huffman.java:132-163 | writeCode gives each leaf below the node the buffer followed by its path (false = left, true = right) and leaves every other entry unchanged |
| HuffmanCodes.CodeOfLeaf | Java/HuffmanCoding/Huffman.java:132-163 | following a symbol's code from the root reaches that symbol's leaf |
| HuffmanCodes.PrefixFree | Java/HuffmanCoding/Huffman.java:132-163 | the code of one symbol is never a prefix of the code of a different symbol |
| HuffmanCodes.CodeTableSpec | Java/HuffmanCoding/Huffman.java:113-163 | the code table has an entry exactly for the symbols with non-zero frequency; the entries are root-to-leaf paths, are prefix-free, and a lone symbol's entry is empty |
| HuffmanCodes.PresentIff | Java/HuffmanCoding/Huffman.java:87-90 | the symbols that get a leaf are exactly those below n with non-zero frequency, each once |
| Tries.NewNode | C/RetrievalTree/Trie.c:61-69 | a new node has count 0, no subtrie and 26 null children |
| Tries.LetterIgnoresCase | C/RetrievalTree/Trie.c:87 | two letters get the same child index iff they are equal ignoring case |
| Tries.CaseEqIffPath | C/RetrievalTree/Trie.c:87 | two words follow the same path iff they are equal ignoring case |
| Tries.InsertString | C/RetrievalTree/Trie.c:72-97 | a null root or null string changes nothing |
| Tries.InsertCounts | C/RetrievalTree/Trie.c:72-97 | inserting a word without '.' raises the count at the end of its path by one, and no other count; insertion stops at the first '.' and counts nothing; subtries are untouched |
| Tries.InsertThenFind | C/RetrievalTree/Trie.c:72-116 | after a word is inserted, getNode finds it with its count raised by one |
| Tries.GetNode | C/RetrievalTree/Trie.c:101-116 | getNode returns the node at the end of the word's path if its count is non-zero, and null otherwise, including when the path leaves the trie |
| Tries.CoOccurCounts | C/RetrievalTree/Trie.c:141-151 | a word's subtrie gains one insertion per occurrence of every case-different word in the sentence, and stays null iff there is none |
| Tries.CoOccurAlone | C/RetrievalTree/Trie.c:141-151 | a subtrie gets no insertion from a sentence that holds only its own word |
| Tries.ProcessSentenceSpec | C/RetrievalTree/Trie.c:120-156 | processSentence changes no word count; only a word's first occurrence builds its subtrie, from the other words of the sentence; all other subtries are untouched |
| ListString.InsertNode | C/LinkedListString/ListString.c:51-61 | insertNode puts the character in front of the list |
| ListString.StringToList | C/LinkedListString/ListString.c:65-84 | the list holds the string's characters in order; a null or empty string gives the empty list |
| ListString.RecDel | C/LinkedListString/ListString.c:88-104 | every occurrence of the key is removed and the other characters keep their order; a list without the key is returned unchanged |
| ListString.RecReplace | C/LinkedListString/ListString.c:108-134 | each occurrence of the key is replaced by the characters of str, and the inserted text is not scanned again; a list without the key is returned unchanged |
| ListString.ReplaceChar | C/LinkedListString/ListString.c:138-147 | an empty list stays empty; a null or empty str deletes the key, any other str replaces it |
| ListString.DeleteRemovesKey | C/LinkedListString/ListString.c:88-104 | after deletion the key is gone, and every other character occurs as often as before |
| ListString.SubstituteAbsent | C/LinkedListString/ListString.c:95-120 | deleting or replacing a character that does not occur changes nothing |
| ListString.ReverseList | C/LinkedListString/ListString.c:151-172 | the reversed list holds the characters in reverse order |
| ListString.ReverseTwice | C/LinkedListString/ListString.c:151-172 | reversing twice gives back the same list |
| ArrayLists.CreateArrayList | C/ArrayList/ArrayList.c:16-38 | a new list is empty and has capacity max(length, DEFAULT_INIT_LEN) |
| ArrayLists.ExpandAsWritten | C/ArrayList/ArrayList.c:60-84 | as written, a length not above the capacity changes nothing, and a larger one sets the capacity to length and keeps the size |
| ArrayLists.ExpandAsWrittenKeeps | C/ArrayList/ArrayList.c:78 | as written, expansion keeps all elements iff length >= size + capacity + 1 |
| ArrayLists.ExpandAsWrittenLoses | C/ArrayList/ArrayList.c:78 | as written, growing a full list of capacity 10 to 15 wipes element 4 |
| ArrayLists.ExpandAsWrittenValid | C/ArrayList/ArrayList.c:67-79 | as written, growing past the capacity leaves a well-formed list iff size + capacity + 1 <= length <= 2·capacity + 1: below that the NULL run wipes strings, above it slots realloc added stay uninitialised |
| ArrayLists.ExpandAgreesOnGrowth | C/ArrayList/ArrayList.c:117-118 | the 2·capacity+1 growth that put and insertElement use is unaffected by that defect |
| ArrayLists.Expand | C/ArrayList/ArrayList.c:60-84 | corrected (as-written partner: ArrayLists.ExpandAsWritten): expansion keeps the elements and sets the capacity to max(length, capacity) |
| ArrayLists.ExpandArrayList | C/ArrayList/ArrayList.c:60-84 | as written: a null list gives null; otherwise the size is kept and the capacity becomes max(length, capacity); the elements survive iff length <= capacity or length >= size + capacity + 1, and the result is a well-formed list iff length <= capacity or size + capacity + 1 <= length <= 2·capacity + 1, with the same elements |
| ArrayLists.TrimArrayList | C/ArrayList/ArrayList.c:87-108 | a null list gives null; otherwise the elements are kept, and a capacity above the size shrinks to the size |
| ArrayLists.Put | C/ArrayList/ArrayList.c:111-129 | a null argument gives null and no change; otherwise the string is appended and returned |
| ArrayLists.Get | C/ArrayList/ArrayList.c:132-139 | get returns the element iff the list is non-null and 0 <= index < size, and null otherwise |
| ArrayLists.Set | C/ArrayList/ArrayList.c:142-153 | set fails with null, changing nothing, iff an argument is null or the index is out of range; otherwise it replaces only that element |
| ArrayLists.InsertElement | C/ArrayList/ArrayList.c:156-194 | a null argument or negative index gives null and no change; an index >= size appends; otherwise the string goes in at that index and the later elements move up |
| ArrayLists.RemoveElement | C/ArrayList/ArrayList.c:197-220 | an invalid index or null list returns 0 and changes nothing; otherwise that element is removed, the later ones move down, and 1 is returned |
| ArrayLists.RemoveUndoesInsert | C/ArrayList/ArrayList.c:156-220 | removing at the index where an element was inserted gives back the original elements |
| ArrayLists.ShiftUp | C/ArrayList/ArrayList.c:183-187 | the shift loop moves slots index..size−1 one place up and leaves the others |
| ArrayLists.ShiftAndStore | C/ArrayList/ArrayList.c:183-193 | for an index inside the list, the result is still well formed and holds the old strings with str inserted at index |
| ArrayLists.GetSize | C/ArrayList/ArrayList.c:223-229 | getSize is −1 for null and the number of elements otherwise |
| Queues.InitQueue | C/RadixSort/queue.c:5-13 | a new queue is empty |
| Queues.Enqueue | C/RadixSort/queue.c:18-44 | a null queue gives −1; otherwise data is appended at the tail and returned |
| Queues.Dequeue | C/RadixSort/queue.c:50-65 | a null or empty queue gives −1 and no change; otherwise the head is removed and returned |
| Queues.EnqueueDequeue | C/RadixSort/queue.c:18-65 | enqueueing then dequeueing a non-empty queue is the same as dequeueing then enqueueing; on an empty queue it returns the value just added |
| Queues.FifoOrder | C/RadixSort/queue.c:18-65 | draining a queue returns the values in the order they were enqueued |
| SortSpec.Swap | C/QuadraticSorts/nSquaredSorts.c:10-13 | swap exchanges entries i and j and changes nothing else |
| SortSpec.SwapTwice | C/QuadraticSorts/nSquaredSorts.c:10-13 | swapping the same pair twice restores the array |
| QuadraticSorts.BubbleSort | C/QuadraticSorts/nSquaredSorts.c:16-33 | the result is a sorted permutation; there are at most n passes, and a sorted input takes exactly one |
| QuadraticSorts.BubblePass | C/QuadraticSorts/nSquaredSorts.c:20-32 | after a pass the tail from m−1 is sorted and holds the largest values; a pass with no swap leaves a sorted array unchanged |
| QuadraticSorts.SelectionSort | C/QuadraticSorts/nSquaredSorts.c:36-50 | the result is a sorted permutation |
| QuadraticSorts.FirstMin | C/QuadraticSorts/nSquaredSorts.c:40-47 | the inner loop finds the first position of the minimum of the suffix |
| QuadraticSorts.SelectStep | C/QuadraticSorts/nSquaredSorts.c:40-50 | after iteration i the prefix 0..i is sorted and holds the i+1 smallest values |
| QuadraticSorts.InsertionSort | C/QuadraticSorts/nSquaredSorts.c:54-70 | the result is a sorted permutation |
| QuadraticSorts.InsertAt | C/QuadraticSorts/nSquaredSorts.c:58-70 | after iteration i the prefix 0..i is sorted, the rest is untouched, and the whole is a permutation |
| QuadraticSorts.Unsorted | C/QuadraticSorts/nSquaredSorts.c:82-91 | unsorted returns 1 iff the array is not sorted, and 0 otherwise |
| SortSpec.InOrderIffSorted | C/QuadraticSorts/nSquaredSorts.c:82-91 | every adjacent pair being in order is the same as the whole array being sorted |
| MergeSort.MergeSort | C/MergeSort/MergeSort.c:31-63 | lo >= hi changes nothing; otherwise array[lo..hi] ends sorted and a permutation of itself, and entries outside it are untouched |
| MergeSort.Merge | C/MergeSort/MergeSort.c:46-55 | the merge fills aux with hi−lo+1 values that are sorted and a permutation of array[lo..hi] |
| MergeSort.MergeLoop | C/MergeSort/MergeSort.c:46-55 | the merge loop produces the stable merge of the two sorted halves, taking from the left half on ties |
| MergeSort.MergeRuns | C/MergeSort/MergeSort.c:46-55 | merging two sorted runs gives a sorted sequence holding exactly their elements |
| MergeSort.CopyBack | C/MergeSort/MergeSort.c:58-59 | copying back writes aux into lo..hi and changes nothing else |
| Radix.RadixSort | C/RadixSort/radix.c:22-63 | corrected (as-written partner: Radix.RadixPassOverflow): for non-negative input, the result is a sorted permutation, and there are as many passes as the maximum has decimal digits |
| Radix.RadixPass | C/RadixSort/radix.c:47-62 | one pass is a stable distribution by the digit (x / pow) % 10, and all buckets are empty afterwards |
| Radix.PassSorted | C/RadixSort/radix.c:47-62 | after a pass with divisor pow, the array is sorted by x mod 10·pow |
| Radix.PassPermutes | C/RadixSort/radix.c:50-56 | a pass permutes the array |
| Radix.Distribute | C/RadixSort/radix.c:50-51 | distribution puts each value, in order, into the bucket of its digit |
| Radix.Collect | C/RadixSort/radix.c:53-56 | collection concatenates the buckets in order and leaves them empty |
| Radix.FindMax | C/RadixSort/radix.c:25-36 | the maximum scan returns the largest element |
| Radix.RadixPassOverflow | C/RadixSort/radix.c:47 | as written, with int wrap-around, the pass loop for a maximum of INT_MAX runs 12 times instead of 10 |
| CandyStore.BuyCandy | Java/DynamicCandyStore/CandyStore.java:59-96 | m = 0 or a null inventory gives 0; otherwise the result is reached by some purchase within budget m, and no purchase within budget has more calories |
| CandyStore.Purchase | Java/DynamicCandyStore/CandyStore.java:73-95 | the table value at t is reached by an actual purchase costing at most t |
| CandyStore.AmountIsMax | Java/DynamicCandyStore/CandyStore.java:73-95 | no purchase costing at most t has more calories than the table value at t |
| CandyStore.MinCoins | Java/DynamicCandyStore/CandyStore.java:168-197 | 0 coins for 0; (int)+∞ exactly when n cannot be paid; otherwise the size of some way to pay n, and no way uses fewer coins |
| CandyStore.Change | Java/DynamicCandyStore/CandyStore.java:168-197 | when the table value at t is finite, some choice of coins of that size pays t |
| CandyStore.CoinsIsMin | Java/DynamicCandyStore/CandyStore.java:168-197 | no choice of coins paying t is smaller than the table value at t |
| CandyStore.MinCoinsExamples | Java/DynamicCandyStore/CandyStore.java:168-197 | with coins 2, 5 and 7, amounts 1 and 3 cannot be paid, and 4 and 9 take two coins |
| LongestCommonSubsequence.LcsTable | Java/LongestCommonSubsequence/LCS.java:25-69 | the memo table is (n+1)×(m+1), row 0 and column 0 are 0, and memo[r][c] is the LCS length of the prefixes of lengths r and c |
| LongestCommonSubsequence.LcsRow | Java/LongestCommonSubsequence/LCS.java:40-68 | each filled row holds the LCS lengths of the row's prefix of the first sequence against every prefix of the second |
| LongestCommonSubsequence.LcsIsLongest | Java/LongestCommonSubsequence/LCS.java:19-74 | the computed length is reached by a common subsequence, and no common subsequence is longer |
| LongestCommonSubsequence.Witness | Java/LongestCommonSubsequence/LCS.java:40-74 | a common subsequence of the computed length exists |
| LongestCommonSubsequence.LcsBoundedMonotone | Java/LongestCommonSubsequence/LCS.java:40-69 | memo[r][c] <= min(r, c), and it does not decrease in r or in c |
| Paths.PerfectPaths | Java/Paths/Paths.java:47-82 | a null vertex gives 0; an avoided vertex gives 0, even at the destination; an unavoided destination gives 1 |
| Paths.PerfectPathsCount | Java/Paths/Paths.java:36-82 | the result is the number of paths of steps in the two chosen directions that reach the target and avoid flagged vertices |
| Paths.StepCloser | Java/Paths/Paths.java:64-80 | each recursive step moves one step closer to the target, so the recursion terminates |
| Paths.ComputePerfectPaths | Java/Paths/Paths.java:94-109 | with WEST chosen iff xEnd < xStart and SOUTH iff yEnd < yStart, the result is the number of unblocked monotone paths from start to end |
| Paths.PerfectPathsBound | Java/Paths/Paths.java:47-82 | the count from a vertex is at most 2 to the power of the blocks left to the grid's edges in the two headings, since each call at most splits in two and each step uses one block |
| Paths.CountsFitInt | Java/Paths/Paths.java:28-33 | on the 10 by 10 grid the constructor builds, every count ComputePerfectPaths returns is at most 2^20, below Integer.MAX_VALUE, so the int sums at lines 68-69 never wrap |
| Paths.NewGraph | Java/Paths/Paths.java:215-261 | a new graph has no avoided vertex and every vertex's adjacency list is the grid neighbours |
| Paths.AdjListNeighbors | Java/Paths/Paths.java:238-258 | a vertex has a neighbour in a direction iff that neighbour's coordinates lie in [0, limit) |
| Paths.FillColumn | Java/Paths/Paths.java:231-260 | after column x is filled, every vertex in columns 0..x has its adjacency list |
| Paths.Adjacent | Java/Paths/Paths.java:327-330 | the adjacent vertex in a direction is the grid neighbour there, or null |
| Paths.SetVertexAvoidance | Java/Paths/Paths.java:268-271 | only (x, y) becomes avoided; no other flag or adjacency changes |
| Paths.ResetAllAvoidances | Java/Paths/Paths.java:276-288 | no vertex is avoided afterwards, and the adjacency is unchanged |
| TopoSort.NewGraph | Java/TopoSort/TopoSort.java:110-120 | a new graph has V vertices and no edges |
| TopoSort.GetVertex | Java/TopoSort/TopoSort.java:127-135 | getVertex returns v iff v < V, and null otherwise |
| TopoSort.AddEdge | Java/TopoSort/TopoSort.java:142-148 | an edge with an endpoint >= V is ignored; otherwise v is appended to u's list, and no other list changes |
| TopoSort.Requirements | Java/TopoSort/TopoSort.java:160-174 | each vertex's initial requirement count is its number of incoming edges, duplicates included |
| TopoSort.InitialReady | Java/TopoSort/TopoSort.java:176-182 | the first ready queue holds, without repeats, exactly the vertices with no incoming edge |
| TopoSort.TakeNext | Java/TopoSort/TopoSort.java:204-217 | the head of the queue is taken, and a successor joins the queue exactly when its count drops to 0 |
| TopoSort.Release | Java/TopoSort/TopoSort.java:206-217 | every successor's count goes down once per edge from the removed vertex, and the queue grows by the vertices whose count is now 0 |
| TopoSort.Arrangements | Java/TopoSort/TopoSort.java:157-223 | the result is 0 iff no topological order exists, 1 iff exactly one exists, and 2 iff at least two exist |
| CaesarCipher.Let2Nat | Java/CipherFrequencyAnalysis/CaesarCipher.java:47-59 | ASCII letters of either case map to 0..25, every other character to Integer.MAX_VALUE |
| CaesarCipher.Nat2Let | Java/CipherFrequencyAnalysis/CaesarCipher.java:66-69 | codes 0..25 map to the lower-case letters, inverting let2nat |
| CaesarCipher.LetterRoundTrip | Java/CipherFrequencyAnalysis/CaesarCipher.java:47-69 | nat2let(let2nat(c)) = c for a lower-case c |
| CaesarCipher.Shift | Java/CipherFrequencyAnalysis/CaesarCipher.java:71-104 | corrected (as-written partner: CaesarCipher.ShiftAsWritten): a character outside the ASCII letters is returned unchanged; a letter becomes the lower-case letter whose code is (code + shift) mod 26, for shifts −26..Integer.MAX_VALUE−25 |
| CaesarCipher.Encode | Java/CipherFrequencyAnalysis/CaesarCipher.java:112-133 | a shift below 1 or an empty string returns the input; the length and every non-lower-case character are kept; lower-case letters move forward by the shift mod 26, for shifts 1..Integer.MAX_VALUE−25 |
| CaesarCipher.Decode | Java/CipherFrequencyAnalysis/CaesarCipher.java:141-165 | a shift below 1 or an empty string returns the input; the length and every non-lower-case character are kept; lower-case letters move back by the shift mod 26, for shifts 1..26 |
| CaesarCipher.DecodePastAlphabet | Java/CipherFrequencyAnalysis/CaesarCipher.java:93-103 | a shift of 27 moves 'a' out of the alphabet to '`', which encode by 27 leaves alone, so the round trip holds only up to 26 |
| CaesarCipher.ShiftRoundTrip | Java/CipherFrequencyAnalysis/CaesarCipher.java:80-104 | shifting a lower-case letter forward by k and then back by k, or the other way round, gives it back |
| CaesarCipher.CipherRoundTrip | Java/CipherFrequencyAnalysis/CaesarCipher.java:106-165 | for 1 <= k <= 26, decode(k, encode(k, s)) = s and encode(k, decode(k, s)) = s |
| CaesarCipher.Lowers | Java/CipherFrequencyAnalysis/CaesarCipher.java:174-183 | lowers returns the number of lower-case characters |
| CaesarCipher.Count | Java/CipherFrequencyAnalysis/CaesarCipher.java:191-204 | count returns the number of occurrences of c when c is lower case, and 0 otherwise |
| CaesarCipher.CountAtMostLowers | Java/CipherFrequencyAnalysis/CaesarCipher.java:174-204 | count(c, s) <= lowers(s) |
| CaesarCipher.EncodeKeepsLowers | Java/CipherFrequencyAnalysis/CaesarCipher.java:112-133 | encoding keeps the number of lower-case characters |
| CaesarCipher.ShiftAsWritten | Java/CipherFrequencyAnalysis/CaesarCipher.java:80-104 | as written, with Java's character tables as a parameter: a character isAlphabetic rejects is unchanged, and any other whose toLowerCase is at or above 'a' lands on the lower-case letter (toLowerCase(c) − 'a' + shift) mod 26, for a shift >= 0 whose sum with toLowerCase(c) − 'a' stays within 0..Integer.MAX_VALUE |
| CaesarCipher.AsWrittenAgreesOnAscii | Java/CipherFrequencyAnalysis/CaesarCipher.java:80-165 | on ASCII text, encode and decode as written equal the model's Encode and Decode for every shift |
| CaesarCipher.AsWrittenShiftsAccented | Java/CipherFrequencyAnalysis/CaesarCipher.java:87-103 | as written, encode(3, "é") is "j" and decoding that gives "g", while the model leaves "é" unchanged both ways |
| CaesarCipher.Rotate | Java/CipherFrequencyAnalysis/CaesarCipher.java:257-277 | rotate(0, l) is l; otherwise the length is kept and result[i] = l[(i + n) mod len] |
| CaesarCipher.RotateSplits | Java/CipherFrequencyAnalysis/CaesarCipher.java:257-277 | rotating by n < len moves the first n elements to the end |
| CaesarCipher.RotateBack | Java/CipherFrequencyAnalysis/CaesarCipher.java:257-277 | rotating by n and then by len − n gives the list back |
| CaesarCipher.Position | Java/CipherFrequencyAnalysis/CaesarCipher.java:320-332 | position returns the first index holding the value, or Integer.MAX_VALUE iff it does not occur |
| HugeInteger.ParseInt | C/HugeIntegerFibonacci/Fibbonaci.c:28-60 | the digits are stored least significant first, with as many digits as n has (1 for 0), no leading zero, and value n |
| HugeInteger.ParseString | C/HugeIntegerFibonacci/Fibbonaci.c:72-113 | NULL gives NULL, "" gives the single digit 0, and otherwise digit i is character len−1−i, so the value is the decimal value of the string |
| HugeInteger.DigitsOfValue | C/HugeIntegerFibonacci/Fibbonaci.c:94-111 | the reversed digits have the decimal value of the string |
| HugeInteger.ToUnsignedInt | C/HugeIntegerFibonacci/Fibbonaci.c:149-201 | NULL gives NULL; a value with more than 10 digits or above UINT_MAX gives NULL; otherwise the value itself, UINT_MAX included |
| HugeInteger.FitsUnder | C/HugeIntegerFibonacci/Fibbonaci.c:169-183 | the digit-by-digit comparison with UINT_MAX answers value <= UINT_MAX |
| HugeInteger.HugeAddAsWritten | C/HugeIntegerFibonacci/Fibbonaci.c:213-262 | as written, a NULL operand gives NULL, and the result is at least as long as either operand |
| HugeInteger.AsWrittenAgrees | C/HugeIntegerFibonacci/Fibbonaci.c:213-262 | as written, when the longer operand has fewer than 3 more digits than the shorter, the sum is correct |
| HugeInteger.AsWrittenDropsOnlyCarry | C/HugeIntegerFibonacci/Fibbonaci.c:255-262 | as written, the result is either the true sum or the true sum minus the final carry |
| HugeInteger.HugeAddDropsCarry | C/HugeIntegerFibonacci/Fibbonaci.c:259 | as written, 9999 + 1 gives 0000, while the corrected addition gives 10000 |
| HugeInteger.HugeAdd | C/HugeIntegerFibonacci/Fibbonaci.c:213-262 | corrected (as-written partner: HugeInteger.HugeAddAsWritten): a NULL operand gives NULL; otherwise every digit is 0..9 and the value is the sum of the operands' values |
| HugeInteger.Fib | C/HugeIntegerFibonacci/Fibbonaci.c:274-324 | fib(n), adding with hugeAdd as written, has valid digits and the value of the n-th Fibonacci number: 0, 1, then each the sum of the two before |
| BaseConversions.BconvHelper | C/BaseConversions/BaseConversions.c:17-32 | the helper writes nothing for 0; for n > 0 it writes base-b digits from the base16 table with no leading zero; read back with the table's digit values, in every base 2..16, the digits are worth n |
| BaseConversions.Bconv | C/BaseConversions/BaseConversions.c:17-44 | bconv writes at least one digit, starts with '0' iff n = 0, uses only the first b entries of base16, and the digits are worth n in base b for every base 2..16 |
| BaseConversions.BconvExamples | C/BaseConversions/BaseConversions.c:78-79 | bconv(16, 16) is "10" and bconv(10, 16) is "a" |
| BaseConversions.ToBase10 | C/BaseConversions/BaseConversions.c:48-59 | Horner's rule computes Σ (s[i] − '0')·b^(len−1−i), which is 0 for "" |
| BaseConversions.BconvRoundTrip | C/BaseConversions/BaseConversions.c:21-59 | for 2 <= b <= 10, toBase10 of bconv(n, b) is n |
| BaseConversions.HelperRoundTrip | C/BaseConversions/BaseConversions.c:25-59 | for 2 <= b <= 10, toBase10 of the helper's digits is n |
| BaseConversions.NumeralRoundTrip | C/BaseConversions/BaseConversions.c:25-59 | for 2 <= b <= 10, a base-b numeral without a leading zero is what the helper writes for its value |
| BaseConversions.TableNumeralRoundTrip | C/BaseConversions/BaseConversions.c:17-32 | for 2 <= b <= 16, a numeral of base16 digits below b without a leading zero is what the helper writes for its value, so the helper is a bijection onto those numerals |

## Left out

- Board: the connect-four `Board` class is not part of this model. `DidSideWin`, `IsCatsGame` and the diagonal table are parameters. `PlacePiece` sets one grid cell. `Clone` makes a new value, so each child searches its own copy of the board. The cache is keyed by the grid value instead of `Board.equals`/`hashCode`.
- Connect4Score.ScoreIt: the second column loop at Minimax.java:394-413 adds nothing to the score and is not modelled.
- Connect4Score.ScoreItNonNegative: it is stated for boards whose unwrapped score fits in a Java int. Above that, `ScoreIt` wraps as Java does.
- Connect4Search.DoSearch, Connect4Search.MaxLoop and Connect4Search.MinLoop: their own contracts only say that `pos` changes only at the root. What they compute is stated by `Connect4Proofs.SearchSound`, `MaxLoopSound`, `MinLoopSound` and `GetMoveExact`.
- Connect4Proofs.GetMoveExact and Connect4Proofs.GetMoveChoosesFirstBest: they assume a cache that is empty or sound for the position at the call. Minimax.java never clears the cache field (`m_hmBoardState`, line 21), so a later `GetMove` from a position further into the game can find leaf scores stored by an earlier call within its own search depth but above its horizon, and returns them at Minimax.java:94-97 as if they were exact. For such a reused cache the model makes no promise about the value or the move.
- Connect4Search.GetLegalMoves: its contract is in `Connect4Search.LegalMovesSpec`, to keep the search proofs small.
- Connect4Search.GetLegalMoves and Connect4Search.DoSearch: the Java move list is `new int[7*2]` (Minimax.java:89), so an eighth legal cell throws ArrayIndexOutOfBoundsException at Minimax.java:66-67. A board reached by dropping pieces has at most one legal cell per column, but the model accepts any 6×7 grid, including one with floating pieces, and lists and searches every legal cell.
- BinarySearchTrees.Insert, BinarySearchTrees.Delete and BinarySearchTrees.AdjustRanks: their properties are stated by the `Insert*`, `Delete*` and `AdjustRanksRanked` lemmas, and the public insert and delete by `InsertKeyAsWrittenValid` (and `InsertKeyValid` with the exact test) and `DeleteKeyValid`.
- BST printing, `toString`, `report` and the demo driver are left out because they only produce text.
- BinaryHeaps.Remove: BinaryHeap.java clears `heap[size+1]` rather than the vacated slot. This only affects the garbage beyond the size, which is not modelled.
- CandyStore.BuyCandy: the inventory must have prices >= 1 and a budget 0 <= m < Integer.MAX_VALUE. A price of 0 reads `amount[thisAmount]` at CandyStore.java:81 before line 86 writes it, while it is still 0, so at every budget that candy is worth its own calories alone and nothing throws. A negative price reads `amount[thisAmount - price]` past the end of the array once `thisAmount - price > m`, at the latest when thisAmount = m. For m = -1, `new int[0]` succeeds and `amount[0] = 0` at line 71 throws ArrayIndexOutOfBoundsException; a smaller m makes `new int[m+1]` at line 70 throw NegativeArraySizeException; and at m = Integer.MAX_VALUE `m+1` overflows, so `new int[m+1]` throws NegativeArraySizeException where the model returns a value. Calorie sums are unbounded integers, so int overflow of large totals is not modelled.
- CandyStore.MinCoins: the coin values must be >= 1 and 0 <= n < Integer.MAX_VALUE. A zero coin does not throw. At CandyStore.java:187, `amount[thisAmount - 0]` is the entry that line 193 has not yet written, still 0, so `min` becomes 1 and minCoins returns 1 for every n >= 1. A negative coin reads `amount[thisAmount - d]` past the end once that index exceeds n, at the latest when thisAmount = n, and throws ArrayIndexOutOfBoundsException. n = -1 makes `amount[0] = 0` index an empty array, a smaller n makes `new int[n+1]` throw NegativeArraySizeException, and `new int[n+1]` overflows at Integer.MAX_VALUE.
- The dollars-to-cents `nextDouble()*100` conversion and the inventory reading in CandyStore are left out because they are floating point and console input.
- HugeInteger.Fib: n >= 0 is required. For a negative n the C function returns an uninitialised pointer.
- HugeInteger.ToUnsignedInt: digits are combined in unbounded integers. The C multiplies `digit * magnitude` in signed int, which can overflow; the final value is the same for every accepted input.
- HugeInteger.ToUnsignedInt: the digits must be 0..9. `parseString` stores `c - '0'` for any character, so "1a" gives the digit 49, and the C still compares such digits against UINT_MAX's at Fibbonaci.c:171-182 and sums `digit * magnitude` at lines 193-197. The model states nothing for such HugeIntegers.
- `hugeDestroyer`, `destroyArrayList` and every `free` and failed `malloc` are left out because memory is not modelled; lists, tries and numbers are values.
- ArrayLists.CreateArrayList: `DEFAULT_INIT_LEN` is taken to be 10, because ArrayList.h is not part of this model.
- ArrayLists.InsertElement: the slots are values, so the two undersized allocations are not modelled. Both overrun the heap. At ArrayList.c:185, `strlen(list->array[i-1]+1)` measures the string from its second character, so the buffer is 2 bytes shorter than the string and terminator that `strcpy` writes at line 186. At ArrayList.c:188, `strlen(str)` leaves no room for the terminator, so the `strcpy` at line 189 writes 1 byte past the end.
- `printArrayList`, `printList`, `printTrie`, `printArray`, `print_array` and every `main` are left out because they only print.
- Tries.InsertString and Tries.GetNode: the word must consist of letters (up to a '.' for insertString). For any other character, `*str - 'a'` or `*str - 'A'` at Trie.c:87 and 111 is outside 0..25, and `children[letter]` is read out of bounds.
- Tries.ProcessSentenceSpec: every word that has another word beside it in the sentence must already be in the trie with a non-zero count. Otherwise `getNode` returns NULL at Trie.c:136 and `lex->subtrie` at Trie.c:147 dereferences it.
- Tries.NewNode: `createTrieNode` has no return statement in the C; the model returns the node it builds.
- `buildTrie` and `buildSubTries` are left out because they are file I/O; `processSentence` is modelled on an already-split sentence.
- Huffman.MakeHuffmanCodes: the frequency array must have at least 256 entries, since the Java reads `freq[0..255]` and would throw otherwise. `readFile` and printing are left out as I/O.
- BaseConversions.Bconv and BaseConversions.BconvHelper: n >= 0 and 2 <= base <= 16 are required. For a negative n the C indexes `base16` with a negative remainder; with base 1 `bconv_helper` recurses on n / 1 = n forever, with base 0 it divides by zero, and with a base above 16 a remainder of 16 or more reads past `base16`. The `printf` output is modelled as the returned digit string.
- BaseConversions.ToBase10: the result is an unbounded integer, so int overflow for long strings is not modelled.
- `toBase10_old` is left out because it uses floating-point `pow`.
- `percent`, `freqs`, `chisqr` and `crack` in CaesarCipher are left out because they are floating point.
- CaesarCipher.Let2Nat, CaesarCipher.Shift, CaesarCipher.Encode and CaesarCipher.Decode: letters are the ASCII letters, as the javadoc of `shift` asks. Java's `Character.isAlphabetic` and `toLowerCase` also accept other Unicode letters such as 'é' (let2nat('é') is 136); that behaviour is `ShiftAsWritten`, `EncodeAsWritten` and `DecodeAsWritten`, over Unicode tables passed as a parameter (the tables themselves are not modelled), and it is a Finding below.
- CaesarCipher.Lowers and CaesarCipher.Count: lower case is ASCII 'a'..'z'. Java's `isLowerCase` also counts other Unicode lower-case letters such as 'é'; the Unicode tables are not modelled.
- CaesarCipher.Shift, CaesarCipher.Encode, CaesarCipher.Decode and CaesarCipher.ShiftAsWritten: the mod-26 result is promised only for the shift ranges in their rows. Outside them the Java leaves the alphabet or wraps: a shift below −26 gives `26 + (n + shift)` < 0 and a character below 'a', so decode(27, "a") is "`" (`CaesarCipher.DecodePastAlphabet`), and a shift near Integer.MAX_VALUE overflows the int sum. The model computes these cases as the Java does but states no property of them.
- CaesarCipher.Rotate: n must be 0, or the list empty, or 0 < n with n + len − 1 <= Integer.MAX_VALUE, so that the Java index `i + n` does not overflow.
- CaesarCipher.Position: the list must be shorter than Integer.MAX_VALUE, so that the not-found answer cannot be a real index. Elements are compared with Dafny equality on any type; the Java compares doubles with `==`, so NaN is never found and -0.0 matches 0.0, which floating point being left out does not capture.
- `LCS.backtrack` is left out because it only prints and keeps its state in static buffers.
- `Paths.ProcessPaths` and the `TopoSort` constructor are left out because they read input files.
- Paths.SetVertexAvoidance: (x, y) must lie on the grid. Paths.java:270 indexes `m_objVertices[x][y]`, which throws ArrayIndexOutOfBoundsException off the grid.
- Paths.ComputePerfectPaths: both (xStart, yStart) and (xEnd, yEnd) must lie on the grid. Paths.java:104-105 indexes `m_objVertices` with them, which throws ArrayIndexOutOfBoundsException off the grid.
- Paths.NewGraph, Paths.PerfectPaths and Paths.ComputePerfectPaths: the grid limit is a parameter and counts are unbounded naturals. The Java sums them in int at Paths.java:68-69, which wraps on large grids: from limit 18 the corner-to-corner count C(34, 17) = 2333606220 exceeds Integer.MAX_VALUE. The Paths class builds only the grid of COORDINATE_LIMIT = 10 (Paths.java:28-33), and `Paths.CountsFitInt` proves every count there is at most 2^20, so no sum wraps on that grid.
- TopoSort.GetVertex and TopoSort.AddEdge: vertex indices must be >= 0. TopoSort.java:129 only rejects v >= V, so a negative index reaches `m_objGraph[v]` and throws ArrayIndexOutOfBoundsException, from `getVertex` and through `addEdge`'s calls to it at line 146.
- EightQueens is left out because it is an AWT applet whose backtracking is driven by `paint()`.
- Radix.RadixSort: the input must be non-empty (radix.c:24 assumes n > 0) and non-negative. Non-negativity is the model's own requirement: C's `/` and `%` truncate, so with a negative element and a positive maximum the digit `array[i] / pow % 10` at radix.c:51 lies in −9..−1 and `buckets[digit]` is read out of bounds, and when every element is <= 0 the loop `max / pow > 0` runs no pass and returns the array unsorted.

## Follows the code

- Legal moves are every empty cell that is in the bottom row (row 5) or sits above an occupied cell, scanned row by row (Minimax.java:55-74), not one lowest cell per column.
- The cache is consulted at every depth other than 0, before the win test (Minimax.java:94-97), not only at the horizon.

## Findings

| source | as written | input that shows it | evidently intended | confidence | as-written member | corrected member |
|---|---|---|---|---|---|---|
| C/HugeIntegerFibonacci/Fibbonaci.c:259 | the length grows by the final carry only when the longer operand has fewer than 3 more digits than the shorter; otherwise the carry is dropped | 9999 + 1 gives 0000 | the final carry is always kept, so the value is the sum | not executed | HugeInteger.HugeAddDropsCarry | HugeInteger.HugeAdd |
| C/ArrayList/ArrayList.c:78 | expansion nulls slots from length − capacity − 1 upward, wiping stored elements when length < size + capacity + 1 | a full list of capacity 10 expanded to 15 loses element 4 | only the new slots capacity..length−1 are nulled | not executed | ArrayLists.ExpandAsWrittenLoses | ArrayLists.Expand |
| C/RadixSort/radix.c:47 | `pow *= 10` wraps in int, so `max / pow > 0` stays true past 10^9 | a maximum of INT_MAX runs 12 passes: pow wraps to 1410065408 and then 1215752192, and both still divide it to 1 | one pass per decimal digit of the maximum | not executed | Radix.RadixPassOverflow | Radix.RadixSort |
| Java/BinarySearchTree/BST.java:75-76 | the closeness test `key - x < K && key - x > -K` is computed in int, and `key - x` wraps | tree {Integer.MAX_VALUE}, k = 10: inserting Integer.MIN_VALUE + 5 is rejected | only keys truly within distance k are rejected | not executed | BinarySearchTrees.AsWrittenRejectsFarKey | BinarySearchTrees.ExactInsertAddsFar |
| Java/CipherFrequencyAnalysis/CaesarCipher.java:87 | `shift` tests `Character.isAlphabetic`, and encode and decode test `isLowerCase`, so any Unicode letter is moved into 'a'..'z' | encode(3, "é") gives "j", and decode(3, "j") gives "g" | characters outside 'a'..'z' come back unshifted, as the javadoc at lines 71-75 says, so decode undoes encode | not executed | CaesarCipher.AsWrittenShiftsAccented | CaesarCipher.Shift |
| Java/HuffmanCoding/Huffman.java:113-121 | with every frequency 0 the heap is empty, `remove` returns null and the code dereferences it | all 256 frequencies 0 | return an all-null table | not executed | Huffman.MakeHuffmanCodesAsWritten | Huffman.MakeHuffmanCodes |

=== FILE: array_list.dfy ===
/**
 * ArrayList.c: a growable array of strings.  The list is a value holding the slot array,
 * its size and its capacity; a NULL list or string is None, and each operation returns the
 * list it leaves behind next to the value the C function returns.  Strings are copied into
 * the slots, so a slot holds a string value.  Allocation failures are not modelled.
 */
module ArrayLists {
  import opened Common

  /** DEFAULT_INIT_LEN, from ArrayList.h; that header is not part of this model and 10 is assumed. */
  const DefaultInitLen := 10

  /** A slot of the array: NULL, a string, or memory realloc left uninitialised. */
  datatype Slot = Null | Str(s: string) | Indeterminate

  datatype ArrayList = ArrayList(slots: seq<Slot>, size: int, capacity: int)

  /** The array has capacity slots, the first size hold strings and the rest are NULL. */
  predicate Valid(l: ArrayList) {
    |l.slots| == l.capacity && 0 <= l.size <= l.capacity &&
    (forall i :: 0 <= i < l.size ==> l.slots[i].Str?) &&
    (forall i :: l.size <= i < l.capacity ==> l.slots[i] == Null)
  }

  /** The strings the list holds, in order. */
  function Elements(l: ArrayList): (e: seq<string>)
    requires Valid(l)
    ensures |e| == l.size && forall i :: 0 <= i < l.size ==> l.slots[i] == Str(e[i])
  {
    seq(l.size, i requires 0 <= i < l.size => l.slots[i].s)
  }

  /** The list holding e in its first slots and NULL in the other capacity - |e|. */
  function FromElements(e: seq<string>, capacity: int): (l: ArrayList)
    requires |e| <= capacity
    ensures Valid(l) && Elements(l) == e && l.capacity == capacity
  {
    ArrayList(seq(capacity, i requires 0 <= i < capacity => if i < |e| then Str(e[i]) else Null), |e|, capacity)
  }

  /** Two valid lists with the same capacity and the same strings are the same list. */
  lemma {:induction false} ElementsDetermine(l: ArrayList, m: ArrayList)
    requires Valid(l) && Valid(m) && l.capacity == m.capacity && Elements(l) == Elements(m)
    ensures l == m
  {
    assert l.size == |Elements(l)| == m.size;
    assert forall i :: 0 <= i < l.capacity ==> l.slots[i] == m.slots[i];
  }

  function Max(a: int, b: int): int {
    if a > b then a else b
  }

  /** createArrayList(length): empty, with max(length, DEFAULT_INIT_LEN) NULL slots. */
  function CreateArrayList(length: int): (l: ArrayList)
    ensures Valid(l) && Elements(l) == [] && l.capacity == Max(length, DefaultInitLen)
  {
    var capacity := if length > DefaultInitLen then length else DefaultInitLen;
    ArrayList(seq(capacity, _ => Null), 0, capacity)
  }

  /**
   * expandArrayList as written: for length > capacity the array grows to length slots
   * and slots from length - capacity - 1 upward are set to NULL; the slots realloc adds
   * below that stay uninitialised.
   */
  function ExpandAsWritten(l: ArrayList, length: int): (r: ArrayList)
    requires Valid(l)
    ensures length <= l.capacity ==> r == l
    ensures length > l.capacity ==> r.capacity == length && |r.slots| == length && r.size == l.size
  {
    if length <= l.capacity then l
    else
      var low := length - l.capacity - 1;
      var slots := seq(length, i requires 0 <= i < length =>
        if i >= low then Null else if i < l.capacity then l.slots[i] else Indeterminate);
      l.(slots := slots, capacity := length)
  }

  /** expandArrayList with the new slots, and only those, set to NULL. */
  function Expand(l: ArrayList, length: int): (r: ArrayList)
    requires Valid(l)
    ensures Valid(r) && Elements(r) == Elements(l) && r.capacity == Max(length, l.capacity)
  {
    if length <= l.capacity then l
    else
      var slots := seq(length, i requires 0 <= i < length => if i < l.capacity then l.slots[i] else Null);
      l.(slots := slots, capacity := length)
  }

  /**
   * expandArrayList(list, length) as written: NULL for a NULL list.  The strings survive
   * exactly when the NULL run starts at or above size, and the result is a well-formed list
   * exactly when, besides, no slot realloc added is left uninitialised below that run.
   */
  function ExpandArrayList(list: Option<ArrayList>, length: int): (r: Option<ArrayList>)
    requires list.Some? ==> Valid(list.value)
    ensures r.None? <==> list.None?
    ensures r.Some? ==> r.value.capacity == Max(length, list.value.capacity) == |r.value.slots| && r.value.size == list.value.size
    ensures r.Some? ==>
      ((forall i :: 0 <= i < list.value.size ==> r.value.slots[i] == list.value.slots[i]) <==>
       length <= list.value.capacity || length >= list.value.size + list.value.capacity + 1)
    ensures r.Some? ==>
      (Valid(r.value) <==>
       length <= list.value.capacity ||
       list.value.size + list.value.capacity + 1 <= length <= 2 * list.value.capacity + 1)
    ensures r.Some? && Valid(r.value) ==> Elements(r.value) == Elements(list.value)
  {
    if list.None? then None
    else
      var l := list.value;
      if length <= l.capacity then Some(l)
      else
        ExpandAsWrittenKeeps(l, length);
        ExpandAsWrittenValid(l, length);
        Some(ExpandAsWritten(l, length))
  }

  /**
   * As written, an expanded list is well formed exactly when the NULL run starts between
   * size and capacity: below size it wipes strings, above capacity it leaves slots uninitialised.
   */
  lemma {:induction false} ExpandAsWrittenValid(l: ArrayList, length: int)
    requires Valid(l) && length > l.capacity
    ensures Valid(ExpandAsWritten(l, length)) <==> l.size + l.capacity + 1 <= length <= 2 * l.capacity + 1
    ensures Valid(ExpandAsWritten(l, length)) ==> Elements(ExpandAsWritten(l, length)) == Elements(l)
  {
    var r := ExpandAsWritten(l, length);
    var low := length - l.capacity - 1;
    if low < l.size {
      assert r.slots[low] == Null;
    } else if low > l.capacity {
      assert r.slots[l.capacity] == Indeterminate;
    } else {
      assert forall i :: 0 <= i < l.size ==> r.slots[i] == l.slots[i];
    }
  }

  /**
   * Growth through put and insertElement asks for 2 * capacity + 1 slots, and there the
   * code as written sets exactly the new slots to NULL.
   */
  lemma {:induction false} ExpandAgreesOnGrowth(l: ArrayList)
    requires Valid(l)
    ensures ExpandAsWritten(l, l.capacity * 2 + 1) == Expand(l, l.capacity * 2 + 1)
    ensures var g := ExpandAsWritten(l, l.capacity * 2 + 1);
      Valid(g) && Elements(g) == Elements(l) && g.size == l.size < g.capacity
  {
  }

  /**
   * As written, expansion keeps every element exactly when the NULL run starts at or
   * above size, that is when length >= size + capacity + 1.
   */
  lemma {:induction false} ExpandAsWrittenKeeps(l: ArrayList, length: int)
    requires Valid(l) && length > l.capacity
    ensures (forall i :: 0 <= i < l.size ==> ExpandAsWritten(l, length).slots[i] == l.slots[i]) <==>
      length >= l.size + l.capacity + 1
  {
    if length < l.size + l.capacity + 1 {
      var i := length - l.capacity - 1;
      assert ExpandAsWritten(l, length).slots[i] == Null != l.slots[i];
    }
  }

  /** A full list of ten strings expanded to 15 slots loses its elements from index 4 on. */
  lemma {:induction false} ExpandAsWrittenLoses()
    ensures var l := FromElements(seq(10, _ => "x"), 10);
      ExpandAsWritten(l, 15).slots[4] == Null && Elements(l)[4] == "x" &&
      Expand(l, 15).slots[4] == Str("x")
  {
  }

  /** trimArrayList(list): capacity shrinks to size when larger; the strings stay. */
  function TrimArrayList(list: Option<ArrayList>): (r: Option<ArrayList>)
    requires list.Some? ==> Valid(list.value)
    ensures r.None? <==> list.None?
    ensures r.Some? ==> Valid(r.value) && Elements(r.value) == Elements(list.value)
    ensures r.Some? ==> r.value.capacity == if list.value.capacity > list.value.size then list.value.size else list.value.capacity
  {
    if list.None? then None
    else
      var l := list.value;
      if l.capacity > l.size then Some(l.(slots := l.slots[..l.size], capacity := l.size)) else list
  }

  /** put(list, str): a NULL argument gives NULL; otherwise str is appended, growing a full list first. */
  function Put(list: Option<ArrayList>, str: Option<string>): (r: (Option<ArrayList>, Option<string>))
    requires list.Some? ==> Valid(list.value)
    ensures list.None? || str.None? ==> r == (list, None)
    ensures list.Some? && str.Some? ==>
      r.0.Some? && Valid(r.0.value) && r.1 == str && Elements(r.0.value) == Elements(list.value) + [str.value]
  {
    if list.None? || str.None? then (list, None)
    else
      var l0 := list.value;
      ExpandAgreesOnGrowth(l0);
      var l := if l0.size == l0.capacity then ExpandAsWritten(l0, l0.capacity * 2 + 1) else l0;
      var l' := l.(slots := l.slots[l.size := Str(str.value)], size := l.size + 1);
      assert Elements(l') == Elements(l) + [str.value];
      (Some(l'), str)
  }

  /** get(list, index): the string at index, NULL unless 0 <= index < size. */
  function Get(list: Option<ArrayList>, index: int): (r: Option<string>)
    requires list.Some? ==> Valid(list.value)
    ensures r.Some? <==> list.Some? && 0 <= index < list.value.size
    ensures r.Some? ==> r.value == Elements(list.value)[index]
  {
    if list.None? || index >= list.value.size || index < 0 then None
    else Some(list.value.slots[index].s)
  }

  /** set(list, index, str): the string at index replaced, NULL for an argument out of range. */
  function Set(list: Option<ArrayList>, index: int, str: Option<string>): (r: (Option<ArrayList>, Option<string>))
    requires list.Some? ==> Valid(list.value)
    ensures r.1.None? <==> str.None? || list.None? || !(0 <= index < list.value.size)
    ensures r.1.None? ==> r.0 == list
    ensures r.1.Some? ==>
      r.1 == str && r.0.Some? && Valid(r.0.value) && r.0.value.capacity == list.value.capacity &&
      Elements(r.0.value) == Elements(list.value)[index := str.value]
  {
    if str.None? || list.None? || index >= list.value.size || index < 0 then (list, None)
    else
      var l := list.value;
      var l' := l.(slots := l.slots[index := Str(str.value)]);
      assert Elements(l') == Elements(l)[index := str.value];
      (Some(l'), str)
  }

  /** s with x placed at index i, the entries from i on moving up one place. */
  function InsertedAt(s: seq<string>, i: int, x: string): seq<string>
    requires 0 <= i <= |s|
  {
    s[..i] + [x] + s[i..]
  }

  /** s without its entry at index i. */
  function RemovedAt(s: seq<string>, i: int): seq<string>
    requires 0 <= i < |s|
  {
    s[..i] + s[i + 1..]
  }

  /** Removing what was inserted at i gives the sequence back. */
  lemma {:induction false} RemoveUndoesInsert(s: seq<string>, i: int, x: string)
    requires 0 <= i <= |s|
    ensures RemovedAt(InsertedAt(s, i, x), i) == s
  {
    assert InsertedAt(s, i, x)[..i] == s[..i];
    assert InsertedAt(s, i, x)[i + 1..] == s[i..];
  }

  /**
   * insertElement(list, index, str): NULL for a NULL argument or a negative index;
   * otherwise a full list grows, an index at or past the end appends, and an index inside
   * shifts the strings from index on one slot up, from the end down, before storing str.
   */
  method InsertElement(list: Option<ArrayList>, index: int, str: Option<string>)
    returns (list': Option<ArrayList>, r: Option<string>)
    requires list.Some? ==> Valid(list.value)
    ensures list.None? || str.None? || index < 0 ==> list' == list && r.None?
    ensures list.Some? && str.Some? && index >= 0 ==>
      r == str && list'.Some? && Valid(list'.value) &&
      Elements(list'.value) == InsertedAt(Elements(list.value), if index >= list.value.size then list.value.size else index, str.value)
  {
    if list.None? || str.None? || index < 0 {
      return list, None;
    }
    var l := list.value;
    if l.size == l.capacity {
      ExpandAgreesOnGrowth(l);
      l := ExpandAsWritten(l, l.capacity * 2 + 1);
    }
    if index >= l.size {
      var appended := l.(slots := l.slots[l.size := Str(str.value)], size := l.size + 1);
      assert Elements(appended) == Elements(l) + [str.value];
      return Some(appended), str;
    }
    var inserted := ShiftAndStore(l, index, str.value);
    return Some(inserted), str;
  }

  /** The inside case of insertElement: shift the tail up, store x at index, count it. */
  method ShiftAndStore(l: ArrayList, index: int, x: string) returns (m: ArrayList)
    requires Valid(l) && 0 <= index < l.size < l.capacity
    ensures Valid(m) && m.capacity == l.capacity
    ensures Elements(m) == InsertedAt(Elements(l), index, x)
  {
    var a := ShiftUp(l, index);
    a := a[index := Str(x)];
    m := l.(slots := a, size := l.size + 1);
    InsertedSlots(l, index, x, m);
  }

  /** The loop of insertElement: slots index..size-1 move one place up, from the top down. */
  method ShiftUp(l: ArrayList, index: int) returns (a: seq<Slot>)
    requires Valid(l) && 0 <= index < l.size < l.capacity
    ensures |a| == |l.slots|
    ensures forall j :: 0 <= j <= index ==> a[j] == l.slots[j]
    ensures forall j :: index < j <= l.size ==> a[j] == l.slots[j - 1]
    ensures forall j :: l.size < j < |a| ==> a[j] == l.slots[j]
  {
    a := l.slots;
    var i := l.size;
    while i > index
      invariant index <= i <= l.size && |a| == |l.slots|
      invariant forall j :: 0 <= j <= i ==> a[j] == l.slots[j]
      invariant forall j :: i < j <= l.size ==> a[j] == l.slots[j - 1]
      invariant forall j :: l.size < j < |a| ==> a[j] == l.slots[j]
    {
      a := a[i := a[i - 1]];
      i := i - 1;
    }
  }

  lemma {:induction false} InsertedSlots(l: ArrayList, index: int, x: string, m: ArrayList)
    requires Valid(l) && 0 <= index < l.size < l.capacity
    requires m.size == l.size + 1 && m.capacity == l.capacity && |m.slots| == |l.slots|
    requires forall j :: 0 <= j < index ==> m.slots[j] == l.slots[j]
    requires m.slots[index] == Str(x)
    requires forall j :: index < j <= l.size ==> m.slots[j] == l.slots[j - 1]
    requires forall j :: l.size < j < |m.slots| ==> m.slots[j] == l.slots[j]
    ensures Valid(m) && Elements(m) == InsertedAt(Elements(l), index, x)
  {
    var e := InsertedAt(Elements(l), index, x);
    assert forall j :: 0 <= j < m.size ==> m.slots[j] == Str(e[j]);
  }

  /**
   * removeElement(list, index): 0 and no change for a NULL list or an index outside
   * [0, size); otherwise the strings after index move one slot down, the last slot
   * becomes NULL, size drops by one and the result is 1.
   */
  method RemoveElement(list: Option<ArrayList>, index: int) returns (list': Option<ArrayList>, r: int)
    requires list.Some? ==> Valid(list.value)
    ensures r == 0 || r == 1
    ensures r == 0 <==> list.None? || !(0 <= index < list.value.size)
    ensures r == 0 ==> list' == list
    ensures r == 1 ==>
      list'.Some? && Valid(list'.value) && list'.value.capacity == list.value.capacity &&
      Elements(list'.value) == RemovedAt(Elements(list.value), index)
  {
    if list.None? || index >= list.value.size || index < 0 {
      return list, 0;
    }
    var l := list.value;
    var a := l.slots;
    var i := index;
    while i < l.size - 1
      invariant index <= i <= l.size - 1 && |a| == |l.slots|
      invariant forall j :: 0 <= j < index ==> a[j] == l.slots[j]
      invariant forall j :: index <= j < i ==> a[j] == l.slots[j + 1]
      invariant forall j :: i <= j < |a| ==> a[j] == l.slots[j]
    {
      a := a[i := a[i + 1]];
      i := i + 1;
    }
    a := a[l.size - 1 := Null];
    var removed := l.(slots := a, size := l.size - 1);
    assert Elements(removed) == RemovedAt(Elements(l), index);
    return Some(removed), 1;
  }

  /** getSize(list): -1 for NULL, else the number of strings. */
  function GetSize(list: Option<ArrayList>): (r: int)
    requires list.Some? ==> Valid(list.value)
    ensures r == if list.None? then -1 else |Elements(list.value)|
  {
    if list.None? then -1 else list.value.size
  }
}

=== FILE: base_conversions.dfy ===
/**
 * Base conversions: bconv writes a non-negative int in a base between 2 and 16 with the
 * digit table 0-9a-f (its printf output is the returned string here), and toBase10 reads
 * a digit string back by Horner's rule.
 */
module BaseConversions {
  import opened Common

  /** The global base16 table. */
  const Base16: string := "0123456789abcdef"

  /** A base the digit table can serve and in which n / base shrinks. */
  predicate ValidBase(base: int) {
    2 <= base <= 16
  }

  /** The value of one digit character, as s[i] - '0' computes it. */
  function DigitValue(c: char): int {
    c as int - '0' as int
  }

  function Pow(b: int, e: nat): int {
    if e == 0 then 1 else b * Pow(b, e - 1)
  }

  /** The positional value of s in base b: the sum of digit i times b^(len-1-i). */
  function PositionalValue(s: string, b: int): int
    decreases |s|
  {
    if s == [] then 0 else DigitValue(s[0]) * Pow(b, |s| - 1) + PositionalValue(s[1..], b)
  }

  /** The value of a character as a digit of the table: its index in base16, -1 if absent. */
  function TableValue(c: char): (d: int)
    ensures -1 <= d < 16
    ensures d >= 0 ==> Base16[d] == c
  {
    if '0' <= c <= '9' then c as int - '0' as int
    else if 'a' <= c <= 'f' then c as int - 'a' as int + 10
    else -1
  }

  /** Every table entry has its own index as value. */
  lemma {:induction false} TableBack(d: int)
    requires 0 <= d < 16
    ensures TableValue(Base16[d]) == d
  {
  }

  /** The value of s read in base b with the digits of the table, by Horner's rule. */
  function TableNumeralValue(s: string, b: int): int
    decreases |s|
  {
    if s == [] then 0 else TableNumeralValue(s[..|s| - 1], b) * b + TableValue(s[|s| - 1])
  }

  /**
   * bconv_helper(n, base): nothing for 0, else the digits of n / base, then digit n % base;
   * read back with the table, the digits are worth n.
   */
  function BconvHelper(n: nat, base: int): (r: string)
    requires ValidBase(base)
    ensures n == 0 <==> r == []
    ensures n > 0 ==> r[0] != '0'
    ensures forall i :: 0 <= i < |r| ==> r[i] in Base16[..base]
    ensures TableNumeralValue(r, base) == n
    decreases n
  {
    if n == 0 then []
    else
      var front := BconvHelper(n / base, base);
      assert n / base == 0 ==> n % base != 0;
      AppendDigit(front, n, base);
      front + [Base16[n % base]]
  }

  /** Appending the table digit n % base to digits worth n / base gives digits worth n. */
  lemma {:induction false} AppendDigit(front: string, n: nat, base: int)
    requires ValidBase(base) && TableNumeralValue(front, base) == n / base
    ensures TableNumeralValue(front + [Base16[n % base]], base) == n
  {
    var q, d := n / base, n % base;
    assert n == base * q + d && q * base == base * q;
    SnocValue(front, Base16[d], base);
    TableBack(d);
  }

  /** Reading one more digit multiplies the value so far by the base and adds the digit. */
  lemma {:induction false} SnocValue(t: string, c: char, base: int)
    ensures TableNumeralValue(t + [c], base) == TableNumeralValue(t, base) * base + TableValue(c)
  {
    var s := t + [c];
    assert s[..|s| - 1] == t && s[|s| - 1] == c;
  }

  /** Writing out m * base + d is writing out m, then the table digit d. */
  lemma {:induction false} HelperStep(m: nat, d: int, base: int)
    requires ValidBase(base) && 0 <= d < base && (m == 0 ==> d != 0)
    ensures m * base + d > 0
    ensures BconvHelper(m * base + d, base) == BconvHelper(m, base) + [Base16[d]]
  {
    LastDigit(m, d, base);
    var n: nat := m * base + d;
    assert n / base == m && n % base == d;
  }

  /** bconv(n, base): "0" for zero, else the digits without a leading zero, worth n. */
  function Bconv(n: nat, base: int): (r: string)
    requires ValidBase(base)
    ensures |r| > 0 && (r[0] == '0' <==> n == 0)
    ensures forall i :: 0 <= i < |r| ==> r[i] in Base16[..base]
    ensures TableNumeralValue(r, base) == n
  {
    if n == 0 then
      assert "0"[0] == Base16[0] && "0"[..0] == [];
      "0"
    else BconvHelper(n, base)
  }

  /** A numeral of the table in base b: each character is a table digit below b. */
  predicate IsTableNumeral(s: string, base: int) {
    forall i :: 0 <= i < |s| ==> 0 <= TableValue(s[i]) < base
  }

  /**
   * Writing out the value of a table numeral without a leading zero gives the numeral
   * back, so for every base 2..16 bconv_helper is a bijection onto those numerals.
   */
  lemma {:induction false} TableNumeralRoundTrip(s: string, base: int)
    requires ValidBase(base) && IsTableNumeral(s, base) && (s == [] || s[0] != '0')
    ensures TableNumeralValue(s, base) >= 0
    ensures BconvHelper(TableNumeralValue(s, base), base) == s
    decreases |s|
  {
    if s != [] {
      var t, c := s[..|s| - 1], s[|s| - 1];
      assert s == t + [c];
      assert IsTableNumeral(t, base) && (t == [] || t[0] != '0') by {
        assert forall i :: 0 <= i < |t| ==> t[i] == s[i];
      }
      TableNumeralRoundTrip(t, base);
      var m: nat, d := TableNumeralValue(t, base), TableValue(c);
      assert 0 <= d < base by {
        assert s[|s| - 1] == c;
      }
      assert m == 0 ==> d != 0 by {
        if m == 0 {
          assert t == [] && c != '0';
        }
      }
      SnocValue(t, c, base);
      HelperStep(m, d, base);
      assert TableNumeralValue(s, base) == m * base + d;
    }
  }

  /** The two calls in main: 16 in base 16 is "10", and 10 in base 16 is "a". */
  lemma {:induction false} BconvExamples()
    ensures Bconv(16, 16) == "10"
    ensures Bconv(10, 16) == "a"
  {
    assert 16 / 16 == 1 && 16 % 16 == 0 && 1 / 16 == 0 && 1 % 16 == 1 && 10 / 16 == 0 && 10 % 16 == 10;
    assert BconvHelper(0, 16) == [];
    assert BconvHelper(1, 16) == "1";
    assert BconvHelper(16, 16) == "1" + [Base16[0]];
    assert BconvHelper(10, 16) == [Base16[10]];
  }

  /** Appending a digit multiplies the value so far by the base: Horner's rule. */
  lemma {:induction false} HornerStep(s: string, c: char, b: int)
    ensures PositionalValue(s + [c], b) == PositionalValue(s, b) * b + DigitValue(c)
    decreases |s|
  {
    if s != [] {
      HornerStep(s[1..], c, b);
      assert (s + [c])[1..] == s[1..] + [c];
      var d0, p, rest := DigitValue(s[0]), Pow(b, |s| - 1), PositionalValue(s[1..], b);
      assert PositionalValue(s + [c], b) == d0 * Pow(b, |s|) + (rest * b + DigitValue(c));
      assert Pow(b, |s|) == b * p;
      Regroup(d0, p, rest, b);
    }
  }

  lemma {:induction false} Regroup(d: int, p: int, rest: int, b: int)
    ensures d * (b * p) + rest * b == (d * p + rest) * b
  {
  }

  /** toBase10(s, base): ret = ret * base + (s[i] - '0') over the characters of s. */
  method ToBase10(s: string, base: int) returns (ret: int)
    ensures ret == PositionalValue(s, base)
  {
    ret := 0;
    var i := 0;
    while i < |s|
      invariant 0 <= i <= |s| && ret == PositionalValue(s[..i], base)
    {
      HornerStep(s[..i], s[i], base);
      assert s[..i + 1] == s[..i] + [s[i]];
      ret := ret * base;
      ret := ret + (s[i] as int - '0' as int);
      i := i + 1;
    }
    assert s[..|s|] == s;
  }

  /** The digit table agrees with s[i] - '0' on the decimal digits. */
  lemma {:induction false} DecimalTable(d: int)
    requires 0 <= d < 10
    ensures DigitValue(Base16[d]) == d
  {
  }

  /** Reading back what bconv_helper wrote gives n, in every base from 2 to 10. */
  lemma {:induction false} HelperRoundTrip(n: nat, base: int)
    requires 2 <= base <= 10
    ensures PositionalValue(BconvHelper(n, base), base) == n
    decreases n
  {
    if n > 0 {
      assert n == (n / base) * base + n % base;
      HelperRoundTrip(n / base, base);
      HornerStep(BconvHelper(n / base, base), Base16[n % base], base);
      DecimalTable(n % base);
    }
  }

  /** toBase10 inverts bconv for 2 <= base <= 10. */
  lemma {:induction false} BconvRoundTrip(n: nat, base: int)
    requires 2 <= base <= 10
    ensures PositionalValue(Bconv(n, base), base) == n
  {
    if n > 0 {
      HelperRoundTrip(n, base);
    }
  }

  /** A numeral in base b: digits '0' up to the digit for b - 1. */
  predicate IsNumeral(s: string, base: int) {
    forall i :: 0 <= i < |s| ==> 0 <= DigitValue(s[i]) < base
  }

  /**
   * The other direction: writing out the value of a numeral without a leading zero gives
   * the numeral back, so for 2 <= base <= 10 bconv and toBase10 are inverse bijections.
   */
  lemma {:induction false} NumeralRoundTrip(s: string, base: int)
    requires 2 <= base <= 10 && IsNumeral(s, base) && (s == [] || s[0] != '0')
    ensures PositionalValue(s, base) >= 0
    ensures BconvHelper(PositionalValue(s, base), base) == s
    decreases |s|
  {
    if s != [] {
      var t, c := s[..|s| - 1], s[|s| - 1];
      assert s == t + [c];
      assert IsNumeral(t, base) && (t == [] || t[0] != '0') by {
        assert forall i :: 0 <= i < |t| ==> t[i] == s[i];
      }
      NumeralRoundTrip(t, base);
      HornerStep(t, c, base);
      var m, d := PositionalValue(t, base), DigitValue(c);
      assert m == 0 ==> d != 0 by {
        if m == 0 {
          assert t == [] && c != '0';
        }
      }
      LastDigit(m, d, base);
      DigitBack(c, base);
    }
  }

  /** Horner's last step undone: n = m * base + d with a digit d splits back into n / base and n % base. */
  lemma {:induction false} LastDigit(m: int, d: int, base: int)
    requires 2 <= base && m >= 0 && 0 <= d < base && (m == 0 ==> d != 0)
    ensures m * base + d > 0
    ensures (m * base + d) / base == m && (m * base + d) % base == d
  {
    var n := m * base + d;
    if m > 0 {
      MulMono(base, 1, m);
    }
    DivModUnique(n, base, m, d);
  }

  /** A decimal digit character is the table entry at its own value. */
  lemma {:induction false} DigitBack(c: char, base: int)
    requires 2 <= base <= 10 && 0 <= DigitValue(c) < base
    ensures Base16[DigitValue(c)] == c
  {
    DecimalTable(DigitValue(c));
  }
}

=== FILE: binary_heap.dfy ===
/**
 * The array-backed binary min-heap of BinaryHeap.java.  A heap is the sequence of
 * its stored elements heap[0..size) together with the length of the backing array;
 * the slots past size are never read, so their contents are not kept.
 *
 * Elements are compared through an integer key: a.compareTo(b) > 0 exactly when
 * key(a) > key(b).  That is how HuffmanTree orders its nodes (by frequency), and it
 * is the only element type the heap is used with.
 */
module BinaryHeaps {
  import opened Common

  /** The length of the backing array a new heap starts with. */
  const DefaultCapacity: int := 256

  datatype Heap<T> = Heap(elems: seq<T>, capacity: int)

  /** The backing array always keeps a free slot: add resizes before it could fill up. */
  predicate Valid<T>(h: Heap<T>) {
    |h.elems| < h.capacity
  }

  /** parentIndex: (i - 1) / 2, which is 0 for the root under truncating division. */
  function Parent(i: nat): nat {
    if i == 0 then 0 else (i - 1) / 2
  }

  function LeftIndex(i: nat): nat {
    2 * i + 1
  }

  function RightIndex(i: nat): nat {
    2 * i + 2
  }

  predicate HasParent(i: nat) {
    i > 0
  }

  /** A child counts only when its index lies inside heap[0..size). */
  predicate HasLeftChild<T>(s: seq<T>, i: nat) {
    LeftIndex(i) < |s|
  }

  predicate HasRightChild<T>(s: seq<T>, i: nat) {
    RightIndex(i) < |s|
  }

  /** The index helpers agree with Java's arithmetic and describe one tree shape. */
  lemma {:induction false} IndexHelpers(i: nat, p: nat)
    ensures Parent(i) == TruncDiv(i - 1, 2)
    ensures HasParent(i) ==> Parent(i) < i
    ensures HasParent(i) ==> (Parent(i) == p <==> i == LeftIndex(p) || i == RightIndex(p))
  {
  }

  /** Every entry is no smaller than its parent: the min-heap order over heap[0..size). */
  predicate Ordered<T>(key: T -> int, s: seq<T>) {
    forall i :: 0 < i < |s| ==> key(s[Parent(i)]) <= key(s[i])
  }

  /** Heap order holds everywhere except at hole, the entry still percolating up. */
  predicate OrderedExcept<T>(key: T -> int, s: seq<T>, hole: nat) {
    forall i :: 0 < i < |s| && i != hole ==> key(s[Parent(i)]) <= key(s[i])
  }

  /** Heap order holds everywhere except below hole, the entry still percolating down. */
  predicate OrderedBelow<T>(key: T -> int, s: seq<T>, hole: nat) {
    forall i :: 0 < i < |s| && Parent(i) != hole ==> key(s[Parent(i)]) <= key(s[i])
  }

  /** The parent of hole is no larger than the children of hole. */
  predicate Bridged<T>(key: T -> int, s: seq<T>, hole: nat) {
    0 < hole < |s| ==> forall c :: 0 < c < |s| && Parent(c) == hole ==> key(s[Parent(hole)]) <= key(s[c])
  }

  /** swap(a, b): the two entries change places and nothing else moves. */
  function Swap<T>(s: seq<T>, a: nat, b: nat): (t: seq<T>)
    requires a < |s| && b < |s|
    ensures |t| == |s| && t[a] == s[b] && t[b] == s[a]
    ensures forall k :: 0 <= k < |s| && k != a && k != b ==> t[k] == s[k]
    ensures multiset(t) == multiset(s)
  {
    s[a := s[b]][b := s[a]]
  }

  /** The constructor: an empty heap over an array of DEFAULT_CAPACITY slots. */
  function NewHeap<T>(): (h: Heap<T>)
    ensures Valid(h) && |h.elems| == 0 && h.capacity == DefaultCapacity
  {
    Heap([], DefaultCapacity)
  }

  /** In an ordered heap the top entry is no larger than the entry at i. */
  lemma {:induction false} TopIsMin<T>(key: T -> int, s: seq<T>, i: nat)
    requires Ordered(key, s) && i < |s|
    ensures key(s[0]) <= key(s[i])
    decreases i
  {
    if i > 0 {
      TopIsMin(key, s, Parent(i));
    }
  }

  /** One swap of PercUp moves the hole to the parent and keeps the rest ordered. */
  lemma {:induction false} UpStep<T>(key: T -> int, s: seq<T>, idx: nat)
    requires 0 < idx < |s| && OrderedExcept(key, s, idx) && Bridged(key, s, idx)
    requires key(s[Parent(idx)]) > key(s[idx])
    ensures OrderedExcept(key, Swap(s, idx, Parent(idx)), Parent(idx))
    ensures Bridged(key, Swap(s, idx, Parent(idx)), Parent(idx))
  {
    var p := Parent(idx);
    var t := Swap(s, idx, p);
    forall i | 0 < i < |t| && i != p
      ensures key(t[Parent(i)]) <= key(t[i])
    {
      if i == idx {
        assert t[Parent(i)] == s[idx] && t[i] == s[p];
      } else if Parent(i) == idx {
        assert t[Parent(i)] == s[p] && t[i] == s[i];
      } else if Parent(i) == p {
        assert t[Parent(i)] == s[idx] && t[i] == s[i];
        assert key(s[p]) <= key(s[i]);
      } else {
        assert t[Parent(i)] == s[Parent(i)] && t[i] == s[i];
      }
    }
    if p > 0 {
      forall c | 0 < c < |t| && Parent(c) == p
        ensures key(t[Parent(p)]) <= key(t[c])
      {
        assert t[Parent(p)] == s[Parent(p)];
        assert key(s[Parent(p)]) <= key(s[p]);
        if c != idx {
          assert t[c] == s[c];
        }
      }
    }
  }

  /** PercUp: the entry at the bottom climbs while its parent is larger. */
  method PercUp<T>(key: T -> int, s: seq<T>) returns (r: seq<T>)
    ensures |r| == |s| && multiset(r) == multiset(s)
    ensures |s| > 0 && OrderedExcept(key, s, |s| - 1) ==> Ordered(key, r)
  {
    r := s;
    if |s| == 0 {
      return;
    }
    var index: nat := |s| - 1;
    ghost var ordered := OrderedExcept(key, s, index);
    assert Bridged(key, s, index) by {
      forall c | 0 < c < |s| && Parent(c) == index
        ensures false
      {
        IndexHelpers(c, index);
      }
    }
    while HasParent(index) && key(r[Parent(index)]) > key(r[index])
      invariant index < |r| == |s|
      invariant multiset(r) == multiset(s)
      invariant ordered ==> OrderedExcept(key, r, index) && Bridged(key, r, index)
      decreases index
    {
      if ordered {
        UpStep(key, r, index);
      }
      r := Swap(r, index, Parent(index));
      index := Parent(index);
    }
  }

  /** One swap of PercDown moves the hole to the smaller child and keeps the rest ordered. */
  lemma {:induction false} DownStep<T>(key: T -> int, s: seq<T>, idx: nat, smaller: nat)
    requires LeftIndex(idx) < |s|
    requires smaller == if RightIndex(idx) < |s| && key(s[LeftIndex(idx)]) > key(s[RightIndex(idx)])
      then RightIndex(idx) else LeftIndex(idx)
    requires OrderedBelow(key, s, idx) && Bridged(key, s, idx)
    requires key(s[idx]) > key(s[smaller])
    ensures OrderedBelow(key, Swap(s, idx, smaller), smaller)
    ensures Bridged(key, Swap(s, idx, smaller), smaller)
  {
    var t := Swap(s, idx, smaller);
    forall i | 0 < i < |t| && Parent(i) != smaller
      ensures key(t[Parent(i)]) <= key(t[i])
    {
      IndexHelpers(i, idx);
      if i == smaller {
        assert t[Parent(i)] == s[smaller] && t[i] == s[idx];
      } else if Parent(i) == idx {
        assert t[Parent(i)] == s[smaller] && t[i] == s[i];
      } else if i == idx {
        assert t[Parent(i)] == s[Parent(idx)] && t[i] == s[smaller];
        IndexHelpers(smaller, idx);
      } else {
        assert t[Parent(i)] == s[Parent(i)] && t[i] == s[i];
      }
    }
    forall c | 0 < c < |t| && Parent(c) == smaller
      ensures key(t[Parent(smaller)]) <= key(t[c])
    {
      IndexHelpers(c, smaller);
      IndexHelpers(smaller, idx);
      assert t[Parent(smaller)] == s[smaller] && t[c] == s[c];
    }
  }

  /** PercDown stops: the hole is no larger than its smaller child, so the whole heap is ordered. */
  lemma {:induction false} DownDone<T>(key: T -> int, s: seq<T>, idx: nat, smaller: nat)
    requires LeftIndex(idx) < |s|
    requires smaller == if RightIndex(idx) < |s| && key(s[LeftIndex(idx)]) > key(s[RightIndex(idx)])
      then RightIndex(idx) else LeftIndex(idx)
    requires OrderedBelow(key, s, idx) && Bridged(key, s, idx)
    requires key(s[idx]) <= key(s[smaller])
    ensures Ordered(key, s)
  {
    forall i | 0 < i < |s| && Parent(i) == idx
      ensures key(s[Parent(i)]) <= key(s[i])
    {
      IndexHelpers(i, idx);
    }
  }

  /** A hole without children is no hole at all. */
  lemma {:induction false} LeafDone<T>(key: T -> int, s: seq<T>, idx: nat)
    requires LeftIndex(idx) >= |s| && OrderedBelow(key, s, idx)
    ensures Ordered(key, s)
  {
    forall i | 0 < i < |s| && Parent(i) == idx
      ensures false
    {
      IndexHelpers(i, idx);
    }
  }

  /** PercDown: the entry at the top sinks, swapping with its smaller child while that is smaller. */
  method PercDown<T>(key: T -> int, s: seq<T>) returns (r: seq<T>)
    ensures |r| == |s| && multiset(r) == multiset(s)
    ensures OrderedBelow(key, s, 0) ==> Ordered(key, r)
  {
    r := s;
    var index: nat := 0;
    ghost var ordered := OrderedBelow(key, s, 0);
    while HasLeftChild(r, index)
      invariant |r| == |s| && (|r| == 0 || index < |r|)
      invariant multiset(r) == multiset(s)
      invariant ordered ==> OrderedBelow(key, r, index) && Bridged(key, r, index)
      decreases |r| - index
    {
      var smallerChild := LeftIndex(index);
      if HasRightChild(r, index) && key(r[LeftIndex(index)]) > key(r[RightIndex(index)]) {
        smallerChild := RightIndex(index);
      }
      if key(r[index]) > key(r[smallerChild]) {
        if ordered {
          DownStep(key, r, index, smallerChild);
        }
        r := Swap(r, index, smallerChild);
      } else {
        if ordered {
          DownDone(key, r, index, smallerChild);
        }
        break;
      }
      index := smallerChild;
    }
    if ordered && !HasLeftChild(r, index) {
      LeafDone(key, r, index);
    }
  }

  /** The array after remove moves the last entry to the top: heap[0] = heap[--size]. */
  function MoveLastUp<T>(s: seq<T>): (r: seq<T>)
    requires |s| > 0
    ensures |r| == |s| - 1
  {
    s[0 := s[|s| - 1]][..|s| - 1]
  }

  /** Moving the last entry up drops the top from the multiset and breaks the order only at the top. */
  lemma {:induction false} MoveLastUpSpec<T>(key: T -> int, s: seq<T>)
    requires |s| > 0
    ensures multiset(MoveLastUp(s)) == multiset(s) - multiset{s[0]}
    ensures Ordered(key, s) ==> OrderedBelow(key, MoveLastUp(s), 0)
  {
    MoveLastUpPermutes(s);
    if Ordered(key, s) {
      MoveLastUpOrdered(key, s);
    }
  }

  lemma {:induction false} MoveLastUpPermutes<T>(s: seq<T>)
    requires |s| > 0
    ensures multiset(MoveLastUp(s)) == multiset(s) - multiset{s[0]}
  {
    var r := MoveLastUp(s);
    var n := |s|;
    if n > 1 {
      var mid := s[1..n - 1];
      assert s == [s[0]] + mid + [s[n - 1]];
      assert r == [s[n - 1]] + mid;
    }
  }

  lemma {:induction false} MoveLastUpOrdered<T>(key: T -> int, s: seq<T>)
    requires |s| > 0 && Ordered(key, s)
    ensures OrderedBelow(key, MoveLastUp(s), 0)
  {
    var r := MoveLastUp(s);
    forall i | 0 < i < |r| && Parent(i) != 0
      ensures key(r[Parent(i)]) <= key(r[i])
    {
      IndexHelpers(i, 0);
      assert r[Parent(i)] == s[Parent(i)] && r[i] == s[i];
    }
  }

  /** add(value): grow the array when one slot is left, store the value at the bottom, percolate up. */
  method Add<T>(key: T -> int, h: Heap<T>, value: T) returns (r: Heap<T>)
    requires Valid(h)
    ensures Valid(r) && |r.elems| == |h.elems| + 1
    ensures multiset(r.elems) == multiset(h.elems) + multiset{value}
    ensures r.capacity == if |h.elems| >= h.capacity - 1 then 2 * h.capacity else h.capacity
    ensures Ordered(key, h.elems) ==> Ordered(key, r.elems)
  {
    var capacity := h.capacity;
    if |h.elems| >= capacity - 1 {
      capacity := 2 * capacity;
    }
    var s := h.elems + [value];
    if Ordered(key, h.elems) {
      assert OrderedExcept(key, s, |s| - 1) by {
        forall i | 0 < i < |s| && i != |s| - 1
          ensures key(s[Parent(i)]) <= key(s[i])
        {
          IndexHelpers(i, 0);
          assert s[Parent(i)] == h.elems[Parent(i)] && s[i] == h.elems[i];
        }
      }
    }
    var elems := PercUp(key, s);
    r := Heap(elems, capacity);
  }

  /**
   * remove(): null from an empty heap; otherwise the top entry, after the last entry
   * has been moved to the top and percolated down.  The array keeps its length.
   */
  method Remove<T>(key: T -> int, h: Heap<T>) returns (top: Option<T>, r: Heap<T>)
    requires Valid(h)
    ensures Valid(r) && r.capacity == h.capacity
    ensures |h.elems| == 0 ==> top == None && r == h
    ensures |h.elems| > 0 ==> top == Some(h.elems[0]) && |r.elems| == |h.elems| - 1
    ensures |h.elems| > 0 ==> multiset(r.elems) == multiset(h.elems) - multiset{h.elems[0]}
    ensures Ordered(key, h.elems) ==> Ordered(key, r.elems)
    ensures Ordered(key, h.elems) && top.Some? ==> forall x :: x in h.elems ==> key(top.value) <= key(x)
  {
    if |h.elems| < 1 {
      return None, h;
    }
    top := Some(h.elems[0]);
    MoveLastUpSpec(key, h.elems);
    var elems := PercDown(key, MoveLastUp(h.elems));
    r := Heap(elems, h.capacity);
    if Ordered(key, h.elems) {
      forall x | x in h.elems
        ensures key(top.value) <= key(x)
      {
        var i :| 0 <= i < |h.elems| && h.elems[i] == x;
        TopIsMin(key, h.elems, i);
      }
    }
  }
}

=== FILE: bst.dfy ===
/**
 * The binary search tree of BST.java and BSTNode.java: every node keeps its key, the
 * size of its subtree and its rank (its in-order position), and insertion refuses a key
 * that lies within K_VALUE of a key on its search path.
 *
 * A BSTNode is a node of the immutable Tree below and a null reference is Nil; the
 * setters that change a node in place become functions that return the changed node.
 * The Java keys and K_VALUE are ints, so the closeness test of insertion is modelled
 * twice: with Java's wrapping int arithmetic (as written) and with exact arithmetic
 * (as intended); see AsWrittenRejectsFarKey.
 */
module BinarySearchTrees {
  import opened Common

  /** THIS_NODE: the node itself in its subtree's size. */
  const ThisNode: int := 1

  datatype Tree = Nil | Node(key: int, size: int, rank: int, left: Tree, right: Tree)

  // ---------------------------------------------------------------------------
  // BSTNode

  /** The constructor: the key, no children, tree size 1 and the default rank 0. */
  function NewNode(key: int): (n: Tree)
    ensures n.Node? && n.key == key && n.left.Nil? && n.right.Nil?
    ensures n.size == 1 && n.rank == 0
    ensures Count(n) == n.size && SizesOk(n)
  {
    SetTreeSize(Node(key, 0, 0, Nil, Nil))
  }

  /** The size a parent reads from a child: 0 for null, else the child's stored size. */
  function SizeOf(t: Tree): int {
    if t.Nil? then 0 else t.size
  }

  /** SetTreeSize: 1 for the node itself plus the stored sizes of its children. */
  function SetTreeSize(n: Tree): (r: Tree)
    requires n.Node?
    ensures r.Node? && r.key == n.key && r.rank == n.rank && r.left == n.left && r.right == n.right
    ensures r.size == ThisNode + SizeOf(n.left) + SizeOf(n.right)
    ensures SizesOk(n.left) && SizesOk(n.right) ==> SizesOk(r) && r.size == Count(r)
  {
    n.(size := ThisNode + SizeOf(n.left) + SizeOf(n.right))
  }

  /** SetLeftNode: the left child becomes l and the size is recomputed. */
  function SetLeftNode(n: Tree, l: Tree): (r: Tree)
    requires n.Node?
    ensures r.Node? && GetLeftNode(r) == l && r.right == n.right
    ensures r.key == n.key && r.rank == n.rank
    ensures r.size == ThisNode + SizeOf(l) + SizeOf(n.right)
  {
    SetTreeSize(n.(left := l))
  }

  /** SetRightNode: the right child becomes rt and the size is recomputed. */
  function SetRightNode(n: Tree, rt: Tree): (r: Tree)
    requires n.Node?
    ensures r.Node? && GetRightNode(r) == rt && r.left == n.left
    ensures r.key == n.key && r.rank == n.rank
    ensures r.size == ThisNode + SizeOf(n.left) + SizeOf(rt)
  {
    SetTreeSize(n.(right := rt))
  }

  function GetLeftNode(n: Tree): Tree
    requires n.Node?
  {
    n.left
  }

  function GetRightNode(n: Tree): Tree
    requires n.Node?
  {
    n.right
  }

  /** SetRank: only the rank changes. */
  function SetRank(n: Tree, rank: int): (r: Tree)
    requires n.Node?
    ensures r.Node? && GetRank(r) == rank
    ensures r.key == n.key && r.size == n.size && r.left == n.left && r.right == n.right
  {
    n.(rank := rank)
  }

  function GetRank(n: Tree): int
    requires n.Node?
  {
    n.rank
  }

  /** No setter or size update changes the key: it stays the one given at construction. */
  lemma {:induction false} KeyFixed(key: int, l: Tree, rt: Tree, rank: int)
    ensures SetLeftNode(NewNode(key), l).key == key
    ensures SetRightNode(SetLeftNode(NewNode(key), l), rt).key == key
    ensures SetRank(SetRightNode(SetLeftNode(NewNode(key), l), rt), rank).key == key
    ensures GetRank(SetRank(SetRightNode(SetLeftNode(NewNode(key), l), rt), rank)) == rank
  {
  }

  // ---------------------------------------------------------------------------
  // Contents, sizes and order

  /** The number of nodes. */
  function Count(t: Tree): nat {
    if t.Nil? then 0 else 1 + Count(t.left) + Count(t.right)
  }

  /** The keys of the nodes. */
  function Keys(t: Tree): set<int> {
    if t.Nil? then {} else {t.key} + Keys(t.left) + Keys(t.right)
  }

  /** Every stored size is the node count of that node's subtree. */
  predicate SizesOk(t: Tree) {
    t.Nil? || (t.size == Count(t) && SizesOk(t.left) && SizesOk(t.right))
  }

  /** The search tree order: keys to the left are smaller and keys to the right larger. */
  predicate Ordered(t: Tree) {
    t.Nil? ||
    (Ordered(t.left) && Ordered(t.right) &&
     (forall y :: y in Keys(t.left) ==> y < t.key) &&
     (forall y :: y in Keys(t.right) ==> t.key < y))
  }

  /** A stored size read through a parent is the child's node count. */
  lemma {:induction false} SizeOfCount(t: Tree)
    requires SizesOk(t)
    ensures SizeOf(t) == Count(t)
  {
  }

  /** In an ordered tree the keys are distinct, so the node count is the number of keys. */
  lemma {:induction false} CountKeys(t: Tree)
    requires Ordered(t)
    ensures Count(t) == |Keys(t)|
    decreases t
  {
    if t.Node? {
      CountKeys(t.left);
      CountKeys(t.right);
      var l, r := Keys(t.left), Keys(t.right);
      assert t.key !in l && t.key !in r;
      assert l * r == {} by {
        forall y | y in l && y in r
          ensures false
        {
        }
      }
      assert |l + r| == |l| + |r|;
      assert Keys(t) == {t.key} + (l + r);
    }
  }

  // ---------------------------------------------------------------------------
  // Insert and the K_VALUE rule

  /** How the closeness test of Insert does its arithmetic. */
  datatype Arithmetic = Wrapped | Exact

  /**
   * The test that makes Insert return the node unchanged:
   * key - x < K_VALUE and key - x > -K_VALUE, in Java int arithmetic or exactly.
   */
  predicate TooClose(mode: Arithmetic, key: int, x: int, k: int) {
    match mode
    case Exact => key - x < k && key - x > -k
    case Wrapped => WrapInt32(key - x) < k && WrapInt32(key - x) > WrapInt32(-k)
  }

  /** y and x are at least k apart (always so when k <= 0). */
  predicate Distant(y: int, x: int, k: int) {
    !(y - x < k && y - x > -k)
  }

  /** Every two different keys are at least k apart: what the K_VALUE rule promises. */
  ghost predicate Separated(t: Tree, k: int) {
    forall a, b :: a in Keys(t) && b in Keys(t) && a != b ==> Distant(a, b, k)
  }

  /** x is at least k away from every key of t. */
  ghost predicate FarFromAll(t: Tree, x: int, k: int) {
    forall y :: y in Keys(t) ==> Distant(y, x, k)
  }

  /**
   * Insert(nKeyValue, objNode): a new node at the null reached; the node itself when
   * the key is too close to its key; otherwise walk left or right (staying put on an
   * equal key) and recompute the size.
   */
  function Insert(x: int, t: Tree, k: int, mode: Arithmetic): (r: Tree)
    ensures r.Node?
    decreases t
  {
    if t.Nil? then NewNode(x)
    else if TooClose(mode, t.key, x, k) then t
    else if x < t.key then SetTreeSize(SetLeftNode(t, Insert(x, GetLeftNode(t), k, mode)))
    else if x > t.key then SetTreeSize(SetRightNode(t, Insert(x, GetRightNode(t), k, mode)))
    else SetTreeSize(t)
  }

  /** A key that is too close exactly is too close in Java arithmetic as well. */
  lemma {:induction false} CloseWrapped(key: int, x: int, k: int)
    requires k <= IntMax && TooClose(Exact, key, x, k)
    ensures TooClose(Wrapped, key, x, k)
  {
  }

  /** Insert adds x, which was absent, or nothing. */
  lemma {:induction false} InsertKeys(x: int, t: Tree, k: int, mode: Arithmetic)
    requires Ordered(t)
    ensures var r := Insert(x, t, k, mode);
      Keys(r) == Keys(t) || (x !in Keys(t) && Keys(r) == Keys(t) + {x})
    decreases t
  {
    if t.Node? && !TooClose(mode, t.key, x, k) {
      if x < t.key {
        InsertKeys(x, t.left, k, mode);
      } else if x > t.key {
        InsertKeys(x, t.right, k, mode);
      }
    }
  }

  /** Insert keeps the search tree order. */
  lemma {:induction false} InsertOrdered(x: int, t: Tree, k: int, mode: Arithmetic)
    requires Ordered(t)
    ensures Ordered(Insert(x, t, k, mode))
    decreases t
  {
    if t.Node? && !TooClose(mode, t.key, x, k) {
      if x < t.key {
        InsertOrdered(x, t.left, k, mode);
        InsertKeys(x, t.left, k, mode);
      } else if x > t.key {
        InsertOrdered(x, t.right, k, mode);
        InsertKeys(x, t.right, k, mode);
      }
    }
  }

  /** Insert keeps every stored size equal to its subtree's node count. */
  lemma {:induction false} InsertSizes(x: int, t: Tree, k: int, mode: Arithmetic)
    requires SizesOk(t)
    ensures SizesOk(Insert(x, t, k, mode))
    decreases t
  {
    if t.Node? && !TooClose(mode, t.key, x, k) {
      if x < t.key {
        InsertSizes(x, t.left, k, mode);
      } else if x > t.key {
        InsertSizes(x, t.right, k, mode);
      }
    }
  }

  /** Inserting a key already present changes nothing, sizes included. */
  lemma {:induction false} InsertPresent(x: int, t: Tree, k: int, mode: Arithmetic)
    requires Ordered(t) && SizesOk(t) && x in Keys(t)
    ensures Insert(x, t, k, mode) == t
    decreases t
  {
    if !TooClose(mode, t.key, x, k) {
      if x < t.key {
        InsertPresent(x, t.left, k, mode);
      } else if x > t.key {
        InsertPresent(x, t.right, k, mode);
      }
    }
  }

  /**
   * A key Insert adds passed the test at every node of its search path, and the path
   * holds the keys nearest to it, so it is at least k from every key of the tree.
   */
  lemma {:induction false} InsertedIsFar(x: int, t: Tree, k: int, mode: Arithmetic)
    requires Ordered(t) && (mode == Wrapped ==> k <= IntMax)
    requires x in Keys(Insert(x, t, k, mode)) && x !in Keys(t)
    ensures FarFromAll(t, x, k)
    decreases t
  {
    if t.Node? {
      if TooClose(Exact, t.key, x, k) {
        if mode == Wrapped {
          CloseWrapped(t.key, x, k);
        }
        assert false;
      }
      if TooClose(mode, t.key, x, k) {
        assert false;
      }
      if x < t.key {
        InsertKeys(x, t.left, k, mode);
        InsertedIsFar(x, t.left, k, mode);
        assert forall y :: y in Keys(t.right) ==> t.key < y;
      } else {
        InsertKeys(x, t.right, k, mode);
        InsertedIsFar(x, t.right, k, mode);
        assert forall y :: y in Keys(t.left) ==> y < t.key;
      }
    }
  }

  /** With exact arithmetic Insert adds every absent key that is at least k from all keys. */
  lemma {:induction false} ExactInsertAddsFar(x: int, t: Tree, k: int)
    requires Ordered(t) && x !in Keys(t) && FarFromAll(t, x, k)
    ensures x in Keys(Insert(x, t, k, Exact))
    decreases t
  {
    if t.Node? {
      assert t.key in Keys(t);
      if x < t.key {
        ExactInsertAddsFar(x, t.left, k);
      } else {
        ExactInsertAddsFar(x, t.right, k);
      }
    }
  }

  /** Insert keeps the keys at least k apart (as written too, for an int K_VALUE). */
  lemma {:induction false} InsertSeparated(x: int, t: Tree, k: int, mode: Arithmetic)
    requires Ordered(t) && Separated(t, k) && (mode == Wrapped ==> k <= IntMax)
    ensures Separated(Insert(x, t, k, mode), k)
  {
    var r := Insert(x, t, k, mode);
    InsertKeys(x, t, k, mode);
    if Keys(r) != Keys(t) {
      InsertedIsFar(x, t, k, mode);
      forall a, b | a in Keys(r) && b in Keys(r) && a != b
        ensures Distant(a, b, k)
      {
        if a == x {
          assert Distant(b, x, k);
        } else if b != x {
          assert a in Keys(t) && b in Keys(t);
        }
      }
    }
  }

  /**
   * As written, a key far from every key can still be refused: for 2147483647 and
   * -2147483643 the int difference wraps round to -6, which is within K_VALUE 10.
   */
  lemma {:induction false} AsWrittenRejectsFarKey()
    ensures var t := NewNode(IntMax);
      FarFromAll(t, IntMin + 5, 10) && Insert(IntMin + 5, t, 10, Wrapped) == t
    ensures IntMin + 5 in Keys(Insert(IntMin + 5, NewNode(IntMax), 10, Exact))
  {
    var t := NewNode(IntMax);
    assert Keys(t) == {IntMax};
    assert WrapInt32(IntMax - (IntMin + 5)) == -6;
  }

  // ---------------------------------------------------------------------------
  // getMaxNode, getMinNode

  /** getMaxNode: null for an empty tree, else the node reached by going right while possible. */
  function MaxNode(t: Tree): (r: Option<Tree>)
    ensures r.None? <==> t.Nil?
    ensures r.Some? ==> r.value.Node? && r.value.right.Nil? && r.value.key in Keys(t)
    decreases t
  {
    if t.Nil? then None
    else if GetRightNode(t).Nil? then Some(t)
    else MaxNode(GetRightNode(t))
  }

  /** getMinNode: null for an empty tree, else the node reached by going left while possible. */
  function MinNode(t: Tree): (r: Option<Tree>)
    ensures r.None? <==> t.Nil?
    ensures r.Some? ==> r.value.Node? && r.value.left.Nil? && r.value.key in Keys(t)
    decreases t
  {
    if t.Nil? then None
    else if GetLeftNode(t).Nil? then Some(t)
    else MinNode(GetLeftNode(t))
  }

  /** In an ordered tree getMaxNode holds the largest key. */
  lemma {:induction false} MaxNodeIsMax(t: Tree)
    requires Ordered(t) && t.Node?
    ensures forall y :: y in Keys(t) ==> y <= MaxNode(t).value.key
    decreases t
  {
    if t.right.Node? {
      MaxNodeIsMax(t.right);
      assert t.key < MaxNode(t).value.key;
    }
  }

  /** In an ordered tree getMinNode holds the smallest key. */
  lemma {:induction false} MinNodeIsMin(t: Tree)
    requires Ordered(t) && t.Node?
    ensures forall y :: y in Keys(t) ==> MinNode(t).value.key <= y
    decreases t
  {
    if t.left.Node? {
      MinNodeIsMin(t.left);
      assert MinNode(t).value.key < t.key;
    }
  }

  // ---------------------------------------------------------------------------
  // Delete

  /**
   * Delete(nKeyValue, objNode): walk to the key; a leaf goes, a node with one child is
   * replaced by that child, and a node with two children by a new node holding the
   * maximum of its left subtree, which is then deleted from that subtree.
   */
  function Delete(x: int, t: Tree): (r: Tree)
    decreases t
  {
    if t.Nil? then Nil
    else if x < t.key then SetTreeSize(SetLeftNode(t, Delete(x, GetLeftNode(t))))
    else if x > t.key then SetTreeSize(SetRightNode(t, Delete(x, GetRightNode(t))))
    else if t.left.Nil? && t.right.Nil? then Nil
    else if t.left.Nil? then t.right
    else if t.right.Nil? then t.left
    else
      var m := MaxNode(GetLeftNode(t)).value.key;
      var replacement := SetRightNode(SetLeftNode(NewNode(m), GetLeftNode(t)), GetRightNode(t));
      SetTreeSize(SetLeftNode(replacement, Delete(m, t.left)))
  }

  /** A node with two children is replaced by the maximum of its left subtree. */
  lemma {:induction false} DeleteTwoChildren(t: Tree)
    requires t.Node? && t.left.Node? && t.right.Node?
    ensures var r, m := Delete(t.key, t), MaxNode(t.left).value.key;
      r.Node? && r.key == m && r.left == Delete(m, t.left) && r.right == t.right
  {
  }

  /** Delete removes the key and keeps the others. */
  lemma {:induction false} DeleteKeys(x: int, t: Tree)
    requires Ordered(t)
    ensures Keys(Delete(x, t)) == Keys(t) - {x}
    decreases t
  {
    if t.Node? {
      if x < t.key {
        DeleteKeys(x, t.left);
        assert x !in Keys(t.right);
      } else if x > t.key {
        DeleteKeys(x, t.right);
        assert x !in Keys(t.left);
      } else if t.left.Node? && t.right.Node? {
        var m := MaxNode(t.left).value.key;
        DeleteKeys(m, t.left);
        assert t.key !in Keys(t.left) && t.key !in Keys(t.right);
        assert Keys(Delete(x, t)) == {m} + (Keys(t.left) - {m}) + Keys(t.right);
      } else {
        assert t.key !in Keys(t.left) && t.key !in Keys(t.right);
      }
    }
  }

  /** Delete keeps the search tree order. */
  lemma {:induction false} DeleteOrdered(x: int, t: Tree)
    requires Ordered(t)
    ensures Ordered(Delete(x, t))
    decreases t
  {
    if t.Node? {
      if x < t.key {
        DeleteOrdered(x, t.left);
        DeleteKeys(x, t.left);
      } else if x > t.key {
        DeleteOrdered(x, t.right);
        DeleteKeys(x, t.right);
      } else if t.left.Node? && t.right.Node? {
        var m := MaxNode(t.left).value.key;
        DeleteOrdered(m, t.left);
        DeleteKeys(m, t.left);
        MaxNodeIsMax(t.left);
        ReplacementOrdered(t, m, Delete(m, t.left));
      }
    }
  }

  /** The replacement node is in order: its new left keys are below m, its right keys above. */
  lemma {:induction false} ReplacementOrdered(t: Tree, m: int, l: Tree)
    requires t.Node? && Ordered(t) && t.right.Node? && Ordered(l)
    requires m in Keys(t.left) && Keys(l) == Keys(t.left) - {m}
    requires forall y :: y in Keys(t.left) ==> y <= m
    ensures Ordered(SetTreeSize(SetLeftNode(SetRightNode(SetLeftNode(NewNode(m), t.left), t.right), l)))
  {
    assert m < t.key;
  }

  /** Delete keeps every stored size equal to its subtree's node count. */
  lemma {:induction false} DeleteSizes(x: int, t: Tree)
    requires SizesOk(t)
    ensures SizesOk(Delete(x, t))
    decreases t
  {
    if t.Node? {
      if x < t.key {
        DeleteSizes(x, t.left);
      } else if x > t.key {
        DeleteSizes(x, t.right);
      } else if t.left.Node? && t.right.Node? {
        DeleteSizes(MaxNode(t.left).value.key, t.left);
      }
    }
  }

  /** Deleting an absent key changes nothing. */
  lemma {:induction false} DeleteAbsent(x: int, t: Tree)
    requires SizesOk(t) && x !in Keys(t)
    ensures Delete(x, t) == t
    decreases t
  {
    if t.Node? {
      if x < t.key {
        DeleteAbsent(x, t.left);
      } else {
        DeleteAbsent(x, t.right);
      }
    }
  }

  // ---------------------------------------------------------------------------
  // Search

  /** Search(objNode, nKeyValue): the node holding the key, or null, by walking down. */
  function Search(t: Tree, x: int): (r: Option<Tree>)
    ensures r.Some? ==> r.value.Node? && r.value.key == x
    decreases t
  {
    if t.Nil? then None
    else if x == t.key then Some(t)
    else if x < t.key then Search(GetLeftNode(t), x)
    else Search(GetRightNode(t), x)
  }

  /** In an ordered tree Search finds a node of the tree exactly when the key is present. */
  lemma {:induction false} SearchFinds(t: Tree, x: int)
    requires Ordered(t)
    ensures Search(t, x).Some? <==> x in Keys(t)
    ensures Search(t, x).Some? ==> Search(t, x).value in InOrder(t)
    decreases t
  {
    if t.Node? && x != t.key {
      if x < t.key {
        SearchFinds(t.left, x);
        assert x !in Keys(t.right);
      } else {
        SearchFinds(t.right, x);
        assert x !in Keys(t.left);
      }
    }
  }

  // ---------------------------------------------------------------------------
  // Ranks

  /** Rank(objNode, list): the nodes in order, left subtree, node, right subtree. */
  function InOrder(t: Tree): (r: seq<Tree>)
    ensures |r| == Count(t)
    ensures forall i :: 0 <= i < |r| ==> r[i].Node?
    decreases t
  {
    if t.Nil? then [] else InOrder(t.left) + [t] + InOrder(t.right)
  }

  /** The in-order list holds the nodes of every key and no others. */
  lemma {:induction false} InOrderKeys(t: Tree)
    ensures forall i :: 0 <= i < |InOrder(t)| ==> InOrder(t)[i].key in Keys(t)
    ensures forall y :: y in Keys(t) ==> exists i :: 0 <= i < |InOrder(t)| && InOrder(t)[i].key == y
    decreases t
  {
    if t.Node? {
      InOrderKeys(t.left);
      InOrderKeys(t.right);
      var l, r, n := InOrder(t.left), InOrder(t.right), Count(t.left);
      var s := InOrder(t);
      assert s == l + [t] + r;
      forall i | 0 <= i < |s|
        ensures s[i].key in Keys(t)
      {
        if i < n {
          assert s[i] == l[i];
        } else if i > n {
          assert s[i] == r[i - n - 1];
        }
      }
      forall y | y in Keys(t)
        ensures exists i :: 0 <= i < |s| && s[i].key == y
      {
        if y in Keys(t.left) {
          var i :| 0 <= i < |l| && l[i].key == y;
          assert s[i] == l[i];
        } else if y in Keys(t.right) {
          var i :| 0 <= i < |r| && r[i].key == y;
          assert s[n + 1 + i] == r[i];
        } else {
          assert s[n] == t;
        }
      }
    }
  }

  /** In an ordered tree the in-order keys strictly increase, so rank i has i smaller keys. */
  lemma {:induction false} InOrderSorted(t: Tree)
    requires Ordered(t)
    ensures forall i, j :: 0 <= i < j < |InOrder(t)| ==> InOrder(t)[i].key < InOrder(t)[j].key
    decreases t
  {
    if t.Node? {
      InOrderSorted(t.left);
      InOrderSorted(t.right);
      InOrderKeys(t.left);
      InOrderKeys(t.right);
      var l, r, n := InOrder(t.left), InOrder(t.right), Count(t.left);
      var s := InOrder(t);
      assert s == l + [t] + r;
      forall i, j | 0 <= i < j < |s|
        ensures s[i].key < s[j].key
      {
        if j < n {
          assert s[i] == l[i] && s[j] == l[j];
        } else if i > n {
          assert s[i] == r[i - n - 1] && s[j] == r[j - n - 1];
        } else {
          assert s[i].key <= t.key <= s[j].key by {
            if i < n {
              assert s[i] == l[i];
            }
            if j > n {
              assert s[j] == r[j - n - 1];
            }
          }
        }
      }
    }
  }

  /** Each node's rank is its position in the in-order list. */
  ghost predicate Ranked(t: Tree) {
    forall i :: 0 <= i < |InOrder(t)| ==> InOrder(t)[i].rank == i
  }

  /**
   * adjustRanks from position base on: the node at in-order position i gets rank
   * base + i, and nothing else changes.
   */
  function Rerank(t: Tree, base: int): (r: Tree)
    decreases t
  {
    if t.Nil? then Nil
    else
      var n := Count(t.left);
      Node(t.key, t.size, base + n, Rerank(t.left, base), Rerank(t.right, base + n + 1))
  }

  /** adjustRanks: the ranks are the in-order positions, from 0. */
  function AdjustRanks(t: Tree): Tree {
    Rerank(t, 0)
  }

  /** Re-ranking keeps the shape, the keys, the sizes and the order. */
  lemma {:induction false} RerankKeeps(t: Tree, base: int)
    ensures var r := Rerank(t, base);
      Count(r) == Count(t) && Keys(r) == Keys(t) && (r.Node? <==> t.Node?) &&
      (SizesOk(t) ==> SizesOk(r)) && (Ordered(t) ==> Ordered(r))
    decreases t
  {
    if t.Node? {
      RerankKeeps(t.left, base);
      RerankKeeps(t.right, base + Count(t.left) + 1);
    }
  }

  /** After re-ranking, the node at in-order position i has the key it had and rank base + i. */
  lemma {:induction false} RerankInOrder(t: Tree, base: int)
    ensures var s, s' := InOrder(t), InOrder(Rerank(t, base));
      |s'| == |s| && forall i :: 0 <= i < |s| ==> s'[i].key == s[i].key && s'[i].rank == base + i
    decreases t
  {
    if t.Node? {
      var n := Count(t.left);
      RerankKeeps(t.left, base);
      RerankInOrder(t.left, base);
      RerankInOrder(t.right, base + n + 1);
      var l, rt := InOrder(Rerank(t.left, base)), InOrder(Rerank(t.right, base + n + 1));
      var s, s' := InOrder(t), InOrder(Rerank(t, base));
      assert s == InOrder(t.left) + [t] + InOrder(t.right);
      assert s' == l + [Rerank(t, base)] + rt;
      forall i | 0 <= i < |s|
        ensures s'[i].key == s[i].key && s'[i].rank == base + i
      {
        if i < n {
          assert s'[i] == l[i] && s[i] == InOrder(t.left)[i];
        } else if i > n {
          assert s'[i] == rt[i - n - 1] && s[i] == InOrder(t.right)[i - n - 1];
        }
      }
    }
  }

  /** After adjustRanks every node's rank is its in-order index. */
  lemma {:induction false} AdjustRanksRanked(t: Tree)
    ensures Ranked(AdjustRanks(t))
  {
    RerankInOrder(t, 0);
  }

  // ---------------------------------------------------------------------------
  // BST

  /** A BST object: the root and K_VALUE. */
  datatype Bst = Bst(root: Tree, kValue: int)

  /** The invariant every public operation keeps. */
  ghost predicate Valid(b: Bst) {
    Ordered(b.root) && SizesOk(b.root) && Ranked(b.root)
  }

  /** BST(): an empty tree with K_VALUE 0. */
  function NewBst(): (b: Bst)
    ensures Valid(b) && IsEmpty(b) && GetK(b) == 0
  {
    Bst(Nil, 0)
  }

  /** BST(k): an empty tree with K_VALUE k. */
  function NewBstWithK(k: int): (b: Bst)
    ensures Valid(b) && IsEmpty(b) && GetK(b) == k
  {
    Bst(Nil, k)
  }

  function IsEmpty(b: Bst): bool {
    b.root.Nil?
  }

  function SetK(b: Bst, k: int): (r: Bst)
    ensures GetK(r) == k && r.root == b.root
  {
    b.(kValue := k)
  }

  function GetK(b: Bst): int {
    b.kValue
  }

  /** insert(nKeyValue) as written: Insert with Java int arithmetic, then adjustRanks. */
  function InsertKeyAsWritten(b: Bst, x: int): Bst {
    Bst(AdjustRanks(Insert(x, b.root, b.kValue, Wrapped)), b.kValue)
  }

  /** insert(nKeyValue) with the closeness test computed exactly. */
  function InsertKey(b: Bst, x: int): Bst {
    Bst(AdjustRanks(Insert(x, b.root, b.kValue, Exact)), b.kValue)
  }

  /** Delete(nKeyValue): Delete from the root, then adjustRanks. */
  function DeleteKey(b: Bst, x: int): Bst {
    Bst(AdjustRanks(Delete(x, b.root)), b.kValue)
  }

  /**
   * insert keeps the tree valid and its keys at least K_VALUE apart, and adds x exactly
   * when x is absent and at least K_VALUE from every key.
   */
  lemma {:induction false} InsertKeyValid(b: Bst, x: int)
    requires Valid(b) && Separated(b.root, b.kValue)
    ensures var r := InsertKey(b, x);
      Valid(r) && Separated(r.root, b.kValue) &&
      (Keys(r.root) == if x !in Keys(b.root) && FarFromAll(b.root, x, b.kValue)
                       then Keys(b.root) + {x} else Keys(b.root))
  {
    var t := Insert(x, b.root, b.kValue, Exact);
    InsertKeys(x, b.root, b.kValue, Exact);
    InsertOrdered(x, b.root, b.kValue, Exact);
    InsertSizes(x, b.root, b.kValue, Exact);
    InsertSeparated(x, b.root, b.kValue, Exact);
    RerankKeeps(t, 0);
    AdjustRanksRanked(t);
    if x !in Keys(b.root) && FarFromAll(b.root, x, b.kValue) {
      ExactInsertAddsFar(x, b.root, b.kValue);
    } else if x !in Keys(b.root) && x in Keys(t) {
      InsertedIsFar(x, b.root, b.kValue, Exact);
    }
  }

  /**
   * insert as written, with Java int arithmetic in the closeness test, for an int K_VALUE:
   * the tree stays valid and its keys at least K_VALUE apart, and it either keeps its keys
   * or gains x, which was absent and at least K_VALUE from every key.
   */
  lemma {:induction false} InsertKeyAsWrittenValid(b: Bst, x: int)
    requires Valid(b) && Separated(b.root, b.kValue) && b.kValue <= IntMax
    ensures var r := InsertKeyAsWritten(b, x);
      Valid(r) && Separated(r.root, b.kValue) &&
      (Keys(r.root) == Keys(b.root) ||
       (x !in Keys(b.root) && FarFromAll(b.root, x, b.kValue) && Keys(r.root) == Keys(b.root) + {x}))
  {
    var t := Insert(x, b.root, b.kValue, Wrapped);
    InsertKeys(x, b.root, b.kValue, Wrapped);
    InsertOrdered(x, b.root, b.kValue, Wrapped);
    InsertSizes(x, b.root, b.kValue, Wrapped);
    InsertSeparated(x, b.root, b.kValue, Wrapped);
    RerankKeeps(t, 0);
    AdjustRanksRanked(t);
    if x !in Keys(b.root) && x in Keys(t) {
      InsertedIsFar(x, b.root, b.kValue, Wrapped);
    }
  }

  /** Delete keeps the tree valid and removes exactly the key. */
  lemma {:induction false} DeleteKeyValid(b: Bst, x: int)
    requires Valid(b)
    ensures var r := DeleteKey(b, x);
      Valid(r) && Keys(r.root) == Keys(b.root) - {x} && Count(r.root) == |Keys(r.root)|
  {
    var t := Delete(x, b.root);
    DeleteKeys(x, b.root);
    DeleteOrdered(x, b.root);
    DeleteSizes(x, b.root);
    RerankKeeps(t, 0);
    AdjustRanksRanked(t);
    CountKeys(AdjustRanks(t));
  }
}

=== FILE: caesar.dfy ===
/**
 * The integer part of CaesarCipher: letter codes, the shift of one letter, encode and
 * decode of a string, letter counts, list rotation and first position.
 *
 * A Java char is a UTF-16 code unit (Char16) and a String is a sequence of them.  Letters
 * and lower case are the ASCII ones, as the javadoc of shift asks.  The code as written
 * consults Java's Unicode tables, which are a parameter of ShiftAsWritten, EncodeAsWritten
 * and DecodeAsWritten; on other letters such as 'é' it breaks the decode/encode round trip.
 */
module CaesarCipher {
  import opened Common

  newtype Char16 = x: int | 0 <= x < 0x1_0000

  const LowerA: Char16 := 97
  const LowerZ: Char16 := 122
  const UpperA: Char16 := 65
  const UpperZ: Char16 := 90

  /** NOT_A_LETTER, Integer.MAX_VALUE. */
  const NotALetter: int := IntMax

  /** Character.isLowerCase. */
  predicate IsLower(c: Char16) {
    LowerA <= c <= LowerZ
  }

  predicate IsUpper(c: Char16) {
    UpperA <= c <= UpperZ
  }

  /** Character.isAlphabetic. */
  predicate IsAlpha(c: Char16) {
    IsLower(c) || IsUpper(c)
  }

  /** Character.toLowerCase. */
  function ToLower(c: Char16): (r: Char16)
    ensures IsAlpha(c) ==> IsLower(r)
  {
    if IsUpper(c) then c + (LowerA - UpperA) else c
  }

  /** let2nat: 0..25 for a letter of either case, NOT_A_LETTER otherwise. */
  function Let2Nat(c: Char16): (n: int)
    ensures IsAlpha(c) <==> 0 <= n < 26
    ensures !IsAlpha(c) <==> n == NotALetter
    ensures IsLower(c) ==> c == LowerA + n as Char16
  {
    if !IsAlpha(c) then NotALetter else (ToLower(c) - LowerA) as int
  }

  /** nat2let: (char)(code + 'a'), the cast keeping the low 16 bits. */
  function Nat2Let(code: int): (c: Char16)
    ensures 0 <= code < 26 ==> IsLower(c) && Let2Nat(c) == code
  {
    ((code + LowerA as int) % 0x1_0000) as Char16
  }

  /** nat2let inverts let2nat on lower-case letters. */
  lemma {:induction false} LetterRoundTrip(c: Char16)
    requires IsLower(c)
    ensures Nat2Let(Let2Nat(c)) == c
  {
  }

  /**
   * shift(shftAmt, c): non-letters unchanged; a letter of either case becomes the
   * lower-case letter shftAmt places on, wrapping modulo 26, as long as the Java int
   * sum does not overflow and a left shift goes back at most 26 places.
   */
  function Shift(shftAmt: int, c: Char16): (r: Char16)
    requires IntMin <= shftAmt <= IntMax
    ensures !IsAlpha(c) ==> r == c
    ensures IsAlpha(c) && -26 <= shftAmt <= IntMax - 25 ==>
      IsLower(r) && Let2Nat(r) == (Let2Nat(c) + shftAmt) % 26
  {
    if !IsAlpha(c) then c
    else if shftAmt < 0 && Let2Nat(c) + shftAmt < 0 then
      Nat2Let(26 + (Let2Nat(c) + shftAmt))
    else
      var sum := WrapInt32(Let2Nat(c) + shftAmt);
      assert sum >= 0 ==> TruncRem(sum, 26) == sum % 26;
      Nat2Let(TruncRem(sum, 26))
  }

  /** The loop of encode and decode: every lower-case character is shifted. */
  function ShiftLowers(shftAmt: int, s: seq<Char16>): (r: seq<Char16>)
    requires IntMin <= shftAmt <= IntMax
    ensures |r| == |s|
    ensures forall i :: 0 <= i < |s| && !IsLower(s[i]) ==> r[i] == s[i]
    ensures forall i :: 0 <= i < |s| && IsLower(s[i]) ==> r[i] == Shift(shftAmt, s[i])
  {
    seq(|s|, i requires 0 <= i < |s| => if IsLower(s[i]) then Shift(shftAmt, s[i]) else s[i])
  }

  /**
   * encode(shftAmt, str): str itself when shftAmt < 1 or str is empty; otherwise each
   * lower-case letter moves shftAmt places on, and nothing else changes.
   */
  function Encode(shftAmt: int, s: seq<Char16>): (r: seq<Char16>)
    requires IntMin <= shftAmt <= IntMax
    ensures shftAmt < 1 || |s| < 1 ==> r == s
    ensures |r| == |s| && forall i :: 0 <= i < |s| && !IsLower(s[i]) ==> r[i] == s[i]
    ensures forall i :: 0 <= i < |s| && IsLower(s[i]) && 1 <= shftAmt <= IntMax - 25 ==>
      IsLower(r[i]) && Let2Nat(r[i]) == (Let2Nat(s[i]) + shftAmt) % 26
  {
    if shftAmt < 1 || |s| < 1 then s else ShiftLowers(shftAmt, s)
  }

  /**
   * decode(shftAmt, str): str itself when shftAmt < 1 or str is empty; otherwise each
   * lower-case letter moves shftAmt places back (for shftAmt up to 26), nothing else changes.
   */
  function Decode(shftAmt: int, s: seq<Char16>): (r: seq<Char16>)
    requires IntMin <= shftAmt <= IntMax
    ensures shftAmt < 1 || |s| < 1 ==> r == s
    ensures |r| == |s| && forall i :: 0 <= i < |s| && !IsLower(s[i]) ==> r[i] == s[i]
    ensures forall i :: 0 <= i < |s| && IsLower(s[i]) && 1 <= shftAmt <= 26 ==>
      IsLower(r[i]) && Let2Nat(r[i]) == (Let2Nat(s[i]) - shftAmt) % 26
  {
    if shftAmt < 1 || |s| < 1 then s else ShiftLowers(0 - shftAmt, s)
  }

  /** Moving k places on and k places back, modulo 26, returns to the start. */
  lemma {:induction false} ModBack(l: int, k: int)
    requires 0 <= l < 26 && 1 <= k <= 26
    ensures ((l + k) % 26 - k) % 26 == l
    ensures ((l - k) % 26 + k) % 26 == l
  {
    if l + k < 26 {
      DivModUnique(l + k, 26, 0, l + k);
    } else {
      DivModUnique(l + k, 26, 1, l + k - 26);
    }
    DivModUnique(l, 26, 0, l);
    if l - k >= 0 {
      DivModUnique(l - k, 26, 0, l - k);
    } else {
      DivModUnique(l - k, 26, -1, l - k + 26);
    }
    DivModUnique(l - 26, 26, -1, l);
  }

  /** Shifting a lower-case letter right and then left by the same 1..26 places restores it. */
  lemma {:induction false} ShiftRoundTrip(k: int, c: Char16)
    requires 1 <= k <= 26 && IsLower(c)
    ensures Shift(-k, Shift(k, c)) == c && Shift(k, Shift(-k, c)) == c
  {
    var l := Let2Nat(c);
    ModBack(l, k);
    var e := Shift(k, c);
    assert Let2Nat(e) == (l + k) % 26;
    SameCode(Shift(-k, e), c);
    var d := Shift(-k, c);
    assert Let2Nat(d) == (l - k) % 26;
    SameCode(Shift(k, d), c);
  }

  /** Two lower-case letters with the same code are the same letter. */
  lemma {:induction false} SameCode(a: Char16, b: Char16)
    requires IsLower(a) && IsLower(b) && Let2Nat(a) == Let2Nat(b)
    ensures a == b
  {
  }

  /** decode undoes encode, and encode undoes decode, for shift factors 1..26. */
  lemma {:induction false} CipherRoundTrip(k: int, s: seq<Char16>)
    requires 1 <= k <= 26
    ensures Decode(k, Encode(k, s)) == s
    ensures Encode(k, Decode(k, s)) == s
  {
    forall i | 0 <= i < |s| && IsLower(s[i])
      ensures Decode(k, Encode(k, s))[i] == s[i] && Encode(k, Decode(k, s))[i] == s[i]
    {
      ShiftRoundTrip(k, s[i]);
    }
  }

  /** Past 26 places back decode leaves the alphabet: decode(27, "a") is "`", not "z". */
  lemma {:induction false} DecodePastAlphabet()
    ensures Decode(27, [LowerA]) == [LowerA - 1]
    ensures Encode(27, Decode(27, [LowerA])) != [LowerA]
  {
    assert ShiftLowers(-27, [LowerA])[0] == Shift(-27, LowerA);
  }

  // ---------------------------------------------------------------------------
  // Letters as Java's Unicode tables see them

  /**
   * The answers of Character.isAlphabetic, isLowerCase and toLowerCase.  They come from
   * the Unicode tables, which are not part of this model, so they are a parameter fixed
   * only on ASCII, where they agree with IsAlpha, IsLower and ToLower.
   */
  datatype CharTables = CharTables(alphabetic: Char16 -> bool, lowerCase: Char16 -> bool,
                                   toLowerCase: Char16 -> Char16)

  predicate AsciiAgrees(u: CharTables) {
    forall c: Char16 | c < 128 ::
      u.alphabetic(c) == IsAlpha(c) && u.lowerCase(c) == IsLower(c) && u.toLowerCase(c) == ToLower(c)
  }

  /** let2nat as written: toLowerCase(c) - 'a' for every character isAlphabetic accepts. */
  function Let2NatAsWritten(u: CharTables, c: Char16): (n: int)
    ensures !u.alphabetic(c) <==> n == NotALetter
  {
    if !u.alphabetic(c) then NotALetter else u.toLowerCase(c) as int - LowerA as int
  }

  /** shift as written: every character isAlphabetic accepts is moved into 'a'..'z'. */
  function ShiftAsWritten(u: CharTables, shftAmt: int, c: Char16): (r: Char16)
    requires IntMin <= shftAmt <= IntMax
    ensures !u.alphabetic(c) ==> r == c
    ensures u.alphabetic(c) && 0 <= shftAmt && 0 <= Let2NatAsWritten(u, c) + shftAmt <= IntMax ==>
      IsLower(r) && Let2Nat(r) == (Let2NatAsWritten(u, c) + shftAmt) % 26
  {
    if !u.alphabetic(c) then c
    else
      var sum := WrapInt32(Let2NatAsWritten(u, c) + shftAmt);
      if shftAmt < 0 && sum < 0 then Nat2Let(26 + sum)
      else
        assert sum >= 0 ==> TruncRem(sum, 26) == sum % 26;
        Nat2Let(TruncRem(sum, 26))
  }

  /** encode and decode as written: each character isLowerCase accepts is shifted. */
  function ShiftLowersAsWritten(u: CharTables, shftAmt: int, s: seq<Char16>): (r: seq<Char16>)
    requires IntMin <= shftAmt <= IntMax
    ensures |r| == |s|
    ensures forall i :: 0 <= i < |s| ==>
      r[i] == if u.lowerCase(s[i]) then ShiftAsWritten(u, shftAmt, s[i]) else s[i]
  {
    seq(|s|, i requires 0 <= i < |s| => if u.lowerCase(s[i]) then ShiftAsWritten(u, shftAmt, s[i]) else s[i])
  }

  function EncodeAsWritten(u: CharTables, shftAmt: int, s: seq<Char16>): (r: seq<Char16>)
    requires IntMin <= shftAmt <= IntMax
    ensures shftAmt < 1 || |s| < 1 ==> r == s
    ensures |r| == |s| && forall i :: 0 <= i < |s| && !u.lowerCase(s[i]) ==> r[i] == s[i]
  {
    if shftAmt < 1 || |s| < 1 then s else ShiftLowersAsWritten(u, shftAmt, s)
  }

  function DecodeAsWritten(u: CharTables, shftAmt: int, s: seq<Char16>): (r: seq<Char16>)
    requires IntMin <= shftAmt <= IntMax
    ensures shftAmt < 1 || |s| < 1 ==> r == s
    ensures |r| == |s| && forall i :: 0 <= i < |s| && !u.lowerCase(s[i]) ==> r[i] == s[i]
  {
    if shftAmt < 1 || |s| < 1 then s else ShiftLowersAsWritten(u, 0 - shftAmt, s)
  }

  /** On ASCII text the code as written is the model above: Encode, Decode and Shift. */
  lemma {:induction false} AsWrittenAgreesOnAscii(u: CharTables, k: int, s: seq<Char16>)
    requires AsciiAgrees(u) && IntMin <= k <= IntMax
    requires forall i :: 0 <= i < |s| ==> s[i] < 128
    ensures EncodeAsWritten(u, k, s) == Encode(k, s)
    ensures DecodeAsWritten(u, k, s) == Decode(k, s)
  {
    if k >= 1 && |s| >= 1 {
      forall i | 0 <= i < |s|
        ensures EncodeAsWritten(u, k, s)[i] == Encode(k, s)[i]
        ensures DecodeAsWritten(u, k, s)[i] == Decode(k, s)[i]
      {
        ShiftAgreesOnAscii(u, k, s[i]);
        ShiftAgreesOnAscii(u, 0 - k, s[i]);
      }
    }
  }

  lemma {:induction false} ShiftAgreesOnAscii(u: CharTables, k: int, c: Char16)
    requires AsciiAgrees(u) && IntMin <= k <= IntMax && c < 128
    ensures ShiftAsWritten(u, k, c) == Shift(k, c) && u.lowerCase(c) == IsLower(c)
  {
    assert u.alphabetic(c) == IsAlpha(c) && u.toLowerCase(c) == ToLower(c);
    if IsAlpha(c) {
      assert Let2NatAsWritten(u, c) == Let2Nat(c);
    }
  }

  /**
   * As written, a non-ASCII lower-case letter such as 'é' (U+00E9), which Java's tables
   * class as alphabetic, lower case and its own lower case, is encoded as 'j' and then
   * decoded as 'g': the round trip fails.  The model leaves it unshifted both ways.
   */
  lemma {:induction false} AsWrittenShiftsAccented(u: CharTables)
    requires AsciiAgrees(u) && u.alphabetic(0xE9) && u.lowerCase(0xE9) && u.toLowerCase(0xE9) == 0xE9
    ensures EncodeAsWritten(u, 3, [0xE9]) == [106]
    ensures DecodeAsWritten(u, 3, EncodeAsWritten(u, 3, [0xE9])) == [103] != [0xE9]
    ensures Encode(3, [0xE9]) == [0xE9] && Decode(3, Encode(3, [0xE9])) == [0xE9]
  {
    assert Let2NatAsWritten(u, 0xE9) == 136;
    assert TruncRem(139, 26) == 9;
    assert ShiftAsWritten(u, 3, 0xE9) == 106;
    ShiftAgreesOnAscii(u, -3, 106);
    assert Shift(-3, 106) == 103 by {
      assert Let2Nat(106) == 9 && TruncRem(6, 26) == 6;
    }
    assert ShiftLowersAsWritten(u, -3, [106])[0] == 103;
  }

  /** The lower-case characters of s, in order. */
  function LowerPart(s: seq<Char16>): (r: seq<Char16>)
    ensures forall i :: 0 <= i < |r| ==> IsLower(r[i])
    decreases |s|
  {
    if s == [] then []
    else LowerPart(s[..|s| - 1]) + if IsLower(s[|s| - 1]) then [s[|s| - 1]] else []
  }

  /** lowers(str): the number of lower-case characters. */
  method Lowers(s: seq<Char16>) returns (n: int)
    ensures n == |LowerPart(s)|
  {
    n := 0;
    var i := 0;
    while i < |s|
      invariant 0 <= i <= |s| && n == |LowerPart(s[..i])|
    {
      assert s[..i + 1][..i] == s[..i];
      if IsLower(s[i]) {
        n := n + 1;
      }
      i := i + 1;
    }
    assert s[..|s|] == s;
  }

  /** count(c, str): the occurrences of c in str when c is lower case, 0 otherwise. */
  method Count(c: Char16, s: seq<Char16>) returns (n: int)
    ensures n == if IsLower(c) then multiset(s)[c] else 0
  {
    n := 0;
    var i := 0;
    while i < |s|
      invariant 0 <= i <= |s| && n == if IsLower(c) then multiset(s[..i])[c] else 0
    {
      assert s[..i + 1] == s[..i] + [s[i]];
      if IsLower(s[i]) && s[i] == c {
        n := n + 1;
      }
      i := i + 1;
    }
    assert s[..|s|] == s;
  }

  /** The lower-case part holds every lower-case character as often as s does. */
  lemma {:induction false} LowerPartCounts(s: seq<Char16>, c: Char16)
    requires IsLower(c)
    ensures multiset(LowerPart(s))[c] == multiset(s)[c]
    decreases |s|
  {
    if s != [] {
      LowerPartCounts(s[..|s| - 1], c);
      assert s == s[..|s| - 1] + [s[|s| - 1]];
    }
  }

  /** count(c, str) <= lowers(str): a letter occurs at most as often as all lower-case letters. */
  lemma {:induction false} CountAtMostLowers(c: Char16, s: seq<Char16>)
    ensures (if IsLower(c) then multiset(s)[c] else 0) <= |LowerPart(s)|
  {
    if IsLower(c) {
      LowerPartCounts(s, c);
      assert multiset(LowerPart(s))[c] <= |multiset(LowerPart(s))|;
    }
  }

  /** encode keeps the number of lower-case characters for shift factors that do not overflow. */
  lemma {:induction false} EncodeKeepsLowers(k: int, s: seq<Char16>)
    requires IntMin <= k <= IntMax - 25
    ensures |LowerPart(Encode(k, s))| == |LowerPart(s)|
  {
    LowerPartsAlike(s, Encode(k, s));
  }

  lemma {:induction false} LowerPartsAlike(s: seq<Char16>, t: seq<Char16>)
    requires |s| == |t| && forall i :: 0 <= i < |s| ==> (IsLower(s[i]) <==> IsLower(t[i]))
    ensures |LowerPart(s)| == |LowerPart(t)|
    decreases |s|
  {
    if s != [] {
      LowerPartsAlike(s[..|s| - 1], t[..|t| - 1]);
    }
  }

  /**
   * rotate(n, list): the list itself when n is 0, else a new list whose entry i is
   * list[(i + n) % length].  A negative n, or an index + n past Integer.MAX_VALUE, would
   * make Java index out of bounds on a non-empty list.
   */
  function Rotate<T>(n: int, l: seq<T>): (r: seq<T>)
    requires n == 0 || |l| == 0 || (0 < n && n + |l| - 1 <= IntMax)
    ensures n == 0 ==> r == l
    ensures |r| == |l| && forall i :: 0 <= i < |l| ==> r[i] == l[(i + n) % |l|]
  {
    if n == 0 then RotateByZero(l); l else seq(|l|, i requires 0 <= i < |l| => l[(i + n) % |l|])
  }

  /** Reading every entry i at (i + 0) % length gives the list back. */
  lemma {:induction false} RotateByZero<T>(l: seq<T>)
    ensures l == seq(|l|, i requires 0 <= i < |l| => l[(i + 0) % |l|])
  {
    var r := seq(|l|, i requires 0 <= i < |l| => l[(i + 0) % |l|]);
    forall i | 0 <= i < |l|
      ensures r[i] == l[i]
    {
      DivModUnique(i, |l|, 0, i);
    }
  }

  /** Rotating left by n moves the first n entries to the back. */
  lemma {:induction false} RotateSplits<T>(n: int, l: seq<T>)
    requires 0 <= n < |l| && n + |l| <= IntMax
    ensures Rotate(n, l) == l[n..] + l[..n]
  {
    var r, t := Rotate(n, l), l[n..] + l[..n];
    forall i | 0 <= i < |l|
      ensures r[i] == t[i]
    {
      if i + n < |l| {
        DivModUnique(i + n, |l|, 0, i + n);
      } else {
        DivModUnique(i + n, |l|, 1, i + n - |l|);
      }
    }
  }

  /** A rotation by n is undone by a rotation by length - n. */
  lemma {:induction false} RotateBack<T>(n: int, l: seq<T>)
    requires 0 < n < |l| && |l| + |l| <= IntMax
    ensures Rotate(|l| - n, Rotate(n, l)) == l
  {
    forall i | 0 <= i < |l|
      ensures Rotate(|l| - n, Rotate(n, l))[i] == l[i]
    {
      RotateBackAt(n, l, i);
    }
  }

  lemma {:induction false} RotateBackAt<T>(n: int, l: seq<T>, i: int)
    requires 0 < n < |l| && |l| + |l| <= IntMax && 0 <= i < |l|
    ensures Rotate(|l| - n, Rotate(n, l))[i] == l[i]
  {
    var j := BackIndex(|l|, n, i);
    assert Rotate(|l| - n, Rotate(n, l))[i] == Rotate(n, l)[j];
  }

  /** The index that slot i of the back rotation reads from. */
  lemma {:induction false} BackIndex(m: int, n: int, i: int) returns (j: int)
    requires 0 < n < m && 0 <= i < m
    ensures 0 <= j < m && (i + (m - n)) % m == j && (j + n) % m == i
  {
    j := if i < n then i + m - n else i - n;
    DivModUnique(i + (m - n), m, if i < n then 0 else 1, j);
    DivModUnique(j + n, m, if i < n then 1 else 0, i);
  }

  /** position(a, list): the first index holding a, or Integer.MAX_VALUE when a is absent. */
  method Position<T(==)>(a: T, l: seq<T>) returns (r: int)
    requires |l| < IntMax
    ensures r == IntMax <==> a !in l
    ensures r != IntMax ==> 0 <= r < |l| && l[r] == a && a !in l[..r]
  {
    var i := 0;
    while i < |l|
      invariant 0 <= i <= |l| && a !in l[..i]
    {
      if l[i] == a {
        return i;
      }
      assert l[..i + 1] == l[..i] + [l[i]];
      i := i + 1;
    }
    assert l[..|l|] == l;
    return IntMax;
  }
}

=== FILE: candy_store.dfy ===
/**
 * CandyStore.java: the unbounded-knapsack candy purchase BuyCandy and minimum-coin change
 * minCoins, both filling a table indexed by amount of money.  A purchase is a sequence of
 * indices into the inventory (a candy may repeat); change is a sequence of indices into the
 * denominations.  A null inventory is None.  Integers are unbounded: the calorie sums that
 * could overflow a Java int are not modelled.
 */
module CandyStore {
  import opened Common

  datatype Candy = Candy(calories: int, price: int)

  /** The documented inventory: every price is at least one cent. */
  predicate PricedCandies(c: seq<Candy>) {
    forall k :: 0 <= k < |c| ==> c[k].price >= 1
  }

  /** A purchase: indices of candies in the inventory, repeats allowed. */
  predicate IsPurchase(c: seq<Candy>, b: seq<nat>) {
    forall j :: 0 <= j < |b| ==> b[j] < |c|
  }

  function Cost(c: seq<Candy>, b: seq<nat>): int
    requires IsPurchase(c, b)
  {
    if b == [] then 0 else c[b[0]].price + Cost(c, b[1..])
  }

  function Calories(c: seq<Candy>, b: seq<nat>): int
    requires IsPurchase(c, b)
  {
    if b == [] then 0 else c[b[0]].calories + Calories(c, b[1..])
  }

  predicate InBudget(c: seq<Candy>, b: seq<nat>, m: int) {
    IsPurchase(c, b) && Cost(c, b) <= m
  }

  // ---------------------------------------------------------------------------
  // BuyCandy

  /** amount[t]: the best candy over the inventory, or amount[t - 1] when that best is 0. */
  function Amount(c: seq<Candy>, t: nat): int
    requires PricedCandies(c)
    decreases t, |c| + 1
  {
    if t == 0 then 0
    else
      var best := BestCandy(c, t, |c|);
      if best == 0 then Amount(c, t - 1) else best
  }

  /** max after the inner loop has seen candies 0..i-1: a strictly larger affordable total replaces it. */
  function BestCandy(c: seq<Candy>, t: nat, i: nat): int
    requires PricedCandies(c) && i <= |c|
    decreases t, i
  {
    if i == 0 then 0
    else
      var best := BestCandy(c, t, i - 1);
      if t - c[i - 1].price >= 0 then
        var thisCandy := Amount(c, t - c[i - 1].price) + c[i - 1].calories;
        if thisCandy > best then thisCandy else best
      else best
  }

  /** The inner maximum is at least 0 and at least every affordable candy's total. */
  lemma {:induction false} BestCandyBound(c: seq<Candy>, t: nat, i: nat)
    requires PricedCandies(c) && i <= |c|
    ensures BestCandy(c, t, i) >= 0
    ensures forall k :: 0 <= k < i && c[k].price <= t ==>
      Amount(c, t - c[k].price) + c[k].calories <= BestCandy(c, t, i)
    decreases i
  {
    if i > 0 {
      BestCandyBound(c, t, i - 1);
    }
  }

  /** The inner maximum, when positive, is the total of a particular affordable candy. */
  function BestCandyIndex(c: seq<Candy>, t: nat, i: nat): (k: nat)
    requires PricedCandies(c) && i <= |c| && BestCandy(c, t, i) != 0
    ensures k < i && c[k].price <= t && BestCandy(c, t, i) == Amount(c, t - c[k].price) + c[k].calories
    decreases i
  {
    var best := BestCandy(c, t, i - 1);
    if t - c[i - 1].price >= 0 && Amount(c, t - c[i - 1].price) + c[i - 1].calories > best then i - 1
    else BestCandyIndex(c, t, i - 1)
  }

  lemma {:induction false} AmountNonNegative(c: seq<Candy>, t: nat)
    requires PricedCandies(c)
    ensures Amount(c, t) >= 0
    decreases t
  {
    if t > 0 {
      BestCandyBound(c, t, |c|);
      AmountNonNegative(c, t - 1);
    }
  }

  /** A purchase within budget t whose calories are amount[t]. */
  function Purchase(c: seq<Candy>, t: nat): (b: seq<nat>)
    requires PricedCandies(c)
    ensures InBudget(c, b, t) && Calories(c, b) == Amount(c, t)
    decreases t
  {
    if t == 0 then []
    else if BestCandy(c, t, |c|) == 0 then Purchase(c, t - 1)
    else
      var k := BestCandyIndex(c, t, |c|);
      var rest := Purchase(c, t - c[k].price);
      var b := [k] + rest;
      assert b[1..] == rest;
      b
  }

  /** No purchase within budget t has more calories than amount[t]. */
  lemma {:induction false} AmountIsMax(c: seq<Candy>, b: seq<nat>, t: nat)
    requires PricedCandies(c) && InBudget(c, b, t)
    ensures Calories(c, b) <= Amount(c, t)
    decreases |b|
  {
    AmountNonNegative(c, t);
    if b != [] {
      var k := b[0];
      CostNonNegative(c, b[1..]);
      AmountIsMax(c, b[1..], t - c[k].price);
      BestCandyBound(c, t, |c|);
    }
  }

  lemma {:induction false} CostNonNegative(c: seq<Candy>, b: seq<nat>)
    requires PricedCandies(c) && IsPurchase(c, b)
    ensures Cost(c, b) >= |b|
    decreases |b|
  {
    if b != [] {
      CostNonNegative(c, b[1..]);
    }
  }

  /**
   * BuyCandy(m, c): 0 for m == 0 or a null inventory; otherwise the table is filled for
   * every amount up to m, and the result is the largest calorie total of any purchase
   * costing at most m.  With an inventory, a negative m makes the Java table allocation or
   * its lookup of amount[m] throw, so m >= 0 is required there.
   */
  method BuyCandy(m: int, c: Option<seq<Candy>>) returns (r: int)
    requires c.Some? ==> m >= 0 && PricedCandies(c.value)
    ensures m == 0 || c.None? ==> r == 0
    ensures c.Some? ==> exists b :: InBudget(c.value, b, m) && Calories(c.value, b) == r
    ensures c.Some? ==> forall b :: InBudget(c.value, b, m) ==> Calories(c.value, b) <= r
  {
    if m == 0 || c.None? {
      if c.Some? {
        var none: seq<nat> := [];
        assert InBudget(c.value, none, m);
        forall b | InBudget(c.value, b, m)
          ensures Calories(c.value, b) <= 0
        {
          AmountIsMax(c.value, b, 0);
        }
      }
      return 0;
    }
    var candies := c.value;
    var amount: seq<int> := [0];
    var thisAmount := 1;
    while thisAmount <= m
      invariant 1 <= thisAmount <= m + 1 && |amount| == thisAmount
      invariant forall t :: 0 <= t < thisAmount ==> amount[t] == Amount(candies, t)
    {
      var max := 0;
      var i := 0;
      while i < |candies|
        invariant 0 <= i <= |candies| && max == BestCandy(candies, thisAmount, i)
      {
        var candy := candies[i];
        if thisAmount - candy.price >= 0 {
          var thisCandy := amount[thisAmount - candy.price] + candy.calories;
          max := if thisCandy > max then thisCandy else max;
        }
        i := i + 1;
      }
      var value := max;
      if value == 0 {
        value := amount[thisAmount - 1];
      }
      amount := amount + [value];
      thisAmount := thisAmount + 1;
    }
    r := amount[m];
    var w := Purchase(candies, m);
    forall b | InBudget(candies, b, m)
      ensures Calories(candies, b) <= r
    {
      AmountIsMax(candies, b, m);
    }
  }

  // ---------------------------------------------------------------------------
  // minCoins

  /** The denominations the table can use: every coin is worth at least one cent. */
  predicate PositiveCoins(d: seq<int>) {
    forall k :: 0 <= k < |d| ==> d[k] >= 1
  }

  /** Change: indices into the denominations, repeats allowed. */
  predicate IsChange(d: seq<int>, b: seq<nat>) {
    forall j :: 0 <= j < |b| ==> b[j] < |d|
  }

  function Total(d: seq<int>, b: seq<nat>): int
    requires IsChange(d, b)
  {
    if b == [] then 0 else d[b[0]] + Total(d, b[1..])
  }

  predicate Makes(d: seq<int>, b: seq<nat>, n: int) {
    IsChange(d, b) && Total(d, b) == n
  }

  /** amount[t] of minCoins: 0 for t == 0, else the inner minimum over the coins. */
  function Coins(d: seq<int>, t: nat): int
    requires PositiveCoins(d)
    decreases t, |d| + 1
  {
    if t == 0 then 0 else FewestCoins(d, t, |d|)
  }

  /**
   * min after the inner loop has seen coins 0..i-1: it starts at (int)+infinity, which is
   * Integer.MAX_VALUE, and a usable coin whose remainder needs fewer coins than min sets it
   * to that count plus one.
   */
  function FewestCoins(d: seq<int>, t: nat, i: nat): int
    requires PositiveCoins(d) && i <= |d|
    decreases t, i
  {
    if i == 0 then IntMax
    else
      var min := FewestCoins(d, t, i - 1);
      if t - d[i - 1] >= 0 && Coins(d, t - d[i - 1]) < min then Coins(d, t - d[i - 1]) + 1 else min
  }

  /** Table entries lie in [0, Integer.MAX_VALUE], so the + 1 never overflows. */
  lemma {:induction false} CoinsRange(d: seq<int>, t: nat)
    requires PositiveCoins(d)
    ensures 0 <= Coins(d, t) <= IntMax
    decreases t, |d| + 1
  {
    if t > 0 {
      FewestCoinsRange(d, t, |d|);
    }
  }

  lemma {:induction false} FewestCoinsRange(d: seq<int>, t: nat, i: nat)
    requires PositiveCoins(d) && i <= |d|
    ensures 0 <= FewestCoins(d, t, i) <= IntMax
    decreases t, i
  {
    if i > 0 {
      FewestCoinsRange(d, t, i - 1);
      if t - d[i - 1] >= 0 {
        CoinsRange(d, t - d[i - 1]);
      }
    }
  }

  /** The inner minimum is at most one more than any usable coin's reachable remainder. */
  lemma {:induction false} FewestCoinsBound(d: seq<int>, t: nat, i: nat, k: nat)
    requires PositiveCoins(d) && k < i <= |d| && d[k] <= t && Coins(d, t - d[k]) < IntMax
    ensures FewestCoins(d, t, i) <= Coins(d, t - d[k]) + 1
    decreases i
  {
    if k < i - 1 {
      FewestCoinsBound(d, t, i - 1, k);
    }
  }

  /** A finite inner minimum is one more than some usable coin's remainder count. */
  function FewestCoinsIndex(d: seq<int>, t: nat, i: nat): (k: nat)
    requires PositiveCoins(d) && i <= |d| && FewestCoins(d, t, i) < IntMax
    ensures k < i && d[k] <= t && FewestCoins(d, t, i) == Coins(d, t - d[k]) + 1
    decreases i
  {
    var min := FewestCoins(d, t, i - 1);
    if t - d[i - 1] >= 0 && Coins(d, t - d[i - 1]) < min then i - 1
    else FewestCoinsIndex(d, t, i - 1)
  }

  /** Change for t with amount[t] coins, when amount[t] is finite. */
  function Change(d: seq<int>, t: nat): (b: seq<nat>)
    requires PositiveCoins(d) && Coins(d, t) < IntMax
    ensures Makes(d, b, t) && |b| == Coins(d, t)
    decreases t
  {
    if t == 0 then []
    else
      var k := FewestCoinsIndex(d, t, |d|);
      var rest := Change(d, t - d[k]);
      var b := [k] + rest;
      assert b[1..] == rest;
      b
  }

  lemma {:induction false} TotalAtLeastLength(d: seq<int>, b: seq<nat>)
    requires PositiveCoins(d) && IsChange(d, b)
    ensures Total(d, b) >= |b|
    decreases |b|
  {
    if b != [] {
      TotalAtLeastLength(d, b[1..]);
    }
  }

  /** No change for t uses fewer than amount[t] coins. */
  lemma {:induction false} CoinsIsMin(d: seq<int>, b: seq<nat>, t: nat)
    requires PositiveCoins(d) && Makes(d, b, t) && t < IntMax
    ensures Coins(d, t) <= |b|
    decreases |b|
  {
    if b != [] {
      var k := b[0];
      TotalAtLeastLength(d, b[1..]);
      CoinsIsMin(d, b[1..], t - d[k]);
      FewestCoinsBound(d, t, |d|, k);
    }
  }

  /**
   * minCoins(d, n): 0 for n == 0; otherwise Integer.MAX_VALUE exactly when no change for n
   * exists, and else the fewest coins of any change for n.
   */
  method MinCoins(d: seq<int>, n: int) returns (r: int)
    requires 0 <= n < IntMax && PositiveCoins(d)
    ensures n == 0 ==> r == 0
    ensures r == IntMax <==> !exists b :: Makes(d, b, n)
    ensures r < IntMax ==> exists b :: Makes(d, b, n) && |b| == r
    ensures forall b :: Makes(d, b, n) ==> r <= |b|
  {
    if n == 0 {
      var none: seq<nat> := [];
      assert Makes(d, none, 0);
      return n;
    }
    var amount: seq<int> := [0];
    var thisAmount := 1;
    while thisAmount <= n
      invariant 1 <= thisAmount <= n + 1 && |amount| == thisAmount
      invariant forall t :: 0 <= t < thisAmount ==> amount[t] == Coins(d, t)
    {
      var min := IntMax;
      var coin := 0;
      while coin < |d|
        invariant 0 <= coin <= |d| && min == FewestCoins(d, thisAmount, coin)
      {
        if thisAmount - d[coin] >= 0 && amount[thisAmount - d[coin]] < min {
          min := amount[thisAmount - d[coin]] + 1;
        }
        coin := coin + 1;
      }
      amount := amount + [min];
      thisAmount := thisAmount + 1;
    }
    r := amount[n];
    CoinsRange(d, n);
    forall b | Makes(d, b, n)
      ensures r <= |b|
    {
      CoinsIsMin(d, b, n);
    }
    if r < IntMax {
      var w := Change(d, n);
    } else {
      forall b | Makes(d, b, n)
        ensures false
      {
        TotalAtLeastLength(d, b);
      }
    }
  }

  /** The calls in main: change for 0 to 20 cents from coins 2, 5 and 7, at a few points. */
  lemma {:induction false} MinCoinsExamples()
    ensures Coins([2, 5, 7], 1) == IntMax
    ensures Coins([2, 5, 7], 3) == IntMax
    ensures Coins([2, 5, 7], 4) == 2
    ensures Coins([2, 5, 7], 9) == 2
  {
  }
}

=== FILE: common.dfy ===
/** Shared vocabulary: a nullable value and the limits of Java/C 32-bit integers. */
module Common {

  /** A value that may be absent, standing for a null pointer or reference. */
  datatype Option<T> = None | Some(value: T)

  /** Integer.MAX_VALUE, which is also what (int)Double.POSITIVE_INFINITY yields in Java. */
  const IntMax: int := 0x7fff_ffff

  /** Integer.MIN_VALUE, which is also what (int)Double.NEGATIVE_INFINITY yields in Java. */
  const IntMin: int := -0x8000_0000

  /** UINT_MAX for a 32-bit unsigned int. */
  const UIntMax: int := 0xffff_ffff

  /** Reduces an unbounded integer to the 32-bit two's-complement value Java arithmetic keeps. */
  function WrapInt32(x: int): (r: int)
    ensures IntMin <= r <= IntMax
    ensures (r - x) % 0x1_0000_0000 == 0
    ensures IntMin <= x <= IntMax ==> r == x
  {
    if IntMin <= x <= IntMax then x else (x - IntMin) % 0x1_0000_0000 + IntMin
  }

  /** Java's int + on two int operands: the exact sum, brought back into range by one turn of 2^32. */
  function AddInt32(a: int, b: int): (r: int)
    ensures IntMin <= a <= IntMax && IntMin <= b <= IntMax ==> IntMin <= r <= IntMax
    ensures r == a + b || r == a + b - 0x1_0000_0000 || r == a + b + 0x1_0000_0000
  {
    var s := a + b;
    if s > IntMax then s - 0x1_0000_0000 else if s < IntMin then s + 0x1_0000_0000 else s
  }

  /** On int operands AddInt32 is the 32-bit wrap-around of the exact sum. */
  lemma {:induction false} AddInt32Wraps(a: int, b: int)
    requires IntMin <= a <= IntMax && IntMin <= b <= IntMax
    ensures AddInt32(a, b) == WrapInt32(a + b)
  {
    var s := a + b;
    if s > IntMax {
      DivModUnique(s - IntMin, 0x1_0000_0000, 1, s - IntMin - 0x1_0000_0000);
    } else if s < IntMin {
      DivModUnique(s - IntMin, 0x1_0000_0000, -1, s - IntMin + 0x1_0000_0000);
    }
  }

  /** Integer division as C and Java perform it: the quotient is truncated toward zero. */
  function TruncDiv(a: int, b: int): int
    requires b != 0
  {
    var q := (if a < 0 then -a else a) / (if b < 0 then -b else b);
    if (a < 0) == (b < 0) then q else -q
  }

  /** The remainder of C's and Java's %: it takes the sign of the dividend. */
  function TruncRem(a: int, b: int): int
    requires b != 0
  {
    a - b * TruncDiv(a, b)
  }

  /** The sequences of xss one after another. */
  function Flatten<T>(xss: seq<seq<T>>): seq<T>
    decreases |xss|
  {
    if xss == [] then [] else Flatten(xss[..|xss| - 1]) + xss[|xss| - 1]
  }

  lemma {:induction false} FlattenPrefix<T>(xss: seq<seq<T>>, n: nat)
    requires n < |xss|
    ensures Flatten(xss[..n + 1]) == Flatten(xss[..n]) + xss[n]
  {
    assert xss[..n + 1][..n] == xss[..n];
  }

  /** Flattening distributes over concatenation. */
  lemma {:induction false} FlattenConcat<T>(xss: seq<seq<T>>, yss: seq<seq<T>>)
    ensures Flatten(xss + yss) == Flatten(xss) + Flatten(yss)
    decreases |yss|
  {
    if yss == [] {
      assert xss + yss == xss;
    } else {
      var init := yss[..|yss| - 1];
      FlattenConcat(xss, init);
      assert (xss + yss)[..|xss + yss| - 1] == xss + init;
      assert Flatten(xss + yss) == Flatten(xss + init) + yss[|yss| - 1];
    }
  }

  lemma {:induction false} MulMono(d: int, a: int, b: int)
    requires d > 0 && a <= b
    ensures d * a <= d * b
  {
  }

  /** Euclidean division is unique: a quotient and remainder in range are x / d and x % d. */
  lemma {:induction false} DivModUnique(x: int, d: int, q: int, r: int)
    requires d > 0 && 0 <= r < d && x == d * q + r
    ensures x / d == q && x % d == r
  {
    var q', r' := x / d, x % d;
    assert x == d * q' + r';
    if q' > q {
      MulMono(d, q + 1, q');
      assert false;
    } else if q' < q {
      MulMono(d, q' + 1, q);
      assert false;
    }
  }
}

=== FILE: connect4_proofs.dfy ===
/**
 * What the alpha-beta search of MiniMax computes.
 *
 * `Value` is plain depth-bounded minimax over the same legal moves, with the same
 * win, cats-game and horizon tests and no pruning and no cache.  The theorems show
 * that DoSearch returns a fail-soft bound of that value for every window, that the
 * cache of horizon scores stays consistent with it, that entries are only ever added,
 * and that GetMove returns the exact minimax value together with the first legal
 * move that reaches it.
 */
module Connect4Proofs {
  import opened Common
  import opened Connect4Score
  import opened Connect4Search

  // ---------------------------------------------------------------------------
  // Reference minimax

  ghost function Value(cfg: Config, b: Grid, depth: nat, piece: int): int
    requires ValidConfig(cfg) && ValidGrid(b)
    decreases Horizon(cfg, depth), 1, 0
  {
    if cfg.rules.didSideWin(b, piece) then (if piece == cfg.searchPiece then IntMax else IntMin)
    else if cfg.rules.isCatsGame(b) then 0
    else if depth >= cfg.maxPly then LeafScore(cfg, b)
    else
      var moves := GetLegalMoves(b, cfg.rules.empty);
      LegalMovesSpec(b, cfg.rules.empty);
      if piece == cfg.searchPiece then BestMax(cfg, b, depth, piece, moves, 0, IntMin)
      else BestMin(cfg, b, depth, piece, moves, 0, IntMax)
  }

  /** The minimax value of the board after the k-th move. */
  ghost function ChildValue(cfg: Config, b: Grid, depth: nat, piece: int, moves: seq<Cell>, k: nat): int
    requires ValidConfig(cfg) && ValidGrid(b) && depth < cfg.maxPly && OnBoard(moves) && k < |moves|
    decreases Horizon(cfg, depth), 0, 0
  {
    Value(cfg, PlacePiece(b, moves[k], piece), depth + 1, Flip(piece))
  }

  /** acc maximised with the values of moves i.. */
  ghost function BestMax(cfg: Config, b: Grid, depth: nat, piece: int, moves: seq<Cell>, i: nat, acc: int): int
    requires ValidConfig(cfg) && ValidGrid(b) && depth < cfg.maxPly && OnBoard(moves) && i <= |moves|
    decreases Horizon(cfg, depth), 0, |moves| - i + 1
  {
    if i == |moves| then acc
    else BestMax(cfg, b, depth, piece, moves, i + 1, Max(acc, ChildValue(cfg, b, depth, piece, moves, i)))
  }

  /** acc minimised with the values of moves i.. */
  ghost function BestMin(cfg: Config, b: Grid, depth: nat, piece: int, moves: seq<Cell>, i: nat, acc: int): int
    requires ValidConfig(cfg) && ValidGrid(b) && depth < cfg.maxPly && OnBoard(moves) && i <= |moves|
    decreases Horizon(cfg, depth), 0, |moves| - i + 1
  {
    if i == |moves| then acc
    else BestMin(cfg, b, depth, piece, moves, i + 1, Min(acc, ChildValue(cfg, b, depth, piece, moves, i)))
  }

  lemma {:induction false} BestMaxAtLeast(cfg: Config, b: Grid, depth: nat, piece: int, moves: seq<Cell>, i: nat, acc: int)
    requires ValidConfig(cfg) && ValidGrid(b) && depth < cfg.maxPly && OnBoard(moves) && i <= |moves|
    ensures BestMax(cfg, b, depth, piece, moves, i, acc) >= acc
    ensures forall k :: i <= k < |moves| ==>
      BestMax(cfg, b, depth, piece, moves, i, acc) >= ChildValue(cfg, b, depth, piece, moves, k)
    decreases |moves| - i
  {
    if i < |moves| {
      BestMaxAtLeast(cfg, b, depth, piece, moves, i + 1, Max(acc, ChildValue(cfg, b, depth, piece, moves, i)));
    }
  }

  lemma {:induction false} BestMinAtMost(cfg: Config, b: Grid, depth: nat, piece: int, moves: seq<Cell>, i: nat, acc: int)
    requires ValidConfig(cfg) && ValidGrid(b) && depth < cfg.maxPly && OnBoard(moves) && i <= |moves|
    ensures BestMin(cfg, b, depth, piece, moves, i, acc) <= acc
    ensures forall k :: i <= k < |moves| ==>
      BestMin(cfg, b, depth, piece, moves, i, acc) <= ChildValue(cfg, b, depth, piece, moves, k)
    decreases |moves| - i
  {
    if i < |moves| {
      BestMinAtMost(cfg, b, depth, piece, moves, i + 1, Min(acc, ChildValue(cfg, b, depth, piece, moves, i)));
    }
  }

  /** Every minimax value is a Java int: the scores, the two infinities and 0. */
  lemma {:induction false} ValueInRange(cfg: Config, b: Grid, depth: nat, piece: int)
    requires ValidConfig(cfg) && ValidGrid(b)
    ensures IntMin <= Value(cfg, b, depth, piece) <= IntMax
    decreases Horizon(cfg, depth), 1, 0
  {
    if !cfg.rules.didSideWin(b, piece) && !cfg.rules.isCatsGame(b) && depth < cfg.maxPly {
      var moves := GetLegalMoves(b, cfg.rules.empty);
      LegalMovesSpec(b, cfg.rules.empty);
      FoldInRange(cfg, b, depth, piece, moves, 0, if piece == cfg.searchPiece then IntMin else IntMax);
    }
  }

  lemma {:induction false} FoldInRange(cfg: Config, b: Grid, depth: nat, piece: int, moves: seq<Cell>, i: nat, acc: int)
    requires ValidConfig(cfg) && ValidGrid(b) && depth < cfg.maxPly && OnBoard(moves) && i <= |moves|
    requires IntMin <= acc <= IntMax
    ensures IntMin <= BestMax(cfg, b, depth, piece, moves, i, acc) <= IntMax
    ensures IntMin <= BestMin(cfg, b, depth, piece, moves, i, acc) <= IntMax
    decreases Horizon(cfg, depth), 0, |moves| - i + 1
  {
    if i < |moves| {
      ValueInRange(cfg, PlacePiece(b, moves[i], piece), depth + 1, Flip(piece));
      var v := ChildValue(cfg, b, depth, piece, moves, i);
      FoldInRange(cfg, b, depth, piece, moves, i + 1, Max(acc, v));
      FoldInRange(cfg, b, depth, piece, moves, i + 1, Min(acc, v));
    }
  }

  lemma {:induction false} ChildInRange(cfg: Config, b: Grid, depth: nat, piece: int, moves: seq<Cell>, k: nat)
    requires ValidConfig(cfg) && ValidGrid(b) && depth < cfg.maxPly && OnBoard(moves) && k < |moves|
    ensures IntMin <= ChildValue(cfg, b, depth, piece, moves, k) <= IntMax
  {
    ValueInRange(cfg, PlacePiece(b, moves[k], piece), depth + 1, Flip(piece));
  }

  // ---------------------------------------------------------------------------
  // Counting pieces: every ply adds exactly one

  function CountRow(row: seq<int>, empty: int): nat {
    if |row| == 0 then 0
    else CountRow(row[..|row| - 1], empty) + (if row[|row| - 1] != empty then 1 else 0)
  }

  function CountRows(g: Grid, n: nat, empty: int): nat
    requires n <= |g|
  {
    if n == 0 then 0 else CountRows(g, n - 1, empty) + CountRow(g[n - 1], empty)
  }

  /** The number of occupied squares. */
  function Count(g: Grid, empty: int): nat {
    CountRows(g, |g|, empty)
  }

  lemma {:induction false} CountRowPlace(row: seq<int>, c: nat, v: int, empty: int)
    requires c < |row| && row[c] == empty && v != empty
    ensures CountRow(row[c := v], empty) == CountRow(row, empty) + 1
    decreases |row|
  {
    var n := |row|;
    if c == n - 1 {
      assert row[c := v][..n - 1] == row[..n - 1];
    } else {
      assert row[c := v][..n - 1] == row[..n - 1][c := v];
      CountRowPlace(row[..n - 1], c, v, empty);
    }
  }

  lemma {:induction false} CountRowsUpdate(g: Grid, r: nat, row: seq<int>, n: nat, empty: int)
    requires r < |g| && n <= |g| && CountRow(row, empty) == CountRow(g[r], empty) + 1
    ensures CountRows(g[r := row], n, empty) == CountRows(g, n, empty) + (if r < n then 1 else 0)
  {
    if n > 0 {
      CountRowsUpdate(g, r, row, n - 1, empty);
    }
  }

  /** Placing a non-empty piece on a legal square adds one occupied square. */
  lemma {:induction false} CountPlace(g: Grid, c: Cell, piece: int, empty: int)
    requires ValidGrid(g) && IsLegal(g, empty, c) && piece != empty
    ensures Count(PlacePiece(g, c, piece), empty) == Count(g, empty) + 1
  {
    CountRowPlace(g[c.row], c.col, piece, empty);
    CountRowsUpdate(g, c.row, g[c.row][c.col := piece], |g|, empty);
  }

  // ---------------------------------------------------------------------------
  // The search invariant

  /** The piece to move at a depth: the search piece at even depths, the other one at odd. */
  function PieceAt(cfg: Config, depth: nat): int {
    if depth % 2 == 0 then cfg.searchPiece else Flip(cfg.searchPiece)
  }

  lemma {:induction false} PieceAtNext(cfg: Config, depth: nat)
    ensures Flip(PieceAt(cfg, depth)) == PieceAt(cfg, depth + 1)
  {
    FlipFlip(cfg.searchPiece);
  }

  /** A search set up as GetMove sets it up: both pieces differ from the empty marker. */
  ghost predicate Setting(cfg: Config) {
    ValidConfig(cfg) && cfg.rules.empty != cfg.searchPiece && cfg.rules.empty != Flip(cfg.searchPiece)
  }

  /**
   * Fail-soft alpha-beta: a result at or below the window bounds the value from above,
   * one at or above the window bounds it from below, one inside the window is exact.
   */
  predicate Bounded(r: int, v: int, alpha: int, beta: int) {
    (r <= alpha ==> v <= r) && (r >= beta ==> v >= r) && (alpha < r < beta ==> r == v)
  }

  /**
   * The cache, for a search from a board with rootCount occupied squares: any board the
   * search can look up (1..maxPly plies deeper) that is cached sits exactly at the horizon
   * and holds its minimax value there.
   */
  ghost predicate CacheSound(cfg: Config, cache: map<Grid, int>, rootCount: nat)
    requires ValidConfig(cfg)
  {
    forall k :: k in cache && ValidGrid(k) && rootCount < Count(k, cfg.rules.empty) <= rootCount + cfg.maxPly ==>
      Count(k, cfg.rules.empty) == rootCount + cfg.maxPly &&
      cache[k] == Value(cfg, k, cfg.maxPly, PieceAt(cfg, cfg.maxPly))
  }

  /** The search of the k-th child bounds its minimax value and keeps the cache sound. */
  lemma {:induction false} ChildSound(cfg: Config, pos: Cell, b: Grid, depth: nat, piece: int, moves: seq<Cell>, k: nat,
                                      alpha: int, beta: int, cache: map<Grid, int>, rootCount: nat) returns (o: Outcome)
    requires Setting(cfg) && ValidGrid(b) && depth < cfg.maxPly
    requires OnBoard(moves) && AllLegal(b, cfg.rules.empty, moves) && k < |moves|
    requires Count(b, cfg.rules.empty) == rootCount + depth && piece == PieceAt(cfg, depth)
    requires CacheSound(cfg, cache, rootCount)
    requires IntMin <= alpha < beta <= IntMax
    ensures o == DoSearch(cfg, pos, PlacePiece(b, moves[k], piece), depth + 1, alpha, beta, Flip(piece), cache)
    ensures Bounded(o.value, ChildValue(cfg, b, depth, piece, moves, k), alpha, beta)
    ensures CacheSound(cfg, o.cache, rootCount)
    decreases Horizon(cfg, depth), 0, 0
  {
    o := DoSearch(cfg, pos, PlacePiece(b, moves[k], piece), depth + 1, alpha, beta, Flip(piece), cache);
    PieceAtNext(cfg, depth);
    CountPlace(b, moves[k], piece, cfg.rules.empty);
    SearchSound(cfg, pos, PlacePiece(b, moves[k], piece), depth + 1, alpha, beta, Flip(piece), cache, rootCount);
  }

  lemma {:induction false} SearchSound(cfg: Config, pos: Cell, b: Grid, depth: nat, alpha: int, beta: int, piece: int,
                                       cache: map<Grid, int>, rootCount: nat)
    requires Setting(cfg) && ValidGrid(b) && depth <= cfg.maxPly
    requires Count(b, cfg.rules.empty) == rootCount + depth && piece == PieceAt(cfg, depth)
    requires CacheSound(cfg, cache, rootCount)
    requires IntMin <= alpha < beta <= IntMax
    ensures Bounded(DoSearch(cfg, pos, b, depth, alpha, beta, piece, cache).value, Value(cfg, b, depth, piece), alpha, beta)
    ensures CacheSound(cfg, DoSearch(cfg, pos, b, depth, alpha, beta, piece, cache).cache, rootCount)
    decreases Horizon(cfg, depth), 1, 0
  {
    var e := cfg.rules.empty;
    if b in cache && depth != 0 {
      assert rootCount < Count(b, e) <= rootCount + cfg.maxPly;
    } else if cfg.rules.didSideWin(b, piece) || cfg.rules.isCatsGame(b) {
    } else if depth >= cfg.maxPly {
      var score := LeafScore(cfg, b);
      assert score == Value(cfg, b, depth, piece);
      var cache' := cache[b := score];
      forall k | k in cache' && ValidGrid(k) && rootCount < Count(k, e) <= rootCount + cfg.maxPly
        ensures Count(k, e) == rootCount + cfg.maxPly && cache'[k] == Value(cfg, k, cfg.maxPly, PieceAt(cfg, cfg.maxPly))
      {
      }
    } else {
      var moves := GetLegalMoves(b, e);
      LegalMovesSpec(b, e);
      var first := if depth == 0 then (if |moves| > 0 then moves[0] else Cell(0, 0)) else pos;
      if piece == cfg.searchPiece {
        MaxLoopSound(cfg, depth == 0, first, b, depth, piece, moves, 0, IntMin, alpha, beta, cache, rootCount, alpha, IntMin);
      } else {
        MinLoopSound(cfg, first, b, depth, piece, moves, 0, IntMax, alpha, beta, cache, rootCount, beta, IntMax);
      }
    }
  }

  /** One iteration of the maximising loop keeps its invariant or cuts off above beta. */
  lemma {:induction false} MaxStep(value: int, alpha: int, beta: int, alpha0: int, m: int, result: int, v: int)
    requires alpha == Max(alpha0, value) && alpha < beta
    requires m <= value && (value > alpha0 ==> value == m)
    requires Bounded(result, v, alpha, beta)
    ensures beta <= Max(alpha, Max(value, result)) ==> Max(value, result) >= beta && v >= Max(value, result)
    ensures Max(alpha, Max(value, result)) < beta ==>
      Max(m, v) <= Max(value, result) && (Max(value, result) > alpha0 ==> Max(value, result) == Max(m, v))
  {
  }

  /** One iteration of the minimising loop keeps its invariant or cuts off below alpha. */
  lemma {:induction false} MinStep(value: int, alpha: int, beta: int, beta0: int, m: int, result: int, v: int)
    requires beta == Min(beta0, value) && alpha < beta
    requires value <= m && (value < beta0 ==> value == m)
    requires Bounded(result, v, alpha, beta)
    ensures Min(beta, Min(value, result)) <= alpha ==> Min(value, result) <= alpha && v <= Min(value, result)
    ensures alpha < Min(beta, Min(value, result)) ==>
      Min(value, result) <= Min(m, v) && (Min(value, result) < beta0 ==> Min(value, result) == Min(m, v))
  {
  }

  /**
   * The maximising loop: m is the minimax fold of the moves before i, value the loop's
   * running value, alpha0 the window's lower end on entry.
   */
  lemma {:induction false} MaxLoopSound(cfg: Config, root: bool, pos: Cell, b: Grid, depth: nat, piece: int, moves: seq<Cell>,
                                        i: nat, value: int, alpha: int, beta: int, cache: map<Grid, int>,
                                        rootCount: nat, alpha0: int, m: int)
    requires Setting(cfg) && ValidGrid(b) && depth < cfg.maxPly
    requires OnBoard(moves) && AllLegal(b, cfg.rules.empty, moves) && i <= |moves|
    requires Count(b, cfg.rules.empty) == rootCount + depth && piece == PieceAt(cfg, depth)
    requires CacheSound(cfg, cache, rootCount)
    requires IntMin <= alpha0 && alpha == Max(alpha0, value) && alpha < beta <= IntMax
    requires m <= value && (value > alpha0 ==> value == m)
    ensures Bounded(MaxLoop(cfg, root, pos, b, depth, piece, moves, i, value, alpha, beta, cache).value,
                    BestMax(cfg, b, depth, piece, moves, i, m), alpha0, beta)
    ensures CacheSound(cfg, MaxLoop(cfg, root, pos, b, depth, piece, moves, i, value, alpha, beta, cache).cache, rootCount)
    decreases Horizon(cfg, depth), 0, |moves| - i
  {
    if i < |moves| {
      var o := ChildSound(cfg, pos, b, depth, piece, moves, i, alpha, beta, cache, rootCount);
      var v := ChildValue(cfg, b, depth, piece, moves, i);
      var pos' := if o.value > value && root then moves[i] else pos;
      var value' := Max(value, o.value);
      var alpha' := Max(alpha, value');
      MaxStep(value, alpha, beta, alpha0, m, o.value, v);
      if beta <= alpha' {
        BestMaxAtLeast(cfg, b, depth, piece, moves, i, m);
      } else {
        MaxLoopSound(cfg, root, pos', b, depth, piece, moves, i + 1, value', alpha', beta, o.cache, rootCount, alpha0, Max(m, v));
      }
    }
  }

  /** The minimising loop, symmetric to MaxLoopSound with beta0 the window's upper end. */
  lemma {:induction false} MinLoopSound(cfg: Config, pos: Cell, b: Grid, depth: nat, piece: int, moves: seq<Cell>,
                                        i: nat, value: int, alpha: int, beta: int, cache: map<Grid, int>,
                                        rootCount: nat, beta0: int, m: int)
    requires Setting(cfg) && ValidGrid(b) && depth < cfg.maxPly
    requires OnBoard(moves) && AllLegal(b, cfg.rules.empty, moves) && i <= |moves|
    requires Count(b, cfg.rules.empty) == rootCount + depth && piece == PieceAt(cfg, depth)
    requires CacheSound(cfg, cache, rootCount)
    requires beta0 <= IntMax && beta == Min(beta0, value) && IntMin <= alpha < beta
    requires value <= m && (value < beta0 ==> value == m)
    ensures Bounded(MinLoop(cfg, pos, b, depth, piece, moves, i, value, alpha, beta, cache).value,
                    BestMin(cfg, b, depth, piece, moves, i, m), alpha, beta0)
    ensures CacheSound(cfg, MinLoop(cfg, pos, b, depth, piece, moves, i, value, alpha, beta, cache).cache, rootCount)
    decreases Horizon(cfg, depth), 0, |moves| - i
  {
    if i < |moves| {
      var o := ChildSound(cfg, pos, b, depth, piece, moves, i, alpha, beta, cache, rootCount);
      var v := ChildValue(cfg, b, depth, piece, moves, i);
      var value' := Min(value, o.value);
      var beta' := Min(beta, value');
      MinStep(value, alpha, beta, beta0, m, o.value, v);
      if beta' <= alpha {
        BestMinAtMost(cfg, b, depth, piece, moves, i, m);
      } else {
        MinLoopSound(cfg, pos, b, depth, piece, moves, i + 1, value', alpha, beta', o.cache, rootCount, beta0, Min(m, v));
      }
    }
  }

  // ---------------------------------------------------------------------------
  // GetMove

  /** With a sound cache, GetMove returns the exact minimax value and leaves the cache sound. */
  lemma {:induction false} GetMoveExact(rules: BoardRules, maxPly: nat, pos: Cell, g: Grid, piece: int, cache: map<Grid, int>)
    requires DiagonalsInBounds(rules.diagonals) && ValidGrid(g)
    requires rules.empty != piece && rules.empty != Flip(piece)
    requires CacheSound(Config(rules, piece, maxPly), cache, Count(g, rules.empty))
    ensures GetMove(rules, maxPly, pos, g, piece, cache).value == Value(Config(rules, piece, maxPly), g, 0, piece)
    ensures CacheSound(Config(rules, piece, maxPly), GetMove(rules, maxPly, pos, g, piece, cache).cache, Count(g, rules.empty))
  {
    var cfg := Config(rules, piece, maxPly);
    SearchSound(cfg, pos, g, 0, IntMin, IntMax, piece, cache, Count(g, rules.empty));
    ValueInRange(cfg, g, 0, piece);
  }

  /** One root iteration: a rise of the running value is exact, anything else is a bound. */
  lemma {:induction false} RootStep(value: int, result: int, v: int)
    requires IntMin <= value < IntMax && IntMin <= v <= IntMax && Bounded(result, v, value, IntMax)
    ensures result > value ==> v == result
    ensures result <= value ==> v <= value
  {
  }

  /** One iteration of the root's loop, by how the child's result compares with the running value. */
  lemma {:induction false} RootIteration(cfg: Config, pos: Cell, b: Grid, depth: nat, moves: seq<Cell>, i: nat, value: int, cache: map<Grid, int>,
                      o: Outcome)
    requires ValidConfig(cfg) && ValidGrid(b) && depth < cfg.maxPly && OnBoard(moves) && i < |moves| && value < IntMax
    requires o == DoSearch(cfg, pos, PlacePiece(b, moves[i], cfg.searchPiece), depth + 1, value, IntMax, Flip(cfg.searchPiece), cache)
    ensures o.value > value && IntMax <= o.value ==>
      MaxLoop(cfg, true, pos, b, depth, cfg.searchPiece, moves, i, value, value, IntMax, cache) == Outcome(o.value, o.cache, moves[i])
    ensures o.value > value && o.value < IntMax ==>
      MaxLoop(cfg, true, pos, b, depth, cfg.searchPiece, moves, i, value, value, IntMax, cache) ==
      MaxLoop(cfg, true, moves[i], b, depth, cfg.searchPiece, moves, i + 1, o.value, o.value, IntMax, o.cache)
    ensures o.value <= value ==>
      MaxLoop(cfg, true, pos, b, depth, cfg.searchPiece, moves, i, value, value, IntMax, cache) ==
      MaxLoop(cfg, true, pos, b, depth, cfg.searchPiece, moves, i + 1, value, value, IntMax, o.cache)
  {
  }

  /**
   * One iteration of the root's loop: a child search whose result rises above the running
   * value returns the child's exact minimax value and moves pos; any other result bounds it.
   */
  lemma {:induction false} RootChild(cfg: Config, pos: Cell, b: Grid, depth: nat, moves: seq<Cell>, i: nat, value: int,
                  cache: map<Grid, int>, rootCount: nat) returns (o: Outcome)
    requires Setting(cfg) && ValidGrid(b) && depth < cfg.maxPly && PieceAt(cfg, depth) == cfg.searchPiece
    requires OnBoard(moves) && AllLegal(b, cfg.rules.empty, moves) && i < |moves|
    requires Count(b, cfg.rules.empty) == rootCount + depth && CacheSound(cfg, cache, rootCount)
    requires IntMin <= value < IntMax
    ensures CacheSound(cfg, o.cache, rootCount)
    ensures o.value > value ==> ChildValue(cfg, b, depth, cfg.searchPiece, moves, i) == o.value
    ensures o.value <= value ==> ChildValue(cfg, b, depth, cfg.searchPiece, moves, i) <= value
    ensures o.value > value && IntMax <= o.value ==>
      MaxLoop(cfg, true, pos, b, depth, cfg.searchPiece, moves, i, value, value, IntMax, cache) == Outcome(o.value, o.cache, moves[i])
    ensures o.value > value && o.value < IntMax ==>
      MaxLoop(cfg, true, pos, b, depth, cfg.searchPiece, moves, i, value, value, IntMax, cache) ==
      MaxLoop(cfg, true, moves[i], b, depth, cfg.searchPiece, moves, i + 1, o.value, o.value, IntMax, o.cache)
    ensures o.value <= value ==>
      MaxLoop(cfg, true, pos, b, depth, cfg.searchPiece, moves, i, value, value, IntMax, cache) ==
      MaxLoop(cfg, true, pos, b, depth, cfg.searchPiece, moves, i + 1, value, value, IntMax, o.cache)
  {
    o := ChildSound(cfg, pos, b, depth, cfg.searchPiece, moves, i, value, IntMax, cache, rootCount);
    ChildInRange(cfg, b, depth, cfg.searchPiece, moves, i);
    RootStep(value, o.value, ChildValue(cfg, b, depth, cfg.searchPiece, moves, i));
    RootIteration(cfg, pos, b, depth, moves, i, value, cache, o);
  }

  lemma {:induction false} MaxLoopDone(cfg: Config, pos: Cell, b: Grid, depth: nat, moves: seq<Cell>, value: int, cache: map<Grid, int>)
    requires ValidConfig(cfg) && ValidGrid(b) && depth < cfg.maxPly && OnBoard(moves)
    ensures MaxLoop(cfg, true, pos, b, depth, cfg.searchPiece, moves, |moves|, value, value, IntMax, cache) == Outcome(value, cache, pos)
  {
  }

  /** The minimax values of the boards after each move, in move order. */
  ghost function ChildValues(cfg: Config, b: Grid, depth: nat, piece: int, moves: seq<Cell>): (vals: seq<int>)
    requires ValidConfig(cfg) && ValidGrid(b) && depth < cfg.maxPly && OnBoard(moves)
    ensures |vals| == |moves|
    ensures forall k :: 0 <= k < |moves| ==> vals[k] == ChildValue(cfg, b, depth, piece, moves, k)
  {
    seq(|moves|, k requires 0 <= k < |moves| => ChildValue(cfg, b, depth, piece, moves, k))
  }

  /** What the root loop's scan from move i on leaves behind, for the first-best move moves[j]. */
  ghost predicate RootSpec(moves: seq<Cell>, vals: seq<int>, pos: Cell, j: nat, r: Outcome, jr: nat)
    requires |vals| == |moves|
  {
    jr < |moves| && (r.pos == moves[jr] || (jr == j && r.pos == pos)) && vals[jr] == r.value &&
    forall k :: 0 <= k < jr ==> vals[k] < r.value
  }

  /**
   * The root's maximising loop with the full window.  vals are the children's minimax
   * values and moves[j] is the first move whose value reached the running value (or the
   * first move, while no value rose above IntMin).  The loop ends holding the first move
   * that reaches the final value, or pos unchanged when that move is still moves[j].
   */
  lemma {:induction false} RootLoop(cfg: Config, pos: Cell, b: Grid, depth: nat, moves: seq<Cell>, vals: seq<int>,
                                    i: nat, value: int, cache: map<Grid, int>, rootCount: nat, j: nat) returns (jr: nat)
    requires Setting(cfg) && ValidGrid(b) && depth < cfg.maxPly && PieceAt(cfg, depth) == cfg.searchPiece
    requires OnBoard(moves) && AllLegal(b, cfg.rules.empty, moves) && i <= |moves| && j < |moves|
    requires |vals| == |moves|
    requires forall k {:trigger ChildValue(cfg, b, depth, cfg.searchPiece, moves, k)} :: 0 <= k < |moves| ==>
      vals[k] == ChildValue(cfg, b, depth, cfg.searchPiece, moves, k)
    requires Count(b, cfg.rules.empty) == rootCount + depth && CacheSound(cfg, cache, rootCount)
    requires IntMin <= value < IntMax
    requires forall k :: 0 <= k < i ==> vals[k] <= value
    requires forall k :: 0 <= k < j ==> vals[k] < value
    requires (j < i && vals[j] == value) || (j == 0 && value == IntMin)
    ensures RootSpec(moves, vals, pos, j, MaxLoop(cfg, true, pos, b, depth, cfg.searchPiece, moves, i, value, value, IntMax, cache), jr)
    decreases |moves| - i, 1
  {
    if i == |moves| {
      jr := j;
      MaxLoopDone(cfg, pos, b, depth, moves, value, cache);
      ChildInRange(cfg, b, depth, cfg.searchPiece, moves, j);
    } else {
      var o := RootChild(cfg, pos, b, depth, moves, i, value, cache, rootCount);
      if o.value > value {
        jr := RootRise(cfg, pos, b, depth, moves, vals, i, value, cache, rootCount, j, o);
      } else {
        jr := RootStay(cfg, pos, b, depth, moves, vals, i, value, cache, rootCount, j, o);
      }
    }
  }

  /** The root loop at move i when the child's result rises above the running value. */
  lemma {:induction false} RootRise(cfg: Config, pos: Cell, b: Grid, depth: nat, moves: seq<Cell>, vals: seq<int>,
                                    i: nat, value: int, cache: map<Grid, int>, rootCount: nat, j: nat, o: Outcome)
    returns (jr: nat)
    requires Setting(cfg) && ValidGrid(b) && depth < cfg.maxPly && PieceAt(cfg, depth) == cfg.searchPiece
    requires OnBoard(moves) && AllLegal(b, cfg.rules.empty, moves) && i < |moves| && j < |moves|
    requires |vals| == |moves|
    requires forall k {:trigger ChildValue(cfg, b, depth, cfg.searchPiece, moves, k)} :: 0 <= k < |moves| ==>
      vals[k] == ChildValue(cfg, b, depth, cfg.searchPiece, moves, k)
    requires Count(b, cfg.rules.empty) == rootCount + depth && CacheSound(cfg, o.cache, rootCount)
    requires IntMin <= value < o.value && vals[i] == o.value
    requires forall k :: 0 <= k < i ==> vals[k] <= value
    ensures IntMax <= o.value ==> RootSpec(moves, vals, pos, j, Outcome(o.value, o.cache, moves[i]), jr)
    ensures o.value < IntMax ==>
      RootSpec(moves, vals, pos, j, MaxLoop(cfg, true, moves[i], b, depth, cfg.searchPiece, moves, i + 1, o.value, o.value, IntMax, o.cache), jr)
    decreases |moves| - i, 0
  {
    RaiseBound(vals, i, value, o.value);
    if IntMax > o.value {
      jr := RootLoop(cfg, moves[i], b, depth, moves, vals, i + 1, o.value, o.cache, rootCount, i);
    } else {
      jr := i;
    }
  }

  /** The root loop at move i when the child's result does not rise above the running value. */
  lemma {:induction false} RootStay(cfg: Config, pos: Cell, b: Grid, depth: nat, moves: seq<Cell>, vals: seq<int>,
                                    i: nat, value: int, cache: map<Grid, int>, rootCount: nat, j: nat, o: Outcome)
    returns (jr: nat)
    requires Setting(cfg) && ValidGrid(b) && depth < cfg.maxPly && PieceAt(cfg, depth) == cfg.searchPiece
    requires OnBoard(moves) && AllLegal(b, cfg.rules.empty, moves) && i < |moves| && j < |moves|
    requires |vals| == |moves|
    requires forall k {:trigger ChildValue(cfg, b, depth, cfg.searchPiece, moves, k)} :: 0 <= k < |moves| ==>
      vals[k] == ChildValue(cfg, b, depth, cfg.searchPiece, moves, k)
    requires Count(b, cfg.rules.empty) == rootCount + depth && CacheSound(cfg, o.cache, rootCount)
    requires IntMin <= value < IntMax && vals[i] <= value
    requires forall k :: 0 <= k < i ==> vals[k] <= value
    requires forall k :: 0 <= k < j ==> vals[k] < value
    requires (j < i && vals[j] == value) || (j == 0 && value == IntMin)
    ensures RootSpec(moves, vals, pos, j, MaxLoop(cfg, true, pos, b, depth, cfg.searchPiece, moves, i + 1, value, value, IntMax, o.cache), jr)
    decreases |moves| - i, 0
  {
    BoundSnoc(vals, i, value);
    jr := RootLoop(cfg, pos, b, depth, moves, vals, i + 1, value, o.cache, rootCount, j);
  }

  /** The bound on the values before move i extends past a move that keeps to it. */
  lemma {:induction false} BoundSnoc(vals: seq<int>, i: nat, value: int)
    requires i < |vals| && vals[i] <= value
    requires forall k :: 0 <= k < i ==> vals[k] <= value
    ensures forall k :: 0 <= k < i + 1 ==> vals[k] <= value
  {
  }

  /** A move whose value rises above every earlier one becomes the new first-best move. */
  lemma {:induction false} RaiseBound(vals: seq<int>, i: nat, value: int, value': int)
    requires i < |vals| && vals[i] == value' && value < value'
    requires forall k :: 0 <= k < i ==> vals[k] <= value
    ensures forall k :: 0 <= k < i + 1 ==> vals[k] <= value'
    ensures forall k :: 0 <= k < i ==> vals[k] < value'
  {
  }

  /**
   * The move GetMove leaves in pos is the first legal move, in row-major order, whose
   * minimax value is the value of the search (which GetMoveExact shows is the root's);
   * every earlier move is worth strictly less.
   */
  lemma {:induction false} GetMoveChoosesFirstBest(rules: BoardRules, maxPly: nat, pos: Cell, g: Grid, piece: int, cache: map<Grid, int>)
    returns (j: nat)
    requires DiagonalsInBounds(rules.diagonals) && ValidGrid(g)
    requires rules.empty != piece && rules.empty != Flip(piece)
    requires CacheSound(Config(rules, piece, maxPly), cache, Count(g, rules.empty))
    requires 0 < maxPly && !rules.didSideWin(g, piece) && !rules.isCatsGame(g)
    requires |GetLegalMoves(g, rules.empty)| > 0
    ensures var moves := GetLegalMoves(g, rules.empty);
      var r := GetMove(rules, maxPly, pos, g, piece, cache);
      OnBoard(moves) && j < |moves| && r.pos == moves[j] &&
      var vals := ChildValues(Config(rules, piece, maxPly), g, 0, piece, moves);
      vals[j] == r.value && forall k :: 0 <= k < j ==> vals[k] < r.value
  {
    var cfg := Config(rules, piece, maxPly);
    var moves := GetLegalMoves(g, rules.empty);
    LegalMovesSpec(g, rules.empty);
    var vals := ChildValues(cfg, g, 0, piece, moves);
    j := RootLoop(cfg, moves[0], g, 0, moves, vals, 0, IntMin, cache, Count(g, rules.empty), 0);
  }

  // ---------------------------------------------------------------------------
  // The cache only grows

  /**
   * Every entry of `before` outside `except` survives unchanged, and every entry of
   * `after` is either kept from `before` or the heuristic score of its board.
   */
  ghost predicate Extends(cfg: Config, before: map<Grid, int>, after: map<Grid, int>, except: set<Grid>)
    requires ValidConfig(cfg)
  {
    (forall k :: k in before && k !in except ==> k in after && after[k] == before[k]) &&
    (forall k :: k in after ==> (k in before && after[k] == before[k]) || (ValidGrid(k) && after[k] == LeafScore(cfg, k)))
  }

  lemma {:induction false} ExtendsTrans(cfg: Config, a: map<Grid, int>, b: map<Grid, int>, c: map<Grid, int>)
    requires ValidConfig(cfg) && Extends(cfg, a, b, {}) && Extends(cfg, b, c, {})
    ensures Extends(cfg, a, c, {})
  {
  }

  lemma {:induction false} ExtendsWiden(cfg: Config, before: map<Grid, int>, after: map<Grid, int>, except: set<Grid>)
    requires ValidConfig(cfg) && (before == after || Extends(cfg, before, after, {}))
    ensures Extends(cfg, before, after, except)
  {
  }

  /** Storing a board's score, over an entry that may be overwritten or where there was none. */
  lemma {:induction false} StoreExtends(cfg: Config, cache: map<Grid, int>, b: Grid, except: set<Grid>)
    requires ValidConfig(cfg) && ValidGrid(b) && (b in cache ==> b in except)
    ensures Extends(cfg, cache, cache[b := LeafScore(cfg, b)], except)
  {
  }

  /**
   * A search only adds horizon scores to the cache; the one entry it may overwrite is
   * the root board's, and only at depth 0 where the cache is not consulted.
   */
  lemma {:induction false} SearchExtends(cfg: Config, pos: Cell, b: Grid, depth: nat, alpha: int, beta: int, piece: int,
                                         cache: map<Grid, int>)
    requires ValidConfig(cfg) && ValidGrid(b)
    ensures Extends(cfg, cache, DoSearch(cfg, pos, b, depth, alpha, beta, piece, cache).cache, if depth == 0 then {b} else {})
    decreases Horizon(cfg, depth), 1, 0
  {
    var r := DoSearch(cfg, pos, b, depth, alpha, beta, piece, cache);
    var except := if depth == 0 then {b} else {};
    if (b in cache && depth != 0) || cfg.rules.didSideWin(b, piece) || cfg.rules.isCatsGame(b) {
      assert r.cache == cache;
      ExtendsWiden(cfg, cache, cache, except);
    } else if depth >= cfg.maxPly {
      assert r.cache == cache[b := LeafScore(cfg, b)];
      StoreExtends(cfg, cache, b, except);
    } else {
      var moves := GetLegalMoves(b, cfg.rules.empty);
      LegalMovesSpec(b, cfg.rules.empty);
      var first := if depth == 0 then (if |moves| > 0 then moves[0] else Cell(0, 0)) else pos;
      var value := if piece == cfg.searchPiece then IntMin else IntMax;
      if piece == cfg.searchPiece {
        MaxLoopExtends(cfg, depth == 0, first, b, depth, piece, moves, 0, value, alpha, beta, cache);
        ExtendsWiden(cfg, cache, MaxLoop(cfg, depth == 0, first, b, depth, piece, moves, 0, value, alpha, beta, cache).cache, except);
      } else {
        MinLoopExtends(cfg, first, b, depth, piece, moves, 0, value, alpha, beta, cache);
        ExtendsWiden(cfg, cache, MinLoop(cfg, first, b, depth, piece, moves, 0, value, alpha, beta, cache).cache, except);
      }
    }
  }

  /** The maximising loop only adds horizon scores: each child search does, and so does the rest. */
  lemma {:induction false} MaxLoopExtends(cfg: Config, root: bool, pos: Cell, b: Grid, depth: nat, piece: int, moves: seq<Cell>,
                                          i: nat, value: int, alpha: int, beta: int, cache: map<Grid, int>)
    requires ValidConfig(cfg) && ValidGrid(b) && depth < cfg.maxPly && OnBoard(moves) && i <= |moves|
    ensures Extends(cfg, cache, MaxLoop(cfg, root, pos, b, depth, piece, moves, i, value, alpha, beta, cache).cache, {})
    decreases Horizon(cfg, depth), 0, |moves| - i
  {
    if i < |moves| {
      var child := PlacePiece(b, moves[i], piece);
      SearchExtends(cfg, pos, child, depth + 1, alpha, beta, Flip(piece), cache);
      var o := DoSearch(cfg, pos, child, depth + 1, alpha, beta, Flip(piece), cache);
      var value' := Max(value, o.value);
      var alpha' := Max(alpha, value');
      if alpha' < beta {
        var pos' := if o.value > value && root then moves[i] else pos;
        var rest := MaxLoop(cfg, root, pos', b, depth, piece, moves, i + 1, value', alpha', beta, o.cache);
        MaxLoopExtends(cfg, root, pos', b, depth, piece, moves, i + 1, value', alpha', beta, o.cache);
        ExtendsTrans(cfg, cache, o.cache, rest.cache);
      }
    }
  }

  /** The minimising loop only adds horizon scores, in the same way. */
  lemma {:induction false} MinLoopExtends(cfg: Config, pos: Cell, b: Grid, depth: nat, piece: int, moves: seq<Cell>,
                                          i: nat, value: int, alpha: int, beta: int, cache: map<Grid, int>)
    requires ValidConfig(cfg) && ValidGrid(b) && depth < cfg.maxPly && OnBoard(moves) && i <= |moves|
    ensures Extends(cfg, cache, MinLoop(cfg, pos, b, depth, piece, moves, i, value, alpha, beta, cache).cache, {})
    decreases Horizon(cfg, depth), 0, |moves| - i
  {
    if i < |moves| {
      var child := PlacePiece(b, moves[i], piece);
      SearchExtends(cfg, pos, child, depth + 1, alpha, beta, Flip(piece), cache);
      var o := DoSearch(cfg, pos, child, depth + 1, alpha, beta, Flip(piece), cache);
      var value' := Min(value, o.value);
      var beta' := Min(beta, value');
      if alpha < beta' {
        var rest := MinLoop(cfg, pos, b, depth, piece, moves, i + 1, value', alpha, beta', o.cache);
        MinLoopExtends(cfg, pos, b, depth, piece, moves, i + 1, value', alpha, beta', o.cache);
        ExtendsTrans(cfg, cache, o.cache, rest.cache);
      }
    }
  }
}

=== FILE: connect4_score.dfy ===
/**
 * The positional heuristic of the connect-four searcher (MiniMax.ScoreIt).
 *
 * A board is a 6x7 grid of cell values, row 0 at the top and row 5 at the bottom.
 * The score of a board for a piece adds a column weight per piece of that colour
 * and, over every row, every column and every diagonal listed in the board's
 * diagonal table, 1 per maximal run of exactly two such pieces, 2 per run of
 * exactly three and 4 per run of exactly four.  Longer runs add nothing.
 */
module Connect4Score {
  import opened Common

  const Rows: int := 6
  const Cols: int := 7

  /** BoardData: row-major cell values. */
  type Grid = seq<seq<int>>

  ghost predicate ValidGrid(g: Grid) {
    |g| == Rows && forall r :: 0 <= r < Rows ==> |g[r]| == Cols
  }

  predicate InGrid(row: int, col: int) {
    0 <= row < Rows && 0 <= col < Cols
  }

  // ---------------------------------------------------------------------------
  // Scanning one line, as the counter loops of ScoreIt do

  /** The running counts of runs of length two, three and four. */
  datatype Tally = Tally(twos: nat, threes: nat, fours: nat)

  function NoRuns(): Tally { Tally(0, 0, 0) }

  /** What ScoreIt does when a run of `count` pieces ends. */
  function Close(t: Tally, count: nat): Tally {
    if count == 2 then t.(twos := t.twos + 1)
    else if count == 3 then t.(threes := t.threes + 1)
    else if count == 4 then t.(fours := t.fours + 1)
    else t
  }

  /** The scan from position k with the counter at `count`; line[i] says whether cell i holds the piece. */
  function ScanFrom(line: seq<bool>, k: nat, count: nat, t: Tally): Tally
    requires k <= |line|
    decreases |line| - k
  {
    if k == |line| then Close(t, count)
    else if line[k] then ScanFrom(line, k + 1, count + 1, t)
    else ScanFrom(line, k + 1, 0, Close(t, count))
  }

  function ScanLine(line: seq<bool>, t: Tally): Tally {
    ScanFrom(line, 0, 0, t)
  }

  // ---------------------------------------------------------------------------
  // What a scan is meant to count: maximal runs, located by their first cell

  ghost predicate MaximalRunAt(line: seq<bool>, i: int, len: nat) {
    && 0 <= i && i + len <= |line|
    && (forall j :: i <= j < i + len ==> line[j])
    && (i == 0 || !line[i - 1])
    && (i + len == |line| || !line[i + len])
  }

  /** The number of maximal runs of exactly `len` cells that start at or after i. */
  ghost function RunsFrom(line: seq<bool>, len: nat, i: nat): nat
    decreases |line| - i
  {
    if i >= |line| then 0
    else (if MaximalRunAt(line, i, len) then 1 else 0) + RunsFrom(line, len, i + 1)
  }

  ghost function Plus(a: Tally, b: Tally): Tally {
    Tally(a.twos + b.twos, a.threes + b.threes, a.fours + b.fours)
  }

  ghost function RunsTally(line: seq<bool>, i: nat): Tally {
    Tally(RunsFrom(line, 2, i), RunsFrom(line, 3, i), RunsFrom(line, 4, i))
  }

  /** No maximal run starts in the interior of a block of pieces. */
  lemma {:induction false} SkipInsideRun(line: seq<bool>, len: nat, i: nat, k: nat)
    requires 1 <= len && 1 <= i <= k + 1 && k <= |line|
    requires forall j :: i - 1 <= j < k ==> line[j]
    ensures RunsFrom(line, len, i) == RunsFrom(line, len, k + 1)
    decreases k + 1 - i
  {
    if i == k + 1 {
    } else if i >= |line| {
      assert RunsFrom(line, len, k + 1) == 0;
    } else {
      assert line[i - 1];
      assert !MaximalRunAt(line, i, len);
      SkipInsideRun(line, len, i + 1, k);
    }
  }

  /** A block of `count` pieces starting at s and ended by k contributes one run of its own length. */
  lemma {:induction false} RunAtBlockStart(line: seq<bool>, len: nat, s: nat, k: nat)
    requires 2 <= len && s <= k <= |line|
    requires forall j :: s <= j < k ==> line[j]
    requires s == 0 || !line[s - 1]
    requires k == |line| || !line[k]
    ensures RunsFrom(line, len, s) == (if k - s == len then 1 else 0) + RunsFrom(line, len, k + 1)
  {
    if s == k {
      if s < |line| {
        assert !MaximalRunAt(line, s, len) by { assert !line[s]; }
        if k + 1 > |line| {
        }
      }
    } else {
      assert MaximalRunAt(line, s, len) <==> k - s == len by {
        if k - s > len {
          assert line[s + len];
        }
      }
      SkipInsideRun(line, len, s + 1, k);
    }
  }

  lemma {:induction false} ScanFromCounts(line: seq<bool>, k: nat, count: nat, t: Tally)
    requires count <= k <= |line|
    requires forall j :: k - count <= j < k ==> line[j]
    requires k - count == 0 || !line[k - count - 1]
    ensures ScanFrom(line, k, count, t) == Plus(t, RunsTally(line, k - count))
    decreases |line| - k
  {
    var s := k - count;
    if k == |line| {
      RunAtBlockStart(line, 2, s, k);
      RunAtBlockStart(line, 3, s, k);
      RunAtBlockStart(line, 4, s, k);
    } else if line[k] {
      ScanFromCounts(line, k + 1, count + 1, t);
    } else {
      ScanFromCounts(line, k + 1, 0, Close(t, count));
      RunAtBlockStart(line, 2, s, k);
      RunAtBlockStart(line, 3, s, k);
      RunAtBlockStart(line, 4, s, k);
    }
  }

  /** The counter scan adds exactly the maximal runs of length 2, 3 and 4 of the line. */
  lemma {:induction false} ScanLineCountsMaximalRuns(line: seq<bool>, t: Tally)
    ensures ScanLine(line, t).twos == t.twos + RunsFrom(line, 2, 0)
    ensures ScanLine(line, t).threes == t.threes + RunsFrom(line, 3, 0)
    ensures ScanLine(line, t).fours == t.fours + RunsFrom(line, 4, 0)
  {
    ScanFromCounts(line, 0, 0, t);
  }

  /** A line without the piece leaves the tally as it was. */
  lemma {:induction false} ScanEmptyLine(line: seq<bool>, k: nat, t: Tally)
    requires k <= |line|
    requires forall j :: 0 <= j < |line| ==> !line[j]
    ensures ScanFrom(line, k, 0, t) == t
    decreases |line| - k
  {
    if k < |line| {
      ScanEmptyLine(line, k + 1, t);
    }
  }

  // ---------------------------------------------------------------------------
  // The lines of a board

  function RowLine(g: Grid, piece: int, r: int): (line: seq<bool>)
    requires ValidGrid(g) && 0 <= r < Rows
    ensures |line| == Cols
    ensures forall c :: 0 <= c < Cols ==> (line[c] <==> g[r][c] == piece)
  {
    seq(Cols, c requires 0 <= c < Cols => g[r][c] == piece)
  }

  function ColLine(g: Grid, piece: int, c: int): (line: seq<bool>)
    requires ValidGrid(g) && 0 <= c < Cols
    ensures |line| == Rows
    ensures forall r :: 0 <= r < Rows ==> (line[r] <==> g[r][c] == piece)
  {
    seq(Rows, r requires 0 <= r < Rows => g[r][c] == piece)
  }

  /**
   * Board.m_nDiagonalData: groups of four ints (start row, start column, row step,
   * number of cells).  A trailing partial group is ignored, as the loop bound
   * length/4 ignores it.
   */
  function NumDiagonals(table: seq<int>): nat {
    |table| / 4
  }

  function DiagLength(table: seq<int>, d: nat): nat
    requires d < NumDiagonals(table)
  {
    if table[4 * d + 3] < 0 then 0 else table[4 * d + 3]
  }

  /** How far the row has moved after i steps of `step` rows each. */
  function Offset(i: nat, step: int): int {
    if i == 0 then 0 else Offset(i - 1, step) + step
  }

  /** The i-th cell visited by diagonal d: the row moves by the step and the column by one. */
  function DiagCell(table: seq<int>, d: nat, i: nat): (int, int)
    requires d < NumDiagonals(table)
  {
    (table[4 * d] + Offset(i, table[4 * d + 2]), table[4 * d + 1] + i)
  }

  /** Every cell a diagonal visits is on the board; otherwise ScoreIt indexes out of bounds. */
  ghost predicate DiagonalsInBounds(table: seq<int>) {
    forall d, i :: 0 <= d < NumDiagonals(table) && 0 <= i < DiagLength(table, d) ==>
      InGrid(DiagCell(table, d, i).0, DiagCell(table, d, i).1)
  }

  function DiagLine(g: Grid, piece: int, table: seq<int>, d: nat): (line: seq<bool>)
    requires ValidGrid(g) && DiagonalsInBounds(table) && d < NumDiagonals(table)
    ensures |line| == DiagLength(table, d)
  {
    seq(DiagLength(table, d), i requires 0 <= i < DiagLength(table, d) =>
      g[DiagCell(table, d, i).0][DiagCell(table, d, i).1] == piece)
  }

  // ---------------------------------------------------------------------------
  // ScoreIt

  function ScanRows(g: Grid, piece: int, r: nat, t: Tally): Tally
    requires ValidGrid(g) && r <= Rows
    decreases Rows - r
  {
    if r == Rows then t else ScanRows(g, piece, r + 1, ScanLine(RowLine(g, piece, r), t))
  }

  function ScanCols(g: Grid, piece: int, c: nat, t: Tally): Tally
    requires ValidGrid(g) && c <= Cols
    decreases Cols - c
  {
    if c == Cols then t else ScanCols(g, piece, c + 1, ScanLine(ColLine(g, piece, c), t))
  }

  function ScanDiags(g: Grid, piece: int, table: seq<int>, d: nat, t: Tally): Tally
    requires ValidGrid(g) && DiagonalsInBounds(table) && d <= NumDiagonals(table)
    decreases NumDiagonals(table) - d
  {
    if d == NumDiagonals(table) then t
    else ScanDiags(g, piece, table, d + 1, ScanLine(DiagLine(g, piece, table, d), t))
  }

  /** The three counters after the row, column and diagonal passes, in that order. */
  function AllRuns(g: Grid, piece: int, table: seq<int>): Tally
    requires ValidGrid(g) && DiagonalsInBounds(table)
  {
    ScanDiags(g, piece, table, 0, ScanCols(g, piece, 0, ScanRows(g, piece, 0, NoRuns())))
  }

  /** Positional bonus of n pieces in column c: 2 each in columns 2 and 3, 1 each in columns 1 and 4. */
  function ColumnBonus(c: int, n: nat): nat {
    if c == 2 || c == 3 then n + n else if c == 1 || c == 4 then n else 0
  }

  function CountTrue(line: seq<bool>): nat {
    if |line| == 0 then 0 else (if line[0] then 1 else 0) + CountTrue(line[1..])
  }

  function PositionalFrom(g: Grid, piece: int, c: nat): nat
    requires ValidGrid(g) && c <= Cols
    decreases Cols - c
  {
    if c == Cols then 0
    else ColumnBonus(c, CountTrue(ColLine(g, piece, c))) + PositionalFrom(g, piece, c + 1)
  }

  /** The score before Java's int arithmetic wraps it. */
  function RawScore(table: seq<int>, piece: int, g: Grid): int
    requires ValidGrid(g) && DiagonalsInBounds(table)
  {
    PositionalFrom(g, piece, 0) + Weighted(AllRuns(g, piece, table))
  }

  function ScoreIt(table: seq<int>, piece: int, g: Grid): (score: int)
    requires ValidGrid(g) && DiagonalsInBounds(table)
    ensures IntMin <= score <= IntMax
  {
    WrapInt32(RawScore(table, piece, g))
  }

  // ---------------------------------------------------------------------------
  // Properties of the score

  /** Weight of a line as the heuristic means it: 1, 2 and 4 per maximal run of 2, 3 and 4. */
  ghost function RunScore(line: seq<bool>): nat {
    var threes := RunsFrom(line, 3, 0);
    var fours := RunsFrom(line, 4, 0);
    RunsFrom(line, 2, 0) + threes + threes + fours + fours + fours + fours
  }

  /** Twos + Threes * 2 + Fours * 4. */
  function Weighted(t: Tally): nat {
    t.twos + t.threes + t.threes + t.fours + t.fours + t.fours + t.fours
  }

  ghost function RowsScore(g: Grid, piece: int, r: nat): nat
    requires ValidGrid(g) && r <= Rows
    decreases Rows - r
  {
    if r == Rows then 0 else RunScore(RowLine(g, piece, r)) + RowsScore(g, piece, r + 1)
  }

  ghost function ColsScore(g: Grid, piece: int, c: nat): nat
    requires ValidGrid(g) && c <= Cols
    decreases Cols - c
  {
    if c == Cols then 0 else RunScore(ColLine(g, piece, c)) + ColsScore(g, piece, c + 1)
  }

  ghost function DiagsScore(g: Grid, piece: int, table: seq<int>, d: nat): nat
    requires ValidGrid(g) && DiagonalsInBounds(table) && d <= NumDiagonals(table)
    decreases NumDiagonals(table) - d
  {
    if d == NumDiagonals(table) then 0
    else RunScore(DiagLine(g, piece, table, d)) + DiagsScore(g, piece, table, d + 1)
  }

  lemma {:induction false} ScanLineWeighted(line: seq<bool>, t: Tally)
    ensures Weighted(ScanLine(line, t)) == Weighted(t) + RunScore(line)
  {
    ScanLineCountsMaximalRuns(line, t);
  }

  lemma {:induction false} ScanRowsWeighted(g: Grid, piece: int, r: nat, t: Tally)
    requires ValidGrid(g) && r <= Rows
    ensures Weighted(ScanRows(g, piece, r, t)) == Weighted(t) + RowsScore(g, piece, r)
    decreases Rows - r
  {
    if r < Rows {
      ScanLineWeighted(RowLine(g, piece, r), t);
      ScanRowsWeighted(g, piece, r + 1, ScanLine(RowLine(g, piece, r), t));
    }
  }

  lemma {:induction false} ScanColsWeighted(g: Grid, piece: int, c: nat, t: Tally)
    requires ValidGrid(g) && c <= Cols
    ensures Weighted(ScanCols(g, piece, c, t)) == Weighted(t) + ColsScore(g, piece, c)
    decreases Cols - c
  {
    if c < Cols {
      ScanLineWeighted(ColLine(g, piece, c), t);
      ScanColsWeighted(g, piece, c + 1, ScanLine(ColLine(g, piece, c), t));
    }
  }

  lemma {:induction false} ScanDiagsWeighted(g: Grid, piece: int, table: seq<int>, d: nat, t: Tally)
    requires ValidGrid(g) && DiagonalsInBounds(table) && d <= NumDiagonals(table)
    ensures Weighted(ScanDiags(g, piece, table, d, t)) == Weighted(t) + DiagsScore(g, piece, table, d)
    decreases NumDiagonals(table) - d
  {
    if d < NumDiagonals(table) {
      ScanLineWeighted(DiagLine(g, piece, table, d), t);
      ScanDiagsWeighted(g, piece, table, d + 1, ScanLine(DiagLine(g, piece, table, d), t));
    }
  }

  /**
   * ScoreIt is the positional weight plus 1, 2 and 4 per maximal run of exactly
   * 2, 3 and 4 pieces over all rows, columns and listed diagonals, reduced to a
   * 32-bit int.
   */
  lemma {:induction false} ScoreItCountsRuns(table: seq<int>, piece: int, g: Grid)
    requires ValidGrid(g) && DiagonalsInBounds(table)
    ensures RawScore(table, piece, g) ==
      PositionalFrom(g, piece, 0) + RowsScore(g, piece, 0) + ColsScore(g, piece, 0) + DiagsScore(g, piece, table, 0)
  {
    var t0 := ScanRows(g, piece, 0, NoRuns());
    var t1 := ScanCols(g, piece, 0, t0);
    ScanRowsWeighted(g, piece, 0, NoRuns());
    ScanColsWeighted(g, piece, 0, t0);
    ScanDiagsWeighted(g, piece, table, 0, t1);
  }

  /** The score never goes below zero unless Java's int addition overflows. */
  lemma {:induction false} ScoreItNonNegative(table: seq<int>, piece: int, g: Grid)
    requires ValidGrid(g) && DiagonalsInBounds(table)
    requires RawScore(table, piece, g) <= IntMax
    ensures ScoreIt(table, piece, g) >= 0
  {
  }

  predicate NoPieceOn(g: Grid, piece: int)
    requires |g| == Rows
  {
    forall r, c :: 0 <= r < Rows && 0 <= c < |g[r]| ==> g[r][c] != piece
  }

  lemma {:induction false} CountTrueNone(line: seq<bool>)
    requires forall j :: 0 <= j < |line| ==> !line[j]
    ensures CountTrue(line) == 0
  {
    if |line| > 0 {
      CountTrueNone(line[1..]);
    }
  }

  lemma {:induction false} NoPieceRows(g: Grid, piece: int, r: nat, t: Tally)
    requires ValidGrid(g) && r <= Rows && NoPieceOn(g, piece)
    ensures ScanRows(g, piece, r, t) == t
    decreases Rows - r
  {
    if r < Rows {
      ScanEmptyLine(RowLine(g, piece, r), 0, t);
      NoPieceRows(g, piece, r + 1, t);
    }
  }

  lemma {:induction false} NoPieceCols(g: Grid, piece: int, c: nat, t: Tally)
    requires ValidGrid(g) && c <= Cols && NoPieceOn(g, piece)
    ensures ScanCols(g, piece, c, t) == t
    ensures PositionalFrom(g, piece, c) == 0
    decreases Cols - c
  {
    if c < Cols {
      ScanEmptyLine(ColLine(g, piece, c), 0, t);
      CountTrueNone(ColLine(g, piece, c));
      NoPieceCols(g, piece, c + 1, t);
    }
  }

  lemma {:induction false} NoPieceDiags(g: Grid, piece: int, table: seq<int>, d: nat, t: Tally)
    requires ValidGrid(g) && DiagonalsInBounds(table) && d <= NumDiagonals(table) && NoPieceOn(g, piece)
    ensures ScanDiags(g, piece, table, d, t) == t
    decreases NumDiagonals(table) - d
  {
    if d < NumDiagonals(table) {
      var line := DiagLine(g, piece, table, d);
      forall j | 0 <= j < |line| ensures !line[j] {
        var cell := DiagCell(table, d, j);
        assert InGrid(cell.0, cell.1);
      }
      ScanEmptyLine(line, 0, t);
      NoPieceDiags(g, piece, table, d + 1, t);
    }
  }

  /** A board on which the piece does not appear scores 0. */
  lemma {:induction false} ScoreItWithoutPiece(table: seq<int>, piece: int, g: Grid)
    requires ValidGrid(g) && DiagonalsInBounds(table) && NoPieceOn(g, piece)
    ensures ScoreIt(table, piece, g) == 0
  {
    NoPieceRows(g, piece, 0, NoRuns());
    NoPieceCols(g, piece, 0, NoRuns());
    NoPieceDiags(g, piece, table, 0, NoRuns());
  }
}

=== FILE: connect4_search.dfy ===
/**
 * The depth-bounded alpha-beta search of the connect-four player (MiniMax.DoSearch
 * and MiniMax.GetMove), with its cache of leaf scores keyed by board contents.
 *
 * The Board class the search calls is not part of this model: its win test, its
 * cats-game test, the EMPTY cell value and its diagonal table are parameters
 * (`BoardRules`).  Placing a piece writes one cell, which is all the search relies on.
 */
module Connect4Search {
  import opened Common
  import opened Connect4Score

  /** A board square, as MiniMax's Position and the (row, col) pairs of the move list hold it. */
  datatype Cell = Cell(row: int, col: int)

  /** What the search needs from the Board class. */
  datatype BoardRules = BoardRules(
    empty: int,
    didSideWin: (Grid, int) -> bool,
    isCatsGame: Grid -> bool,
    diagonals: seq<int>)

  /** The fields of a MiniMax object during one search. */
  datatype Config = Config(rules: BoardRules, searchPiece: int, maxPly: nat)

  ghost predicate ValidConfig(cfg: Config) {
    DiagonalsInBounds(cfg.rules.diagonals)
  }

  /** The value DoSearch returns, the cache it leaves behind and the root move it chose. */
  datatype Outcome = Outcome(value: int, cache: map<Grid, int>, pos: Cell)

  function Max(a: int, b: int): int { if a > b then a else b }

  function Min(a: int, b: int): int { if a < b then a else b }

  /** nPiece ^ 1 on a Java int: flips the lowest bit. */
  function Flip(p: int): int {
    if p % 2 == 0 then p + 1 else p - 1
  }

  lemma {:induction false} FlipFlip(p: int)
    ensures Flip(p) != p
    ensures Flip(Flip(p)) == p
  {
  }

  // ---------------------------------------------------------------------------
  // Legal moves

  /** An empty cell on the bottom row or resting on an occupied cell. */
  predicate IsLegal(g: Grid, empty: int, c: Cell)
    requires ValidGrid(g)
  {
    InGrid(c.row, c.col) && g[c.row][c.col] == empty &&
    (c.row == Rows - 1 || g[c.row + 1][c.col] != empty)
  }

  /** Row-major order of cells: a comes before b. */
  predicate Before(a: Cell, b: Cell) {
    a.row < b.row || (a.row == b.row && a.col < b.col)
  }

  /** Cell c is at or after the scan position (row, col). */
  predicate NotBefore(c: Cell, row: int, col: int) {
    c.row > row || (c.row == row && c.col >= col)
  }

  /** The moves GetLegalMoves lists from scan position (row, col) on. */
  function MovesFrom(g: Grid, empty: int, row: nat, col: nat): seq<Cell>
    requires ValidGrid(g) && row <= Rows && col <= Cols
    decreases Rows - row, Cols - col
  {
    if row == Rows then []
    else if col == Cols then MovesFrom(g, empty, row + 1, 0)
    else
      var here := Cell(row, col);
      var rest := MovesFrom(g, empty, row, col + 1);
      if IsLegal(g, empty, here) then [here] + rest else rest
  }

  /** From scan position (row, col) on, the list holds exactly the legal cells, in row-major order. */
  lemma {:induction false} MovesFromSpec(g: Grid, empty: int, row: nat, col: nat)
    requires ValidGrid(g) && row <= Rows && col <= Cols
    ensures var moves := MovesFrom(g, empty, row, col);
      (forall c :: c in moves <==> IsLegal(g, empty, c) && NotBefore(c, row, col)) &&
      (forall i, j :: 0 <= i < j < |moves| ==> Before(moves[i], moves[j]))
    decreases Rows - row, Cols - col
  {
    if row == Rows {
    } else if col == Cols {
      MovesFromSpec(g, empty, row + 1, 0);
    } else {
      var here := Cell(row, col);
      MovesFromSpec(g, empty, row, col + 1);
      var rest := MovesFrom(g, empty, row, col + 1);
      assert forall x | x in rest :: Before(here, x);
    }
  }

  /** GetLegalMoves; the count it returns is the length of this list. */
  function GetLegalMoves(g: Grid, empty: int): seq<Cell>
    requires ValidGrid(g)
  {
    MovesFrom(g, empty, 0, 0)
  }

  /**
   * GetLegalMoves lists exactly the legal cells, each once, rows 0..5 outer and
   * columns 0..6 inner.
   */
  lemma {:induction false} LegalMovesSpec(g: Grid, empty: int)
    requires ValidGrid(g)
    ensures var moves := GetLegalMoves(g, empty);
      (forall c :: c in moves <==> IsLegal(g, empty, c)) &&
      (forall i, j :: 0 <= i < j < |moves| ==> Before(moves[i], moves[j])) &&
      AllLegal(g, empty, moves) && OnBoard(moves)
  {
    var moves := GetLegalMoves(g, empty);
    MovesFromSpec(g, empty, 0, 0);
    assert forall k | 0 <= k < |moves| :: moves[k] in moves;
  }

  /** Every listed move is a legal move on g. */
  predicate AllLegal(g: Grid, empty: int, moves: seq<Cell>)
    requires ValidGrid(g)
  {
    forall k :: 0 <= k < |moves| ==> IsLegal(g, empty, moves[k])
  }

  /** Every listed move names a square of the board. */
  predicate OnBoard(moves: seq<Cell>) {
    forall k :: 0 <= k < |moves| ==> InGrid(moves[k].row, moves[k].col)
  }

  function PlacePiece(g: Grid, c: Cell, piece: int): (g': Grid)
    requires ValidGrid(g) && InGrid(c.row, c.col)
    ensures ValidGrid(g')
  {
    g[c.row := g[c.row][c.col := piece]]
  }

  // ---------------------------------------------------------------------------
  // The search

  /** Plies left before the horizon: the measure that shrinks with each recursive call. */
  function Horizon(cfg: Config, depth: nat): nat {
    if depth >= cfg.maxPly then 0 else cfg.maxPly - depth
  }

  /** ScoreIt for the search piece, as stored at the horizon. */
  function LeafScore(cfg: Config, g: Grid): int
    requires ValidConfig(cfg) && ValidGrid(g)
  {
    ScoreIt(cfg.rules.diagonals, cfg.searchPiece, g)
  }

  function DoSearch(cfg: Config, pos: Cell, b: Grid, depth: nat, alpha: int, beta: int, piece: int,
                    cache: map<Grid, int>): (r: Outcome)
    requires ValidConfig(cfg) && ValidGrid(b)
    ensures depth != 0 ==> r.pos == pos
    decreases Horizon(cfg, depth), 1, 0
  {
    if b in cache && depth != 0 then
      Outcome(cache[b], cache, pos)
    else if cfg.rules.didSideWin(b, piece) then
      Outcome(if piece == cfg.searchPiece then IntMax else IntMin, cache, pos)
    else if cfg.rules.isCatsGame(b) then
      Outcome(0, cache, pos)
    else if depth >= cfg.maxPly then
      var score := LeafScore(cfg, b);
      Outcome(score, cache[b := score], pos)
    else
      var moves := GetLegalMoves(b, cfg.rules.empty);
      LegalMovesSpec(b, cfg.rules.empty);
      var first := if depth == 0 then (if |moves| > 0 then moves[0] else Cell(0, 0)) else pos;
      if piece == cfg.searchPiece then
        MaxLoop(cfg, depth == 0, first, b, depth, piece, moves, 0, IntMin, alpha, beta, cache)
      else
        MinLoop(cfg, first, b, depth, piece, moves, 0, IntMax, alpha, beta, cache)
  }

  /**
   * The maximising loop from move i on, with the running value, alpha and cache.  `root`
   * is the test nDepth == 0: only there does a rising value move pos to the current move.
   */
  function MaxLoop(cfg: Config, root: bool, pos: Cell, b: Grid, depth: nat, piece: int, moves: seq<Cell>, i: nat,
                   value: int, alpha: int, beta: int, cache: map<Grid, int>): (r: Outcome)
    requires ValidConfig(cfg) && ValidGrid(b) && depth < cfg.maxPly
    requires OnBoard(moves) && i <= |moves|
    ensures !root ==> r.pos == pos
    decreases Horizon(cfg, depth), 0, |moves| - i
  {
    if i == |moves| then Outcome(value, cache, pos)
    else
      var child := PlacePiece(b, moves[i], piece);
      var o := DoSearch(cfg, pos, child, depth + 1, alpha, beta, Flip(piece), cache);
      var pos' := if o.value > value && root then moves[i] else pos;
      var value' := Max(value, o.value);
      var alpha' := Max(alpha, value');
      if beta <= alpha' then Outcome(value', o.cache, pos')
      else MaxLoop(cfg, root, pos', b, depth, piece, moves, i + 1, value', alpha', beta, o.cache)
  }

  /** The minimising loop from move i on, with the running value, beta and cache. */
  function MinLoop(cfg: Config, pos: Cell, b: Grid, depth: nat, piece: int, moves: seq<Cell>, i: nat,
                   value: int, alpha: int, beta: int, cache: map<Grid, int>): (r: Outcome)
    requires ValidConfig(cfg) && ValidGrid(b) && depth < cfg.maxPly
    requires OnBoard(moves) && i <= |moves|
    ensures depth != 0 ==> r.pos == pos
    decreases Horizon(cfg, depth), 0, |moves| - i
  {
    if i == |moves| then Outcome(value, cache, pos)
    else
      var child := PlacePiece(b, moves[i], piece);
      var o := DoSearch(cfg, pos, child, depth + 1, alpha, beta, Flip(piece), cache);
      var value' := Min(value, o.value);
      var beta' := Min(beta, value');
      if beta' <= alpha then Outcome(value', o.cache, pos)
      else MinLoop(cfg, pos, b, depth, piece, moves, i + 1, value', alpha, beta', o.cache)
  }

  /** GetMove: search the board for `piece` from depth 0 with the full int window. */
  function GetMove(rules: BoardRules, maxPly: nat, pos: Cell, g: Grid, piece: int, cache: map<Grid, int>): (r: Outcome)
    requires DiagonalsInBounds(rules.diagonals) && ValidGrid(g)
  {
    DoSearch(Config(rules, piece, maxPly), pos, g, 0, IntMin, IntMax, piece, cache)
  }
}

=== FILE: huffman.dfy ===
/**
 * makeHuffmanCodes and writeCode of Huffman.java.  Every symbol 0..255 with a non-zero
 * frequency becomes a leaf in a binary min-heap; the two lightest trees are merged under
 * an internal node until one tree is left; the code of a symbol is the path from the root
 * to its leaf, false for a step left and true for a step right.
 *
 * A frequency table is a Java int[] (at least 256 entries are read), a code is a boolean[]
 * and the code table has 256 nullable entries.  Sums of frequencies are Java int sums, so
 * they wrap around modulo 2^32.
 */
module Huffman {
  import opened Common
  import opened HuffmanTrees
  import opened HuffmanCodes
  import BinaryHeaps
  import Multisets

  /** One turn of Java's 32-bit int arithmetic. */
  const Modulus: int := 0x1_0000_0000

  /** Every entry fits a Java int. */
  predicate IntArray(freq: seq<int>) {
    forall i :: 0 <= i < |freq| ==> IntMin <= freq[i] <= IntMax
  }

  /** The sum freq[0] + ... + freq[n - 1] over the integers. */
  function Sum(freq: seq<int>, n: nat): int
    requires n <= |freq|
  {
    if n == 0 then 0 else Sum(freq, n - 1) + freq[n - 1]
  }

  /** The leaf symbols of every tree in a heap, counted together. */
  function ForestSymbols(f: seq<HuffmanTree>): multiset<int> {
    if f == [] then multiset{} else Symbols(f[0]) + ForestSymbols(f[1..])
  }

  /** The frequencies of every tree in a heap, added over the integers. */
  function ForestWeight(f: seq<HuffmanTree>): int {
    if f == [] then 0 else f[0].frequency + ForestWeight(f[1..])
  }

  lemma {:induction false} ForestConcat(a: seq<HuffmanTree>, b: seq<HuffmanTree>)
    ensures ForestSymbols(a + b) == ForestSymbols(a) + ForestSymbols(b)
    ensures ForestWeight(a + b) == ForestWeight(a) + ForestWeight(b)
    decreases |a|
  {
    if a == [] {
      assert a + b == b;
    } else {
      assert (a + b)[0] == a[0] && (a + b)[1..] == a[1..] + b;
      ForestConcat(a[1..], b);
    }
  }

  /** The totals of a forest, split around entry j. */
  lemma {:induction false} ForestSplit(b: seq<HuffmanTree>, j: nat)
    requires j < |b|
    ensures ForestSymbols(b) == ForestSymbols(b[..j]) + (Symbols(b[j]) + ForestSymbols(b[j + 1..]))
    ensures ForestWeight(b) == ForestWeight(b[..j]) + (b[j].frequency + ForestWeight(b[j + 1..]))
  {
    var c := b[j..];
    assert b == b[..j] + c;
    ForestConcat(b[..j], c);
    ForestCons(c);
  }

  lemma {:induction false} ForestCons(c: seq<HuffmanTree>)
    requires c != []
    ensures ForestSymbols(c) == Symbols(c[0]) + ForestSymbols(c[1..])
    ensures ForestWeight(c) == c[0].frequency + ForestWeight(c[1..])
  {
  }

  /** The totals of a forest do not depend on the order the heap keeps its trees in. */
  lemma {:induction false} ForestPerm(a: seq<HuffmanTree>, b: seq<HuffmanTree>)
    requires multiset(a) == multiset(b)
    ensures ForestSymbols(a) == ForestSymbols(b) && ForestWeight(a) == ForestWeight(b)
    decreases |a|
  {
    if a == [] {
      assert |b| == |multiset(b)| == 0;
    } else {
      var j := Multisets.PermHead(a, b);
      ForestPerm(a[1..], b[..j] + b[j + 1..]);
      ForestCons(a);
      ForestSplit(b, j);
      ForestConcat(b[..j], b[j + 1..]);
    }
  }

  /** A heap that gained tree x gained its leaves and its frequency. */
  lemma {:induction false} ForestAdd(before: seq<HuffmanTree>, x: HuffmanTree, after: seq<HuffmanTree>)
    requires multiset(after) == multiset(before) + multiset{x}
    ensures ForestSymbols(after) == ForestSymbols(before) + Symbols(x)
    ensures ForestWeight(after) == ForestWeight(before) + x.frequency
  {
    ForestPerm(after, before + [x]);
    ForestConcat(before, [x]);
    assert [x][1..] == [];
  }

  /** The two integers differ by a whole number of turns of 2^32. */
  predicate Congruent(a: int, b: int) {
    (a - b) % Modulus == 0
  }

  /** Congruence is transitive. */
  lemma {:induction false} CongruentTrans(a: int, b: int, c: int)
    requires Congruent(a, b) && Congruent(b, c)
    ensures Congruent(a, c)
  {
    var p, q := (a - b) / Modulus, (b - c) / Modulus;
    assert a - b == Modulus * p && b - c == Modulus * q;
    assert a - c == Modulus * (p + q);
  }

  /** Integers at most one turn of 2^32 apart, in either direction, are congruent. */
  lemma {:induction false} OneTurnCongruent(a: int, b: int)
    requires a - b == 0 || a - b == Modulus || a - b == -Modulus
    ensures Congruent(a, b)
  {
  }

  /** Of all integers congruent to y, only the int-range one is the wrap-around. */
  lemma {:induction false} WrapFromTurns(x: int, y: int)
    requires IntMin <= x <= IntMax && Congruent(x, y)
    ensures x == WrapInt32(y)
  {
    var w := WrapInt32(y);
    CongruentTrans(x, y, w);
    var k := (x - w) / Modulus;
    assert x - w == Modulus * k;
    if k > 0 {
      MulMono(Modulus, 1, k);
    } else if k < 0 {
      MulMono(Modulus, 1, -k);
    }
  }

  /** One turn of the first loop: a symbol with a non-zero frequency adds its leaf. */
  lemma {:induction false} LeafAdded(freq: seq<int>, index: int, before: seq<HuffmanTree>, after: seq<HuffmanTree>)
    requires |freq| >= TableSize && IntArray(freq) && 0 <= index < TableSize && freq[index] != 0
    requires forall t :: t in before ==> WellBuilt(freq, t)
    requires ForestSymbols(before) == Present(freq, index) && ForestWeight(before) == Sum(freq, index)
    requires multiset(after) == multiset(before) + multiset{NewTree(index, freq[index])}
    ensures forall t :: t in after ==> WellBuilt(freq, t)
    ensures ForestSymbols(after) == Present(freq, index + 1) && ForestWeight(after) == Sum(freq, index + 1)
  {
    var leaf := NewTree(index, freq[index]);
    assert Symbols(leaf) == multiset{index};
    assert WellBuilt(freq, leaf);
    ForestAdd(before, leaf, after);
    Multisets.AddedKept(before, leaf, after);
  }

  /** One turn of the first loop: symbol index gets a leaf when its frequency is not zero. */
  method LoadLeaf(freq: seq<int>, index: int, h: BinaryHeaps.Heap<HuffmanTree>)
    returns (r: BinaryHeaps.Heap<HuffmanTree>)
    requires |freq| >= TableSize && IntArray(freq) && 0 <= index < TableSize && BinaryHeaps.Valid(h)
    requires forall t :: t in h.elems ==> WellBuilt(freq, t)
    requires ForestSymbols(h.elems) == Present(freq, index) && ForestWeight(h.elems) == Sum(freq, index)
    ensures BinaryHeaps.Valid(r)
    ensures forall t :: t in r.elems ==> WellBuilt(freq, t)
    ensures ForestSymbols(r.elems) == Present(freq, index + 1) && ForestWeight(r.elems) == Sum(freq, index + 1)
  {
    if freq[index] != 0 {
      r := BinaryHeaps.Add(Freq, h, NewTree(index, freq[index]));
      LeafAdded(freq, index, h.elems, r.elems);
    } else {
      r := h;
    }
  }

  /** The first loop of makeHuffmanCodes: a leaf per symbol with a non-zero frequency. */
  method LoadLeaves(freq: seq<int>) returns (h: BinaryHeaps.Heap<HuffmanTree>)
    requires |freq| >= TableSize && IntArray(freq)
    ensures BinaryHeaps.Valid(h)
    ensures forall t :: t in h.elems ==> WellBuilt(freq, t)
    ensures ForestSymbols(h.elems) == Present(freq, TableSize)
    ensures ForestWeight(h.elems) == Sum(freq, TableSize)
  {
    h := BinaryHeaps.NewHeap();
    var index := 0;
    while index < TableSize
      invariant 0 <= index <= TableSize
      invariant BinaryHeaps.Valid(h)
      invariant forall t :: t in h.elems ==> WellBuilt(freq, t)
      invariant ForestSymbols(h.elems) == Present(freq, index)
      invariant ForestWeight(h.elems) == Sum(freq, index)
    {
      h := LoadLeaf(freq, index, h);
      index := index + 1;
    }
  }

  /** The node that merges two trees: symbol -1, the int sum of their frequencies, the first on the left. */
  lemma {:induction false} Merged(freq: seq<int>, node1: HuffmanTree, node2: HuffmanTree, internal: HuffmanTree)
    requires |freq| >= TableSize && WellBuilt(freq, node1) && WellBuilt(freq, node2)
    requires internal == HuffmanTree(InternalNode, AddInt32(node1.frequency, node2.frequency), Some(node1), Some(node2))
    ensures WellBuilt(freq, internal)
    ensures Symbols(internal) == Symbols(node1) + Symbols(node2)
  {
  }

  /**
   * One turn of the second loop: the two lightest trees become the children of a new node.
   * The int sum may wrap: the heap's total weight changes by whole turns of 2^32.
   */
  method MergeStep(freq: seq<int>, h: BinaryHeaps.Heap<HuffmanTree>)
    returns (r: BinaryHeaps.Heap<HuffmanTree>)
    requires |freq| >= TableSize && BinaryHeaps.Valid(h) && |h.elems| > 1
    requires forall t :: t in h.elems ==> WellBuilt(freq, t)
    ensures BinaryHeaps.Valid(r) && |r.elems| == |h.elems| - 1
    ensures forall t :: t in r.elems ==> WellBuilt(freq, t)
    ensures ForestSymbols(r.elems) == ForestSymbols(h.elems)
    ensures Congruent(ForestWeight(r.elems), ForestWeight(h.elems))
  {
    var first, h1 := BinaryHeaps.Remove(Freq, h);
    var second, h2 := BinaryHeaps.Remove(Freq, h1);
    var node1, node2 := first.value, second.value;
    var internal := NewTree(InternalNode, AddInt32(node1.frequency, node2.frequency));
    internal := SetLeft(internal, node1);
    internal := SetRight(internal, node2);
    r := BinaryHeaps.Add(Freq, h2, internal);
    MergeAccount(freq, h.elems, h1.elems, h2.elems, r.elems, internal);
    OneTurnCongruent(ForestWeight(r.elems), ForestWeight(h.elems));
  }

  /** What one merge turn does to the heap's trees, leaves and total weight. */
  lemma {:induction false} MergeAccount(freq: seq<int>, h: seq<HuffmanTree>, h1: seq<HuffmanTree>, h2: seq<HuffmanTree>,
                     r: seq<HuffmanTree>, internal: HuffmanTree)
    requires |freq| >= TableSize && |h| > 1 && |h1| > 0
    requires forall t :: t in h ==> WellBuilt(freq, t)
    requires multiset(h1) == multiset(h) - multiset{h[0]}
    requires multiset(h2) == multiset(h1) - multiset{h1[0]}
    requires internal == HuffmanTree(InternalNode, AddInt32(h[0].frequency, h1[0].frequency), Some(h[0]), Some(h1[0]))
    requires multiset(r) == multiset(h2) + multiset{internal}
    ensures forall t :: t in r ==> WellBuilt(freq, t)
    ensures ForestSymbols(r) == ForestSymbols(h)
    ensures var d := ForestWeight(r) - ForestWeight(h); d == 0 || d == Modulus || d == -Modulus
  {
    var node1, node2 := h[0], h1[0];
    Multisets.RemovedKept(h, h1);
    Multisets.RemovedKept(h1, h2);
    Multisets.AddedKept(h2, internal, r);
    Merged(freq, node1, node2, internal);
    MergeTotals(h, h1, h2, r, node1, node2, internal);
  }

  /** Two trees out and their merge in: the leaves stay, the weight changes by the merge's rounding. */
  lemma {:induction false} MergeTotals(h: seq<HuffmanTree>, h1: seq<HuffmanTree>, h2: seq<HuffmanTree>,
                                       r: seq<HuffmanTree>, node1: HuffmanTree, node2: HuffmanTree, internal: HuffmanTree)
    requires node1 in multiset(h) && multiset(h1) == multiset(h) - multiset{node1}
    requires node2 in multiset(h1) && multiset(h2) == multiset(h1) - multiset{node2}
    requires multiset(r) == multiset(h2) + multiset{internal}
    requires Symbols(internal) == Symbols(node1) + Symbols(node2)
    ensures ForestSymbols(r) == ForestSymbols(h)
    ensures ForestWeight(r) == ForestWeight(h) - node1.frequency - node2.frequency + internal.frequency
  {
    Multisets.MinusPlus(multiset(h), multiset(h1), node1);
    Multisets.MinusPlus(multiset(h1), multiset(h2), node2);
    ForestAdd(h1, node1, h);
    ForestAdd(h2, node2, h1);
    ForestAdd(h2, internal, r);
  }

  /** The second loop of makeHuffmanCodes: merge the two lightest trees until one is left. */
  method MergeAll(freq: seq<int>, start: BinaryHeaps.Heap<HuffmanTree>)
    returns (h: BinaryHeaps.Heap<HuffmanTree>)
    requires |freq| >= TableSize && BinaryHeaps.Valid(start)
    requires forall t :: t in start.elems ==> WellBuilt(freq, t)
    ensures BinaryHeaps.Valid(h) && |h.elems| <= 1
    ensures |h.elems| == 0 <==> |start.elems| == 0
    ensures forall t :: t in h.elems ==> WellBuilt(freq, t)
    ensures ForestSymbols(h.elems) == ForestSymbols(start.elems)
    ensures Congruent(ForestWeight(h.elems), ForestWeight(start.elems))
  {
    h := start;
    while |h.elems| > 1
      invariant BinaryHeaps.Valid(h)
      invariant |h.elems| == 0 <==> |start.elems| == 0
      invariant forall t :: t in h.elems ==> WellBuilt(freq, t)
      invariant ForestSymbols(h.elems) == ForestSymbols(start.elems)
      invariant Congruent(ForestWeight(h.elems), ForestWeight(start.elems))
      decreases |h.elems|
    {
      var next := MergeStep(freq, h);
      CongruentTrans(ForestWeight(next.elems), ForestWeight(h.elems), ForestWeight(start.elems));
      h := next;
    }
  }

  /** A forest of built trees has leaves exactly when it has trees. */
  lemma {:induction false} ForestEmpty(freq: seq<int>, f: seq<HuffmanTree>)
    requires |freq| >= TableSize && forall t :: t in f ==> WellBuilt(freq, t)
    ensures ForestSymbols(f) == multiset{} <==> f == []
  {
    if f != [] {
      SymbolsNonEmpty(freq, f[0]);
      assert |ForestSymbols(f)| >= |Symbols(f[0])|;
    }
  }

  /** Both loops and the final remove(): the Huffman tree, or null when no symbol occurs. */
  method BuildTree(freq: seq<int>) returns (tree: Option<HuffmanTree>)
    requires |freq| >= TableSize && IntArray(freq)
    ensures tree.None? <==> forall s :: 0 <= s < TableSize ==> freq[s] == 0
    ensures tree.Some? ==> WellBuilt(freq, tree.value) && Symbols(tree.value) == Present(freq, TableSize)
    ensures tree.Some? ==> tree.value.frequency == WrapInt32(Sum(freq, TableSize))
  {
    var leaves := LoadLeaves(freq);
    var h := MergeAll(freq, leaves);
    var rest;
    tree, rest := BinaryHeaps.Remove(Freq, h);
    PresentEmpty(freq);
    ForestEmpty(freq, h.elems);
    ForestEmpty(freq, leaves.elems);
    if tree.Some? {
      var t := tree.value;
      assert h.elems == [t];
      assert t in h.elems && WellBuilt(freq, t);
      assert [t][1..] == [];
      assert ForestSymbols(h.elems) == Symbols(t) && ForestWeight(h.elems) == t.frequency;
      WrapFromTurns(t.frequency, Sum(freq, TableSize));
    }
  }

  /** What makeHuffmanCodes does as written: a return value, or the exception it throws. */
  datatype Outcome = Returned(codes: Option<Table>) | NullPointerException

  /**
   * makeHuffmanCodes as written: when no symbol occurs the heap is empty, remove() returns
   * null, and writeCode dereferences that null.
   */
  method MakeHuffmanCodesAsWritten(freq: Option<seq<int>>) returns (o: Outcome)
    requires freq.Some? ==> |freq.value| >= TableSize && IntArray(freq.value)
    ensures freq.None? ==> o == Returned(None)
    ensures freq.Some? ==> (o == NullPointerException <==> forall s :: 0 <= s < TableSize ==> freq.value[s] == 0)
    ensures o.Returned? && freq.Some? ==> o.codes.Some? && |o.codes.value| == TableSize
  {
    if freq.None? {
      return Returned(None);
    }
    var tree := BuildTree(freq.value);
    if tree.None? {
      return NullPointerException;
    }
    TableEntries(freq.value, tree.value);
    o := Returned(Some(CodeTable(freq.value, tree.value)));
  }

  /**
   * makeHuffmanCodes with the empty frequency table answered by an empty code table.  It
   * returns the code table and the tree the codes were read from (the static Tree field).
   */
  method MakeHuffmanCodes(freq: Option<seq<int>>) returns (codes: Option<Table>, tree: Option<HuffmanTree>)
    requires freq.Some? ==> |freq.value| >= TableSize && IntArray(freq.value)
    ensures freq.None? ==> codes.None? && tree.None?
    ensures freq.Some? ==> codes.Some? && |codes.value| == TableSize
    ensures freq.Some? ==> (tree.None? <==> forall s :: 0 <= s < TableSize ==> freq.value[s] == 0)
    ensures freq.Some? ==> forall s :: 0 <= s < TableSize ==> (codes.value[s].Some? <==> freq.value[s] != 0)
    ensures freq.Some? ==> forall s :: 0 <= s < TableSize && codes.value[s].Some? ==>
      tree.Some? && Follow(tree.value, codes.value[s].value) == Some(HuffmanTree(s, freq.value[s], None, None))
    ensures freq.Some? ==> forall s, s' ::
      0 <= s < TableSize && 0 <= s' < TableSize && s != s'
      && codes.value[s].Some? && codes.value[s'].Some?
      ==> !IsPrefix(codes.value[s].value, codes.value[s'].value)
    ensures freq.Some? ==> forall s :: 0 <= s < TableSize && Alone(freq.value, s) ==> codes.value[s] == Some([])
    ensures tree.Some? ==> freq.Some? && tree.value.frequency == WrapInt32(Sum(freq.value, TableSize))
  {
    if freq.None? {
      return None, None;
    }
    tree := BuildTree(freq.value);
    if tree.None? {
      return Some(EmptyTable()), None;
    }
    CodeTableSpec(freq.value, tree.value);
    codes := Some(CodeTable(freq.value, tree.value));
  }
}

=== FILE: huffman_codes.dfy ===
/**
 * The code side of Huffman.java: the trees makeHuffmanCodes builds, the path from the
 * root to each leaf, and the code table writeCode fills from those paths.
 */
module HuffmanCodes {
  import opened Common
  import opened HuffmanTrees

  /** DEFAULT_CAPACITY: the number of byte values, the size of the code table and of the path buffer. */
  const TableSize: int := 256

  type Code = seq<bool>

  type Table = seq<Option<Code>>

  /** The symbols below n that have a non-zero frequency, each once. */
  function Present(freq: seq<int>, n: nat): multiset<int>
    requires n <= |freq|
  {
    if n == 0 then multiset{}
    else Present(freq, n - 1) + (if freq[n - 1] != 0 then multiset{n - 1} else multiset{})
  }

  lemma {:induction false} PresentIff(freq: seq<int>, n: nat)
    requires n <= |freq|
    ensures forall s :: Present(freq, n)[s] == if 0 <= s < n && freq[s] != 0 then 1 else 0
    ensures |Present(freq, n)| <= n
  {
    if n > 0 {
      PresentIff(freq, n - 1);
    }
  }

  /** Symbol s is the only one with a non-zero frequency. */
  predicate Alone(freq: seq<int>, s: int)
    requires |freq| >= TableSize && 0 <= s < TableSize
  {
    freq[s] != 0 && forall j :: 0 <= j < TableSize && j != s ==> freq[j] == 0
  }

  /** The symbols of the leaves of t: every node whose symbol is not the internal-node symbol. */
  function Symbols(t: HuffmanTree): multiset<int>
    decreases t
  {
    (if t.symbol != InternalNode then multiset{t.symbol} else multiset{})
    + (if t.left.Some? then Symbols(t.left.value) else multiset{})
    + (if t.right.Some? then Symbols(t.right.value) else multiset{})
  }

  /** The leaves of a child are leaves of its parent. */
  lemma {:induction false} ChildSymbols(t: HuffmanTree)
    ensures t.symbol != InternalNode ==> t.symbol in Symbols(t)
    ensures t.left.Some? ==> Symbols(t.left.value) <= Symbols(t)
    ensures t.right.Some? ==> Symbols(t.right.value) <= Symbols(t)
  {
  }

  /** s is a leaf symbol of t when it is t's own symbol or a leaf symbol of a child. */
  lemma {:induction false} SymbolIn(t: HuffmanTree, s: int)
    ensures s in Symbols(t) <==>
      (t.symbol != InternalNode && s == t.symbol)
      || (t.left.Some? && s in Symbols(t.left.value))
      || (t.right.Some? && s in Symbols(t.right.value))
  {
    var own := if t.symbol != InternalNode then multiset{t.symbol} else multiset{};
    var l := if t.left.Some? then Symbols(t.left.value) else multiset{};
    var r := if t.right.Some? then Symbols(t.right.value) else multiset{};
    assert Symbols(t) == own + l + r;
  }

  /** The number of steps on the longest path from t down to a node without children. */
  function Height(t: HuffmanTree): nat
    decreases t
  {
    var l := if t.left.Some? then 1 + Height(t.left.value) else 0;
    var r := if t.right.Some? then 1 + Height(t.right.value) else 0;
    if l < r then r else l
  }

  /**
   * The shape makeHuffmanCodes gives every tree it builds from freq: a leaf carries a
   * symbol 0..255 with a non-zero frequency, that frequency, and no children; an internal
   * node carries -1, two children, and the int sum of their frequencies.
   */
  predicate WellBuilt(freq: seq<int>, t: HuffmanTree)
    requires |freq| >= TableSize
    decreases t
  {
    IntMin <= t.frequency <= IntMax
    && if t.symbol != InternalNode then
      0 <= t.symbol < TableSize && freq[t.symbol] != 0 && t.frequency == freq[t.symbol]
      && t.left.None? && t.right.None?
    else
      t.left.Some? && t.right.Some?
      && WellBuilt(freq, t.left.value) && WellBuilt(freq, t.right.value)
      && t.frequency == AddInt32(t.left.value.frequency, t.right.value.frequency)
  }

  /** Following the bits of c from t: false goes to the left child, true to the right one. */
  function Follow(t: HuffmanTree, c: Code): Option<HuffmanTree>
    decreases |c|
  {
    if c == [] then Some(t)
    else
      var child := if c[0] then t.right else t.left;
      if child.None? then None else Follow(child.value, c[1..])
  }

  predicate IsPrefix(a: Code, b: Code) {
    |a| <= |b| && b[..|a|] == a
  }

  /**
   * The path to the leaf of s that a preorder walk visits last, which is the code that
   * survives when writeCode overwrites a table entry.
   */
  function CodeOf(t: HuffmanTree, s: int): Code
    decreases t
  {
    if t.right.Some? && s in Symbols(t.right.value) then [true] + CodeOf(t.right.value, s)
    else if t.left.Some? && s in Symbols(t.left.value) then [false] + CodeOf(t.left.value, s)
    else []
  }

  /** The code table makeHuffmanCodes starts from: every entry null. */
  function EmptyTable(): (r: Table)
    ensures |r| == TableSize && forall s :: 0 <= s < TableSize ==> r[s].None?
  {
    seq(TableSize, _ => None)
  }

  /**
   * writeCode(node) with the path buffer holding buffer: a leaf records the buffer as its
   * code, then the walk goes left appending false and right appending true.  The buffer
   * has 256 slots, so the path below node must fit in what is left of it.
   */
  function WriteCode(node: HuffmanTree, buffer: Code, table: Table): (r: Table)
    requires |table| == TableSize
    requires forall s :: s in Symbols(node) ==> 0 <= s < TableSize
    requires |buffer| + Height(node) <= TableSize
    ensures |r| == TableSize
    decreases node
  {
    ChildSymbols(node);
    var recorded := if node.symbol != InternalNode then table[node.symbol := Some(buffer)] else table;
    var afterLeft :=
      if node.left.Some? then WriteCode(node.left.value, buffer + [false], recorded) else recorded;
    if node.right.Some? then WriteCode(node.right.value, buffer + [true], afterLeft) else afterLeft
  }

  lemma {:induction false} AppendStep(buffer: Code, bit: bool, c: Code)
    ensures buffer + [bit] + c == buffer + ([bit] + c)
  {
  }

  /** writeCode gives leaf symbol s below node its path behind the buffer, and leaves other entries alone. */
  lemma {:induction false} WriteCodeAt(node: HuffmanTree, buffer: Code, table: Table, s: int)
    requires |table| == TableSize
    requires forall s :: s in Symbols(node) ==> 0 <= s < TableSize
    requires |buffer| + Height(node) <= TableSize
    requires 0 <= s < TableSize
    ensures WriteCode(node, buffer, table)[s] == if s in Symbols(node) then Some(buffer + CodeOf(node, s)) else table[s]
    decreases node
  {
    ChildSymbols(node);
    SymbolIn(node, s);
    var recorded := if node.symbol != InternalNode then table[node.symbol := Some(buffer)] else table;
    var afterLeft :=
      if node.left.Some? then WriteCode(node.left.value, buffer + [false], recorded) else recorded;
    var r := WriteCode(node, buffer, table);
    assert r == if node.right.Some? then WriteCode(node.right.value, buffer + [true], afterLeft) else afterLeft;
    if node.right.Some? && s in Symbols(node.right.value) {
      WriteCodeAt(node.right.value, buffer + [true], afterLeft, s);
      var c := CodeOf(node.right.value, s);
      assert CodeOf(node, s) == [true] + c;
      AppendStep(buffer, true, c);
      assert r[s] == Some(buffer + CodeOf(node, s));
    } else {
      if node.right.Some? {
        WriteCodeAt(node.right.value, buffer + [true], afterLeft, s);
      }
      assert r[s] == afterLeft[s];
      if node.left.Some? && s in Symbols(node.left.value) {
        WriteCodeAt(node.left.value, buffer + [false], recorded, s);
        var c := CodeOf(node.left.value, s);
        assert CodeOf(node, s) == [false] + c;
        AppendStep(buffer, false, c);
        assert r[s] == Some(buffer + CodeOf(node, s));
      } else {
        if node.left.Some? {
          WriteCodeAt(node.left.value, buffer + [false], recorded, s);
        }
        assert r[s] == recorded[s];
        assert CodeOf(node, s) == [] && buffer + [] == buffer;
        assert r[s] == if s in Symbols(node) then Some(buffer) else table[s];
      }
    }
  }

  /** writeCode gives every leaf symbol below node its path behind the buffer and leaves other entries alone. */
  lemma {:induction false} WriteCodeSpec(node: HuffmanTree, buffer: Code, table: Table)
    requires |table| == TableSize
    requires forall s :: s in Symbols(node) ==> 0 <= s < TableSize
    requires |buffer| + Height(node) <= TableSize
    ensures forall s :: 0 <= s < TableSize ==>
      WriteCode(node, buffer, table)[s] == if s in Symbols(node) then Some(buffer + CodeOf(node, s)) else table[s]
  {
    forall s | 0 <= s < TableSize
      ensures WriteCode(node, buffer, table)[s]
        == if s in Symbols(node) then Some(buffer + CodeOf(node, s)) else table[s]
    {
      WriteCodeAt(node, buffer, table, s);
    }
  }

  lemma {:induction false} FollowConcat(t: HuffmanTree, a: Code, b: Code)
    ensures Follow(t, a + b) == if Follow(t, a).None? then None else Follow(Follow(t, a).value, b)
    decreases |a|
  {
    if a == [] {
      assert a + b == b;
    } else {
      assert (a + b)[0] == a[0] && (a + b)[1..] == a[1..] + b;
      var child := if a[0] then t.right else t.left;
      if child.Some? {
        FollowConcat(child.value, a[1..], b);
      }
    }
  }

  /** Every tree makeHuffmanCodes builds has at least one leaf. */
  lemma {:induction false} SymbolsNonEmpty(freq: seq<int>, t: HuffmanTree)
    requires |freq| >= TableSize && WellBuilt(freq, t)
    ensures |Symbols(t)| >= 1
    ensures forall s :: s in Symbols(t) ==> 0 <= s < TableSize && freq[s] != 0
    decreases t
  {
    if t.symbol == InternalNode {
      SymbolsNonEmpty(freq, t.left.value);
      SymbolsNonEmpty(freq, t.right.value);
    }
  }

  /** The code of s leads from the root to the leaf of s, which holds freq[s] and has no children. */
  lemma {:induction false} CodeOfLeaf(freq: seq<int>, t: HuffmanTree, s: int)
    requires |freq| >= TableSize && WellBuilt(freq, t) && 0 <= s < TableSize && s in Symbols(t)
    ensures Follow(t, CodeOf(t, s)) == Some(HuffmanTree(s, freq[s], None, None))
    decreases t
  {
    if t.symbol == InternalNode {
      var c := CodeOf(t, s);
      if s in Symbols(t.right.value) {
        CodeOfLeaf(freq, t.right.value, s);
        assert c[0] && c[1..] == CodeOf(t.right.value, s);
      } else {
        CodeOfLeaf(freq, t.left.value, s);
        assert !c[0] && c[1..] == CodeOf(t.left.value, s);
      }
    }
  }

  /** From a node without children only the empty path leads anywhere. */
  lemma {:induction false} FollowLeaf(t: HuffmanTree, c: Code)
    requires t.left.None? && t.right.None?
    ensures Follow(t, c) == if c == [] then Some(t) else None
  {
  }

  /** No code of one leaf is a prefix of the code of another leaf. */
  lemma {:induction false} PrefixFree(freq: seq<int>, t: HuffmanTree, s: int, s': int)
    requires |freq| >= TableSize && WellBuilt(freq, t)
    requires 0 <= s < TableSize && 0 <= s' < TableSize
    requires s in Symbols(t) && s' in Symbols(t) && s != s'
    ensures !IsPrefix(CodeOf(t, s), CodeOf(t, s'))
  {
    var c, c' := CodeOf(t, s), CodeOf(t, s');
    CodeOfLeaf(freq, t, s);
    CodeOfLeaf(freq, t, s');
    if IsPrefix(c, c') {
      var rest := c'[|c|..];
      assert c' == c + rest;
      FollowConcat(t, c, rest);
      FollowLeaf(HuffmanTree(s, freq[s], None, None), rest);
      assert false;
    }
  }

  /** A built tree is no deeper than its leaf count minus one, so the path buffer suffices. */
  lemma {:induction false} HeightBound(freq: seq<int>, t: HuffmanTree)
    requires |freq| >= TableSize && WellBuilt(freq, t)
    ensures Height(t) < |Symbols(t)|
    decreases t
  {
    if t.symbol == InternalNode {
      HeightBound(freq, t.left.value);
      HeightBound(freq, t.right.value);
    }
  }

  /** A built tree with a single leaf is that leaf. */
  lemma {:induction false} SingleLeaf(freq: seq<int>, t: HuffmanTree)
    requires |freq| >= TableSize && WellBuilt(freq, t) && |Symbols(t)| == 1
    ensures t.left.None? && t.right.None?
  {
    if t.symbol == InternalNode {
      SymbolsNonEmpty(freq, t.left.value);
      SymbolsNonEmpty(freq, t.right.value);
    }
  }

  /** The code table writeCode fills for the finished tree. */
  function CodeTable(freq: seq<int>, t: HuffmanTree): (r: Table)
    requires |freq| >= TableSize && WellBuilt(freq, t) && |Symbols(t)| <= TableSize
    ensures |r| == TableSize
  {
    SymbolsNonEmpty(freq, t);
    HeightBound(freq, t);
    WriteCode(t, [], EmptyTable())
  }

  lemma {:induction false} PresentNone(freq: seq<int>, n: nat)
    requires n <= |freq| && forall s :: 0 <= s < n ==> freq[s] == 0
    ensures Present(freq, n) == multiset{}
  {
    if n > 0 {
      PresentNone(freq, n - 1);
    }
  }

  /** No symbol occurs exactly when every frequency is zero. */
  lemma {:induction false} PresentEmpty(freq: seq<int>)
    requires |freq| >= TableSize
    ensures Present(freq, TableSize) == multiset{} <==> forall s :: 0 <= s < TableSize ==> freq[s] == 0
  {
    PresentIff(freq, TableSize);
    if forall s :: 0 <= s < TableSize ==> freq[s] == 0 {
      PresentNone(freq, TableSize);
    } else {
      var s :| 0 <= s < TableSize && freq[s] != 0;
      assert Present(freq, TableSize)[s] == 1;
    }
  }

  /** The entries of the code table: the path to the leaf of every symbol that occurs, null for the rest. */
  lemma {:induction false} TableEntries(freq: seq<int>, t: HuffmanTree)
    requires |freq| >= TableSize && WellBuilt(freq, t) && Symbols(t) == Present(freq, TableSize)
    ensures |Symbols(t)| <= TableSize
    ensures forall s :: 0 <= s < TableSize ==>
      CodeTable(freq, t)[s] == if freq[s] != 0 then Some(CodeOf(t, s)) else None
  {
    PresentIff(freq, TableSize);
    SymbolsNonEmpty(freq, t);
    HeightBound(freq, t);
    WriteCodeSpec(t, [], EmptyTable());
    forall s | 0 <= s < TableSize
      ensures CodeTable(freq, t)[s] == if freq[s] != 0 then Some(CodeOf(t, s)) else None
    {
      assert s in Symbols(t) <==> freq[s] != 0;
      assert [] + CodeOf(t, s) == CodeOf(t, s);
    }
  }

  /** When s is the only symbol with a non-zero frequency, it is the only one present. */
  lemma {:induction false} PresentAlone(freq: seq<int>, s: int, n: nat)
    requires |freq| >= TableSize && 0 <= s < TableSize && Alone(freq, s) && n <= TableSize
    ensures Present(freq, n) == if s < n then multiset{s} else multiset{}
  {
    if n > 0 {
      var m := n - 1;
      PresentAlone(freq, s, m);
      var p := Present(freq, m);
      var add := if freq[m] != 0 then multiset{m} else multiset{};
      assert Present(freq, n) == p + add;
      if m == s {
        assert p == multiset{} && add == multiset{s};
      } else {
        assert add == multiset{};
      }
    }
  }

  /** A symbol that occurs alone is the only leaf. */
  lemma {:induction false} AloneLeaf(freq: seq<int>, t: HuffmanTree, s: int)
    requires |freq| >= TableSize && 0 <= s < TableSize && Alone(freq, s)
    requires WellBuilt(freq, t) && Symbols(t) == Present(freq, TableSize)
    ensures CodeOf(t, s) == []
  {
    PresentAlone(freq, s, TableSize);
    SingleLeaf(freq, t);
  }

  /**
   * The code table read from a built tree: exactly the symbols that occur have a code, the
   * code of s is the path to the leaf of s, no code is a prefix of another, and a symbol
   * that occurs alone has the empty code.
   */
  lemma {:induction false} CodeTableSpec(freq: seq<int>, t: HuffmanTree)
    requires |freq| >= TableSize && WellBuilt(freq, t) && Symbols(t) == Present(freq, TableSize)
    ensures |Symbols(t)| <= TableSize
    ensures forall s :: 0 <= s < TableSize ==> (CodeTable(freq, t)[s].Some? <==> freq[s] != 0)
    ensures forall s :: 0 <= s < TableSize && CodeTable(freq, t)[s].Some? ==>
      Follow(t, CodeTable(freq, t)[s].value) == Some(HuffmanTree(s, freq[s], None, None))
    ensures forall s, s' ::
      0 <= s < TableSize && 0 <= s' < TableSize && s != s'
      && CodeTable(freq, t)[s].Some? && CodeTable(freq, t)[s'].Some?
      ==> !IsPrefix(CodeTable(freq, t)[s].value, CodeTable(freq, t)[s'].value)
    ensures forall s :: 0 <= s < TableSize && Alone(freq, s) ==> CodeTable(freq, t)[s] == Some([])
  {
    TableEntries(freq, t);
    PresentIff(freq, TableSize);
    var table := CodeTable(freq, t);
    forall s | 0 <= s < TableSize && table[s].Some?
      ensures Follow(t, table[s].value) == Some(HuffmanTree(s, freq[s], None, None))
    {
      CodeOfLeaf(freq, t, s);
    }
    forall s, s' | 0 <= s < TableSize && 0 <= s' < TableSize && s != s' && table[s].Some? && table[s'].Some?
      ensures !IsPrefix(table[s].value, table[s'].value)
    {
      PrefixFree(freq, t, s, s');
    }
    forall s | 0 <= s < TableSize && Alone(freq, s)
      ensures table[s] == Some([])
    {
      AloneLeaf(freq, t, s);
    }
  }
}

=== FILE: huffman_tree.dfy ===
/**
 * A node of the Huffman tree of HuffmanTree.java: a symbol (a byte value 0..255, or
 * -1 for an internal node), a frequency and two nullable children.  The setters of the
 * Java class become functional updates that return the changed node.
 */
module HuffmanTrees {
  import opened Common

  /** The symbol every internal node carries: it is not a valid table index. */
  const InternalNode: int := -1

  datatype HuffmanTree = HuffmanTree(
    symbol: int,
    frequency: int,
    left: Option<HuffmanTree>,
    right: Option<HuffmanTree>)

  /** The constructor: the given symbol and frequency, and no children yet. */
  function NewTree(symbol: int, frequency: int): (t: HuffmanTree)
    ensures t.symbol == symbol && t.frequency == frequency
    ensures !HasLeft(t) && !HasRight(t)
  {
    HuffmanTree(symbol, frequency, None, None)
  }

  /** The frequency, which is all that compareTo looks at. */
  function Freq(t: HuffmanTree): int {
    t.frequency
  }

  /** a.compareTo(b): -1, 0 or 1 as a's frequency is below, equal to or above b's. */
  function CompareTo(a: HuffmanTree, b: HuffmanTree): (r: int)
    ensures r == -1 || r == 0 || r == 1
    ensures r < 0 <==> Freq(a) < Freq(b)
    ensures r == 0 <==> Freq(a) == Freq(b)
    ensures r > 0 <==> Freq(a) > Freq(b)
  {
    if a.frequency < b.frequency then -1
    else if a.frequency > b.frequency then 1
    else 0
  }

  /** compareTo is antisymmetric and transitive, so it orders the nodes by frequency. */
  lemma {:induction false} CompareToOrder(a: HuffmanTree, b: HuffmanTree, c: HuffmanTree)
    ensures CompareTo(a, b) == -CompareTo(b, a)
    ensures CompareTo(a, b) <= 0 && CompareTo(b, c) <= 0 ==> CompareTo(a, c) <= 0
    ensures CompareTo(a, a) == 0
  {
  }

  predicate HasLeft(t: HuffmanTree) {
    t.left.Some?
  }

  predicate HasRight(t: HuffmanTree) {
    t.right.Some?
  }

  /** setLeft(node): the left child becomes node; symbol, frequency and the right child stay. */
  function SetLeft(t: HuffmanTree, node: HuffmanTree): (r: HuffmanTree)
    ensures HasLeft(r) && r.left.value == node
    ensures r.symbol == t.symbol && r.frequency == t.frequency && r.right == t.right
  {
    t.(left := Some(node))
  }

  /** setRight(node): the right child becomes node; symbol, frequency and the left child stay. */
  function SetRight(t: HuffmanTree, node: HuffmanTree): (r: HuffmanTree)
    ensures HasRight(r) && r.right.value == node
    ensures r.symbol == t.symbol && r.frequency == t.frequency && r.left == t.left
  {
    t.(right := Some(node))
  }
}

=== FILE: huge_integer.dfy ===
/**
 * HugeInteger of Fibbonaci.c: a non-negative integer as an array of decimal digits,
 * least significant first, with parsing, conversion to unsigned int, addition and the
 * bottom-up Fibonacci.  A HugeInteger is its digit sequence (length = |digits|); a NULL
 * pointer is None.  Allocation failures are not modelled.
 */
module HugeInteger {
  import opened Common
  import BaseConversions

  datatype Huge = Huge(digits: seq<int>)

  function Pow10(k: nat): nat {
    if k == 0 then 1 else 10 * Pow10(k - 1)
  }

  /** The value of little-endian digits: digit i counts 10^i. */
  function Value(d: seq<int>): int
    decreases |d|
  {
    if d == [] then 0 else d[0] + 10 * Value(d[1..])
  }

  /** Every entry is a decimal digit. */
  predicate ValidDigits(d: seq<int>) {
    forall i :: 0 <= i < |d| ==> 0 <= d[i] <= 9
  }

  /** How many digits parseInt stores for n: its decimal digits, and one for 0. */
  function DigitCount(n: nat): nat {
    if n < 10 then 1 else 1 + DigitCount(n / 10)
  }

  // ---------------------------------------------------------------------------
  // Arithmetic of digit sequences

  /** A digit appended at the top counts 10^|d|. */
  lemma {:induction false} ValueSnoc(d: seq<int>, x: int)
    ensures Value(d + [x]) == Value(d) + Pow10(|d|) * x
    decreases |d|
  {
    if d != [] {
      assert (d + [x])[1..] == d[1..] + [x];
      ValueSnoc(d[1..], x);
      assert 10 * (Pow10(|d| - 1) * x) == Pow10(|d|) * x;
    }
  }

  /** Digits below a position and from it: Value(d) = Value(d[..i]) + 10^i * Value(d[i..]). */
  lemma {:induction false} ValueSplit(d: seq<int>, i: nat)
    requires i <= |d|
    ensures Value(d) == Value(d[..i]) + Pow10(i) * Value(d[i..])
    decreases i
  {
    if i > 0 {
      var tail, high := d[1..], Value(d[i..]);
      ValueSplit(tail, i - 1);
      assert tail[..i - 1] == d[..i][1..];
      assert tail[i - 1..] == d[i..];
      var p := Pow10(i - 1);
      assert Value(tail) == Value(d[..i][1..]) + p * high;
      assert 10 * (p * high) == (10 * p) * high;
    }
  }

  /** Decimal digits of length k stand for a value below 10^k. */
  lemma {:induction false} ValueBound(d: seq<int>)
    requires ValidDigits(d)
    ensures 0 <= Value(d) < Pow10(|d|)
    decreases |d|
  {
    if d != [] {
      assert ValidDigits(d[1..]) by {
        assert forall i :: 0 <= i < |d| - 1 ==> d[1..][i] == d[i + 1];
      }
      ValueBound(d[1..]);
    }
  }

  lemma {:induction false} DigitCountBound(n: nat)
    ensures n < Pow10(DigitCount(n))
    ensures n >= 10 ==> Pow10(DigitCount(n) - 1) <= n
    decreases n
  {
    if n >= 10 {
      DigitCountBound(n / 10);
      DivModUnique(n, 10, n / 10, n % 10);
    }
  }

  /** A digit sequence of the right length for n > 0 has a non-zero top digit. */
  lemma {:induction false} LeadingDigit(d: seq<int>, n: nat)
    requires ValidDigits(d) && Value(d) == n && |d| == DigitCount(n) && n > 0
    ensures d[|d| - 1] != 0
  {
    var k := |d| - 1;
    assert d == d[..k] + [d[k]];
    ValueSnoc(d[..k], d[k]);
    ValueBound(d[..k]);
    DigitCountBound(n);
  }

  // ---------------------------------------------------------------------------
  // parseInt and parseString

  /** One step of parseInt's second loop: the low digit of m moves into the digits. */
  lemma {:induction false} ParseStep(d: seq<int>, m: nat, n: nat, k: nat)
    requires Value(d) + Pow10(|d|) * m == n && m < Pow10(k + 1)
    ensures Value(d + [m % 10]) + Pow10(|d| + 1) * (m / 10) == n
    ensures m / 10 < Pow10(k)
  {
    var p, q, r := Pow10(|d|), m / 10, m % 10;
    ValueSnoc(d, r);
    assert Pow10(|d| + 1) == 10 * p;
    assert (10 * p) * q == p * (10 * q);
    assert m == r + 10 * q;
    assert p * m == p * r + p * (10 * q);
    assert q < Pow10(k) by {
      assert Pow10(k + 1) == 10 * Pow10(k);
    }
  }

  /** parseInt(n): count the digits (one for 0), then store n % 10 repeatedly. */
  method ParseInt(n: nat) returns (p: Huge)
    requires n <= UIntMax
    ensures |p.digits| == DigitCount(n) && ValidDigits(p.digits) && Value(p.digits) == n
    ensures n > 0 ==> p.digits[|p.digits| - 1] != 0
  {
    var count := n;
    var length: nat := 0;
    while count != 0
      invariant length + (if count == 0 then 0 else DigitCount(count)) == (if n == 0 then 0 else DigitCount(n))
      decreases count
    {
      count := count / 10;
      length := length + 1;
    }
    if n == 0 {
      length := length + 1;
    }
    DigitCountBound(n);
    var m: nat := n;
    var d: seq<int> := [];
    var i := 0;
    while i < length
      invariant 0 <= i <= length && |d| == i && ValidDigits(d)
      invariant Value(d) + Pow10(i) * m == n && m < Pow10(length - i)
    {
      ParseStep(d, m, n, length - i - 1);
      d := d + [m % 10];
      m := m / 10;
      i := i + 1;
    }
    assert m < Pow10(0) == 1;
    assert Value(d) == n;
    p := Huge(d);
    if n > 0 {
      LeadingDigit(d, n);
    }
  }

  /** The digits parseString stores for a non-empty string: str read from its end. */
  function DigitsOf(s: string): (d: seq<int>)
    ensures |d| == |s| && forall i :: 0 <= i < |s| ==> d[i] == BaseConversions.DigitValue(s[|s| - 1 - i])
  {
    seq(|s|, i requires 0 <= i < |s| => BaseConversions.DigitValue(s[|s| - 1 - i]))
  }

  /**
   * parseString(str): NULL for NULL, the single digit 0 for "", and otherwise
   * digits[i] = str[len-1-i] - '0', so the value is the decimal reading of str.
   */
  function ParseString(str: Option<string>): (r: Option<Huge>)
    ensures str.None? <==> r.None?
    ensures str == Some("") ==> r == Some(Huge([0]))
    ensures str.Some? && str.value != "" ==> r == Some(Huge(DigitsOf(str.value)))
    ensures r.Some? ==> Value(r.value.digits) == BaseConversions.PositionalValue(str.value, 10)
  {
    match str
    case None => None
    case Some(s) =>
      if s == "" then Some(Huge([0]))
      else
        DigitsOfValue(s);
        Some(Huge(DigitsOf(s)))
  }

  /** Reading the digits back to front is reading the string front to back. */
  lemma {:induction false} DigitsOfValue(s: string)
    ensures Value(DigitsOf(s)) == BaseConversions.PositionalValue(s, 10)
    decreases |s|
  {
    if s != [] {
      var t, c := s[..|s| - 1], s[|s| - 1];
      assert s == t + [c];
      DigitsOfValue(t);
      assert DigitsOf(s) == [BaseConversions.DigitValue(c)] + DigitsOf(t);
      assert DigitsOf(s)[1..] == DigitsOf(t);
      BaseConversions.HornerStep(t, c, 10);
    }
  }

  // ---------------------------------------------------------------------------
  // toUnsignedInt

  /** Equal digits above i and a smaller digit at i make a smaller value. */
  lemma {:induction false} CompareAt(d: seq<int>, e: seq<int>, i: nat)
    requires |d| == |e| && i < |d| && ValidDigits(d) && ValidDigits(e)
    requires d[i + 1..] == e[i + 1..] && d[i] < e[i]
    ensures Value(d) < Value(e)
  {
    ValueAt(d, i);
    ValueAt(e, i);
    ValueBound(d[..i]);
    ValueBound(e[..i]);
    Outweighs(Value(d[..i]), Value(e[..i]), Pow10(i), d[i], e[i], 10 * Value(d[i + 1..]));
  }

  /** Digit i of d splits d into the digits below it, itself, and the digits above it. */
  lemma {:induction false} ValueAt(d: seq<int>, i: nat)
    requires i < |d|
    ensures Value(d) == Value(d[..i]) + Pow10(i) * (d[i] + 10 * Value(d[i + 1..]))
  {
    var t := d[i..];
    assert t[0] == d[i] && t[1..] == d[i + 1..];
    assert Value(t) == d[i] + 10 * Value(d[i + 1..]);
    ValueSplit(d, i);
  }

  /** A larger digit at weight p outweighs anything below p. */
  lemma {:induction false} Outweighs(low: int, low': int, p: int, x: int, y: int, h: int)
    requires 0 <= low < p && 0 <= low' && x < y
    ensures low + p * (x + h) < low' + p * (y + h)
  {
    MulMono(p, x + h + 1, y + h);
    assert p * (x + h + 1) == p * (x + h) + p;
  }

  /** 4294967295 has ten digits. */
  lemma {:induction false} UIntMaxDigits()
    ensures DigitCount(UIntMax) == 10
  {
  }

  /**
   * toUnsignedInt(p): NULL for NULL, for more digits than UINT_MAX, or for as many digits
   * and a larger value (a digit-by-digit comparison from the top); else the value.
   */
  method ToUnsignedInt(p: Option<Huge>) returns (r: Option<int>)
    requires p.Some? ==> ValidDigits(p.value.digits)
    ensures p.None? ==> r.None?
    ensures p.Some? ==> (r.None? <==> |p.value.digits| > 10 || Value(p.value.digits) > UIntMax)
    ensures r.Some? ==> r.value == Value(p.value.digits)
  {
    if p.None? {
      return None;
    }
    var d := p.value.digits;
    var hugeMax := ParseInt(UIntMax);
    var m := hugeMax.digits;
    UIntMaxDigits();
    if |d| > |m| {
      return None;
    }
    if |d| == |m| {
      var fits := FitsUnder(d, m);
      if !fits {
        return None;
      }
    } else {
      ValueBound(d);
      assert Pow10(|d|) <= Pow10(9) by {
        Pow10Mono(|d|, 9);
      }
    }
    var n := 0;
    var magnitude := 1;
    var i := 0;
    while i < |d|
      invariant 0 <= i <= |d| && n == Value(d[..i]) && magnitude == Pow10(i)
    {
      ValueSnoc(d[..i], d[i]);
      assert d[..i + 1] == d[..i] + [d[i]];
      n := n + d[i] * magnitude;
      magnitude := magnitude * 10;
      i := i + 1;
    }
    assert d[..|d|] == d;
    return Some(n);
  }

  /**
   * The comparison of toUnsignedInt for as many digits as UINT_MAX: from the top digit
   * down, a larger digit rejects and a smaller one accepts; equal digits throughout accept.
   */
  method FitsUnder(d: seq<int>, m: seq<int>) returns (fits: bool)
    requires |d| == |m| && ValidDigits(d) && ValidDigits(m)
    ensures fits <==> Value(d) <= Value(m)
  {
    var i := |m| - 1;
    while i >= 0
      invariant -1 <= i < |m| && d[i + 1..] == m[i + 1..]
    {
      if d[i] > m[i] {
        CompareAt(m, d, i);
        return false;
      } else if d[i] < m[i] {
        CompareAt(d, m, i);
        return true;
      }
      assert d[i..] == [d[i]] + d[i + 1..];
      assert m[i..] == [m[i]] + m[i + 1..];
      i := i - 1;
    }
    assert d == d[0..] == m[0..] == m;
    return true;
  }

  lemma {:induction false} Pow10Mono(j: nat, k: nat)
    requires j <= k
    ensures Pow10(j) <= Pow10(k)
    decreases k
  {
    if j < k {
      Pow10Mono(j, k - 1);
    }
  }

  // ---------------------------------------------------------------------------
  // hugeAdd

  /** The digits of q from column i on, none once q has run out. */
  function From(q: seq<int>, i: nat): seq<int> {
    if i < |q| then q[i..] else []
  }

  /**
   * r->digits after hugeAdd's loop, from column i on, given the carry already stored in
   * column i: each column adds p's digit and q's digit while q lasts, keeps the sum mod
   * 10 and carries 1 into the next column when the sum exceeds 9.
   */
  function AddColumns(p: seq<int>, q: seq<int>, i: nat, carry: int): (r: seq<int>)
    requires i <= |p|
    ensures |r| == |p| - i + 1
    decreases |p| - i
  {
    if i == |p| then [carry]
    else
      var sum := carry + (if i < |q| then p[i] + q[i] else p[i]);
      if sum > 9 then [sum % 10] + AddColumns(p, q, i + 1, 1)
      else [sum] + AddColumns(p, q, i + 1, 0)
  }

  /** Column i of the sum: its digit and the carry into column i + 1. */
  function Column(p: seq<int>, q: seq<int>, i: nat, carry: int): (int, int)
    requires i < |p|
  {
    var sum := carry + (if i < |q| then p[i] + q[i] else p[i]);
    if sum > 9 then (sum % 10, 1) else (sum, 0)
  }

  lemma {:induction false} ColumnsUnfold(p: seq<int>, q: seq<int>, i: nat, carry: int)
    requires i < |p|
    ensures AddColumns(p, q, i, carry) == [Column(p, q, i, carry).0] + AddColumns(p, q, i + 1, Column(p, q, i, carry).1)
  {
  }

  /** With decimal operands, a column holds a digit and carries 0 or 1. */
  lemma {:induction false} ColumnDigit(p: seq<int>, q: seq<int>, i: nat, carry: int)
    requires i < |p| && ValidDigits(p) && ValidDigits(q) && 0 <= carry <= 1
    ensures 0 <= Column(p, q, i, carry).0 <= 9 && 0 <= Column(p, q, i, carry).1 <= 1
    ensures Column(p, q, i, carry).0 + 10 * Column(p, q, i, carry).1 ==
      carry + p[i] + (if i < |q| then q[i] else 0)
  {
  }

  /** The columns hold decimal digits. */
  lemma {:induction false} AddColumnsDigits(p: seq<int>, q: seq<int>, i: nat, carry: int)
    requires i <= |p| && ValidDigits(p) && ValidDigits(q) && 0 <= carry <= 1
    ensures ValidDigits(AddColumns(p, q, i, carry))
    decreases |p| - i
  {
    if i < |p| {
      ColumnsUnfold(p, q, i, carry);
      ColumnDigit(p, q, i, carry);
      AddColumnsDigits(p, q, i + 1, Column(p, q, i, carry).1);
    }
  }

  /** The columns stand for the sum of the operands from column i on, carry included. */
  lemma {:induction false} AddColumnsValue(p: seq<int>, q: seq<int>, i: nat, carry: int)
    requires i <= |p| && |q| <= |p| && ValidDigits(p) && ValidDigits(q) && 0 <= carry <= 1
    ensures Value(AddColumns(p, q, i, carry)) == carry + Value(p[i..]) + Value(From(q, i))
    decreases |p| - i
  {
    if i < |p| {
      var (digit, c) := Column(p, q, i, carry);
      ColumnsUnfold(p, q, i, carry);
      ColumnDigit(p, q, i, carry);
      AddColumnsValue(p, q, i + 1, c);
      var rest := AddColumns(p, q, i + 1, c);
      var r := AddColumns(p, q, i, carry);
      assert r[0] == digit && r[1..] == rest;
      assert Value(r) == digit + 10 * Value(rest);
      assert p[i..][0] == p[i] && p[i..][1..] == p[i + 1..];
      assert Value(p[i..]) == p[i] + 10 * Value(p[i + 1..]);
      if i < |q| {
        assert q[i..][0] == q[i] && q[i..][1..] == q[i + 1..];
        assert Value(From(q, i)) == q[i] + 10 * Value(From(q, i + 1));
      }
    }
  }

  /** The digits of the sum for |b| <= |a|: the columns, the top one kept when it holds a carry. */
  function AddDigits(a: seq<int>, b: seq<int>): seq<int>
    requires |b| <= |a|
  {
    var cols := AddColumns(a, b, 0, 0);
    if cols[|a|] != 0 then cols else cols[..|a|]
  }

  /**
   * The digits hugeAdd stores as written: the top column is kept only when also
   * p->length < q->length + 3, so the carry out of an operand three or more digits longer
   * than the other is dropped.
   */
  function AddDigitsAsWritten(a: seq<int>, b: seq<int>): seq<int>
    requires |b| <= |a|
  {
    var cols := AddColumns(a, b, 0, 0);
    cols[..if |a| < |b| + 3 && cols[|a|] != 0 then |a| + 1 else |a|]
  }

  /** The sum of decimal digit sequences is a decimal digit sequence of their total value. */
  lemma {:induction false} AddDigitsValue(a: seq<int>, b: seq<int>)
    requires |b| <= |a|
    ensures ValidDigits(a) && ValidDigits(b) ==>
      ValidDigits(AddDigits(a, b)) && Value(AddDigits(a, b)) == Value(a) + Value(b)
    ensures |a| <= |AddDigits(a, b)| <= |a| + 1
  {
    if ValidDigits(a) && ValidDigits(b) {
      var cols := AddColumns(a, b, 0, 0);
      AddColumnsDigits(a, b, 0, 0);
      AddColumnsValue(a, b, 0, 0);
      assert a[0..] == a;
      assert From(b, 0) == b;
      if cols[|a|] == 0 {
        DropZeroTop(cols);
      }
    }
  }

  /** A zero top digit can go without changing the value or the digits being decimal. */
  lemma {:induction false} DropZeroTop(d: seq<int>)
    requires |d| > 0 && d[|d| - 1] == 0 && ValidDigits(d)
    ensures Value(d[..|d| - 1]) == Value(d) && ValidDigits(d[..|d| - 1])
  {
    var init := d[..|d| - 1];
    assert d == init + [0];
    ValueSnoc(init, 0);
    assert forall i :: 0 <= i < |init| ==> init[i] == d[i];
  }

  /** The operands in the order hugeAdd uses them: the longer one first. */
  function Longer(p: Huge, q: Huge): seq<int> {
    if |p.digits| < |q.digits| then q.digits else p.digits
  }

  function Shorter(p: Huge, q: Huge): seq<int> {
    if |p.digits| < |q.digits| then p.digits else q.digits
  }

  /** hugeAdd(p, q) as written: NULL if either is NULL, else the sum with the carry guard above. */
  function HugeAddAsWritten(p: Option<Huge>, q: Option<Huge>): (r: Option<Huge>)
    ensures r.None? <==> p.None? || q.None?
    ensures r.Some? ==> |r.value.digits| >= |p.value.digits| && |r.value.digits| >= |q.value.digits|
  {
    if p.None? || q.None? then None
    else Some(Huge(AddDigitsAsWritten(Longer(p.value, q.value), Shorter(p.value, q.value))))
  }

  /** hugeAdd(p, q) with the top column kept whenever it holds a carry: the sum of the values. */
  function HugeAdd(p: Option<Huge>, q: Option<Huge>): (r: Option<Huge>)
    ensures r.None? <==> p.None? || q.None?
    ensures r.Some? && ValidDigits(p.value.digits) && ValidDigits(q.value.digits) ==>
      ValidDigits(r.value.digits) &&
      Value(r.value.digits) == Value(p.value.digits) + Value(q.value.digits)
  {
    if p.None? || q.None? then None
    else
      var a, b := Longer(p.value, q.value), Shorter(p.value, q.value);
      AddDigitsValue(a, b);
      Some(Huge(AddDigits(a, b)))
  }

  /** When the longer operand has fewer than three more digits, hugeAdd as written adds correctly. */
  lemma {:induction false} AsWrittenAgrees(p: Huge, q: Huge)
    requires |Longer(p, q)| < |Shorter(p, q)| + 3
    ensures HugeAddAsWritten(Some(p), Some(q)) == HugeAdd(Some(p), Some(q))
  {
    var a, b := Longer(p, q), Shorter(p, q);
    var cols := AddColumns(a, b, 0, 0);
    assert cols[..|a| + 1] == cols;
  }

  /**
   * As written, hugeAdd still stores decimal digits, and its value falls short of the sum
   * by exactly the dropped carry 10^length when it falls short at all.
   */
  lemma {:induction false} AsWrittenDropsOnlyCarry(p: Huge, q: Huge)
    requires ValidDigits(p.digits) && ValidDigits(q.digits)
    ensures ValidDigits(HugeAddAsWritten(Some(p), Some(q)).value.digits)
    ensures var v := Value(HugeAddAsWritten(Some(p), Some(q)).value.digits);
      v == Value(p.digits) + Value(q.digits) ||
      v + Pow10(|Longer(p, q)|) == Value(p.digits) + Value(q.digits)
  {
    AsWrittenDigits(Longer(p, q), Shorter(p, q));
  }

  lemma {:induction false} AsWrittenDigits(a: seq<int>, b: seq<int>)
    requires |b| <= |a| && ValidDigits(a) && ValidDigits(b)
    ensures ValidDigits(AddDigitsAsWritten(a, b))
    ensures var v := Value(AddDigitsAsWritten(a, b));
      v == Value(a) + Value(b) || v + Pow10(|a|) == Value(a) + Value(b)
  {
    var cols := AddColumns(a, b, 0, 0);
    AddColumnsDigits(a, b, 0, 0);
    AsWrittenValue(a, b, cols);
  }

  lemma {:induction false} AsWrittenValue(a: seq<int>, b: seq<int>, cols: seq<int>)
    requires |b| <= |a| && ValidDigits(a) && ValidDigits(b) && cols == AddColumns(a, b, 0, 0)
    ensures var v := Value(AddDigitsAsWritten(a, b));
      v == Value(a) + Value(b) || v + Pow10(|a|) == Value(a) + Value(b)
  {
    AddColumnsValue(a, b, 0, 0);
    ColumnsTopCarry(a, b, 0, 0);
    assert a[0..] == a;
    assert From(b, 0) == b;
    DropTop(cols, |a|);
    assert cols[..|a| + 1] == cols;
  }

  /** Cutting off a top digit 0 or 1 keeps the value or lowers it by 10^n. */
  lemma {:induction false} DropTop(cols: seq<int>, n: nat)
    requires |cols| == n + 1 && 0 <= cols[n] <= 1
    ensures Value(cols[..n]) == Value(cols) || Value(cols[..n]) + Pow10(n) == Value(cols)
  {
    var low, top := cols[..n], cols[n];
    assert cols == low + [top];
    ValueSnoc(low, top);
    var w := Pow10(n);
    if top == 0 {
      assert w * top == 0;
    } else {
      assert w * top == w;
    }
  }

  /** The top column holds only the final carry, 0 or 1. */
  lemma {:induction false} ColumnsTopCarry(p: seq<int>, q: seq<int>, i: nat, carry: int)
    requires i <= |p| && ValidDigits(p) && ValidDigits(q) && 0 <= carry <= 1
    ensures 0 <= AddColumns(p, q, i, carry)[|p| - i] <= 1
    decreases |p| - i
  {
    if i < |p| {
      ColumnsUnfold(p, q, i, carry);
      ColumnDigit(p, q, i, carry);
      ColumnsTopCarry(p, q, i + 1, Column(p, q, i, carry).1);
    }
  }

  /** 9999 + 1: as written, the carry out of the top digit is dropped and the result reads 0000. */
  lemma {:induction false} HugeAddDropsCarry()
    ensures Value([9, 9, 9, 9]) + Value([1]) == 10000
    ensures HugeAddAsWritten(Some(Huge([9, 9, 9, 9])), Some(Huge([1]))) == Some(Huge([0, 0, 0, 0]))
    ensures Value([0, 0, 0, 0]) == 0
    ensures HugeAdd(Some(Huge([9, 9, 9, 9])), Some(Huge([1]))) == Some(Huge([0, 0, 0, 0, 1]))
  {
    var a, b := [9, 9, 9, 9], [1];
    assert Longer(Huge(a), Huge(b)) == a && Shorter(Huge(a), Huge(b)) == b;
    assert AddColumns(a, b, 4, 1) == [1];
    assert AddColumns(a, b, 3, 1) == [0, 1];
    assert AddColumns(a, b, 2, 1) == [0, 0, 1];
    assert AddColumns(a, b, 1, 1) == [0, 0, 0, 1];
    assert AddColumns(a, b, 0, 0) == [0, 0, 0, 0, 1];
    assert [0, 0, 0, 0, 1][..4] == [0, 0, 0, 0];
  }

  // ---------------------------------------------------------------------------
  // fib

  function Fibonacci(n: nat): nat {
    if n == 0 then 0 else if n == 1 then 1 else Fibonacci(n - 1) + Fibonacci(n - 2)
  }

  /**
   * fib(n): F(0) and F(1) parsed, then F(i) = F(i-2) + F(i-1) for i = 2..n with hugeAdd as
   * written; consecutive terms differ in length by at most one digit, so no carry is dropped.
   */
  method Fib(n: int) returns (r: Huge)
    requires n >= 0
    ensures ValidDigits(r.digits) && Value(r.digits) == Fibonacci(n)
  {
    var p := ParseInt(0);
    var q := ParseInt(1);
    if n == 0 {
      return p;
    } else if n == 1 {
      return q;
    }
    var i := 2;
    while i <= n
      invariant 2 <= i <= n + 1 && ValidDigits(p.digits) && ValidDigits(q.digits)
      invariant Value(p.digits) == Fibonacci(i - 2) && Value(q.digits) == Fibonacci(i - 1)
      invariant |p.digits| <= |q.digits| <= |p.digits| + 1
    {
      AsWrittenAgrees(p, q);
      AddDigitsValue(Longer(p, q), Shorter(p, q));
      r := HugeAddAsWritten(Some(p), Some(q)).value;
      p := q;
      q := r;
      i := i + 1;
    }
    r := q;
  }
}

=== FILE: lcs.dfy ===
/**
 * The memo table of LCS.lcs: memo[r][c] is the length of a longest common subsequence
 * of the first r entries of `first` and the first c entries of `second`.  Entries are
 * compared with String.equals, i.e. by content.
 */
module LongestCommonSubsequence {

  /** z is a subsequence of a: z's entries occur in a in order, not necessarily adjacent. */
  predicate IsSubseq(z: seq<string>, a: seq<string>)
    decreases |a|
  {
    if z == [] then true
    else if a == [] then false
    else (z[|z| - 1] == a[|a| - 1] && IsSubseq(z[..|z| - 1], a[..|a| - 1])) || IsSubseq(z, a[..|a| - 1])
  }

  function Max(x: int, y: int): int {
    if x > y then x else y
  }

  /**
   * The table recurrence: 0 on an empty prefix; one more than the diagonal when the last
   * entries are equal; otherwise the larger of the left and upper neighbours.
   */
  function LcsLength(a: seq<string>, b: seq<string>): nat
    decreases |a| + |b|
  {
    if a == [] || b == [] then 0
    else if a[|a| - 1] == b[|b| - 1] then 1 + LcsLength(a[..|a| - 1], b[..|b| - 1])
    else Max(LcsLength(a, b[..|b| - 1]), LcsLength(a[..|a| - 1], b))
  }

  /** The table as lcs fills it: row 0 and column 0 stay 0, then row by row, column by column. */
  method LcsTable(first: seq<string>, second: seq<string>) returns (memo: seq<seq<nat>>)
    ensures |memo| == |first| + 1
    ensures forall r :: 0 <= r < |memo| ==> |memo[r]| == |second| + 1
    ensures forall c :: 0 <= c <= |second| ==> memo[0][c] == 0
    ensures forall r :: 0 <= r <= |first| ==> memo[r][0] == 0
    ensures forall r, c :: 0 <= r <= |first| && 0 <= c <= |second| ==>
      memo[r][c] == LcsLength(first[..r], second[..c])
  {
    memo := [seq(|second| + 1, _ => 0)];
    var row := 1;
    while row <= |first|
      invariant 1 <= row <= |first| + 1 && |memo| == row
      invariant forall r :: 0 <= r < row ==> |memo[r]| == |second| + 1
      invariant forall r, c :: 0 <= r < row && 0 <= c <= |second| ==>
        memo[r][c] == LcsLength(first[..r], second[..c])
    {
      var line := LcsRow(first, second, row, memo[row - 1]);
      memo := memo + [line];
      row := row + 1;
    }
    forall c | 0 <= c <= |second|
      ensures memo[0][c] == 0
    {
      assert first[..0] == [];
      assert memo[0][c] == LcsLength(first[..0], second[..c]);
    }
    forall r | 0 <= r <= |first|
      ensures memo[r][0] == 0
    {
      assert second[..0] == [];
      assert memo[r][0] == LcsLength(first[..r], second[..0]);
    }
  }

  /** One row of the table, from the row above it. */
  method LcsRow(first: seq<string>, second: seq<string>, row: nat, above: seq<nat>) returns (line: seq<nat>)
    requires 1 <= row <= |first| && |above| == |second| + 1
    requires forall c :: 0 <= c <= |second| ==> above[c] == LcsLength(first[..row - 1], second[..c])
    ensures |line| == |second| + 1
    ensures forall c :: 0 <= c <= |second| ==> line[c] == LcsLength(first[..row], second[..c])
  {
    var a := first[..row];
    assert a[..row - 1] == first[..row - 1];
    line := [0];
    var col := 1;
    while col <= |second|
      invariant 1 <= col <= |second| + 1 && |line| == col
      invariant forall c :: 0 <= c < col ==> line[c] == LcsLength(a, second[..c])
    {
      var b := second[..col];
      assert b[..col - 1] == second[..col - 1];
      if first[row - 1] != second[col - 1] {
        if line[col - 1] > above[col] {
          line := line + [line[col - 1]];
        } else {
          line := line + [above[col]];
        }
      } else {
        line := line + [1 + above[col - 1]];
      }
      col := col + 1;
    }
  }

  /** A subsequence of all but the last entry is a subsequence of the whole. */
  lemma {:induction false} Weaken(z: seq<string>, a: seq<string>)
    requires a != [] && IsSubseq(z, a[..|a| - 1])
    ensures IsSubseq(z, a)
  {
  }

  /** Dropping the last entry of both keeps a subsequence. */
  lemma {:induction false} DropLast(z: seq<string>, a: seq<string>)
    requires z != [] && IsSubseq(z, a)
    ensures a != [] && IsSubseq(z[..|z| - 1], a[..|a| - 1])
    decreases |a|
  {
    if !(z[|z| - 1] == a[|a| - 1] && IsSubseq(z[..|z| - 1], a[..|a| - 1])) {
      var a' := a[..|a| - 1];
      DropLast(z, a');
      assert a'[..|a'| - 1] == a[..|a| - 2];
      Weaken(z[..|z| - 1], a');
    }
  }

  /** A longest common subsequence, read off the recurrence. */
  function Witness(a: seq<string>, b: seq<string>): (z: seq<string>)
    ensures |z| == LcsLength(a, b) && IsSubseq(z, a) && IsSubseq(z, b)
    decreases |a| + |b|
  {
    if a == [] || b == [] then []
    else if a[|a| - 1] == b[|b| - 1] then
      var w := Witness(a[..|a| - 1], b[..|b| - 1]);
      var z := w + [a[|a| - 1]];
      assert z[..|z| - 1] == w;
      z
    else if LcsLength(a, b[..|b| - 1]) > LcsLength(a[..|a| - 1], b) then
      var z := Witness(a, b[..|b| - 1]);
      Weaken(z, b);
      z
    else
      var z := Witness(a[..|a| - 1], b);
      Weaken(z, a);
      z
  }

  /** No common subsequence is longer than the table entry. */
  lemma {:induction false} LcsLongest(z: seq<string>, a: seq<string>, b: seq<string>)
    requires IsSubseq(z, a) && IsSubseq(z, b)
    ensures |z| <= LcsLength(a, b)
    decreases |a| + |b|
  {
    if z != [] {
      var x, a', b' := z[|z| - 1], a[..|a| - 1], b[..|b| - 1];
      if a[|a| - 1] == b[|b| - 1] {
        if x == a[|a| - 1] {
          DropLast(z, a);
          DropLast(z, b);
          LcsLongest(z[..|z| - 1], a', b');
        } else {
          LcsLongest(z, a', b');
        }
      } else if x != a[|a| - 1] {
        LcsLongest(z, a', b);
      } else {
        LcsLongest(z, a, b');
      }
    }
  }

  /** memo[n][m] is the length of a longest common subsequence: one exists, none is longer. */
  lemma {:induction false} LcsIsLongest(a: seq<string>, b: seq<string>)
    ensures exists z :: IsSubseq(z, a) && IsSubseq(z, b) && |z| == LcsLength(a, b)
    ensures forall z :: IsSubseq(z, a) && IsSubseq(z, b) ==> |z| <= LcsLength(a, b)
  {
    var w := Witness(a, b);
    forall z | IsSubseq(z, a) && IsSubseq(z, b)
      ensures |z| <= LcsLength(a, b)
    {
      LcsLongest(z, a, b);
    }
  }

  lemma {:induction false} SubseqLength(z: seq<string>, a: seq<string>)
    requires IsSubseq(z, a)
    ensures |z| <= |a|
    decreases |a|
  {
    if z != [] {
      if z[|z| - 1] == a[|a| - 1] && IsSubseq(z[..|z| - 1], a[..|a| - 1]) {
        SubseqLength(z[..|z| - 1], a[..|a| - 1]);
      } else {
        SubseqLength(z, a[..|a| - 1]);
      }
    }
  }

  /** memo[r][c] <= min(r, c), and the table does not decrease along a row or a column. */
  lemma {:induction false} LcsBoundedMonotone(a: seq<string>, b: seq<string>)
    ensures LcsLength(a, b) <= |a| && LcsLength(a, b) <= |b|
    ensures a != [] ==> LcsLength(a[..|a| - 1], b) <= LcsLength(a, b)
    ensures b != [] ==> LcsLength(a, b[..|b| - 1]) <= LcsLength(a, b)
  {
    var w := Witness(a, b);
    SubseqLength(w, a);
    SubseqLength(w, b);
    if a != [] {
      var u := Witness(a[..|a| - 1], b);
      Weaken(u, a);
      LcsLongest(u, a, b);
    }
    if b != [] {
      var v := Witness(a, b[..|b| - 1]);
      Weaken(v, b);
      LcsLongest(v, a, b);
    }
  }
}

=== FILE: list_string.dfy ===
/**
 * ListString: a string held as a singly linked list of characters, one node per
 * character, with delete-all, replace-all and in-place reversal.  A list is a value;
 * NULL is Nil, and a C string argument that may be NULL is an Option<string>.
 */
module ListString {
  import opened Common

  datatype List = Nil | Cons(data: char, next: List)

  /** The characters of a list from head to tail. */
  function Chars(l: List): seq<char> {
    match l
    case Nil => []
    case Cons(c, rest) => [c] + Chars(rest)
  }

  /** The list holding the characters of s, built directly from the front. */
  function FromChars(s: seq<char>): (l: List)
    ensures Chars(l) == s
  {
    if s == [] then Nil else Cons(s[0], FromChars(s[1..]))
  }

  /** insertNode(head, data): a new node in front of head. */
  function InsertNode(head: List, data: char): (r: List)
    ensures Chars(r) == [data] + Chars(head)
  {
    Cons(data, head)
  }

  /**
   * stringToList(str): NULL for a NULL or empty string; otherwise the characters are
   * inserted at the front from the last to the first, so the list reads as str.
   */
  method StringToList(str: Option<string>) returns (head: List)
    ensures str.None? ==> head == Nil
    ensures str.Some? ==> Chars(head) == str.value
  {
    if str.None? || str.value == "" {
      return Nil;
    }
    var s := str.value;
    var length := |s|;
    head := Nil;
    var i := 0;
    while i < length
      invariant 0 <= i <= length && Chars(head) == s[length - i..]
    {
      head := InsertNode(head, s[length - i - 1]);
      assert s[length - i - 1..] == [s[length - i - 1]] + s[length - i..];
      i := i + 1;
    }
  }

  /**
   * The text after substitution: each occurrence of key in s becomes str, and every other
   * character stays, in order.  Deletion is substitution of the empty string.
   */
  function Substitute(s: seq<char>, key: char, str: seq<char>): seq<char> {
    Flatten(Pieces(s, key, str))
  }

  /** What each character of s becomes. */
  function Pieces(s: seq<char>, key: char, str: seq<char>): (p: seq<seq<char>>)
    ensures |p| == |s| && forall i :: 0 <= i < |s| ==> p[i] == Piece(s[i], key, str)
  {
    seq(|s|, i requires 0 <= i < |s| => Piece(s[i], key, str))
  }

  function Piece(c: char, key: char, str: seq<char>): seq<char> {
    if c == key then str else [c]
  }

  /** Substitution in front of a character and then the rest. */
  lemma {:induction false} SubstituteCons(c: char, s: seq<char>, key: char, str: seq<char>)
    ensures Substitute([c] + s, key, str) == Piece(c, key, str) + Substitute(s, key, str)
  {
    var p := Piece(c, key, str);
    assert Pieces([c] + s, key, str) == [p] + Pieces(s, key, str);
    FlattenConcat([p], Pieces(s, key, str));
    assert Flatten([p]) == p by {
      assert [p][..0] == [];
    }
  }

  /** Substitution changes nothing when key does not occur. */
  lemma {:induction false} SubstituteAbsent(s: seq<char>, key: char, str: seq<char>)
    requires key !in s
    ensures Substitute(s, key, str) == s
    decreases |s|
  {
    if s != [] {
      SubstituteAbsent(s[1..], key, str);
      SubstituteCons(s[0], s[1..], key, str);
      assert [s[0]] + s[1..] == s;
    }
  }

  /** Deleting leaves no key and keeps every other character as often as before. */
  lemma {:induction false} DeleteRemovesKey(s: seq<char>, key: char)
    ensures key !in Substitute(s, key, [])
    ensures forall c :: c != key ==> multiset(Substitute(s, key, []))[c] == multiset(s)[c]
    decreases |s|
  {
    if s != [] {
      DeleteRemovesKey(s[1..], key);
      SubstituteCons(s[0], s[1..], key, []);
      assert [s[0]] + s[1..] == s;
    }
  }

  /** rec_del(head, key): every node holding key is removed; the others keep their order. */
  function RecDel(head: List, key: char): (r: List)
    ensures Chars(r) == Substitute(Chars(head), key, [])
    ensures key !in Chars(head) ==> r == head
  {
    match head
    case Nil => Nil
    case Cons(c, rest) =>
      SubstituteCons(c, Chars(rest), key, []);
      if c != key then Cons(c, RecDel(rest, key)) else RecDel(rest, key)
  }

  /**
   * rec_replace(head, key, str) for a non-empty str: each node holding key is replaced by
   * the nodes of str, and the search goes on after them, so str is not rescanned.
   */
  function RecReplace(head: List, key: char, str: string): (r: List)
    requires str != []
    ensures Chars(r) == Substitute(Chars(head), key, str)
    ensures key !in Chars(head) ==> r == head
  {
    match head
    case Nil => Nil
    case Cons(c, rest) =>
      SubstituteCons(c, Chars(rest), key, str);
      if c != key then Cons(c, RecReplace(rest, key, str))
      else Append(FromChars(str), RecReplace(rest, key, str))
  }

  /** The walk to the last node of the replacement and the link to the rest. */
  function Append(l: List, tail: List): (r: List)
    ensures Chars(r) == Chars(l) + Chars(tail)
  {
    match l
    case Nil => tail
    case Cons(c, rest) => Cons(c, Append(rest, tail))
  }

  /** replaceChar(head, key, str): NULL stays NULL; a NULL or empty str deletes; else replaces. */
  function ReplaceChar(head: List, key: char, str: Option<string>): (r: List)
    ensures head == Nil ==> r == Nil
    ensures Chars(r) == Substitute(Chars(head), key, if str.None? then [] else str.value)
    ensures key !in Chars(head) ==> r == head
  {
    if head == Nil then Nil
    else if str.None? || str.value == [] then RecDel(head, key)
    else RecReplace(head, key, str.value)
  }

  /** The characters of s from last to first. */
  function Reversed(s: seq<char>): (r: seq<char>)
    ensures |r| == |s|
  {
    seq(|s|, i requires 0 <= i < |s| => s[|s| - 1 - i])
  }

  /** The loop of reverseList: nodes move one by one from head to the front of reverse. */
  function ReverseOnto(head: List, reverse: List): (r: List)
    ensures Chars(r) == Reversed(Chars(head)) + Chars(reverse)
  {
    match head
    case Nil => reverse
    case Cons(c, rest) =>
      var r := ReverseOnto(rest, Cons(c, reverse));
      assert Reversed([c] + Chars(rest)) == Reversed(Chars(rest)) + [c];
      r
  }

  /** reverseList(head): the same characters in reverse order; NULL stays NULL. */
  function ReverseList(head: List): (r: List)
    ensures Chars(r) == Reversed(Chars(head))
  {
    if head == Nil then Nil else ReverseOnto(head, Nil)
  }

  /** A list is determined by its characters. */
  lemma {:induction false} CharsInjective(l: List, m: List)
    requires Chars(l) == Chars(m)
    ensures l == m
  {
    match l
    case Nil =>
    case Cons(c, rest) =>
      assert Chars(m) != [];
      assert Chars(rest) == Chars(m.next) by {
        assert Chars(rest) == Chars(l)[1..];
      }
      CharsInjective(rest, m.next);
  }

  /** Reversing twice gives the list back. */
  lemma {:induction false} ReverseTwice(head: List)
    ensures ReverseList(ReverseList(head)) == head
  {
    var s := Chars(head);
    assert Reversed(Reversed(s)) == s;
    CharsInjective(ReverseList(ReverseList(head)), head);
  }
}

=== FILE: merge_sort.dfy ===
/**
 * MergeSort(array, lo, hi): top-down merge sort of the inclusive slice [lo, hi] through
 * an auxiliary buffer.  The array is a seq<int>; the method returns its new contents.
 */
module MergeSort {
  import opened SortSpec

  /**
   * Sorts array[lo..hi] (inclusive) and leaves every other entry alone; lo >= hi is the
   * base case and changes nothing (whatever lo and hi are).
   */
  method MergeSort(a: seq<int>, lo: int, hi: int) returns (s: seq<int>)
    requires lo < hi ==> 0 <= lo && hi < |a|
    ensures |s| == |a| && multiset(s) == multiset(a)
    ensures lo >= hi ==> s == a
    ensures lo < hi ==> SortedBetween(s, lo, hi + 1)
    ensures forall k :: 0 <= k < |a| && !(lo <= k <= hi) ==> s[k] == a[k]
    decreases hi - lo
  {
    if lo >= hi {
      return a;
    }
    var mid := lo + (hi - lo) / 2;
    var s1 := MergeSort(a, lo, mid);
    var s2 := MergeSort(s1, mid + 1, hi);
    assert SortedBetween(s2, lo, mid + 1) by {
      assert forall k :: lo <= k <= mid ==> s2[k] == s1[k];
    }
    var aux := Merge(s2, lo, mid, hi);
    s := CopyBack(s2, aux, lo, hi);
    SortedSlice(s, lo, hi + 1);
    Frame(s2, s, lo, hi);
  }

  /** A slice permuted in place, with the rest unchanged, permutes the whole sequence. */
  lemma {:induction false} Frame(a: seq<int>, s: seq<int>, lo: nat, hi: nat)
    requires lo <= hi < |a| == |s|
    requires forall k :: 0 <= k < |a| && !(lo <= k <= hi) ==> s[k] == a[k]
    requires multiset(s[lo..hi + 1]) == multiset(a[lo..hi + 1])
    ensures multiset(s) == multiset(a)
  {
    assert s[..lo] == a[..lo];
    assert s[hi + 1..] == a[hi + 1..];
    assert s == s[..lo] + s[lo..hi + 1] + s[hi + 1..];
    assert a == a[..lo] + a[lo..hi + 1] + a[hi + 1..];
  }

  /**
   * The merge of two runs as MergeSort performs it: the right run's head is taken only
   * when it is strictly smaller, so on equal keys the left run goes first.
   */
  function MergeSeqs(left: seq<int>, right: seq<int>): seq<int>
    decreases |left| + |right|
  {
    if left == [] then right
    else if right == [] then left
    else if right[0] < left[0] then [right[0]] + MergeSeqs(left, right[1..])
    else [left[0]] + MergeSeqs(left[1..], right)
  }

  /** The merge is a permutation of the two runs together. */
  lemma {:induction false} MergePermutes(left: seq<int>, right: seq<int>)
    ensures multiset(MergeSeqs(left, right)) == multiset(left) + multiset(right)
    decreases |left| + |right|
  {
    if left == [] || right == [] {
    } else if right[0] < left[0] {
      var rest := MergeSeqs(left, right[1..]);
      MergePermutes(left, right[1..]);
      assert MergeSeqs(left, right) == [right[0]] + rest;
      assert right == [right[0]] + right[1..];
      assert multiset(right) == multiset{right[0]} + multiset(right[1..]);
    } else {
      var rest := MergeSeqs(left[1..], right);
      MergePermutes(left[1..], right);
      assert MergeSeqs(left, right) == [left[0]] + rest;
      assert left == [left[0]] + left[1..];
      assert multiset(left) == multiset{left[0]} + multiset(left[1..]);
    }
  }

  lemma {:induction false} MergeLength(left: seq<int>, right: seq<int>)
    ensures |MergeSeqs(left, right)| == |left| + |right|
    decreases |left| + |right|
  {
    if left == [] || right == [] {
    } else if right[0] < left[0] {
      MergeLength(left, right[1..]);
    } else {
      MergeLength(left[1..], right);
    }
  }

  /** x is at most every element of s. */
  predicate LowerBound(x: int, s: seq<int>) {
    forall k :: 0 <= k < |s| ==> x <= s[k]
  }

  /** A bound below both runs is a bound below their merge. */
  lemma {:induction false} MergeBounded(x: int, left: seq<int>, right: seq<int>)
    requires LowerBound(x, left) && LowerBound(x, right)
    ensures LowerBound(x, MergeSeqs(left, right))
    decreases |left| + |right|
  {
    if left == [] || right == [] {
    } else if right[0] < left[0] {
      MergeBounded(x, left, right[1..]);
    } else {
      MergeBounded(x, left[1..], right);
    }
  }

  /** Merging two sorted runs gives a sorted sequence. */
  lemma {:induction false} MergeSorted(left: seq<int>, right: seq<int>)
    requires Sorted(left) && Sorted(right)
    ensures Sorted(MergeSeqs(left, right))
    decreases |left| + |right|
  {
    if left == [] || right == [] {
    } else if right[0] < left[0] {
      var rest := MergeSeqs(left, right[1..]);
      MergeSorted(left, right[1..]);
      MergeBounded(right[0], left, right[1..]);
      assert MergeSeqs(left, right) == [right[0]] + rest;
    } else {
      var rest := MergeSeqs(left[1..], right);
      MergeSorted(left[1..], right);
      MergeBounded(left[0], left[1..], right);
      assert MergeSeqs(left, right) == [left[0]] + rest;
    }
  }

  /** Merging two sorted runs: a sorted permutation of the two together. */
  lemma {:induction false} MergeRuns(left: seq<int>, right: seq<int>)
    requires Sorted(left) && Sorted(right)
    ensures |MergeSeqs(left, right)| == |left| + |right| && Sorted(MergeSeqs(left, right))
    ensures multiset(MergeSeqs(left, right)) == multiset(left) + multiset(right)
  {
    MergeSorted(left, right);
    MergePermutes(left, right);
    MergeLength(left, right);
  }

  /**
   * The merge step: the sorted halves [lo, mid] and [mid+1, hi] are merged into a fresh
   * buffer of hi-lo+1 slots, sorted and holding exactly the slice's values.
   */
  method Merge(s: seq<int>, lo: nat, mid: nat, hi: nat) returns (aux: seq<int>)
    requires lo <= mid < hi < |s|
    requires SortedBetween(s, lo, mid + 1) && SortedBetween(s, mid + 1, hi + 1)
    ensures |aux| == hi - lo + 1 && Sorted(aux)
    ensures multiset(aux) == multiset(s[lo..hi + 1])
  {
    aux := MergeLoop(s, lo, mid, hi);
    MergeHalves(s, lo, mid, hi);
    MergeHalvesPermute(s, lo, mid, hi);
  }

  /** The merge of the two sorted halves of [lo, hi] is sorted and as long as the slice. */
  lemma {:induction false} MergeHalves(s: seq<int>, lo: nat, mid: nat, hi: nat)
    requires lo <= mid < hi < |s|
    requires SortedBetween(s, lo, mid + 1) && SortedBetween(s, mid + 1, hi + 1)
    ensures |MergeSeqs(s[lo..mid + 1], s[mid + 1..hi + 1])| == hi - lo + 1
    ensures Sorted(MergeSeqs(s[lo..mid + 1], s[mid + 1..hi + 1]))
  {
    SliceSorted(s, lo, mid + 1);
    SliceSorted(s, mid + 1, hi + 1);
    MergeRuns(s[lo..mid + 1], s[mid + 1..hi + 1]);
    MergeLength(s[lo..mid + 1], s[mid + 1..hi + 1]);
  }

  /** The merge of the two halves of [lo, hi] holds exactly the slice's values. */
  lemma {:induction false} MergeHalvesPermute(s: seq<int>, lo: nat, mid: nat, hi: nat)
    requires lo <= mid < hi < |s|
    ensures multiset(MergeSeqs(s[lo..mid + 1], s[mid + 1..hi + 1])) == multiset(s[lo..hi + 1])
  {
    var l, r := s[lo..mid + 1], s[mid + 1..hi + 1];
    assert s[lo..hi + 1] == l + r;
    MergeOfSplit(s[lo..hi + 1], l, r);
  }

  lemma {:induction false} MergeOfSplit(whole: seq<int>, l: seq<int>, r: seq<int>)
    requires whole == l + r
    ensures multiset(MergeSeqs(l, r)) == multiset(whole)
  {
    MergePermutes(l, r);
  }

  /** The while loop of the merge: it writes out MergeSeqs of the two halves, slot by slot. */
  method MergeLoop(s: seq<int>, lo: nat, mid: nat, hi: nat) returns (aux: seq<int>)
    requires lo <= mid < hi < |s|
    ensures aux == MergeSeqs(s[lo..mid + 1], s[mid + 1..hi + 1])
  {
    var i, j := lo, mid + 1;
    aux := [];
    while i <= mid || j <= hi
      invariant lo <= i <= mid + 1 && mid + 1 <= j <= hi + 1
      invariant aux + MergeSeqs(s[i..mid + 1], s[j..hi + 1]) == MergeSeqs(s[lo..mid + 1], s[mid + 1..hi + 1])
      decreases (mid + 1 - i) + (hi + 1 - j)
    {
      aux, i, j := MergeTake(s, mid, hi, aux, i, j);
    }
  }

  /** One turn of the merge loop: the smaller head moves to the output, the right run's on a strict win. */
  method MergeTake(s: seq<int>, mid: nat, hi: nat, aux: seq<int>, i: nat, j: nat)
    returns (aux': seq<int>, i': nat, j': nat)
    requires i <= mid + 1 && mid + 1 <= j <= hi + 1 && hi < |s| && (i <= mid || j <= hi)
    ensures i <= i' <= mid + 1 && j <= j' <= hi + 1 && i' + j' == i + j + 1
    ensures aux' + MergeSeqs(s[i'..mid + 1], s[j'..hi + 1]) == aux + MergeSeqs(s[i..mid + 1], s[j..hi + 1])
  {
    ghost var l, r := s[i..mid + 1], s[j..hi + 1];
    if i > mid || (j <= hi && s[j] < s[i]) {
      assert r[1..] == s[j + 1..hi + 1];
      TakeRight(aux, l, r);
      aux', i', j' := aux + [s[j]], i, j + 1;
    } else {
      assert l[1..] == s[i + 1..mid + 1];
      TakeLeft(aux, l, r);
      aux', i', j' := aux + [s[i]], i + 1, j;
    }
  }

  /** The merge loop takes the right run's head: it moves to the output. */
  lemma {:induction false} TakeRight(out: seq<int>, l: seq<int>, r: seq<int>)
    requires r != [] && (l == [] || r[0] < l[0])
    ensures out + MergeSeqs(l, r) == (out + [r[0]]) + MergeSeqs(l, r[1..])
  {
    if l == [] {
      assert r == [r[0]] + r[1..];
    }
  }

  /** The merge loop takes the left run's head: it moves to the output. */
  lemma {:induction false} TakeLeft(out: seq<int>, l: seq<int>, r: seq<int>)
    requires l != [] && (r == [] || !(r[0] < l[0]))
    ensures out + MergeSeqs(l, r) == (out + [l[0]]) + MergeSeqs(l[1..], r)
  {
    if r == [] {
      assert l == [l[0]] + l[1..];
      assert MergeSeqs(l[1..], r) == l[1..];
    }
  }

  /** The copy loop: aux goes back into [lo, hi]; nothing outside it changes. */
  method CopyBack(a: seq<int>, aux: seq<int>, lo: nat, hi: nat) returns (s: seq<int>)
    requires lo <= hi < |a| && |aux| == hi - lo + 1
    ensures |s| == |a| && s[lo..hi + 1] == aux
    ensures forall k :: 0 <= k < |a| && !(lo <= k <= hi) ==> s[k] == a[k]
  {
    s := a;
    var i := lo;
    while i <= hi
      invariant lo <= i <= hi + 1 && |s| == |a|
      invariant forall k :: 0 <= k < |s| ==> s[k] == if lo <= k < i then aux[k - lo] else a[k]
    {
      s := s[i := aux[i - lo]];
      i := i + 1;
    }
  }
}

=== FILE: multisets.dfy ===
/** Facts about sequences and the multisets of their elements, for any element type. */
module Multisets {
  /** Taking entry j out of a sequence takes one copy of it out of the multiset. */
  lemma {:induction false} RemoveAt<T>(b: seq<T>, j: nat)
    requires j < |b|
    ensures multiset(b[..j] + b[j + 1..]) == multiset(b) - multiset{b[j]}
  {
    assert b == b[..j] + [b[j]] + b[j + 1..];
  }

  /** The head of a sequence sits somewhere in any permutation of it; the rests are permutations too. */
  lemma {:induction false} PermHead<T>(a: seq<T>, b: seq<T>) returns (j: nat)
    requires a != [] && multiset(a) == multiset(b)
    ensures j < |b| && b[j] == a[0]
    ensures multiset(a[1..]) == multiset(b[..j] + b[j + 1..])
  {
    assert a[0] in multiset(b);
    j :| 0 <= j < |b| && b[j] == a[0];
    RemoveAt(b, j);
    assert a == [a[0]] + a[1..];
    assert multiset(a) == multiset{a[0]} + multiset(a[1..]);
  }

  /** Taking one copy of x out of a multiset that holds it, and putting it back, gives the multiset. */
  lemma {:induction false} MinusPlus<T>(m: multiset<T>, m1: multiset<T>, x: T)
    requires x in m && m1 == m - multiset{x}
    ensures m == m1 + multiset{x}
  {
  }

  /** The trees left after a remove() were all in the heap before it. */
  lemma {:induction false} RemovedKept<T>(h: seq<T>, h1: seq<T>)
    requires |h| > 0 && multiset(h1) == multiset(h) - multiset{h[0]}
    ensures forall t :: t in h1 ==> t in h
  {
    forall t | t in h1
      ensures t in h
    {
      assert t in multiset(h1);
    }
  }

  /** The trees after an add(x) are x and the trees that were there before. */
  lemma {:induction false} AddedKept<T>(h: seq<T>, x: T, h1: seq<T>)
    requires multiset(h1) == multiset(h) + multiset{x}
    ensures forall t :: t in h1 ==> t == x || t in h
  {
    forall t | t in h1
      ensures t == x || t in h
    {
      assert t in multiset(h1);
    }
  }
}

=== FILE: paths.dfy ===
/**
 * Paths.java: counting "perfect" paths on a square grid of intersections, paths that
 * never move in two opposing directions and avoid flagged intersections.  The grid is a
 * value: its axis limit, the adjacency lists its constructor builds, and the set of
 * vertices flagged to avoid.  A vertex is identified by its coordinates (the Java grid has
 * exactly one Vertex object per coordinate pair), and a null vertex is None.
 */
module Paths {
  import opened Common

  datatype Direction = North | South | East | West

  /** The position of a direction in Direction's declaration, which indexes AdjList. */
  function Ordinal(d: Direction): nat {
    match d
    case North => 0
    case South => 1
    case East => 2
    case West => 3
  }

  datatype Vertex = Vertex(x: int, y: int)

  /** The intersection one block away in direction d. */
  function Move(v: Vertex, d: Direction): Vertex {
    match d
    case North => Vertex(v.x, v.y + 1)
    case South => Vertex(v.x, v.y - 1)
    case East => Vertex(v.x + 1, v.y)
    case West => Vertex(v.x - 1, v.y)
  }

  predicate OnGrid(limit: int, v: Vertex) {
    0 <= v.x < limit && 0 <= v.y < limit
  }

  /** The neighbour of v in direction d, null when it would leave the grid. */
  function Neighbor(limit: int, v: Vertex, d: Direction): Option<Vertex> {
    if OnGrid(limit, Move(v, d)) then Some(Move(v, d)) else None
  }

  datatype Graph = Graph(limit: int, adj: map<Vertex, seq<Option<Vertex>>>, avoid: set<Vertex>)

  /** v has the adjacency list the constructor builds for it. */
  predicate Filled(adj: map<Vertex, seq<Option<Vertex>>>, limit: int, v: Vertex) {
    v in adj && adj[v] == AdjList(limit, v.x, v.y)
  }

  /** Every vertex of the grid has the adjacency list the constructor builds for it. */
  ghost predicate Wired(g: Graph) {
    forall v :: OnGrid(g.limit, v) ==> Filled(g.adj, g.limit, v)
  }

  /** Only grid vertices are ever flagged. */
  ghost predicate Valid(g: Graph) {
    Wired(g) && forall v :: v in g.avoid ==> OnGrid(g.limit, v)
  }

  /** The adjacency list of (x, y) as the constructor fills it: a slot per direction whose neighbour exists. */
  function AdjList(limit: int, x: int, y: int): seq<Option<Vertex>> {
    var n, s, e, w := y + 1, y - 1, x + 1, x - 1;
    [if n < limit then Some(Vertex(x, n)) else None,
     if s >= 0 then Some(Vertex(x, s)) else None,
     if e < limit then Some(Vertex(e, y)) else None,
     if w >= 0 then Some(Vertex(w, y)) else None]
  }

  /** The columns left of x are filled. */
  ghost predicate FilledBelow(adj: map<Vertex, seq<Option<Vertex>>>, limit: int, x: int) {
    forall v: Vertex :: 0 <= v.x < x && 0 <= v.y < limit ==> Filled(adj, limit, v)
  }

  /**
   * Graph(axisLimit): a vertex per coordinate pair in [0, limit)^2, none flagged, and for
   * each an adjacency slot per direction holding the neighbour when its coordinate stays in
   * [0, limit), null otherwise.
   */
  method NewGraph(limit: int) returns (g: Graph)
    requires limit >= 0
    ensures g.limit == limit && g.avoid == {} && Valid(g)
  {
    var adj: map<Vertex, seq<Option<Vertex>>> := map[];
    var x := 0;
    while x < limit
      invariant 0 <= x <= limit && FilledBelow(adj, limit, x)
    {
      adj := FillColumn(adj, limit, x);
      x := x + 1;
    }
    g := Graph(limit, adj, {});
  }

  /** The vertices of column x below y are filled. */
  ghost predicate FilledUpTo(adj: map<Vertex, seq<Option<Vertex>>>, limit: int, x: int, y: int) {
    forall j :: 0 <= j < y ==> Filled(adj, limit, Vertex(x, j))
  }

  /** The constructor's inner loop: the vertices of column x get their adjacency lists. */
  method FillColumn(adj: map<Vertex, seq<Option<Vertex>>>, limit: int, x: int) returns (r: map<Vertex, seq<Option<Vertex>>>)
    requires 0 <= x < limit && FilledBelow(adj, limit, x)
    ensures FilledBelow(r, limit, x + 1)
  {
    r := adj;
    var y := 0;
    while y < limit
      invariant 0 <= y <= limit && FilledBelow(r, limit, x) && FilledUpTo(r, limit, x, y)
    {
      FillStep(r, limit, x, y);
      r := r[Vertex(x, y) := AdjList(limit, x, y)];
      y := y + 1;
    }
    ColumnFilled(r, limit, x);
  }

  /** Filling (x, y) keeps what is filled and extends column x by one. */
  lemma {:induction false} FillStep(adj: map<Vertex, seq<Option<Vertex>>>, limit: int, x: int, y: int)
    requires FilledBelow(adj, limit, x) && FilledUpTo(adj, limit, x, y)
    ensures FilledBelow(adj[Vertex(x, y) := AdjList(limit, x, y)], limit, x)
    ensures FilledUpTo(adj[Vertex(x, y) := AdjList(limit, x, y)], limit, x, y + 1)
  {
  }

  /** A filled column x completes the columns left of x + 1. */
  lemma {:induction false} ColumnFilled(adj: map<Vertex, seq<Option<Vertex>>>, limit: int, x: int)
    requires FilledBelow(adj, limit, x) && FilledUpTo(adj, limit, x, limit)
    ensures FilledBelow(adj, limit, x + 1)
  {
    forall v: Vertex | 0 <= v.x < x + 1 && 0 <= v.y < limit
      ensures Filled(adj, limit, v)
    {
      if v.x == x {
        assert v == Vertex(x, v.y);
      }
    }
  }

  /**
   * Slot d of a grid vertex's adjacency list holds the neighbour in direction d, and
   * holds one exactly when that neighbour's coordinate lies in [0, limit).
   */
  lemma {:induction false} AdjListNeighbors(limit: int, v: Vertex, d: Direction)
    requires OnGrid(limit, v)
    ensures |AdjList(limit, v.x, v.y)| == 4
    ensures AdjList(limit, v.x, v.y)[Ordinal(d)] == Neighbor(limit, v, d)
    ensures AdjList(limit, v.x, v.y)[Ordinal(d)].Some? <==>
      match d
      case North => v.y + 1 < limit
      case South => v.y - 1 >= 0
      case East => v.x + 1 < limit
      case West => v.x - 1 >= 0
  {
  }

  /** getAdjacent(direction) of a grid vertex. */
  function Adjacent(g: Graph, v: Vertex, d: Direction): (r: Option<Vertex>)
    requires Wired(g) && OnGrid(g.limit, v)
    ensures r == Neighbor(g.limit, v, d)
  {
    AdjListNeighbors(g.limit, v, d);
    g.adj[v][Ordinal(d)]
  }

  /** setVertexAvoidance(x, y): flags (x, y) and no other vertex. */
  function SetVertexAvoidance(g: Graph, x: int, y: int): (r: Graph)
    requires Valid(g) && OnGrid(g.limit, Vertex(x, y))
    ensures Valid(r) && r.limit == g.limit && r.adj == g.adj
    ensures Vertex(x, y) in r.avoid
    ensures forall v :: v != Vertex(x, y) ==> (v in r.avoid <==> v in g.avoid)
  {
    g.(avoid := g.avoid + {Vertex(x, y)})
  }

  /** resetAllAvoidances(): every vertex of the grid is visited and its flag cleared. */
  method ResetAllAvoidances(g: Graph) returns (r: Graph)
    requires Valid(g)
    ensures Valid(r) && r.limit == g.limit && r.adj == g.adj
    ensures forall v :: v !in r.avoid
  {
    var avoid := g.avoid;
    var x := 0;
    while x < g.limit
      invariant 0 <= x && (x <= g.limit || g.limit <= 0)
      invariant avoid <= g.avoid
      invariant forall v: Vertex :: v in avoid ==> v.x >= x
    {
      avoid := ClearColumn(avoid, g.limit, x);
      x := x + 1;
    }
    r := g.(avoid := avoid);
  }

  /** The inner loop of resetAllAvoidances: the flags of column x are cleared. */
  method ClearColumn(avoid: set<Vertex>, limit: int, x: int) returns (r: set<Vertex>)
    requires forall v: Vertex :: v in avoid ==> OnGrid(limit, v) && v.x >= x
    ensures r <= avoid
    ensures forall v: Vertex :: v in r ==> v.x > x
  {
    r := avoid;
    var y := 0;
    while y < limit
      invariant r <= avoid
      invariant forall v: Vertex :: v in r ==> v.x > x || (v.x == x && v.y >= y)
    {
      if Vertex(x, y) in r {
        r := r - {Vertex(x, y)};
      }
      y := y + 1;
    }
  }

  // ---------------------------------------------------------------------------
  // PerfectPaths

  /** The directions of a perfect path: one horizontal and one vertical. */
  predicate Headings(xDir: Direction, yDir: Direction) {
    (xDir == East || xDir == West) && (yDir == North || yDir == South)
  }

  /** Blocks left before the edge of the grid in the two directions: each step uses one. */
  function Budget(limit: int, u: Vertex, xDir: Direction, yDir: Direction): int {
    (if xDir == East then limit - u.x else u.x + 1) + (if yDir == North then limit - u.y else u.y + 1)
  }

  /**
   * PerfectPaths(U, V, xDirection, yDirection): 0 for a null vertex, 0 for a flagged U
   * (before the arrival test), 1 on arrival, and otherwise the paths continuing in
   * whichever of the two directions still has a coordinate to reach.
   */
  function PerfectPaths(g: Graph, u: Option<Vertex>, v: Option<Vertex>, xDir: Direction, yDir: Direction): (r: nat)
    requires Wired(g) && Headings(xDir, yDir) && (u.Some? ==> OnGrid(g.limit, u.value))
    ensures u.None? || v.None? ==> r == 0
    ensures u.Some? && u.value in g.avoid ==> r == 0
    ensures u.Some? && u == v && u.value !in g.avoid ==> r == 1
    decreases if u.None? then 0 else Budget(g.limit, u.value, xDir, yDir)
  {
    if u.None? || v.None? then 0
    else if u.value in g.avoid then 0
    else if u == v then 1
    else
      var U, V := u.value, v.value;
      StepCloser(g, U, xDir, xDir, yDir);
      StepCloser(g, U, yDir, xDir, yDir);
      if U.x != V.x && U.y != V.y then
        PerfectPaths(g, Adjacent(g, U, xDir), v, xDir, yDir) + PerfectPaths(g, Adjacent(g, U, yDir), v, xDir, yDir)
      else if U.x == V.x then
        PerfectPaths(g, Adjacent(g, U, yDir), v, xDir, yDir)
      else
        PerfectPaths(g, Adjacent(g, U, xDir), v, xDir, yDir)
  }

  /** A step in either heading stays on the grid and uses up one block of the budget. */
  lemma {:induction false} StepCloser(g: Graph, u: Vertex, d: Direction, xDir: Direction, yDir: Direction)
    requires Wired(g) && Headings(xDir, yDir) && OnGrid(g.limit, u) && (d == xDir || d == yDir)
    ensures Adjacent(g, u, d).Some? ==>
      OnGrid(g.limit, Adjacent(g, u, d).value)
      && Budget(g.limit, Adjacent(g, u, d).value, xDir, yDir) < Budget(g.limit, u, xDir, yDir)
  {
  }

  /**
   * ComputePerfectPaths(xStart, yStart, xEnd, yEnd): heads WEST iff xEnd < xStart and
   * SOUTH iff yEnd < yStart, and counts the perfect paths between the two vertices.
   */
  function ComputePerfectPaths(g: Graph, xStart: int, yStart: int, xEnd: int, yEnd: int): (r: nat)
    requires Wired(g) && OnGrid(g.limit, Vertex(xStart, yStart)) && OnGrid(g.limit, Vertex(xEnd, yEnd))
    ensures r == PathCount(g, Vertex(xStart, yStart), Vertex(xEnd, yEnd),
      if xEnd < xStart then West else East, if yEnd < yStart then South else North)
  {
    var xDir := if xEnd - xStart < 0 then West else East;
    var yDir := if yEnd - yStart < 0 then South else North;
    PerfectPathsCount(g, Vertex(xStart, yStart), Vertex(xEnd, yEnd), xDir, yDir);
    PerfectPaths(g, Some(Vertex(xStart, yStart)), Some(Vertex(xEnd, yEnd)), xDir, yDir)
  }

  /** The axis limit of the one grid the Paths constructor builds. */
  const CoordinateLimit: int := 10

  function Pow2(e: nat): nat {
    if e == 0 then 1 else 2 * Pow2(e - 1)
  }

  lemma {:induction false} Pow2Mono(a: nat, b: nat)
    requires a <= b
    ensures Pow2(a) <= Pow2(b)
    decreases b
  {
    if a < b {
      Pow2Mono(a, b - 1);
    }
  }

  /** Each call of PerfectPaths at most doubles per block of budget, so r <= 2^budget. */
  lemma {:induction false} PerfectPathsBound(g: Graph, u: Vertex, v: Option<Vertex>, xDir: Direction, yDir: Direction)
    requires Wired(g) && Headings(xDir, yDir) && OnGrid(g.limit, u)
    ensures Budget(g.limit, u, xDir, yDir) >= 2
    ensures PerfectPaths(g, Some(u), v, xDir, yDir) <= Pow2(Budget(g.limit, u, xDir, yDir))
    decreases Budget(g.limit, u, xDir, yDir), 1
  {
    var b := Budget(g.limit, u, xDir, yDir);
    Pow2Mono(0, b);
    if v.Some? && u !in g.avoid && u != v.value {
      PerfectPathsStep(g, u, v.value, xDir, yDir);
      BranchBound(g, u, v, xDir, xDir, yDir);
      BranchBound(g, u, v, yDir, xDir, yDir);
      assert Pow2(b) == 2 * Pow2(b - 1);
    }
  }

  /** The paths through u's neighbour in direction d number at most 2^(budget - 1). */
  lemma {:induction false} BranchBound(g: Graph, u: Vertex, v: Option<Vertex>, d: Direction, xDir: Direction, yDir: Direction)
    requires Wired(g) && Headings(xDir, yDir) && OnGrid(g.limit, u) && (d == xDir || d == yDir)
    ensures Budget(g.limit, u, xDir, yDir) >= 2
    ensures PerfectPaths(g, Adjacent(g, u, d), v, xDir, yDir) <= Pow2(Budget(g.limit, u, xDir, yDir) - 1)
    decreases Budget(g.limit, u, xDir, yDir), 0
  {
    var b := Budget(g.limit, u, xDir, yDir);
    Pow2Mono(0, b - 1);
    StepCloser(g, u, d, xDir, yDir);
    var a := Adjacent(g, u, d);
    if a.Some? {
      PerfectPathsBound(g, a.value, v, xDir, yDir);
      Pow2Mono(Budget(g.limit, a.value, xDir, yDir), b - 1);
    }
  }

  /**
   * On the 10 by 10 grid the Paths constructor builds, every count is at most 2^20, so the
   * Java int sums of PerfectPaths never wrap.
   */
  lemma {:induction false} CountsFitInt(g: Graph, xStart: int, yStart: int, xEnd: int, yEnd: int)
    requires Wired(g) && g.limit == CoordinateLimit
    requires OnGrid(g.limit, Vertex(xStart, yStart)) && OnGrid(g.limit, Vertex(xEnd, yEnd))
    ensures ComputePerfectPaths(g, xStart, yStart, xEnd, yEnd) <= Pow2(20) < IntMax
  {
    var u := Vertex(xStart, yStart);
    var xDir := if xEnd - xStart < 0 then West else East;
    var yDir := if yEnd - yStart < 0 then South else North;
    PerfectPathsBound(g, u, Some(Vertex(xEnd, yEnd)), xDir, yDir);
    Pow2Mono(Budget(g.limit, u, xDir, yDir), 20);
    assert Pow2(10) == 1024;
    assert Pow2(20) == 1048576;
  }

  // ---------------------------------------------------------------------------
  // The paths themselves

  /**
   * A path from u given as a word of moves, true for a block in xDir and false for a
   * block in yDir: every vertex on it is on the grid and unflagged, and it ends at v.
   */
  predicate GoodPath(g: Graph, u: Vertex, v: Vertex, w: seq<bool>, xDir: Direction, yDir: Direction)
    decreases |w|
  {
    OnGrid(g.limit, u) && u !in g.avoid &&
    if w == [] then u == v else GoodPath(g, Move(u, if w[0] then xDir else yDir), v, w[1..], xDir, yDir)
  }

  /** Each word in ws with b in front. */
  function Prefixed(b: bool, ws: seq<seq<bool>>): (r: seq<seq<bool>>)
    ensures |r| == |ws|
  {
    if ws == [] then [] else [[b] + ws[0]] + Prefixed(b, ws[1..])
  }

  /** Putting one move in front of words of n moves gives words of n + 1 moves. */
  lemma {:induction false} PrefixedLength(b: bool, ws: seq<seq<bool>>, n: nat)
    requires forall i :: 0 <= i < |ws| ==> |ws[i]| == n
    ensures forall i :: 0 <= i < |ws| ==> |Prefixed(b, ws)[i]| == n + 1
    decreases |ws|
  {
    if ws != [] {
      PrefixedLength(b, ws[1..], n);
      var p := Prefixed(b, ws);
      assert p == [[b] + ws[0]] + Prefixed(b, ws[1..]);
      forall i | 0 <= i < |ws|
        ensures |p[i]| == n + 1
      {
        if i > 0 {
          assert p[i] == Prefixed(b, ws[1..])[i - 1];
        }
      }
    }
  }

  /** All words of n moves. */
  function Words(n: nat): seq<seq<bool>> {
    if n == 0 then [[]] else Prefixed(true, Words(n - 1)) + Prefixed(false, Words(n - 1))
  }

  /** How many words of ws are good paths from u to v. */
  function CountGood(g: Graph, u: Vertex, v: Vertex, ws: seq<seq<bool>>, xDir: Direction, yDir: Direction): nat {
    if ws == [] then 0
    else (if GoodPath(g, u, v, ws[0], xDir, yDir) then 1 else 0) + CountGood(g, u, v, ws[1..], xDir, yDir)
  }

  function Abs(a: int): nat {
    if a < 0 then -a else a
  }

  /** The number of perfect paths: good paths from u to v as long as the Manhattan distance. */
  function PathCount(g: Graph, u: Vertex, v: Vertex, xDir: Direction, yDir: Direction): nat {
    CountGood(g, u, v, Words(Abs(v.x - u.x) + Abs(v.y - u.y)), xDir, yDir)
  }

  /** Blocks still to go toward v along xDir and yDir; negative once v is behind. */
  function AheadX(u: Vertex, v: Vertex, xDir: Direction): int {
    if xDir == East then v.x - u.x else u.x - v.x
  }

  function AheadY(u: Vertex, v: Vertex, yDir: Direction): int {
    if yDir == North then v.y - u.y else u.y - v.y
  }

  /** A good path never passes v: it has as many moves as blocks ahead, and none behind. */
  lemma {:induction false} GoodPathLength(g: Graph, u: Vertex, v: Vertex, w: seq<bool>, xDir: Direction, yDir: Direction)
    requires Headings(xDir, yDir) && GoodPath(g, u, v, w, xDir, yDir)
    ensures AheadX(u, v, xDir) >= 0 && AheadY(u, v, yDir) >= 0
    ensures |w| == AheadX(u, v, xDir) + AheadY(u, v, yDir)
    decreases |w|
  {
    if w != [] {
      GoodPathLength(g, Move(u, if w[0] then xDir else yDir), v, w[1..], xDir, yDir);
    }
  }

  lemma {:induction false} CountGoodConcat(g: Graph, u: Vertex, v: Vertex, ws: seq<seq<bool>>, vs: seq<seq<bool>>, xDir: Direction, yDir: Direction)
    ensures CountGood(g, u, v, ws + vs, xDir, yDir) == CountGood(g, u, v, ws, xDir, yDir) + CountGood(g, u, v, vs, xDir, yDir)
    decreases |ws|
  {
    if ws == [] {
      assert ws + vs == vs;
    } else {
      assert (ws + vs)[1..] == ws[1..] + vs;
      CountGoodConcat(g, u, v, ws[1..], vs, xDir, yDir);
    }
  }

  /** The words starting with b count as the paths from the vertex b leads to, when u itself is usable. */
  lemma {:induction false} CountGoodPrefixed(g: Graph, u: Vertex, v: Vertex, b: bool, ws: seq<seq<bool>>, xDir: Direction, yDir: Direction)
    ensures CountGood(g, u, v, Prefixed(b, ws), xDir, yDir) ==
      if OnGrid(g.limit, u) && u !in g.avoid then CountGood(g, Move(u, if b then xDir else yDir), v, ws, xDir, yDir) else 0
    decreases |ws|
  {
    if ws != [] {
      var p := Prefixed(b, ws);
      assert p[0] == [b] + ws[0] && p[0][1..] == ws[0];
      assert p[1..] == Prefixed(b, ws[1..]);
      CountGoodPrefixed(g, u, v, b, ws[1..], xDir, yDir);
    }
  }

  /** From a vertex that v is behind, or with words of the wrong length, nothing counts. */
  lemma {:induction false} CountGoodNone(g: Graph, u: Vertex, v: Vertex, n: nat, xDir: Direction, yDir: Direction)
    requires Headings(xDir, yDir)
    requires AheadX(u, v, xDir) < 0 || AheadY(u, v, yDir) < 0 || n != AheadX(u, v, xDir) + AheadY(u, v, yDir)
    ensures CountGood(g, u, v, Words(n), xDir, yDir) == 0
  {
    WordsLength(n);
    CountNoneOf(g, u, v, Words(n), n, xDir, yDir);
  }

  lemma {:induction false} CountNoneOf(g: Graph, u: Vertex, v: Vertex, ws: seq<seq<bool>>, n: nat, xDir: Direction, yDir: Direction)
    requires Headings(xDir, yDir)
    requires AheadX(u, v, xDir) < 0 || AheadY(u, v, yDir) < 0 || n != AheadX(u, v, xDir) + AheadY(u, v, yDir)
    requires forall i :: 0 <= i < |ws| ==> |ws[i]| == n
    ensures CountGood(g, u, v, ws, xDir, yDir) == 0
    decreases |ws|
  {
    if ws != [] {
      if GoodPath(g, u, v, ws[0], xDir, yDir) {
        GoodPathLength(g, u, v, ws[0], xDir, yDir);
      }
      CountNoneOf(g, u, v, ws[1..], n, xDir, yDir);
    }
  }

  lemma {:induction false} WordsLength(n: nat)
    ensures forall i :: 0 <= i < |Words(n)| ==> |Words(n)[i]| == n
  {
    if n > 0 {
      var rest := Words(n - 1);
      WordsLength(n - 1);
      PrefixedLength(true, rest, n - 1);
      PrefixedLength(false, rest, n - 1);
      var a, b := Prefixed(true, rest), Prefixed(false, rest);
      assert Words(n) == a + b;
      forall i | 0 <= i < |a + b|
        ensures |(a + b)[i]| == n
      {
        if i >= |a| {
          assert (a + b)[i] == b[i - |a|];
        }
      }
    }
  }

  /** A flagged or off-grid start has no good path. */
  lemma {:induction false} CountGoodBlocked(g: Graph, u: Vertex, v: Vertex, ws: seq<seq<bool>>, xDir: Direction, yDir: Direction)
    requires !OnGrid(g.limit, u) || u in g.avoid
    ensures CountGood(g, u, v, ws, xDir, yDir) == 0
    decreases |ws|
  {
    if ws != [] {
      CountGoodBlocked(g, u, v, ws[1..], xDir, yDir);
    }
  }

  /** A step of PerfectPaths from an unflagged vertex that is not yet v. */
  lemma {:induction false} PerfectPathsStep(g: Graph, u: Vertex, v: Vertex, xDir: Direction, yDir: Direction)
    requires Wired(g) && Headings(xDir, yDir) && OnGrid(g.limit, u) && u !in g.avoid && u != v
    ensures PerfectPaths(g, Some(u), Some(v), xDir, yDir) ==
      (if u.x != v.x then PerfectPaths(g, Adjacent(g, u, xDir), Some(v), xDir, yDir) else 0) +
      (if u.y != v.y then PerfectPaths(g, Adjacent(g, u, yDir), Some(v), xDir, yDir) else 0)
  {
  }

  /** A step of the word count: the first move goes in xDir or in yDir. */
  lemma {:induction false} CountGoodStep(g: Graph, u: Vertex, v: Vertex, n: nat, xDir: Direction, yDir: Direction)
    requires OnGrid(g.limit, u) && u !in g.avoid && n >= 1
    ensures CountGood(g, u, v, Words(n), xDir, yDir) ==
      CountGood(g, Move(u, xDir), v, Words(n - 1), xDir, yDir) + CountGood(g, Move(u, yDir), v, Words(n - 1), xDir, yDir)
  {
    var rest := Words(n - 1);
    assert Words(n) == Prefixed(true, rest) + Prefixed(false, rest);
    CountGoodConcat(g, u, v, Prefixed(true, rest), Prefixed(false, rest), xDir, yDir);
    CountGoodPrefixed(g, u, v, true, rest, xDir, yDir);
    CountGoodPrefixed(g, u, v, false, rest, xDir, yDir);
  }

  /**
   * One branch of PerfectPaths: the paths through the neighbour in direction d count as the
   * good words of n - 1 moves from there, where n is u's distance to v.
   */
  lemma {:induction false} Branch(g: Graph, u: Vertex, v: Vertex, d: Direction, n: nat, xDir: Direction, yDir: Direction)
    requires Wired(g) && Headings(xDir, yDir) && OnGrid(g.limit, u) && (d == xDir || d == yDir) && n >= 1
    requires n == Abs(v.x - u.x) + Abs(v.y - u.y)
    requires if d == xDir then u.x != v.x else u.y != v.y
    ensures PerfectPaths(g, Adjacent(g, u, d), Some(v), xDir, yDir) == CountGood(g, Move(u, d), v, Words(n - 1), xDir, yDir)
    decreases Budget(g.limit, u, xDir, yDir), 0
  {
    var m := Move(u, d);
    if !OnGrid(g.limit, m) {
      assert Adjacent(g, u, d) == None;
      CountGoodBlocked(g, m, v, Words(n - 1), xDir, yDir);
    } else {
      assert Adjacent(g, u, d) == Some(m);
      assert Budget(g.limit, m, xDir, yDir) < Budget(g.limit, u, xDir, yDir);
      PerfectPathsCount(g, m, v, xDir, yDir);
      BranchDistance(g, u, v, d, n, xDir, yDir);
    }
  }

  /**
   * Moving toward v in a direction that still has a coordinate to reach leaves the words
   * of n - 1 moves as the words of the remaining distance, or counts none of either.
   */
  lemma {:induction false} BranchDistance(g: Graph, u: Vertex, v: Vertex, d: Direction, n: nat, xDir: Direction, yDir: Direction)
    requires Headings(xDir, yDir) && (d == xDir || d == yDir) && n >= 1
    requires n == Abs(v.x - u.x) + Abs(v.y - u.y)
    requires if d == xDir then u.x != v.x else u.y != v.y
    ensures PathCount(g, Move(u, d), v, xDir, yDir) == CountGood(g, Move(u, d), v, Words(n - 1), xDir, yDir)
  {
    StepDistance(u, v, d, n, xDir, yDir);
    CountAtDistance(g, Move(u, d), v, n - 1, xDir, yDir);
  }

  /** A step toward v leaves v one block closer, unless the step passed it. */
  lemma {:induction false} StepDistance(u: Vertex, v: Vertex, d: Direction, n: nat, xDir: Direction, yDir: Direction)
    requires Headings(xDir, yDir) && (d == xDir || d == yDir) && n >= 1
    requires n == Abs(v.x - u.x) + Abs(v.y - u.y)
    requires if d == xDir then u.x != v.x else u.y != v.y
    ensures AheadX(Move(u, d), v, xDir) < 0 || AheadY(Move(u, d), v, yDir) < 0
      || Abs(v.x - Move(u, d).x) + Abs(v.y - Move(u, d).y) == n - 1
  {
  }

  /** The words of a moves count the perfect paths when a is the distance to v, or when v is behind. */
  lemma {:induction false} CountAtDistance(g: Graph, m: Vertex, v: Vertex, a: nat, xDir: Direction, yDir: Direction)
    requires Headings(xDir, yDir)
    requires AheadX(m, v, xDir) < 0 || AheadY(m, v, yDir) < 0 || Abs(v.x - m.x) + Abs(v.y - m.y) == a
    ensures PathCount(g, m, v, xDir, yDir) == CountGood(g, m, v, Words(a), xDir, yDir)
  {
    var k := Abs(v.x - m.x) + Abs(v.y - m.y);
    assert PathCount(g, m, v, xDir, yDir) == CountGood(g, m, v, Words(k), xDir, yDir);
    if AheadX(m, v, xDir) < 0 || AheadY(m, v, yDir) < 0 {
      CountGoodNone(g, m, v, a, xDir, yDir);
      CountGoodNone(g, m, v, k, xDir, yDir);
    }
  }

  /** PerfectPaths counts exactly the good paths from u to v. */
  lemma {:induction false} PerfectPathsCount(g: Graph, u: Vertex, v: Vertex, xDir: Direction, yDir: Direction)
    requires Wired(g) && Headings(xDir, yDir) && OnGrid(g.limit, u)
    ensures PerfectPaths(g, Some(u), Some(v), xDir, yDir) == PathCount(g, u, v, xDir, yDir)
    decreases Budget(g.limit, u, xDir, yDir), 2
  {
    var n := Abs(v.x - u.x) + Abs(v.y - u.y);
    assert PathCount(g, u, v, xDir, yDir) == CountGood(g, u, v, Words(n), xDir, yDir);
    if u in g.avoid {
      CountGoodBlocked(g, u, v, Words(n), xDir, yDir);
    } else if u == v {
      assert n == 0 && Words(0) == [[]];
      assert GoodPath(g, u, v, [], xDir, yDir);
      assert CountGood(g, u, v, [[]][1..], xDir, yDir) == 0;
    } else {
      PerfectPathsStep(g, u, v, xDir, yDir);
      CountGoodStep(g, u, v, n, xDir, yDir);
      BranchOrNone(g, u, v, xDir, n, xDir, yDir);
      BranchOrNone(g, u, v, yDir, n, xDir, yDir);
    }
  }

  /** The term PerfectPaths adds for direction d: a branch when that coordinate still differs, else nothing. */
  lemma {:induction false} BranchOrNone(g: Graph, u: Vertex, v: Vertex, d: Direction, n: nat, xDir: Direction, yDir: Direction)
    requires Wired(g) && Headings(xDir, yDir) && OnGrid(g.limit, u) && (d == xDir || d == yDir) && n >= 1
    requires n == Abs(v.x - u.x) + Abs(v.y - u.y)
    ensures (if (if d == xDir then u.x != v.x else u.y != v.y)
             then PerfectPaths(g, Adjacent(g, u, d), Some(v), xDir, yDir) else 0)
      == CountGood(g, Move(u, d), v, Words(n - 1), xDir, yDir)
    decreases Budget(g.limit, u, xDir, yDir), 1
  {
    if (if d == xDir then u.x != v.x else u.y != v.y) {
      Branch(g, u, v, d, n, xDir, yDir);
    } else {
      CountGoodNone(g, Move(u, d), v, n - 1, xDir, yDir);
    }
  }
}

=== FILE: quadratic_sorts.dfy ===
/**
 * Bubble, selection and insertion sort, and the `unsorted` check, over an int array
 * held as a seq<int>.  Each sort returns the array's final contents.
 */
module QuadraticSorts {
  import opened SortSpec

  /** unsorted(array, n): 1 when some adjacent pair is out of order, else 0. */
  method Unsorted(a: seq<int>) returns (r: int)
    ensures r == 0 || r == 1
    ensures r == 1 <==> !Sorted(a)
  {
    InOrderIffSorted(a);
    var i := 0;
    while i < |a| - 1
      invariant i == 0 || i <= |a| - 1
      invariant forall k :: 0 <= k < i ==> a[k] <= a[k + 1]
    {
      if a[i] > a[i + 1] {
        return 1;
      }
      i := i + 1;
    }
    return 0;
  }

  /**
   * bubble_sort: passes over a shrinking prefix, swapping out-of-order neighbours, until
   * a pass makes no swap or n passes are done.  `passes` is the number of passes made.
   */
  method BubbleSort(a: seq<int>) returns (s: seq<int>, passes: nat)
    ensures Sorted(s) && multiset(s) == multiset(a)
    ensures passes <= |a|
    ensures Sorted(a) ==> passes == (if |a| == 0 then 0 else 1)
  {
    var n := |a|;
    s := a;
    var swapped := true;
    var i := 0;
    while i < n && swapped
      invariant 0 <= i <= n && |s| == n && multiset(s) == multiset(a)
      invariant SortedBetween(s, n - i, n)
      invariant forall p, q :: 0 <= p < n - i <= q < n ==> s[p] <= s[q]
      invariant !swapped ==> Sorted(s)
      invariant Sorted(a) ==> s == a && i <= 1 && (swapped <==> i == 0)
    {
      s, swapped := BubblePass(s, n - i);
      i := i + 1;
    }
    passes := i;
  }

  /**
   * One pass of bubble_sort over the unsorted prefix [0, m): afterwards slot m-1 holds
   * the prefix's maximum, and a pass without swaps finds the prefix already in order.
   */
  method BubblePass(a: seq<int>, m: nat) returns (s: seq<int>, swapped: bool)
    requires 0 < m <= |a|
    requires SortedBetween(a, m, |a|) && forall p, q :: 0 <= p < m <= q < |a| ==> a[p] <= a[q]
    ensures |s| == |a| && multiset(s) == multiset(a)
    ensures SortedBetween(s, m - 1, |s|) && forall p, q :: 0 <= p < m - 1 <= q < |s| ==> s[p] <= s[q]
    ensures !swapped ==> s == a && Sorted(s)
    ensures Sorted(a) ==> !swapped
  {
    s := a;
    swapped := false;
    var j := 0;
    while j < m - 1
      invariant 0 <= j < m && |s| == |a| && multiset(s) == multiset(a)
      invariant Pass(a, m, s, j, swapped)
      invariant Sorted(a) ==> !swapped
    {
      ghost var s0, swapped0 := s, swapped;
      if Sorted(a) {
        assert s == a && a[j] <= a[j + 1];
      }
      if s[j] > s[j + 1] {
        s := Swap(s, j, j + 1);
        swapped := true;
      }
      PassStep(a, m, s0, j, swapped0, s, swapped);
      j := j + 1;
    }
    PassDone(a, m, s, swapped);
  }

  /**
   * The state of bubble_sort's inner loop at j: the suffix from m is untouched, slot j
   * holds the maximum of [0, j], and without a swap so far nothing has moved.
   */
  ghost predicate Pass(a: seq<int>, m: nat, s: seq<int>, j: nat, swapped: bool)
    requires j < m <= |a| == |s|
  {
    s[m..] == a[m..] &&
    (forall p, q :: 0 <= p < m <= q < |s| ==> s[p] <= s[q]) &&
    (forall p :: 0 <= p <= j ==> s[p] <= s[j]) &&
    (!swapped ==> s == a && SortedBetween(s, 0, j + 1))
  }

  /** Comparing (and perhaps swapping) slots j and j+1 advances the pass. */
  lemma {:induction false} PassStep(a: seq<int>, m: nat, s0: seq<int>, j: nat, swapped0: bool, s: seq<int>, swapped: bool)
    requires j + 1 < m <= |a| == |s0| && Pass(a, m, s0, j, swapped0)
    requires (s0[j] > s0[j + 1] && s == Swap(s0, j, j + 1) && swapped) ||
             (s0[j] <= s0[j + 1] && s == s0 && swapped == swapped0)
    ensures |s| == |a| && Pass(a, m, s, j + 1, swapped)
  {
    assert s[m..] == s0[m..];
  }

  /** At the end of a pass slot m-1 is in place. */
  lemma {:induction false} PassDone(a: seq<int>, m: nat, s: seq<int>, swapped: bool)
    requires 0 < m <= |a| == |s| && Pass(a, m, s, m - 1, swapped)
    requires SortedBetween(a, m, |a|)
    ensures SortedBetween(s, m - 1, |s|) && forall p, q :: 0 <= p < m - 1 <= q < |s| ==> s[p] <= s[q]
    ensures !swapped ==> Sorted(s)
  {
    forall p, q | m <= p < q < |s|
      ensures s[p] <= s[q]
    {
      assert s[p] == a[p] && s[q] == a[q] by {
        assert s[p] == s[m..][p - m] && s[q] == s[m..][q - m];
      }
    }
  }

  /**
   * selection_sort: for each i < n-1, swap the first minimum of [i, n) into slot i.
   * After iteration i the prefix [0, i] holds the i+1 smallest values in order.
   */
  method SelectionSort(a: seq<int>) returns (s: seq<int>)
    ensures Sorted(s) && multiset(s) == multiset(a)
  {
    var n := |a|;
    s := a;
    var i := 0;
    while i < n - 1
      invariant 0 <= i && (i <= n - 1 || i == 0) && |s| == n && multiset(s) == multiset(a)
      invariant SortedBetween(s, 0, i)
      invariant forall p, q :: 0 <= p < i <= q < n ==> s[p] <= s[q]
    {
      var minIndex := FirstMin(s, i);
      var s' := Swap(s, minIndex, i);
      SelectStep(s, i, minIndex, s');
      s := s';
      i := i + 1;
    }
  }

  /** selection_sort's inner loop: the index of the first minimum of s[i..]. */
  method FirstMin(s: seq<int>, i: nat) returns (minIndex: nat)
    requires i < |s|
    ensures i <= minIndex < |s|
    ensures forall k :: i <= k < |s| ==> s[minIndex] <= s[k]
    ensures forall k :: i <= k < minIndex ==> s[k] > s[minIndex]
  {
    minIndex := i;
    var j := i + 1;
    while j < |s|
      invariant i <= minIndex < j <= |s|
      invariant forall k :: i <= k < j ==> s[minIndex] <= s[k]
      invariant forall k :: i <= k < minIndex ==> s[k] > s[minIndex]
    {
      if s[j] < s[minIndex] {
        minIndex := j;
      }
      j := j + 1;
    }
  }

  /** Swapping the minimum of s[i..] into slot i extends the sorted, smallest prefix by one. */
  lemma {:induction false} SelectStep(s: seq<int>, i: nat, m: nat, s': seq<int>)
    requires i <= m < |s| && s' == Swap(s, m, i)
    requires SortedBetween(s, 0, i) && forall p, q :: 0 <= p < i <= q < |s| ==> s[p] <= s[q]
    requires forall k :: i <= k < |s| ==> s[m] <= s[k]
    ensures SortedBetween(s', 0, i + 1)
    ensures forall p, q :: 0 <= p < i + 1 <= q < |s'| ==> s'[p] <= s'[q]
  {
    forall p, q | 0 <= p < i + 1 <= q < |s'|
      ensures s'[p] <= s'[q]
    {
      if q == m {
        assert s'[q] == s[i];
      } else {
        assert s'[q] == s[q];
      }
    }
  }

  /**
   * insertion_sort: for each i, swap slot i's value leftwards while it is smaller than
   * its left neighbour, then store it at the gap.  After iteration i the prefix [0, i]
   * is sorted.
   */
  method InsertionSort(a: seq<int>) returns (s: seq<int>)
    ensures Sorted(s) && multiset(s) == multiset(a)
  {
    var n := |a|;
    s := a;
    var i := 1;
    while i < n
      invariant 1 <= i && (i <= n || n == 0) && |s| == n && multiset(s) == multiset(a)
      invariant SortedBetween(s, 0, if n == 0 then 0 else i)
    {
      s := InsertAt(s, i);
      i := i + 1;
    }
  }

  /** One iteration of insertion_sort's outer loop: slot i joins the sorted prefix [0, i). */
  method InsertAt(a: seq<int>, i: nat) returns (s: seq<int>)
    requires 0 < i < |a| && SortedBetween(a, 0, i)
    ensures |s| == |a| && multiset(s) == multiset(a)
    ensures SortedBetween(s, 0, i + 1)
    ensures s[i + 1..] == a[i + 1..]
  {
    s := a;
    var gap := i;
    var val := s[i];
    while gap > 0 && s[gap] < s[gap - 1]
      invariant 0 <= gap <= i < |s| == |a| && multiset(s) == multiset(a)
      invariant s[i + 1..] == a[i + 1..]
      invariant Gap(s, gap, i, val)
    {
      GapStep(s, gap, i, val);
      s := Swap(s, gap, gap - 1);
      gap := gap - 1;
    }
    GapClosed(s, gap, i, val);
    s := s[gap := val];
  }

  /**
   * The state of insertion_sort's inner loop: val sits at the gap, the cells of [0, i]
   * other than the gap are in order, and everything right of the gap exceeds val.
   */
  ghost predicate Gap(s: seq<int>, gap: nat, i: nat, val: int)
    requires gap <= i < |s|
  {
    s[gap] == val &&
    (forall p, q :: 0 <= p < q < gap ==> s[p] <= s[q]) &&
    (forall p, q :: gap < p < q <= i ==> s[p] <= s[q]) &&
    (forall p, q :: 0 <= p < gap < q <= i ==> s[p] <= s[q]) &&
    (forall q :: gap < q <= i ==> val < s[q])
  }

  /** Swapping val with a larger left neighbour moves the gap one step left. */
  lemma {:induction false} GapStep(s: seq<int>, gap: nat, i: nat, val: int)
    requires 0 < gap <= i < |s| && Gap(s, gap, i, val) && s[gap] < s[gap - 1]
    ensures Gap(Swap(s, gap, gap - 1), gap - 1, i, val)
  {
    var t := Swap(s, gap, gap - 1);
    assert forall q :: gap <= q <= i ==> s[gap - 1] <= t[q];
  }

  /** When the gap stops moving, [0, i] is in order. */
  lemma {:induction false} GapClosed(s: seq<int>, gap: nat, i: nat, val: int)
    requires gap <= i < |s| && Gap(s, gap, i, val) && (gap == 0 || s[gap] >= s[gap - 1])
    ensures SortedBetween(s, 0, i + 1)
  {
  }
}

=== FILE: queue.dfy ===
/**
 * The linked FIFO queue of queue.c (head and tail node pointers).  A queue is its list of
 * values from head to tail; a NULL Queue pointer is None.  Node allocation failures
 * are not modelled.
 */
module Queues {
  import opened Common

  datatype Queue = Queue(items: seq<int>)

  /** What enqueue and dequeue hand back: the queue afterwards and the int they return. */
  datatype Step = Step(queue: Option<Queue>, result: int)

  /** initQueue: head and tail NULL. */
  function InitQueue(): (q: Queue)
    ensures IsEmpty(q) && |q.items| == 0
  {
    Queue([])
  }

  /** isEmpty: the head pointer is NULL. */
  predicate IsEmpty(q: Queue) {
    q.items == []
  }

  /** enqueue: a new node after the tail; the data is returned, or -1 for a NULL queue. */
  function Enqueue(p: Option<Queue>, data: int): (r: Step)
    ensures p.None? ==> r == Step(None, -1)
    ensures p.Some? ==> r.result == data && r.queue.Some? && !IsEmpty(r.queue.value)
    ensures p.Some? ==> |r.queue.value.items| == |p.value.items| + 1 && Last(r.queue.value.items) == data
    ensures p.Some? ==> r.queue.value.items[..|p.value.items|] == p.value.items
  {
    match p
    case None => Step(None, -1)
    case Some(q) => Step(Some(Queue(q.items + [data])), data)
  }

  function Last(s: seq<int>): int
    requires s != []
  {
    s[|s| - 1]
  }

  /** dequeue: unlink the head node and return its data; -1 for a NULL or empty queue. */
  function Dequeue(p: Option<Queue>): (r: Step)
    ensures p.None? ==> r == Step(None, -1)
    ensures p.Some? && IsEmpty(p.value) ==> r == Step(p, -1)
    ensures p.Some? && !IsEmpty(p.value) ==>
      r.queue.Some? && [r.result] + r.queue.value.items == p.value.items
  {
    match p
    case None => Step(None, -1)
    case Some(q) => if IsEmpty(q) then Step(p, -1) else Step(Some(Queue(q.items[1..])), q.items[0])
  }

  /**
   * FIFO: on a non-empty queue, enqueue then dequeue returns the old head, exactly as
   * dequeue then enqueue would; on an empty queue it returns the value just enqueued.
   */
  lemma {:induction false} EnqueueDequeue(q: Queue, x: int)
    ensures !IsEmpty(q) ==>
      var d1 := Dequeue(Enqueue(Some(q), x).queue);
      var d2 := Dequeue(Some(q));
      d1.result == d2.result && d1.queue == Enqueue(d2.queue, x).queue
    ensures IsEmpty(q) ==> Dequeue(Enqueue(Some(q), x).queue) == Step(Some(InitQueue()), x)
  {
    if !IsEmpty(q) {
      assert (q.items + [x])[1..] == q.items[1..] + [x];
    }
  }

  /** The queue after enqueueing xs, in order, onto q. */
  function EnqueueAll(q: Queue, xs: seq<int>): Queue
    decreases |xs|
  {
    if xs == [] then q else EnqueueAll(Enqueue(Some(q), xs[0]).queue.value, xs[1..])
  }

  /** The values dequeue returns, in order, until the queue is empty. */
  function DrainAll(q: Queue): seq<int>
    decreases |q.items|
  {
    if IsEmpty(q) then [] else
      var d := Dequeue(Some(q));
      [d.result] + DrainAll(d.queue.value)
  }

  /** Enqueueing appends: the contents are the old contents followed by xs. */
  lemma {:induction false} EnqueueAllAppends(q: Queue, xs: seq<int>)
    ensures EnqueueAll(q, xs).items == q.items + xs
    decreases |xs|
  {
    if xs != [] {
      EnqueueAllAppends(Enqueue(Some(q), xs[0]).queue.value, xs[1..]);
      assert q.items + [xs[0]] + xs[1..] == q.items + xs;
    }
  }

  /** Draining returns the contents from head to tail. */
  lemma {:induction false} DrainReturnsItems(q: Queue)
    ensures DrainAll(q) == q.items
    decreases |q.items|
  {
    if !IsEmpty(q) {
      DrainReturnsItems(Dequeue(Some(q)).queue.value);
    }
  }

  /** First in, first out: values come out of a fresh queue in the order they went in. */
  lemma {:induction false} FifoOrder(xs: seq<int>)
    ensures DrainAll(EnqueueAll(InitQueue(), xs)) == xs
  {
    EnqueueAllAppends(InitQueue(), xs);
    DrainReturnsItems(EnqueueAll(InitQueue(), xs));
  }
}

=== FILE: radix.dfy ===
/**
 * RadixSort of radix.c: least-significant-digit radix sort of non-negative ints through
 * ten FIFO buckets, one pass per decimal digit of the maximum.
 *
 * One pass is modelled twice: as the loops of the C code over the bucket queues
 * (Distribute, Collect) and as the pure function Pass (the stable distribution), and
 * the loops are proved to compute Pass.
 */
module Radix {
  import opened Common
  import opened SortSpec
  import opened Queues

  predicate NonNegative(s: seq<int>) {
    forall k :: 0 <= k < |s| ==> s[k] >= 0
  }

  /** array[i] / pow % 10: the digit that picks the bucket (the values are non-negative). */
  function Digit(x: int, pow: int): int
    requires pow > 0
  {
    x / pow % 10
  }

  /** The largest value of a non-empty array, found as the C loop finds it. */
  function SeqMax(s: seq<int>): (m: int)
    requires |s| > 0
    ensures forall k :: 0 <= k < |s| ==> s[k] <= m
    ensures exists k :: 0 <= k < |s| && s[k] == m
  {
    if |s| == 1 then s[0]
    else
      var m := SeqMax(s[..|s| - 1]);
      assert forall k :: 0 <= k < |s| - 1 ==> s[..|s| - 1][k] == s[k];
      if s[|s| - 1] > m then s[|s| - 1] else m
  }

  /** The number of decimal digits of m, with 0 for m == 0. */
  function DecimalDigits(m: nat): nat {
    if m == 0 then 0 else 1 + DecimalDigits(m / 10)
  }

  // ---------------------------------------------------------------------------
  // Arithmetic of decimal digits

  /** The value below pow * 10 is the digit at pow followed by the value below pow. */
  lemma {:induction false} DigitSplit(x: nat, pow: int)
    requires pow > 0
    ensures x % (pow * 10) == Digit(x, pow) * pow + x % pow
    ensures x / (pow * 10) == x / pow / 10
  {
    var q, r := x / pow, x % pow;
    var q1, q0 := q / 10, q % 10;
    assert x == pow * q + r;
    assert q == 10 * q1 + q0;
    assert x == (pow * 10) * q1 + (q0 * pow + r) by {
      assert pow * q == pow * (10 * q1 + q0);
      assert pow * (10 * q1 + q0) == (pow * 10) * q1 + q0 * pow;
    }
    assert q0 * pow + r < pow * 10 by {
      MulMono(pow, q0, 9);
    }
    DivModUnique(x, pow * 10, q1, q0 * pow + r);
  }

  // ---------------------------------------------------------------------------
  // One pass as a function

  /** Bucket b after the distribution loop: the values of s whose digit is b, in order. */
  function Bucket(s: seq<int>, pow: int, b: int): seq<int>
    requires pow > 0
    decreases |s|
  {
    if s == [] then []
    else
      var x := s[|s| - 1];
      Bucket(s[..|s| - 1], pow, b) + if Digit(x, pow) == b then [x] else []
  }

  /** The values of s whose digit is below n, in order. */
  function Below(s: seq<int>, pow: int, n: int): seq<int>
    requires pow > 0
    decreases |s|
  {
    if s == [] then []
    else
      var x := s[|s| - 1];
      Below(s[..|s| - 1], pow, n) + if Digit(x, pow) < n then [x] else []
  }

  /** The ten buckets after the distribution loop. */
  function Buckets(s: seq<int>, pow: int): (bs: seq<seq<int>>)
    requires pow > 0
    ensures |bs| == 10 && forall b :: 0 <= b < 10 ==> bs[b] == Bucket(s, pow, b)
  {
    seq(10, b => Bucket(s, pow, b))
  }

  /** One pass: the buckets emptied in order 0..9, each in FIFO order. */
  function Pass(s: seq<int>, pow: int): seq<int>
    requires pow > 0
  {
    Flatten(Buckets(s, pow))
  }

  /** s is in ascending order of the value below m (the low digits when m is a power of ten). */
  predicate SortedBy(s: seq<int>, m: int)
    requires m > 0
  {
    forall p, q :: 0 <= p < q < |s| ==> s[p] % m <= s[q] % m
  }

  /** Every value in bucket b is a value of s with digit b. */
  lemma {:induction false} BucketDigits(s: seq<int>, pow: int, b: int)
    requires pow > 0
    ensures forall k :: 0 <= k < |Bucket(s, pow, b)| ==>
      Bucket(s, pow, b)[k] in s && Digit(Bucket(s, pow, b)[k], pow) == b
    decreases |s|
  {
    if s != [] {
      var init := s[..|s| - 1];
      BucketDigits(init, pow, b);
      assert forall y :: y in init ==> y in s;
    }
  }

  lemma {:induction false} BelowZero(s: seq<int>, pow: int)
    requires pow > 0
    ensures Below(s, pow, 0) == []
    decreases |s|
  {
    if s != [] {
      BelowZero(s[..|s| - 1], pow);
    }
  }

  lemma {:induction false} BelowTen(s: seq<int>, pow: int)
    requires pow > 0
    ensures Below(s, pow, 10) == s
    decreases |s|
  {
    if s != [] {
      BelowTen(s[..|s| - 1], pow);
      assert s[..|s| - 1] + [s[|s| - 1]] == s;
    }
  }

  /** Raising the digit bound by one adds bucket n. */
  lemma {:induction false} BelowStep(s: seq<int>, pow: int, n: int)
    requires pow > 0
    ensures multiset(Below(s, pow, n + 1)) == multiset(Below(s, pow, n)) + multiset(Bucket(s, pow, n))
    decreases |s|
  {
    if s != [] {
      BelowStep(s[..|s| - 1], pow, n);
    }
  }

  lemma {:induction false} PassPermutesUpTo(s: seq<int>, pow: int, n: nat)
    requires pow > 0 && n <= 10
    ensures multiset(Flatten(Buckets(s, pow)[..n])) == multiset(Below(s, pow, n))
  {
    if n == 0 {
      BelowZero(s, pow);
    } else {
      PassPermutesUpTo(s, pow, n - 1);
      FlattenPrefix(Buckets(s, pow), n - 1);
      BelowStep(s, pow, n - 1);
    }
  }

  /** A pass permutes the array. */
  lemma {:induction false} PassPermutes(s: seq<int>, pow: int)
    requires pow > 0
    ensures multiset(Pass(s, pow)) == multiset(s)
  {
    PassPermutesUpTo(s, pow, 10);
    assert Buckets(s, pow)[..10] == Buckets(s, pow);
    BelowTen(s, pow);
  }

  lemma {:induction false} ConcatSorted(a: seq<int>, b: seq<int>, m: int)
    requires m > 0 && SortedBy(a, m) && SortedBy(b, m)
    requires forall i, j :: 0 <= i < |a| && 0 <= j < |b| ==> a[i] % m <= b[j] % m
    ensures SortedBy(a + b, m)
  {
    var c := a + b;
    forall p, q | 0 <= p < q < |c|
      ensures c[p] % m <= c[q] % m
    {
      if q < |a| {
        assert c[p] == a[p] && c[q] == a[q];
      } else if p >= |a| {
        assert c[p] == b[p - |a|] && c[q] == b[q - |a|];
      } else {
        assert c[p] == a[p] && c[q] == b[q - |a|];
      }
    }
  }

  /** Values with the same digit keep their order below pow when compared below pow * 10. */
  lemma {:induction false} SameDigitOrder(x: nat, y: nat, pow: int)
    requires pow > 0 && Digit(x, pow) == Digit(y, pow) && x % pow <= y % pow
    ensures x % (pow * 10) <= y % (pow * 10)
  {
    DigitSplit(x, pow);
    DigitSplit(y, pow);
  }

  /** A smaller digit means a smaller value below pow * 10. */
  lemma {:induction false} DigitOrder(x: nat, y: nat, pow: int)
    requires pow > 0 && Digit(x, pow) < Digit(y, pow)
    ensures x % (pow * 10) <= y % (pow * 10)
  {
    var dx, dy := Digit(x, pow), Digit(y, pow);
    DigitSplit(x, pow);
    DigitSplit(y, pow);
    MulMono(pow, dx + 1, dy);
    assert pow * (dx + 1) == dx * pow + pow;
    assert x % pow < pow && 0 <= y % pow;
  }

  /** Bucket b keeps the order of s, and within one digit that order extends to the next digit. */
  lemma {:induction false} BucketSorted(s: seq<int>, pow: int, b: int)
    requires pow > 0 && NonNegative(s) && SortedBy(s, pow)
    ensures SortedBy(Bucket(s, pow, b), pow * 10)
    decreases |s|
  {
    if s != [] {
      var init, x := s[..|s| - 1], s[|s| - 1];
      assert SortedBy(init, pow) && NonNegative(init) by {
        assert forall k :: 0 <= k < |init| ==> init[k] == s[k];
      }
      BucketSorted(init, pow, b);
      if Digit(x, pow) == b {
        var bk := Bucket(init, pow, b);
        BucketDigits(init, pow, b);
        forall i | 0 <= i < |bk|
          ensures bk[i] % (pow * 10) <= x % (pow * 10)
        {
          var k :| 0 <= k < |init| && init[k] == bk[i];
          assert s[k] == bk[i];
          SameDigitOrder(bk[i], x, pow);
        }
        ConcatSorted(bk, [x], pow * 10);
      }
    }
  }

  /** Buckets 0..n-1 emptied in order hold non-negative values with digits below n. */
  lemma {:induction false} PassDigitsUpTo(s: seq<int>, pow: int, n: nat)
    requires pow > 0 && n <= 10 && NonNegative(s)
    ensures var f := Flatten(Buckets(s, pow)[..n]);
      forall k :: 0 <= k < |f| ==> f[k] >= 0 && Digit(f[k], pow) < n
  {
    if n > 0 {
      PassDigitsUpTo(s, pow, n - 1);
      FlattenPrefix(Buckets(s, pow), n - 1);
      var f, bk := Flatten(Buckets(s, pow)[..n - 1]), Bucket(s, pow, n - 1);
      BucketDigits(s, pow, n - 1);
      assert forall k :: 0 <= k < |bk| ==> bk[k] >= 0;
      assert Flatten(Buckets(s, pow)[..n]) == f + bk;
    }
  }

  /** Buckets 0..n-1 emptied in order are sorted below pow * 10. */
  lemma {:induction false} PassSortedUpTo(s: seq<int>, pow: int, n: nat)
    requires pow > 0 && n <= 10 && NonNegative(s) && SortedBy(s, pow)
    ensures SortedBy(Flatten(Buckets(s, pow)[..n]), pow * 10)
  {
    if n > 0 {
      PassSortedUpTo(s, pow, n - 1);
      PassDigitsUpTo(s, pow, n - 1);
      FlattenPrefix(Buckets(s, pow), n - 1);
      var f, bk := Flatten(Buckets(s, pow)[..n - 1]), Bucket(s, pow, n - 1);
      BucketSorted(s, pow, n - 1);
      BucketDigits(s, pow, n - 1);
      forall i, j | 0 <= i < |f| && 0 <= j < |bk|
        ensures f[i] % (pow * 10) <= bk[j] % (pow * 10)
      {
        assert bk[j] >= 0;
        DigitOrder(f[i], bk[j], pow);
      }
      ConcatSorted(f, bk, pow * 10);
    }
  }

  /** A pass over an array sorted below pow leaves it sorted below pow * 10. */
  lemma {:induction false} PassSorted(s: seq<int>, pow: int)
    requires pow > 0 && NonNegative(s) && SortedBy(s, pow)
    ensures SortedBy(Pass(s, pow), pow * 10)
  {
    PassSortedUpTo(s, pow, 10);
    assert Buckets(s, pow)[..10] == Buckets(s, pow);
  }

  // ---------------------------------------------------------------------------
  // The C loops

  /** The bucket contents, one sequence per queue. */
  function Contents(bs: seq<Queue>): seq<seq<int>> {
    seq(|bs|, b requires 0 <= b < |bs| => bs[b].items)
  }

  /** The "place into buckets" loop: each value is enqueued on the bucket of its digit. */
  method Distribute(s: seq<int>, pow: int, empty: seq<Queue>) returns (bs: seq<Queue>)
    requires pow > 0 && |empty| == 10 && forall b :: 0 <= b < 10 ==> IsEmpty(empty[b])
    ensures Contents(bs) == Buckets(s, pow)
  {
    bs := empty;
    var i := 0;
    while i < |s|
      invariant 0 <= i <= |s| && |bs| == 10
      invariant forall b :: 0 <= b < 10 ==> bs[b].items == Bucket(s[..i], pow, b)
    {
      assert s[..i + 1][..i] == s[..i];
      var d := s[i] / pow % 10;
      var st := Enqueue(Some(bs[d]), s[i]);
      bs := bs[d := st.queue.value];
      i := i + 1;
    }
    assert s[..|s|] == s;
  }

  /** The "pull out of buckets" loops: buckets 0..9 are dequeued in turn until empty. */
  method Collect(full: seq<Queue>) returns (out: seq<int>, bs: seq<Queue>)
    requires |full| == 10
    ensures out == Flatten(Contents(full))
    ensures |bs| == 10 && forall b :: 0 <= b < 10 ==> IsEmpty(bs[b])
  {
    bs := full;
    out := [];
    var b := 0;
    while b < 10
      invariant 0 <= b <= 10 && |bs| == 10
      invariant forall c :: b <= c < 10 ==> bs[c] == full[c]
      invariant forall c :: 0 <= c < b ==> IsEmpty(bs[c])
      invariant out == Flatten(Contents(full)[..b])
    {
      while !IsEmpty(bs[b])
        invariant |bs| == 10 && out + bs[b].items == Flatten(Contents(full)[..b]) + full[b].items
        invariant forall c :: b < c < 10 ==> bs[c] == full[c]
        invariant forall c :: 0 <= c < b ==> IsEmpty(bs[c])
        decreases |bs[b].items|
      {
        var st := Dequeue(Some(bs[b]));
        assert [st.result] + st.queue.value.items == bs[b].items;
        out := out + [st.result];
        bs := bs[b := st.queue.value];
      }
      FlattenPrefix(Contents(full), b);
      b := b + 1;
    }
    assert Contents(full)[..10] == Contents(full);
  }

  /** Every value of s lies in [0, max]. */
  predicate Within(s: seq<int>, max: int) {
    forall k :: 0 <= k < |s| ==> 0 <= s[k] <= max
  }

  lemma {:induction false} WithinPermuted(s: seq<int>, t: seq<int>, max: int)
    requires Within(s, max) && multiset(t) == multiset(s)
    ensures Within(t, max)
  {
    forall k | 0 <= k < |t|
      ensures 0 <= t[k] <= max
    {
      assert t[k] in multiset(s);
      var j :| 0 <= j < |s| && s[j] == t[k];
    }
  }

  /** Once max / pow is 0, every value is below pow, so order below pow is plain order. */
  lemma {:induction false} SortedAtEnd(s: seq<int>, pow: int, max: int)
    requires pow > 0 && Within(s, max) && max / pow == 0 && SortedBy(s, pow)
    ensures Sorted(s)
  {
    forall k | 0 <= k < |s|
      ensures s[k] % pow == s[k]
    {
      DivModUnique(s[k], pow, 0, s[k]);
    }
  }

  /** The loop that finds the largest value. */
  method FindMax(a: seq<int>) returns (max: int)
    requires |a| > 0
    ensures max == SeqMax(a)
  {
    max := a[0];
    var i := 1;
    while i < |a|
      invariant 1 <= i <= |a| && max == SeqMax(a[..i])
    {
      assert a[..i + 1][..i] == a[..i];
      if a[i] > max {
        max := a[i];
      }
      i := i + 1;
    }
    assert a[..|a|] == a;
  }

  /** One pass of the digit loop: distribute by the digit at pow, then collect. */
  method RadixPass(s: seq<int>, pow: int, empty: seq<Queue>) returns (t: seq<int>, bs: seq<Queue>)
    requires pow > 0 && |empty| == 10 && forall b :: 0 <= b < 10 ==> IsEmpty(empty[b])
    ensures t == Pass(s, pow)
    ensures |bs| == 10 && forall b :: 0 <= b < 10 ==> IsEmpty(bs[b])
  {
    bs := Distribute(s, pow, empty);
    t, bs := Collect(bs);
  }

  /** What a pass keeps: the values, their range, and one more sorted digit. */
  lemma {:induction false} PassKeeps(s: seq<int>, pow: int, max: int, a: seq<int>)
    requires pow > 0 && multiset(s) == multiset(a) && Within(s, max) && SortedBy(s, pow)
    ensures multiset(Pass(s, pow)) == multiset(a) && Within(Pass(s, pow), max)
    ensures SortedBy(Pass(s, pow), pow * 10)
  {
    PassPermutes(s, pow);
    PassSorted(s, pow);
    WithinPermuted(s, Pass(s, pow), max);
  }

  /**
   * RadixSort(array, n) for n > 0 and non-negative values: the result is the sorted
   * permutation, after one pass per decimal digit of the maximum.
   */
  method RadixSort(a: seq<int>) returns (s: seq<int>, passes: nat)
    requires |a| > 0 && NonNegative(a)
    ensures Sorted(s) && multiset(s) == multiset(a)
    ensures passes == DecimalDigits(SeqMax(a))
  {
    var buckets: seq<Queue> := seq(10, _ => InitQueue());
    var max := FindMax(a);
    s := a;
    var pow := 1;
    passes := 0;
    while max / pow > 0
      invariant pow > 0 && multiset(s) == multiset(a) && Within(s, max) && SortedBy(s, pow)
      invariant |buckets| == 10 && forall b :: 0 <= b < 10 ==> IsEmpty(buckets[b])
      invariant max / pow >= 0 && DecimalDigits(max) == passes + DecimalDigits(max / pow)
      decreases max / pow
    {
      PassKeeps(s, pow, max, a);
      s, buckets := RadixPass(s, pow, buckets);
      DigitSplit(max, pow);
      pow := pow * 10;
      passes := passes + 1;
    }
    SortedAtEnd(s, pow, max);
  }

  // ---------------------------------------------------------------------------
  // The digit loop's int arithmetic

  /**
   * The number of passes of `for (pow = 1; max / pow > 0; pow *= 10)` on 32-bit ints:
   * pow *= 10 wraps, and / truncates toward zero.  fuel bounds the count.
   */
  function PassesAsWritten(max: int, pow: int, fuel: nat): nat
    decreases fuel
  {
    if fuel == 0 || pow == 0 || TruncDiv(max, pow) <= 0 then 0
    else 1 + PassesAsWritten(max, WrapInt32(pow * 10), fuel - 1)
  }

  /**
   * For max = INT_MAX the wrapped pow (1410065408, then 1215752192) still divides max
   * to 1, so the loop makes 12 passes where max has 10 digits.
   */
  lemma {:induction false} RadixPassOverflow()
    ensures PassesAsWritten(IntMax, 1, 32) == 12
    ensures DecimalDigits(IntMax) == 10
  {
    var m := IntMax;
    assert TruncDiv(m, -727379968) == -2;
    assert PassesAsWritten(m, -727379968, 20) == 0;
    assert PassesAsWritten(m, 1215752192, 21) == 1 by {
      assert TruncDiv(m, 1215752192) == 1 && WrapInt32(1215752192 * 10) == -727379968;
    }
    assert PassesAsWritten(m, 1410065408, 22) == 2 by {
      assert TruncDiv(m, 1410065408) == 1 && WrapInt32(1410065408 * 10) == 1215752192;
    }
    assert PassesAsWritten(m, 1000000000, 23) == 3 by {
      assert TruncDiv(m, 1000000000) == 2 && WrapInt32(1000000000 * 10) == 1410065408;
    }
    assert PassesAsWritten(m, 100000000, 24) == 4 by {
      assert TruncDiv(m, 100000000) == 21 && WrapInt32(100000000 * 10) == 1000000000;
    }
    assert PassesAsWritten(m, 10000000, 25) == 5 by {
      assert TruncDiv(m, 10000000) == 214 && WrapInt32(10000000 * 10) == 100000000;
    }
    assert PassesAsWritten(m, 1000000, 26) == 6 by {
      assert TruncDiv(m, 1000000) == 2147 && WrapInt32(1000000 * 10) == 10000000;
    }
    assert PassesAsWritten(m, 100000, 27) == 7 by {
      assert TruncDiv(m, 100000) == 21474 && WrapInt32(100000 * 10) == 1000000;
    }
    assert PassesAsWritten(m, 10000, 28) == 8 by {
      assert TruncDiv(m, 10000) == 214748 && WrapInt32(10000 * 10) == 100000;
    }
    assert PassesAsWritten(m, 1000, 29) == 9 by {
      assert TruncDiv(m, 1000) == 2147483 && WrapInt32(1000 * 10) == 10000;
    }
    assert PassesAsWritten(m, 100, 30) == 10 by {
      assert TruncDiv(m, 100) == 21474836 && WrapInt32(100 * 10) == 1000;
    }
    assert PassesAsWritten(m, 10, 31) == 11 by {
      assert TruncDiv(m, 10) == 214748364 && WrapInt32(10 * 10) == 100;
    }
    assert PassesAsWritten(m, 1, 32) == 12 by {
      assert TruncDiv(m, 1) == 2147483647 && WrapInt32(1 * 10) == 10;
    }
  }
}

=== FILE: sort_spec.dfy ===
/**
 * Order and exchange on integer sequences, shared by the quadratic sorts, merge sort
 * and radix sort.  An int array of the C sources is a seq<int> here; a sort returns
 * the new contents instead of writing them in place.
 */
module SortSpec {

  /** The slice [lo, hi) is in ascending order. */
  predicate SortedBetween(s: seq<int>, lo: int, hi: int)
    requires 0 <= lo <= hi <= |s|
  {
    forall p, q :: lo <= p < q < hi ==> s[p] <= s[q]
  }

  predicate Sorted(s: seq<int>) {
    SortedBetween(s, 0, |s|)
  }

  /** No adjacent pair is out of order: what `unsorted` tests. */
  predicate InOrder(s: seq<int>) {
    forall i :: 0 <= i < |s| - 1 ==> s[i] <= s[i + 1]
  }

  /** Adjacent order is the same as sortedness. */
  lemma {:induction false} InOrderIffSorted(s: seq<int>)
    ensures InOrder(s) <==> Sorted(s)
  {
    if InOrder(s) && |s| > 1 {
      var t := s[1..];
      assert InOrder(t) by {
        forall i | 0 <= i < |t| - 1
          ensures t[i] <= t[i + 1]
        {
          assert t[i] == s[i + 1] && t[i + 1] == s[i + 2];
        }
      }
      InOrderIffSorted(t);
      forall p, q | 0 <= p < q < |s|
        ensures s[p] <= s[q]
      {
        if p == 0 {
          assert s[1] == t[0] && s[q] == t[q - 1];
        } else {
          assert s[p] == t[p - 1] && s[q] == t[q - 1];
        }
      }
    }
  }

  /** swap(array, i, j): entries i and j change places, nothing else moves. */
  function Swap(s: seq<int>, i: nat, j: nat): (t: seq<int>)
    requires i < |s| && j < |s|
    ensures |t| == |s| && t[i] == s[j] && t[j] == s[i]
    ensures forall k :: 0 <= k < |s| && k != i && k != j ==> t[k] == s[k]
    ensures multiset(t) == multiset(s)
  {
    s[i := s[j]][j := s[i]]
  }

  /** Swapping the same pair twice restores the sequence. */
  lemma {:induction false} SwapTwice(s: seq<int>, i: nat, j: nat)
    requires i < |s| && j < |s|
    ensures Swap(Swap(s, i, j), i, j) == s
  {
  }

  /** Concatenating the two halves of a slice gives the slice. */
  lemma {:induction false} SplitSlice(s: seq<int>, lo: nat, mid: nat, hi: nat)
    requires lo <= mid <= hi <= |s|
    ensures multiset(s[lo..hi]) == multiset(s[lo..mid]) + multiset(s[mid..hi])
  {
    assert s[lo..hi] == s[lo..mid] + s[mid..hi];
  }

  /** A slice sorted in place is sorted as a copy. */
  lemma {:induction false} SliceSorted(s: seq<int>, lo: nat, hi: nat)
    requires lo <= hi <= |s| && SortedBetween(s, lo, hi)
    ensures Sorted(s[lo..hi])
  {
    var t := s[lo..hi];
    forall p, q | 0 <= p < q < |t|
      ensures t[p] <= t[q]
    {
      assert t[p] == s[lo + p] && t[q] == s[lo + q];
    }
  }

  /** A slice whose copy is sorted is sorted in place. */
  lemma {:induction false} SortedSlice(s: seq<int>, lo: nat, hi: nat)
    requires lo <= hi <= |s| && Sorted(s[lo..hi])
    ensures SortedBetween(s, lo, hi)
  {
    forall p, q | lo <= p < q < hi
      ensures s[p] <= s[q]
    {
      assert s[p] == s[lo..hi][p - lo] && s[q] == s[lo..hi][q - lo];
    }
  }
}

=== FILE: toposort.dfy ===
/**
 * TopoSort.java: Kahn's algorithm used to tell whether a directed graph has no
 * topological ordering, exactly one, or more than one.  The graph is a value: vertex u's
 * adjacency list is adj[u], the targets of its edges in insertion order (duplicates kept),
 * and the number of vertices is |adj|.  A null vertex is None.
 */
module TopoSort {
  import opened Common

  datatype Graph = Graph(adj: seq<seq<int>>)

  /** Every edge ends at a vertex of the graph. */
  predicate Valid(g: Graph) {
    forall u, j :: 0 <= u < |g.adj| && 0 <= j < |g.adj[u]| ==> 0 <= g.adj[u][j] < |g.adj|
  }

  /** Graph(V): V vertices, no edges. */
  function NewGraph(v: nat): (g: Graph)
    ensures |g.adj| == v && Valid(g)
    ensures forall u :: 0 <= u < v ==> g.adj[u] == []
  {
    Graph(seq(v, u => []))
  }

  /** getVertex(v): the vertex v, or null when v is not below V; a negative v is out of bounds. */
  function GetVertex(g: Graph, v: int): (r: Option<int>)
    requires 0 <= v
    ensures r.Some? <==> v < |g.adj|
    ensures r.Some? ==> r.value == v
  {
    if v >= |g.adj| then None else Some(v)
  }

  /** addEdge(u, v): appends v to u's list when both are vertices; otherwise nothing changes. */
  function AddEdge(g: Graph, u: int, v: int): (r: Graph)
    requires 0 <= u && 0 <= v
    requires Valid(g)
    ensures Valid(r) && |r.adj| == |g.adj|
    ensures u < |g.adj| && v < |g.adj| ==> r.adj[u] == g.adj[u] + [v]
    ensures forall w :: 0 <= w < |g.adj| && (w != u || v >= |g.adj|) ==> r.adj[w] == g.adj[w]
  {
    if u < |g.adj| && v < |g.adj| then Graph(g.adj[u := g.adj[u] + [v]]) else g
  }

  // ---------------------------------------------------------------------------
  // Counting edges

  function Count(s: seq<int>, w: int): nat {
    multiset(s)[w]
  }

  /** The number of edges into w, duplicates included. */
  function InDegree(g: Graph, w: int): nat {
    Count(Flatten(g.adj), w)
  }

  /** The edges into w from the vertices below k that are not in done. */
  function Incoming(g: Graph, done: seq<int>, w: int, k: nat): nat
    requires k <= |g.adj|
  {
    if k == 0 then 0
    else Incoming(g, done, w, k - 1) + (if k - 1 in done then 0 else Count(g.adj[k - 1], w))
  }

  lemma {:induction false} CountSnoc(s: seq<int>, j: nat, w: int)
    requires j < |s|
    ensures Count(s[..j + 1], w) == Count(s[..j], w) + (if s[j] == w then 1 else 0)
  {
    assert s[..j + 1] == s[..j] + [s[j]];
  }

  /** With nothing done, the incoming edges are the in-degree. */
  lemma {:induction false} IncomingIsInDegree(g: Graph, w: int, k: nat)
    requires k <= |g.adj|
    ensures Incoming(g, [], w, k) == Count(Flatten(g.adj[..k]), w)
  {
    if k > 0 {
      IncomingIsInDegree(g, w, k - 1);
      FlattenPrefix(g.adj, k - 1);
    }
  }

  /** Marking a done removes exactly a's edges from the count. */
  lemma {:induction false} IncomingDone(g: Graph, done: seq<int>, a: int, w: int, k: nat)
    requires k <= |g.adj| && 0 <= a < |g.adj| && a !in done
    ensures Incoming(g, done, w, k) == Incoming(g, done + [a], w, k) + (if a < k then Count(g.adj[a], w) else 0)
  {
    if k > 0 {
      IncomingDone(g, done, a, w, k - 1);
    }
  }

  /** No incoming edge is left exactly when every vertex with an edge into w is done. */
  lemma {:induction false} IncomingZero(g: Graph, done: seq<int>, w: int, k: nat)
    requires k <= |g.adj|
    ensures Incoming(g, done, w, k) == 0 <==> forall u :: 0 <= u < k && w in g.adj[u] ==> u in done
  {
    if k > 0 {
      IncomingZero(g, done, w, k - 1);
      var u := k - 1;
      if u !in done && w in g.adj[u] {
        assert Count(g.adj[u], w) > 0;
      }
    }
  }

  // ---------------------------------------------------------------------------
  // Topological orderings

  /** w can come next after the vertices of p: it is new and every edge into it starts in p. */
  predicate Ready(g: Graph, p: seq<int>, w: int) {
    0 <= w < |g.adj| && w !in p && forall u :: 0 <= u < |g.adj| && w in g.adj[u] ==> u in p
  }

  /** Each vertex of t comes after every vertex with an edge into it (so t repeats nothing). */
  predicate Closed(g: Graph, t: seq<int>) {
    forall k :: 0 <= k < |t| ==> Ready(g, t[..k], t[k])
  }

  /** A topological ordering: every vertex once, each after all its predecessors. */
  predicate IsOrder(g: Graph, t: seq<int>) {
    |t| == |g.adj| && Closed(g, t)
  }

  /** The graph has no topological ordering (it has a cycle). */
  ghost predicate NoOrder(g: Graph) {
    !exists t :: IsOrder(g, t)
  }

  /** The graph has exactly one topological ordering. */
  ghost predicate OneOrder(g: Graph) {
    exists t :: IsOrder(g, t) && forall t' :: IsOrder(g, t') ==> t' == t
  }

  /** The graph has two different topological orderings. */
  ghost predicate TwoOrders(g: Graph) {
    exists t, t' :: IsOrder(g, t) && IsOrder(g, t') && t != t'
  }

  /** Only w can come next after p. */
  ghost predicate Forced(g: Graph, p: seq<int>, w: int) {
    forall b :: Ready(g, p, b) ==> b == w
  }

  lemma {:induction false} ClosedSnoc(g: Graph, t: seq<int>, w: int)
    requires Closed(g, t) && Ready(g, t, w)
    ensures Closed(g, t + [w])
  {
    forall k | 0 <= k < |t| + 1
      ensures Ready(g, (t + [w])[..k], (t + [w])[k])
    {
      if k < |t| {
        assert (t + [w])[..k] == t[..k];
      } else {
        assert (t + [w])[..k] == t;
      }
    }
  }

  lemma {:induction false} ClosedPrefix(g: Graph, t: seq<int>, m: nat)
    requires Closed(g, t) && m <= |t|
    ensures Closed(g, t[..m])
  {
    forall k | 0 <= k < m
      ensures Ready(g, t[..m][..k], t[..m][k])
    {
      assert t[..m][..k] == t[..k];
    }
  }

  /** The elements of a sequence without repeats are as many as its length. */
  lemma {:induction false} DistinctCard(t: seq<int>)
    requires forall i, j :: 0 <= i < j < |t| ==> t[i] != t[j]
    ensures |set x | x in t| == |t|
  {
    if t != [] {
      var init := t[..|t| - 1];
      DistinctCard(init);
      assert (set x | x in t) == (set x | x in init) + {t[|t| - 1]};
    }
  }

  lemma {:induction false} ClosedDistinct(g: Graph, t: seq<int>)
    requires Closed(g, t)
    ensures forall i, j :: 0 <= i < j < |t| ==> t[i] != t[j]
  {
    forall i, j | 0 <= i < j < |t|
      ensures t[i] != t[j]
    {
      assert t[i] in t[..j];
    }
  }

  /**
   * Any closed sequence q drawn from the vertices of an ordering o extends to an ordering:
   * the vertices of o not yet in q follow in o's order.
   */
  lemma {:induction false} ExtendFrom(g: Graph, o: seq<int>, q: seq<int>, m: nat) returns (t: seq<int>)
    requires IsOrder(g, o) && Closed(g, q) && m <= |o|
    requires forall x :: x in o[..m] ==> x in q
    requires forall x :: x in q ==> x in o
    ensures IsOrder(g, t) && |q| <= |t| && t[..|q|] == q
    decreases |o| - m
  {
    if m == |o| {
      assert o[..m] == o;
      ClosedDistinct(g, q);
      ClosedDistinct(g, o);
      DistinctCard(q);
      DistinctCard(o);
      assert (set x | x in q) == (set x | x in o);
      t := q;
    } else {
      var x := o[m];
      assert o[..m + 1] == o[..m] + [x];
      if x in q {
        t := ExtendFrom(g, o, q, m + 1);
      } else {
        assert Ready(g, o[..m], x);
        ClosedSnoc(g, q, x);
        t := ExtendFrom(g, o, q + [x], m + 1);
        assert t[..|q|] == t[..|q| + 1][..|q|];
      }
    }
  }

  /** When some ordering exists, every closed sequence short of all vertices can go on. */
  lemma {:induction false} SomeReady(g: Graph, t: seq<int>, p: seq<int>) returns (w: int)
    requires IsOrder(g, t) && Closed(g, p) && |p| < |g.adj|
    ensures Ready(g, p, w)
  {
    forall x | x in p
      ensures x in t
    {
      var k :| 0 <= k < |p| && p[k] == x;
      assert Ready(g, p[..k], p[k]);
      OrderCovers(g, t, x);
    }
    var e := ExtendFrom(g, t, p, 0);
    w := e[|p|];
    assert Ready(g, e[..|p|], e[|p|]);
  }

  /** An ordering holds every vertex. */
  lemma {:induction false} OrderCovers(g: Graph, t: seq<int>, x: int)
    requires IsOrder(g, t) && 0 <= x < |g.adj|
    ensures x in t
  {
    ClosedDistinct(g, t);
    DistinctCard(t);
    var all := set y | y in t;
    assert forall y :: y in all ==> 0 <= y < |g.adj| by {
      forall y | y in all
        ensures 0 <= y < |g.adj|
      {
        var k :| 0 <= k < |t| && t[k] == y;
        assert Ready(g, t[..k], t[k]);
      }
    }
    if x !in all {
      RangeCard(all + {x}, |g.adj|);
    }
  }

  /** A set of vertices has at most as many members as there are vertices. */
  lemma {:induction false} RangeCard(s: set<int>, n: nat)
    requires forall y :: y in s ==> 0 <= y < n
    ensures |s| <= n
    decreases n
  {
    if n == 0 {
      assert forall y :: y !in s;
      assert s == {};
    } else {
      RangeCard(s - {n - 1}, n - 1);
      assert s <= (s - {n - 1}) + {n - 1};
    }
  }

  /** If at every step only one vertex could come next, the ordering is the only one. */
  lemma {:induction false} ForcedUnique(g: Graph, o: seq<int>, t: seq<int>)
    requires IsOrder(g, o) && IsOrder(g, t)
    requires forall k :: 0 <= k < |o| ==> Forced(g, o[..k], o[k])
    ensures t == o
  {
    var k := 0;
    while k < |o|
      invariant 0 <= k <= |o| && t[..k] == o[..k]
    {
      assert Ready(g, t[..k], t[k]);
      assert t[..k + 1] == t[..k] + [t[k]] && o[..k + 1] == o[..k] + [o[k]];
      k := k + 1;
    }
    assert t == t[..k] && o == o[..k];
  }

  /** A second vertex ready at step k gives a second ordering. */
  lemma {:induction false} OtherOrder(g: Graph, o: seq<int>, k: nat, b: int) returns (t: seq<int>)
    requires IsOrder(g, o) && k < |o| && Ready(g, o[..k], b) && b != o[k]
    ensures IsOrder(g, t) && t != o
  {
    ClosedPrefix(g, o, k);
    ClosedSnoc(g, o[..k], b);
    var q := o[..k] + [b];
    forall x | x in q
      ensures x in o
    {
      if x == b {
        OrderCovers(g, o, x);
      } else {
        assert x in o[..k];
      }
    }
    t := ExtendFrom(g, o, q, 0);
    assert t[k] == q[k] == b;
  }

  /** With no vertex ready before all are placed, there is no ordering at all. */
  lemma {:induction false} Stuck(g: Graph, p: seq<int>)
    requires Closed(g, p) && |p| < |g.adj|
    requires forall w :: !Ready(g, p, w)
    ensures NoOrder(g) && !OneOrder(g) && !TwoOrders(g)
  {
    if t :| IsOrder(g, t) {
      var w := SomeReady(g, t, p);
    }
  }

  /** A closed sequence of every vertex is an ordering, and the only one if each step was forced. */
  lemma {:induction false} Unique(g: Graph, o: seq<int>)
    requires IsOrder(g, o)
    requires forall k :: 0 <= k < |o| ==> Forced(g, o[..k], o[k])
    ensures !NoOrder(g) && OneOrder(g) && !TwoOrders(g)
  {
    forall t' | IsOrder(g, t')
      ensures t' == o
    {
      ForcedUnique(g, o, t');
    }
  }

  /** An ordering with a step at which another vertex was ready has a rival. */
  lemma {:induction false} Several(g: Graph, o: seq<int>, k: nat, b: int)
    requires IsOrder(g, o) && k < |o| && Ready(g, o[..k], b) && b != o[k]
    ensures !NoOrder(g) && !OneOrder(g) && TwoOrders(g)
  {
    var other := OtherOrder(g, o, k, b);
    forall t | IsOrder(g, t)
      ensures exists t' :: IsOrder(g, t') && t' != t
    {
      if t == o {
        assert IsOrder(g, other) && other != t;
      } else {
        assert IsOrder(g, o) && o != t;
      }
    }
  }

  // ---------------------------------------------------------------------------
  // Arrangements

  /** The first loop of Arrangements: Requirements[v] is the number of edges into v. */
  method Requirements(g: Graph) returns (req: seq<int>)
    requires Valid(g)
    ensures |req| == |g.adj| && forall w :: 0 <= w < |g.adj| ==> req[w] == InDegree(g, w)
  {
    req := seq(|g.adj|, _ => 0);
    var u := 0;
    while u < |g.adj|
      invariant 0 <= u <= |g.adj| && |req| == |g.adj|
      invariant forall w :: 0 <= w < |g.adj| ==> req[w] == Incoming(g, [], w, u)
    {
      var edges := g.adj[u];
      var j := 0;
      while j < |edges|
        invariant 0 <= j <= |edges| && |req| == |g.adj|
        invariant forall w :: 0 <= w < |g.adj| ==> req[w] == Incoming(g, [], w, u) + Count(edges[..j], w)
      {
        assert edges[..j + 1] == edges[..j] + [edges[j]];
        req := req[edges[j] := req[edges[j]] + 1];
        j := j + 1;
      }
      assert edges[..j] == edges;
      u := u + 1;
    }
    forall w | 0 <= w < |g.adj|
      ensures req[w] == InDegree(g, w)
    {
      IncomingIsInDegree(g, w, |g.adj|);
      assert g.adj[..|g.adj|] == g.adj;
    }
  }

  predicate Distinct(s: seq<int>) {
    forall i, j :: 0 <= i < j < |s| ==> s[i] != s[j]
  }

  /** a's successors cannot have been placed: a comes after every vertex already done. */
  lemma {:induction false} LaterTarget(g: Graph, done: seq<int>, a: int, v: int)
    requires Closed(g, done + [a]) && 0 <= a < |g.adj| && v in g.adj[a]
    ensures v !in done + [a]
  {
    var o := done + [a];
    assert Ready(g, o[..|done|], o[|done|]) && o[..|done|] == done;
    forall p | 0 <= p < |o|
      ensures o[p] != v
    {
      assert Ready(g, o[..p], o[p]);
      assert a !in o[..p] by {
        assert o[..p] == done[..p];
      }
    }
  }

  /**
   * The inner loop of Arrangements for the vertex a just taken out: each edge out of a
   * lowers its target's requirement, and a target whose requirement reaches 0 joins the
   * end of the ready list.
   */
  method Release(g: Graph, ghost done: seq<int>, a: int, req: seq<int>, complete: seq<int>)
    returns (req': seq<int>, complete': seq<int>)
    requires Valid(g) && 0 <= a < |g.adj| && Closed(g, done + [a]) && |req| == |g.adj|
    requires forall w :: 0 <= w < |g.adj| ==> req[w] == Incoming(g, done + [a], w, |g.adj|) + Count(g.adj[a], w)
    requires forall w :: w in complete <==> 0 <= w < |g.adj| && w !in done + [a] && req[w] == 0
    requires Distinct(complete)
    ensures |req'| == |g.adj| && Distinct(complete') && |complete| <= |complete'| && complete'[..|complete|] == complete
    ensures forall w :: 0 <= w < |g.adj| ==> req'[w] == Incoming(g, done + [a], w, |g.adj|)
    ensures forall w :: w in complete' <==> 0 <= w < |g.adj| && w !in done + [a] && req'[w] == 0
  {
    ghost var o := done + [a];
    var edges := g.adj[a];
    req', complete' := req, complete;
    var j := 0;
    assert edges[j..] == edges;
    while j < |edges|
      invariant 0 <= j <= |edges| && |req'| == |g.adj|
      invariant Distinct(complete') && |complete| <= |complete'| && complete'[..|complete|] == complete
      invariant forall w :: 0 <= w < |g.adj| ==> req'[w] == Incoming(g, o, w, |g.adj|) + Count(edges[j..], w)
      invariant forall w :: w in complete' <==> 0 <= w < |g.adj| && w !in o && req'[w] == 0
    {
      var v := edges[j];
      assert edges[j..] == [v] + edges[j + 1..];
      LaterTarget(g, done, a, v);
      req' := req'[v := req'[v] - 1];
      if req'[v] == 0 {
        complete' := complete' + [v];
      }
      j := j + 1;
    }
  }

  /** Taking a, the first ready vertex, out of the list sets up Release. */
  lemma {:induction false} PopReady(g: Graph, order: seq<int>, complete: seq<int>, req: seq<int>)
    requires Valid(g) && |req| == |g.adj| && complete != [] && Distinct(complete)
    requires forall w :: 0 <= w < |g.adj| ==> req[w] == Incoming(g, order, w, |g.adj|)
    requires forall w :: w in complete <==> Ready(g, order, w)
    ensures 0 <= complete[0] < |g.adj| && Distinct(complete[1..])
    ensures forall w :: 0 <= w < |g.adj| ==>
      req[w] == Incoming(g, order + [complete[0]], w, |g.adj|) + Count(g.adj[complete[0]], w)
    ensures forall w :: w in complete[1..] <==> 0 <= w < |g.adj| && w !in order + [complete[0]] && req[w] == 0
  {
    var a := complete[0];
    assert a in complete;
    forall w | 0 <= w < |g.adj|
      ensures req[w] == Incoming(g, order + [a], w, |g.adj|) + Count(g.adj[a], w)
    {
      IncomingDone(g, order, a, w, |g.adj|);
    }
    forall w
      ensures w in complete[1..] <==> 0 <= w < |g.adj| && w !in order + [a] && req[w] == 0
    {
      if 0 <= w < |g.adj| {
        IncomingZero(g, order, w, |g.adj|);
        assert Ready(g, order, w) <==> w !in order && req[w] == 0;
      }
      assert complete == [a] + complete[1..];
      if w in complete[1..] {
        var j :| 0 <= j < |complete[1..]| && complete[1..][j] == w;
        assert complete[j + 1] == w && w in complete;
      }
      if 0 <= w < |g.adj| && w !in order + [a] && req[w] == 0 {
        assert w in complete && w != a;
      }
    }
  }

  /**
   * One round of the second loop of Arrangements when some vertex is ready: the first one
   * is taken out and the edges leaving it are released.
   */
  method TakeNext(g: Graph, ghost order: seq<int>, req: seq<int>, complete: seq<int>)
    returns (a: int, req': seq<int>, complete': seq<int>)
    requires Valid(g) && Closed(g, order) && |req| == |g.adj|
    requires forall w :: 0 <= w < |g.adj| ==> req[w] == Incoming(g, order, w, |g.adj|)
    requires forall w :: w in complete <==> Ready(g, order, w)
    requires Distinct(complete) && complete != []
    ensures a == complete[0] && Closed(g, order + [a])
    ensures |req'| == |g.adj| && forall w :: 0 <= w < |g.adj| ==> req'[w] == Incoming(g, order + [a], w, |g.adj|)
    ensures forall w :: w in complete' <==> Ready(g, order + [a], w)
    ensures Distinct(complete')
  {
    a := complete[0];
    ClosedSnoc(g, order, a);
    PopReady(g, order, complete, req);
    req', complete' := Release(g, order, a, req, complete[1..]);
    forall w | 0 <= w < |g.adj|
      ensures w in complete' <==> Ready(g, order + [a], w)
    {
      IncomingZero(g, order + [a], w, |g.adj|);
    }
  }

  /** Each step forced so far, and the one just taken, keep every step forced. */
  lemma {:induction false} ForcedSnoc(g: Graph, order: seq<int>, a: int, before: seq<int>)
    requires forall m :: 0 <= m < |order| ==> Forced(g, order[..m], order[m])
    requires before == [a] && forall w :: w in before <==> Ready(g, order, w)
    ensures forall m :: 0 <= m < |order| + 1 ==> Forced(g, (order + [a])[..m], (order + [a])[m])
  {
    var next := order + [a];
    forall m | 0 <= m < |order| + 1
      ensures Forced(g, next[..m], next[m])
    {
      if m < |order| {
        assert next[..m] == order[..m] && next[m] == order[m];
      } else {
        assert next[..m] == order;
      }
    }
  }

  /** A rival step, found earlier or at the step just taken, stays one as the ordering grows. */
  lemma {:induction false} RivalSnoc(g: Graph, order: seq<int>, a: int, k: nat, b: int)
    requires k <= |order| && Ready(g, order[..k], b)
    requires if k < |order| then b != order[k] else b != a
    ensures Ready(g, (order + [a])[..k], b) && b != (order + [a])[k]
  {
    assert (order + [a])[..k] == order[..k];
  }

  /** The loop after the first one: the vertices with no requirement, in increasing order. */
  method InitialReady(g: Graph, req: seq<int>) returns (complete: seq<int>)
    requires Valid(g) && |req| == |g.adj| && forall w :: 0 <= w < |g.adj| ==> req[w] == InDegree(g, w)
    ensures Distinct(complete)
    ensures forall w :: w in complete <==> Ready(g, [], w)
    ensures forall w :: 0 <= w < |g.adj| ==> req[w] == Incoming(g, [], w, |g.adj|)
  {
    var n := |g.adj|;
    complete := [];
    var i := 0;
    while i < n
      invariant 0 <= i <= n && Distinct(complete)
      invariant forall w :: w in complete <==> 0 <= w < i && req[w] == 0
    {
      if req[i] == 0 {
        complete := complete + [i];
      }
      i := i + 1;
    }
    forall w
      ensures w in complete <==> Ready(g, [], w)
      ensures 0 <= w < n ==> req[w] == Incoming(g, [], w, n)
    {
      if 0 <= w < n {
        IncomingIsInDegree(g, w, n);
        assert g.adj[..n] == g.adj;
        IncomingZero(g, [], w, n);
      }
    }
  }

  /**
   * Arrangements(): 0 when the graph has no topological ordering (a cycle), 1 when it has
   * exactly one, 2 when it has more than one.
   */
  method Arrangements(g: Graph) returns (r: int)
    requires Valid(g)
    ensures 0 <= r <= 2
    ensures r == 0 <==> NoOrder(g)
    ensures r == 1 <==> OneOrder(g)
    ensures r == 2 <==> TwoOrders(g)
  {
    var n := |g.adj|;
    var req := Requirements(g);
    var complete := InitialReady(g, req);
    var num := 1;
    ghost var order: seq<int> := [];
    ghost var k, b := 0, 0;
    var i := 0;
    while i < n
      invariant 0 <= i <= n && |order| == i && Closed(g, order) && |req| == n
      invariant forall w :: 0 <= w < n ==> req[w] == Incoming(g, order, w, n)
      invariant forall w :: w in complete <==> Ready(g, order, w)
      invariant Distinct(complete)
      invariant num == 1 || num == 2
      invariant num == 1 ==> forall m :: 0 <= m < i ==> Forced(g, order[..m], order[m])
      invariant num == 2 ==> 0 <= k < i && Ready(g, order[..k], b) && b != order[k]
    {
      ghost var before := complete;
      if |complete| == 0 {
        Stuck(g, order);
        return 0;
      } else if |complete| > 1 {
        num := 2;
        k, b := i, complete[1];
        assert order[..k] == order && b in complete;
      }
      var a;
      a, req, complete := TakeNext(g, order, req, complete);
      if num == 1 {
        ForcedSnoc(g, order, a, before);
      } else {
        RivalSnoc(g, order, a, k, b);
      }
      order := order + [a];
      i := i + 1;
    }
    if num == 1 {
      Unique(g, order);
    } else {
      Several(g, order, k, b);
    }
    r := num;
  }
}

=== FILE: trie.dfy ===
/**
 * Trie.c: a retrieval tree of words with a count per node and, per word, a subtrie of
 * the words it co-occurs with in a sentence.  A TrieNode pointer is a Trie value: Null is
 * NULL, and a node holds its count, its 26 children and its subtrie.  A C string is the
 * string of characters before its terminating NUL.
 */
module Tries {
  import opened Common

  datatype Trie = Null | Node(count: int, children: seq<Trie>, subtrie: Trie)

  const Alphabet := 26

  /** Every node has one child slot per letter, and counts are never negative. */
  predicate WF(t: Trie)
    decreases t
  {
    t.Node? ==>
      t.count >= 0 && |t.children| == Alphabet && WF(t.subtrie) && forall k :: 0 <= k < Alphabet ==> WF(t.children[k])
  }

  /** createTrieNode(): count 0, no children, no subtrie. */
  function NewNode(): (r: Trie)
    ensures WF(r) && r.Node? && r.count == 0 && r.subtrie == Null
    ensures forall k :: 0 <= k < Alphabet ==> r.children[k] == Null
  {
    Node(0, seq(Alphabet, _ => Null), Null)
  }

  // ---------------------------------------------------------------------------
  // Letters

  /** The child index of c: its offset from 'a', or from 'A' when that offset is negative. */
  function Letter(c: char): int {
    if c as int - 'a' as int < 0 then c as int - 'A' as int else c as int - 'a' as int
  }

  /** c has a child slot. */
  predicate IsLetter(c: char) {
    0 <= Letter(c) < Alphabet
  }

  /** tolower for ASCII. */
  function Lower(c: char): char {
    if 'A' <= c <= 'Z' then (c as int + 32) as char else c
  }

  /** The characters with a child slot are exactly the ASCII letters. */
  lemma {:induction false} IsLetterAscii(c: char)
    ensures IsLetter(c) <==> 'a' <= c <= 'z' || 'A' <= c <= 'Z'
  {
  }

  /** Two letters share a child slot exactly when they are the same letter up to case. */
  lemma {:induction false} LetterIgnoresCase(c: char, d: char)
    requires IsLetter(c) && IsLetter(d)
    ensures Letter(c) == Letter(d) <==> Lower(c) == Lower(d)
  {
  }

  /** A word of letters only. */
  predicate Word(s: string) {
    forall k :: 0 <= k < |s| ==> IsLetter(s[k])
  }

  /** What insertString can walk: letters up to the end or up to a '.'. */
  predicate Indexable(s: string) {
    s == [] || s[0] == '.' || (IsLetter(s[0]) && Indexable(s[1..]))
  }

  /** The child indices along a word. */
  function Path(s: string): (p: seq<int>)
    ensures |p| == |s| && forall k :: 0 <= k < |s| ==> p[k] == Letter(s[k])
    ensures Word(s) ==> ValidPath(p)
  {
    seq(|s|, k requires 0 <= k < |s| => Letter(s[k]))
  }

  predicate ValidPath(p: seq<int>) {
    forall k :: 0 <= k < |p| ==> 0 <= p[k] < Alphabet
  }

  /** strcasecmp(a, b) == 0: the same length and the same characters up to case. */
  predicate CaseEq(a: string, b: string) {
    |a| == |b| && forall k :: 0 <= k < |a| ==> Lower(a[k]) == Lower(b[k])
  }

  /** For words, equality up to case is equality of paths. */
  lemma {:induction false} CaseEqIffPath(a: string, b: string)
    requires Word(a) && Word(b)
    ensures CaseEq(a, b) <==> Path(a) == Path(b)
  {
    if CaseEq(a, b) {
      forall k | 0 <= k < |a|
        ensures Path(a)[k] == Path(b)[k]
      {
        LetterIgnoresCase(a[k], b[k]);
      }
    }
    if Path(a) == Path(b) {
      forall k | 0 <= k < |a|
        ensures Lower(a[k]) == Lower(b[k])
      {
        assert Path(a)[k] == Path(b)[k];
        LetterIgnoresCase(a[k], b[k]);
      }
    }
  }

  // ---------------------------------------------------------------------------
  // The tree read by paths

  /** The node at the end of path p, Null if a child on the way is missing. */
  function Lookup(t: Trie, p: seq<int>): (r: Trie)
    requires WF(t) && ValidPath(p)
    ensures WF(r)
    decreases |p|
  {
    if t == Null || p == [] then t else Lookup(t.children[p[0]], p[1..])
  }

  /** The count at the end of p, 0 where there is no node. */
  function CountAt(t: Trie, p: seq<int>): int
    requires WF(t) && ValidPath(p)
  {
    var n := Lookup(t, p);
    if n.Node? then n.count else 0
  }

  /** The subtrie at the end of p, Null where there is no node. */
  function SubAt(t: Trie, p: seq<int>): Trie
    requires WF(t) && ValidPath(p)
  {
    var n := Lookup(t, p);
    if n.Node? then n.subtrie else Null
  }

  // ---------------------------------------------------------------------------
  // insertString

  /**
   * insertString on a node: at a '.' nothing more happens; at the end of the word the
   * count rises; otherwise the child for the next letter is created when missing and the
   * rest of the word goes into it.
   */
  function Insert(t: Trie, s: string): (r: Trie)
    requires WF(t) && Indexable(s)
    ensures WF(r) && (r == Null <==> t == Null)
    decreases |s|
  {
    if t == Null || (s != [] && s[0] == '.') then t
    else if s == [] then t.(count := t.count + 1)
    else
      var k := Letter(s[0]);
      var child := if t.children[k] == Null then NewNode() else t.children[k];
      t.(children := t.children[k := Insert(child, s[1..])])
  }

  /** insertString(root, str): a NULL root or a NULL string changes nothing. */
  function InsertString(root: Trie, str: Option<string>): (r: Trie)
    requires WF(root) && (str.Some? ==> Indexable(str.value))
    ensures WF(r)
    ensures root == Null || str.None? ==> r == root
  {
    if str.None? then root else Insert(root, str.value)
  }

  /**
   * Inserting s raises the count at the end of s's path by one when s holds no '.' and
   * the root is a node, and changes no other count and no subtrie; every node stays.
   */
  lemma {:induction false} InsertCounts(t: Trie, s: string, p: seq<int>)
    requires WF(t) && Indexable(s) && ValidPath(p)
    ensures Indexable(s) && '.' !in s ==> Word(s) && ValidPath(Path(s))
    ensures CountAt(Insert(t, s), p) ==
      CountAt(t, p) + (if t != Null && '.' !in s && p == Path(s) then 1 else 0)
    ensures SubAt(Insert(t, s), p) == SubAt(t, p)
    ensures Lookup(t, p).Node? ==> Lookup(Insert(t, s), p).Node?
    decreases |s|
  {
    if '.' !in s {
      IndexableWord(s);
    }
    if t != Null && s != [] && s[0] != '.' && p != [] {
      var k := Letter(s[0]);
      var child := if t.children[k] == Null then NewNode() else t.children[k];
      var r := Insert(t, s);
      assert r.children == t.children[k := Insert(child, s[1..])];
      assert Lookup(r, p) == Lookup(r.children[p[0]], p[1..]);
      assert Lookup(t, p) == Lookup(t.children[p[0]], p[1..]);
      if p[0] == k {
        InsertCounts(child, s[1..], p[1..]);
        if '.' !in s {
          assert Path(s)[1..] == Path(s[1..]);
        }
        if t.children[k] == Null {
          NewNodeEmpty(p[1..]);
        }
      }
    }
  }

  /** Without a '.', an indexable string is a word. */
  lemma {:induction false} IndexableWord(s: string)
    requires Indexable(s) && '.' !in s
    ensures Word(s)
    decreases |s|
  {
    if s != [] {
      IndexableWord(s[1..]);
      forall k | 0 <= k < |s|
        ensures IsLetter(s[k])
      {
        if k > 0 {
          assert s[k] == s[1..][k - 1];
        }
      }
    }
  }

  /** A fresh node has count 0 at its root and nothing below it. */
  lemma {:induction false} NewNodeEmpty(p: seq<int>)
    requires ValidPath(p)
    ensures CountAt(NewNode(), p) == 0 && SubAt(NewNode(), p) == Null
    ensures p != [] ==> Lookup(NewNode(), p) == Null
  {
    if p != [] {
      assert Lookup(NewNode(), p) == Lookup(Null, p[1..]);
    }
  }

  /** A word inserted into a node is then found by getNode, with its count raised by one. */
  lemma {:induction false} InsertThenFind(t: Trie, w: string)
    requires WF(t) && t.Node? && Word(w)
    ensures Indexable(w)
    ensures GetNode(Insert(t, w), w).Node?
    ensures GetNode(Insert(t, w), w).count == CountAt(t, Path(w)) + 1
  {
    WordIndexable(w);
    var r := Insert(t, w);
    InsertCounts(t, w, Path(w));
    assert CountAt(r, Path(w)) == CountAt(t, Path(w)) + 1 && CountAt(t, Path(w)) >= 0;
  }

  lemma {:induction false} WordIndexable(w: string)
    requires Word(w)
    ensures Indexable(w) && '.' !in w
    decreases |w|
  {
    if w != [] {
      assert Word(w[1..]) by {
        forall k | 0 <= k < |w[1..]|
          ensures IsLetter(w[1..][k])
        {
          assert w[1..][k] == w[k + 1];
        }
      }
      WordIndexable(w[1..]);
      assert IsLetter(w[0]);
    }
  }

  // ---------------------------------------------------------------------------
  // getNode

  /**
   * getNode(root, str): the node at the end of str's path when there is one with a
   * nonzero count, NULL otherwise.  root itself must be a node.
   */
  function GetNode(t: Trie, s: string): (r: Trie)
    requires WF(t) && t.Node? && Word(s)
    ensures ValidPath(Path(s))
    ensures r == if CountAt(t, Path(s)) != 0 then Lookup(t, Path(s)) else Null
    decreases |s|
  {
    if s == [] && t.count == 0 then Null
    else if s == [] then t
    else
      var k := Letter(s[0]);
      assert Word(s[1..]) by {
        forall j | 0 <= j < |s[1..]|
          ensures IsLetter(s[1..][j])
        {
          assert s[1..][j] == s[j + 1];
        }
      }
      assert Path(s)[1..] == Path(s[1..]);
      if t.children[k] != Null then GetNode(t.children[k], s[1..]) else Null
  }

  // ---------------------------------------------------------------------------
  // processSentence

  predicate AllWords(s: seq<string>) {
    forall i :: 0 <= i < |s| ==> Word(s[i])
  }

  /** The inner j < i loop: an earlier word of the sentence is word i up to case. */
  predicate Seen(s: seq<string>, i: int)
    requires 0 <= i < |s|
  {
    exists j :: 0 <= j < i && CaseEq(s[i], s[j])
  }

  /** Word i co-occurs with some word that differs from it up to case. */
  predicate HasOther(s: seq<string>, i: int)
    requires 0 <= i < |s|
  {
    exists j :: 0 <= j < |s| && !CaseEq(s[i], s[j])
  }

  /**
   * The trie processSentence may walk: getNode reaches a counted node for every word that
   * has a different word beside it, as the lex pointer is dereferenced for those.
   */
  predicate Resolvable(root: Trie, s: seq<string>)
    requires WF(root) && AllWords(s)
  {
    forall i :: 0 <= i < |s| && HasOther(s, i) ==> ValidPath(Path(s[i])) && CountAt(root, Path(s[i])) != 0
  }

  /**
   * The inner loop over j for a new word i: every word that differs from word i up to case
   * goes into the subtrie, which is created when the first such word comes.
   */
  function CoOccur(sub: Trie, s: seq<string>, i: nat, j: nat): (r: Trie)
    requires i < |s| && j <= |s| && WF(sub) && AllWords(s)
    ensures WF(r)
    decreases |s| - j
  {
    if j == |s| then sub
    else if CaseEq(s[i], s[j]) then CoOccur(sub, s, i, j + 1)
    else
      WordIndexable(s[j]);
      CoOccur(Insert(if sub == Null then NewNode() else sub, s[j]), s, i, j + 1)
  }

  /** The subtrie of the node at p replaced by sub: what lex->subtrie assignments do. */
  function SetSub(t: Trie, p: seq<int>, sub: Trie): (r: Trie)
    requires WF(t) && ValidPath(p) && Lookup(t, p).Node? && WF(sub)
    ensures WF(r) && r.Node?
    decreases |p|
  {
    if p == [] then t.(subtrie := sub)
    else t.(children := t.children[p[0] := SetSub(t.children[p[0]], p[1..], sub)])
  }

  /** Replacing the subtrie at p changes the subtrie there and nothing else. */
  lemma {:induction false} SetSubAt(t: Trie, p: seq<int>, sub: Trie, q: seq<int>)
    requires WF(t) && ValidPath(p) && Lookup(t, p).Node? && WF(sub) && ValidPath(q)
    ensures CountAt(SetSub(t, p, sub), q) == CountAt(t, q)
    ensures Lookup(SetSub(t, p, sub), q).Node? <==> Lookup(t, q).Node?
    ensures SubAt(SetSub(t, p, sub), q) == if q == p then sub else SubAt(t, q)
    decreases |p|
  {
    var r := SetSub(t, p, sub);
    if p != [] && q != [] {
      assert Lookup(r, q) == Lookup(r.children[q[0]], q[1..]);
      assert Lookup(t, q) == Lookup(t.children[q[0]], q[1..]);
      assert Lookup(t, p) == Lookup(t.children[p[0]], p[1..]);
      if q[0] == p[0] {
        SetSubAt(t.children[p[0]], p[1..], sub, q[1..]);
        assert q == p <==> q[1..] == p[1..];
      }
    }
  }

  /** One round of the outer loop: a new word's subtrie gathers the other words. */
  function Round(root: Trie, s: seq<string>, i: nat): (r: Trie)
    requires WF(root) && root.Node? && AllWords(s) && i < |s| && Resolvable(root, s)
    ensures WF(r) && r.Node? && Resolvable(r, s)
    ensures forall q :: ValidPath(q) ==> CountAt(r, q) == CountAt(root, q) && (Lookup(r, q).Node? <==> Lookup(root, q).Node?)
    ensures ValidPath(Path(s[i]))
    ensures forall q :: ValidPath(q) ==>
      SubAt(r, q) == if q == Path(s[i]) && !Seen(s, i) then CoOccur(SubAt(root, q), s, i, 0) else SubAt(root, q)
  {
    var lex := GetNode(root, s[i]);
    if Seen(s, i) then root
    else if lex == Null then
      CoOccurAlone(SubAt(root, Path(s[i])), s, i);
      root
    else
      var sub := CoOccur(lex.subtrie, s, i, 0);
      var r := SetSub(root, Path(s[i]), sub);
      SetSubEverywhere(root, Path(s[i]), sub);
      r
  }

  lemma {:induction false} SetSubEverywhere(t: Trie, p: seq<int>, sub: Trie)
    requires WF(t) && ValidPath(p) && Lookup(t, p).Node? && WF(sub)
    ensures forall q :: ValidPath(q) ==> CountAt(SetSub(t, p, sub), q) == CountAt(t, q)
    ensures forall q :: ValidPath(q) ==> (Lookup(SetSub(t, p, sub), q).Node? <==> Lookup(t, q).Node?)
    ensures forall q :: ValidPath(q) ==> SubAt(SetSub(t, p, sub), q) == if q == p then sub else SubAt(t, q)
  {
    forall q | ValidPath(q)
      ensures CountAt(SetSub(t, p, sub), q) == CountAt(t, q)
      ensures Lookup(SetSub(t, p, sub), q).Node? <==> Lookup(t, q).Node?
      ensures SubAt(SetSub(t, p, sub), q) == if q == p then sub else SubAt(t, q)
    {
      SetSubAt(t, p, sub, q);
    }
  }

  /** A word with no different word beside it leaves its subtrie as it is. */
  lemma {:induction false} CoOccurAlone(sub: Trie, s: seq<string>, i: nat)
    requires i < |s| && WF(sub) && AllWords(s) && !HasOther(s, i)
    ensures CoOccur(sub, s, i, 0) == sub
  {
    CoOccurSkips(sub, s, i, 0);
  }

  lemma {:induction false} CoOccurSkips(sub: Trie, s: seq<string>, i: nat, j: nat)
    requires i < |s| && j <= |s| && WF(sub) && AllWords(s) && !HasOther(s, i)
    ensures CoOccur(sub, s, i, j) == sub
    decreases |s| - j
  {
    if j < |s| {
      CoOccurSkips(sub, s, i, j + 1);
    }
  }

  /** The outer loop from word i on. */
  function Process(root: Trie, s: seq<string>, i: nat): (r: Trie)
    requires WF(root) && root.Node? && AllWords(s) && i <= |s| && Resolvable(root, s)
    ensures WF(r) && r.Node?
    decreases |s| - i
  {
    if i == |s| then root else Process(Round(root, s, i), s, i + 1)
  }

  /** processSentence(root, sentence, numWords), with numWords the length of the sentence. */
  function ProcessSentence(root: Trie, s: seq<string>): (r: Trie)
    requires WF(root) && AllWords(s) && (s != [] ==> root.Node? && Resolvable(root, s))
    ensures WF(r)
  {
    if s == [] then root else Process(root, s, 0)
  }

  /** Rounds i, i+1, … keep the counts and touch only the subtries of new words. */
  lemma {:induction false} ProcessFrom(root: Trie, s: seq<string>, i: nat)
    requires WF(root) && root.Node? && AllWords(s) && i <= |s| && Resolvable(root, s)
    ensures forall q :: ValidPath(q) ==> CountAt(Process(root, s, i), q) == CountAt(root, q)
    ensures forall k :: i <= k < |s| && !Seen(s, k) ==>
      SubAt(Process(root, s, i), Path(s[k])) == CoOccur(SubAt(root, Path(s[k])), s, k, 0)
    ensures forall q :: ValidPath(q) && (forall k :: i <= k < |s| && !Seen(s, k) ==> q != Path(s[k])) ==>
      SubAt(Process(root, s, i), q) == SubAt(root, q)
    decreases |s| - i
  {
    if i < |s| {
      var next := Round(root, s, i);
      var r := Process(next, s, i + 1);
      ProcessFrom(next, s, i + 1);
      assert r == Process(root, s, i);
      forall q | ValidPath(q)
        ensures CountAt(r, q) == CountAt(root, q)
      {
        assert CountAt(r, q) == CountAt(next, q);
      }
      forall q | ValidPath(q) && (forall k :: i <= k < |s| && !Seen(s, k) ==> q != Path(s[k]))
        ensures SubAt(r, q) == SubAt(root, q)
      {
        assert SubAt(r, q) == SubAt(next, q);
        assert q != Path(s[i]) || Seen(s, i);
      }
      forall k | i <= k < |s| && !Seen(s, k)
        ensures SubAt(r, Path(s[k])) == CoOccur(SubAt(root, Path(s[k])), s, k, 0)
      {
        if k == i {
          forall m | i + 1 <= m < |s| && !Seen(s, m)
            ensures Path(s[i]) != Path(s[m])
          {
            CaseEqIffPath(s[m], s[i]);
          }
        } else if !Seen(s, i) {
          CaseEqIffPath(s[k], s[i]);
        }
      }
    }
  }

  /** The words of the sentence from j on that differ from word i up to case and spell q. */
  function Others(s: seq<string>, i: nat, q: seq<int>, j: nat): nat
    requires i < |s| && j <= |s|
    decreases |s| - j
  {
    if j == |s| then 0
    else (if !CaseEq(s[i], s[j]) && Path(s[j]) == q then 1 else 0) + Others(s, i, q, j + 1)
  }

  /**
   * The subtrie built for word i counts every occurrence of every word that differs from
   * it, and is NULL afterwards exactly when it was NULL and no such word occurs.
   */
  lemma {:induction false} CoOccurCounts(sub: Trie, s: seq<string>, i: nat, j: nat, q: seq<int>)
    requires i < |s| && j <= |s| && WF(sub) && AllWords(s) && ValidPath(q)
    ensures CountAt(CoOccur(sub, s, i, j), q) == CountAt(sub, q) + Others(s, i, q, j)
    ensures CoOccur(sub, s, i, j) == Null <==> sub == Null && forall m :: j <= m < |s| ==> CaseEq(s[i], s[m])
    decreases |s| - j
  {
    if j < |s| {
      if CaseEq(s[i], s[j]) {
        CoOccurCounts(sub, s, i, j + 1, q);
      } else {
        WordIndexable(s[j]);
        var base := if sub == Null then NewNode() else sub;
        CoOccurCounts(Insert(base, s[j]), s, i, j + 1, q);
        InsertCounts(base, s[j], q);
        if sub == Null {
          NewNodeEmpty(q);
        }
      }
    }
  }

  /**
   * processSentence leaves every count of the trie as it was; the subtrie of each word's
   * first occurrence gains one count per occurrence of each different word, and stays NULL
   * only if no different word occurs; subtries of words not in the sentence stay as they were.
   */
  lemma {:induction false} ProcessSentenceSpec(root: Trie, s: seq<string>)
    requires WF(root) && AllWords(s) && (s != [] ==> root.Node? && Resolvable(root, s))
    ensures forall q :: ValidPath(q) ==> CountAt(ProcessSentence(root, s), q) == CountAt(root, q)
    ensures forall k, q :: 0 <= k < |s| && !Seen(s, k) && ValidPath(q) ==>
      CountAt(SubAt(ProcessSentence(root, s), Path(s[k])), q) == CountAt(SubAt(root, Path(s[k])), q) + Others(s, k, q, 0)
    ensures forall k :: 0 <= k < |s| && !Seen(s, k) ==>
      (SubAt(ProcessSentence(root, s), Path(s[k])) == Null <==> SubAt(root, Path(s[k])) == Null && !HasOther(s, k))
    ensures forall q :: ValidPath(q) && (forall k :: 0 <= k < |s| ==> q != Path(s[k])) ==>
      SubAt(ProcessSentence(root, s), q) == SubAt(root, q)
  {
    if s != [] {
      ProcessFrom(root, s, 0);
      forall k, q | 0 <= k < |s| && !Seen(s, k) && ValidPath(q)
        ensures CountAt(SubAt(ProcessSentence(root, s), Path(s[k])), q) == CountAt(SubAt(root, Path(s[k])), q) + Others(s, k, q, 0)
      {
        CoOccurCounts(SubAt(root, Path(s[k])), s, k, 0, q);
      }
      forall k | 0 <= k < |s| && !Seen(s, k)
        ensures SubAt(ProcessSentence(root, s), Path(s[k])) == Null <==> SubAt(root, Path(s[k])) == Null && !HasOther(s, k)
      {
        CoOccurCounts(SubAt(root, Path(s[k])), s, k, 0, []);
      }
    }
  }
}
